=== FILE: README.md ===
# A verified model of the core of the Claude Code GUI extension for VS Code

The extension puts a chat with Claude Code inside VS Code. It has two halves:

- **The extension host.** This half finds past Claude Code sessions on disk
  (`~/.claude/projects/<slug>/*.jsonl`). It rebuilds each conversation from
  its `uuid`/`parentUuid` links and caches the result per project folder.
  Next to that it has small utilities: cancellation tokens, a URI-keyed map
  and set, URI parent tests, and the `{0}` placeholder formatter.
- **The webview.** This half is a message bus (`WebviewMessageBus`). It turns
  the SDK's stream of user, assistant, stream-event, permission and result
  messages into chat state, a tool-message table, a permission list and a
  message queue. It also holds the pure stores behind that state and the
  rules that decide what each tool view shows: the Edit diff and its
  statistics, Bash output, MCP tool names and errors, file icons, and the
  frame every tool view is drawn in.

Each source file becomes one Dafny module. The form follows the source:

- Zustand stores and other pure helpers become datatypes and functions.
- Objects whose methods update their own fields become classes. These are
  the cancellation token source, the resource map and set, the reactive
  tool-message table, the tool frame, the message bus and the session
  service. Each class method is proved against a pure specification
  function.
- Disk access is a value passed in. A file-system snapshot (`FileSystem`: directory
  listings, modification times and file contents, with `None` standing for
  a failed call) and the parse and date functions are parameters of the
  session service.
- Cancellation is a predicate. It says, for each poll point, whether the
  token is cancelled there.

Shared modules:

- `Wrappers`: `Option`.
- `Strs`: `indexOf`, `split`/`join`, `trim`, `toLowerCase`, number printing.
- `Json`: the dynamic values the source inspects, JavaScript truthiness and
  `String()`.
- `Tags`: the lazy `<tag>…</tag>` regular expressions.
- `Seqs`: filter and find.
- `OrderedMaps`: a JavaScript `Map` with insertion order.
- `Uris`: the parts of a URI and `joinPath`.

## Model

| member | source | states |
|---|---|---|
| Cancellation.StaticRegister | src/services/common/cancellation.ts:32-44 | `None` drops a listener and `Cancelled` schedules exactly that listener: a listener is scheduled if and only if the token is cancelled |
| Cancellation.Token.constructor | src/services/common/cancellation.ts:59-70 | a created token starts with the flag it is given |
| Cancellation.CancellationTokenSource.constructor | src/services/common/cancellation.ts:47-55 | a new source is not cancelled, has no token and no listeners, and keeps a parent listener exactly when it has a parent |
| Cancellation.CancellationTokenSource.GetToken | src/services/common/cancellation.ts:57-73 | the token is created on first use and the same object is returned later; its flag mirrors the source's; nothing else changes |
| Cancellation.CancellationTokenSource.OnCancellationRequested | src/services/common/cancellation.ts:61-68 | before cancellation the listener joins the waiting list; after it, the call is deferred and the list is untouched |
| Cancellation.CancellationTokenSource.Cancel | src/services/common/cancellation.ts:75-91 | the first call sets the flag on the source and on a created token, calls every waiting listener once in registration order and empties the list; a second call changes nothing; every listener registered before cancellation has been called exactly once (`Valid`) |
| Cancellation.CancellationTokenSource.Dispose | src/services/common/cancellation.ts:93-97 | cancels as `cancel()` does, then drops the parent listener |
| L10n.Placeholder | src/services/common/l10n.ts:21 | the placeholder for argument `i` is `{` digits `}` |
| L10n.T | src/services/common/l10n.ts:16-26 | the loop replaces `{0}`, `{1}`, … in argument order; each step is a global replacement of `String(arg)` with the `$` patterns of `String.prototype.replace` (`Substitute`) |
| L10n.ExpandLiteral | src/services/common/l10n.ts:22 | a replacement without `$` is inserted literally |
| L10n.ReplaceRestLiteral | src/services/common/l10n.ts:22 | for a `$`-free replacement the left-to-right global replacement equals the plain replace-all |
| L10n.GlobalReplaceLiteral | src/services/common/l10n.ts:22 | a `$`-free global replacement is split-then-join, and no piece between the joins still holds the placeholder |
| L10n.NoArgumentsUnchanged | src/services/common/l10n.ts:16-26 | with no arguments the message comes back unchanged |
| L10n.NatToStringInjective | src/services/common/l10n.ts:21 | different indices give different placeholders |
| L10n.PlaceholdersDisjoint | src/services/common/l10n.ts:21 | occurrences of two different placeholders never overlap |
| L10n.ReplaceRestAt | src/services/common/l10n.ts:22 | a global replacement rewrites the leftmost occurrence, expanding `$` patterns with the text before and after it, and then goes on after it |
| L10n.ReplaceRestKeeps | src/services/common/l10n.ts:22 | an occurrence of another text that no match overlaps survives a global replacement |
| L10n.UnusedPlaceholderSurvives | src/services/common/l10n.ts:20-23 | a placeholder with no matching argument is left in the result |
| L10n.ReplaceWhole | src/services/common/l10n.ts:22 | a message that is just the placeholder becomes the argument |
| L10n.SequentialSubstitution | src/services/common/l10n.ts:20-23 | replacement is sequential: `t("{0}", "{1}", "x")` is `"x"`, because the text inserted for `{0}` is rewritten by the next step |
| Resources.ForwardSlashes | src/services/common/resources.ts:54 | every backslash becomes a slash and nothing else changes |
| Resources.CollapseSlashes | src/services/common/resources.ts:54 | every run of slashes becomes one slash, so no two slashes are adjacent; first and last characters are kept; a path without a double slash is unchanged |
| Resources.DropTrailingSlash | src/services/common/resources.ts:54 | at most one trailing slash is removed |
| Resources.NormalizePath | src/services/common/resources.ts:53-55 | a normalised path has no backslash, no double slash and no trailing slash |
| Resources.NormalizePathIdempotent | src/services/common/resources.ts:53-55 | normalising twice is normalising once |
| Resources.IsEqualOrParentPathNormalized | src/services/common/resources.ts:37-48 | the path test gives the same answer on normalised arguments |
| Resources.CollapseAppend | src/services/common/resources.ts:54 | collapsing distributes over a concatenation that does not join two slashes |
| Resources.NormalizeChild | src/services/common/resources.ts:53-55 | normalising `dir/name` is normalising `dir`, a slash, then normalising `name` |
| Resources.ChildPathQualifies | src/services/common/resources.ts:37-48 | a directory's path is the parent path of any child path |
| Resources.DifferentSchemesNeverQualify | src/services/common/resources.ts:18-21 | URIs with different schemes are never equal-or-parent |
| Resources.IsEqualOrParentNeedsSameString | src/services/common/resources.ts:18-32 | unless the fragment is ignored on a `file` URI, the test passes only when both URIs print the same |
| Resources.StrictParentNeverQualifies | src/services/common/resources.ts:18-32 | as written, a directory is never equal-or-parent of a child it joins, because the printed URIs differ |
| Resources.ChildQualifiesIntended | src/services/common/resources.ts:18-32 | with the component-wise comparison the function is documented to make, a child does qualify |
| Resources.IntendedAgreesOnEqual | src/services/common/resources.ts:18-32 | both versions accept a URI against itself |
| Uris.JoinPath | src/services/claude/session.ts:84 | `joinPath` keeps scheme, authority, query and fragment and extends the path by one segment |
| ResourceMaps.SetEntry | src/services/common/map.ts:70-73 | storing under `toKey(u)` keeps the map well formed and every entry stored under its own URI's key |
| ResourceMaps.SetAll | src/services/common/map.ts:61-63 | setting a list of pairs one by one keeps the map well formed and keyed |
| ResourceMaps.EntriesOf | src/services/common/map.ts:116-126 | entries are the stored (URI, value) pairs in key insertion order |
| ResourceMaps.GetAfterSet | src/services/common/map.ts:70-77 | after `set(u, v)`, `get(w)` is `v` when `w` has `u`'s key and is unchanged otherwise |
| ResourceMaps.KeysAfterSet | src/services/common/map.ts:70-73 | after `set(u, v)` the pair `(u, v)` is among the entries |
| ResourceMaps.SizeAfterSet | src/services/common/map.ts:70-85 | `set` grows the size by one exactly when the key was new |
| ResourceMaps.AddTwiceSameSize | src/services/common/map.ts:149-152 | adding the same URI twice leaves the same map as adding it once |
| ResourceMaps.CopyReproduces | src/services/common/map.ts:53-57 | copying a map with the same key function reproduces it, order included |
| ResourceMaps.ResourceMap.constructor | src/services/common/map.ts:64-67 | a map made from a key function alone is empty |
| ResourceMaps.ResourceMap.FromEntries | src/services/common/map.ts:58-63 | a map made from a list of pairs holds what setting them in order holds |
| ResourceMaps.ResourceMap.FromMap | src/services/common/map.ts:54-57 | a map made from another map holds what setting the other's entries in order holds |
| ResourceMaps.ResourceMap.Set | src/services/common/map.ts:70-73 | `set` replaces the entries by `SetEntry` |
| ResourceMaps.ResourceMap.Get | src/services/common/map.ts:75-77 | `get` returns the value stored under the URI's key, and finds one exactly when the key is present |
| ResourceMaps.ResourceMap.Has | src/services/common/map.ts:79-81 | `has` is true exactly when `get` finds a value |
| ResourceMaps.ResourceMap.Size | src/services/common/map.ts:83-85 | `size` is the number of keys |
| ResourceMaps.ResourceMap.Clear | src/services/common/map.ts:87-89 | `clear` empties the map |
| ResourceMaps.ResourceMap.Delete | src/services/common/map.ts:91-93 | `delete` removes the URI's key, reports whether it was there, and `get` then finds nothing |
| ResourceMaps.ResourceMap.Keys | src/services/common/map.ts:110-114 | `keys` yields the stored URIs in insertion order, each the owner of its key |
| ResourceMaps.ResourceMap.Values | src/services/common/map.ts:104-108 | `values` yields the stored values in insertion order |
| ResourceMaps.ResourceMap.Entries | src/services/common/map.ts:116-120 | `entries` yields `EntriesOf` |
| ResourceMaps.AddKeeps | src/services/common/map.ts:149-152 | a set holding exactly the keys of `us` holds exactly those of `us + [x]` after adding `x` |
| ResourceMaps.ResourceSet.constructor | src/services/common/map.ts:137-138 | a set made from a key function alone is empty |
| ResourceMaps.ResourceSet.FromUris | src/services/common/map.ts:139-142 | a set made from a list contains a URI exactly when some listed URI has its key |
| ResourceMaps.ResourceSet.Size | src/services/common/map.ts:145-147 | `size` is the number of keys |
| ResourceMaps.ResourceSet.Add | src/services/common/map.ts:149-152 | `add(u)` stores `u` under its own key, and `u` is then found |
| ResourceMaps.ResourceSet.Clear | src/services/common/map.ts:154-156 | `clear` empties the set |
| ResourceMaps.ResourceSet.Delete | src/services/common/map.ts:158-160 | `delete` removes the key and reports whether it was present |
| ResourceMaps.ResourceSet.Has | src/services/common/map.ts:166-168 | `has` is key membership |
| ResourceMaps.ResourceSet.Keys | src/services/common/map.ts:174-180 | `keys` and `values` yield the stored URIs in insertion order |
| ResourceMaps.MapCell.constructor | src/services/common/map.ts:8 | a plain `Map` starts empty |
| ResourceMaps.GetOrSet | src/services/common/map.ts:8-15 | a present key returns its value and changes nothing; a missing key stores and returns the given value |
| ChatStore.Initial | webview/src/store/chatStore.ts:26-29 | the store starts with no messages, no request in flight and no streaming entries |
| ChatStore.AddMessage | webview/src/store/chatStore.ts:32-34 | the message is appended and nothing else changes |
| ChatStore.AddMessages | webview/src/store/chatStore.ts:36-38 | the old messages stay as a prefix, followed by the new ones in order |
| ChatStore.AddMessagesOneByOne | webview/src/store/chatStore.ts:32-38 | appending a list equals appending its messages one at a time |
| ChatStore.UpdateWhere | webview/src/store/chatStore.ts:41-43 | every message with the id gets the patch merged over it; every other message is kept, position by position |
| ChatStore.UpdateMessage | webview/src/store/chatStore.ts:40-44 | same length; messages with other ids are unchanged; those with the id are merged with the patch |
| ChatStore.UpdateMissing | webview/src/store/chatStore.ts:40-44 | updating an id no message has leaves the store as it was |
| ChatStore.SetMessages | webview/src/store/chatStore.ts:46 | the list is replaced and nothing else changes |
| ChatStore.ClearMessages | webview/src/store/chatStore.ts:48 | the list is emptied and nothing else changes |
| ChatStore.SetCurrentRequest | webview/src/store/chatStore.ts:50 | only the request in flight changes |
| ChatStore.SetStreamingMessage | webview/src/store/chatStore.ts:52-56 | the session now maps to the index and every other session keeps its index |
| ChatStore.RemoveStreamingMessage | webview/src/store/chatStore.ts:58-62 | the session has no index afterwards and every other session keeps its index |
| ChatStore.ClearStreamingMessages | webview/src/store/chatStore.ts:64 | no session has an index afterwards; the messages and the request are kept |
| ChatStore.SetThenRemove | webview/src/store/chatStore.ts:52-62 | setting then removing a session that had no index restores every lookup |
| SessionStore.Initial | webview/src/store/sessionStore.ts:45-48 | the store starts with an empty current id, no sessions and no capabilities |
| SessionStore.SetCurrentSessionId | webview/src/store/sessionStore.ts:51 | only the current id changes |
| SessionStore.SetSessions | webview/src/store/sessionStore.ts:53 | only the session list changes |
| SessionStore.SetCapabilities | webview/src/store/sessionStore.ts:69 | only the capabilities change |
| SessionStore.AddSession | webview/src/store/sessionStore.ts:55-57 | the session is appended and nothing else changes |
| SessionStore.UpdateWhere | webview/src/store/sessionStore.ts:60-62 | every session with the id gets the patch merged over it; every other one is kept, position by position |
| SessionStore.UpdateSession | webview/src/store/sessionStore.ts:59-63 | same length; sessions with other ids are unchanged; those with the id are merged with the patch |
| SessionStore.RemoveSession | webview/src/store/sessionStore.ts:65-67 | a session is kept exactly when its id differs |
| SessionStore.GetSessionById | webview/src/store/sessionStore.ts:71 | the result is the first session with the id, and there is none exactly when no session has it |
| SessionStore.RemoveThenGet | webview/src/store/sessionStore.ts:65-71 | after removing an id, looking it up finds nothing |
| SessionStore.UpdateThenGet | webview/src/store/sessionStore.ts:59-71 | after an update that keeps the id, the lookup finds the old first match with the patch merged in |
| PermissionStore.AddRequest | webview/src/store/permissionStore.ts:28-30 | the request is appended after the pending ones |
| PermissionStore.RemoveRequest | webview/src/store/permissionStore.ts:32-34 | a request is kept exactly when its tool-use id differs |
| PermissionStore.RemoveRequestAppend | webview/src/store/permissionStore.ts:32-34 | removal distributes over concatenation, so the order of the rest is kept |
| PermissionStore.AddThenRemove | webview/src/store/permissionStore.ts:28-39 | after adding then removing a request, its id is not found |
| PermissionStore.ClearRequests | webview/src/store/permissionStore.ts:36 | nothing is pending afterwards |
| PermissionStore.GetRequestByToolUseId | webview/src/store/permissionStore.ts:38-39 | the result is the first pending request with the id, and there is none exactly when none has it |
| MessageQueueStore.AddMessage | webview/src/store/messageQueueStore.ts:24-36 | a new entry with the given content, id and time is appended and returned |
| MessageQueueStore.RemoveMessage | webview/src/store/messageQueueStore.ts:38-40 | an entry is kept exactly when its id differs |
| MessageQueueStore.RemoveMessageAppend | webview/src/store/messageQueueStore.ts:38-40 | removal distributes over concatenation, so the order of the rest is kept |
| MessageQueueStore.RemoveMissing | webview/src/store/messageQueueStore.ts:38-40 | removing an id no entry has changes nothing |
| MessageQueueStore.ClearQueue | webview/src/store/messageQueueStore.ts:42 | the queue is empty afterwards |
| MessageQueueStore.GetNextMessage | webview/src/store/messageQueueStore.ts:44-47 | the head of the queue, and nothing exactly when the queue is empty |
| MessageQueueStore.PopNextMessage | webview/src/store/messageQueueStore.ts:49-61 | on a non-empty queue the head is returned and removed; the head followed by the rest is the old queue; an empty queue is left alone |
| MessageQueueStore.GetQueueLength | webview/src/store/messageQueueStore.ts:63 | the length is zero exactly when the queue is empty |
| MessageQueueStore.FirstInFirstOut | webview/src/store/messageQueueStore.ts:24-61 | an entry added to a non-empty queue does not overtake the head, and joins the end of what popping leaves |
| ToolMessages.Initial | webview/src/store/toolMessageStore.ts:49-52 | the record for an unknown id carries only that id and the `none` permission state |
| ToolMessages.MergeThen | webview/src/store/toolMessageStore.ts:54 | spreading two patches in turn equals spreading their combination once |
| ToolMessages.MergeIdempotent | webview/src/store/toolMessageStore.ts:54 | spreading the same patch twice equals spreading it once |
| ToolMessages.MergeNoChange | webview/src/store/toolMessageStore.ts:54 | spreading an empty object changes nothing |
| ToolMessages.ToolUsePatch | webview/src/store/toolMessageStore.ts:62-64 | the `{ toolUse }` patch sets exactly the tool-use field |
| ToolMessages.ToolResultPatch | webview/src/store/toolMessageStore.ts:66-68 | the `{ toolResult }` patch sets exactly the result field |
| ToolMessages.ToolUseResultPatch | webview/src/store/toolMessageStore.ts:18 | the `{ toolUseResult }` patch sets exactly the extra result data |
| ToolMessages.PermissionRequestPatch | webview/src/store/toolMessageStore.ts:70-75 | the request patch sets the state to pending and stores the correlation id, nothing else |
| ToolMessages.PermissionResponsePatch | webview/src/store/toolMessageStore.ts:77-81 | the response patch sets the state to allowed or denied, nothing else |
| ToolMessageStore.Upsert | webview/src/store/toolMessageStore.ts:47-60 | the stored record (or the initial one) with the patch spread over it is stored under the id and returned; every other id keeps its record; a new id joins the end of the key order |
| ToolMessageStore.UpsertUnknown | webview/src/store/toolMessageStore.ts:49-54 | for an unknown id the result is the patch's fields over `{ toolUseId, permissionState: 'none' }` |
| ToolMessageStore.SetToolUse | webview/src/store/toolMessageStore.ts:62-64 | the record under the tool-use block's id gets that block and nothing else changes |
| ToolMessageStore.SetToolResult | webview/src/store/toolMessageStore.ts:66-68 | the record under `tool_use_id` gets the result and nothing else changes |
| ToolMessageStore.SetPermissionRequest | webview/src/store/toolMessageStore.ts:70-75 | the record becomes pending with the correlation id; its other fields are kept |
| ToolMessageStore.SetPermissionResponse | webview/src/store/toolMessageStore.ts:77-81 | the record becomes allowed or denied and keeps its correlation id |
| ToolMessageStore.RequestThenResponse | webview/src/store/toolMessageStore.ts:70-81 | after a request then a response the record keeps the correlation id and is no longer pending |
| ToolMessageStore.FindToolUseIdByCorrelationId | webview/src/store/toolMessageStore.ts:83-90 | the loop returns the first id in insertion order whose record has the correlation id, and nothing exactly when no record has it |
| ToolMessageStore.ClearToolMessages | webview/src/store/toolMessageStore.ts:92 | no id has a record afterwards |
| ToolMessageStore.UpsertCommutes | webview/src/store/toolMessageStore.ts:47-60 | upserts of two different ids commute, as far as lookups go |
| ToolMessageStore.UpsertVals | webview/src/store/toolMessageStore.ts:47-60 | an upsert changes the lookup at that id only |
| ToolMessageTable.ToolMessageTable.constructor | webview/src/stores/toolMessageStore.ts:26 | the reactive map starts empty |
| ToolMessageTable.ToolMessageTable.Upsert | webview/src/stores/toolMessageStore.ts:31-41 | the map is updated in place to what the store's `Upsert` computes, and the merged record is returned |
| ToolMessageTable.ToolMessageTable.SetToolUse | webview/src/stores/toolMessageStore.ts:53-57 | in place, as the store's `SetToolUse` |
| ToolMessageTable.ToolMessageTable.SetToolResult | webview/src/stores/toolMessageStore.ts:62-66 | in place, as the store's `SetToolResult` |
| ToolMessageTable.ToolMessageTable.SetPermissionRequest | webview/src/stores/toolMessageStore.ts:71-76 | in place, as the store's `SetPermissionRequest` |
| ToolMessageTable.ToolMessageTable.SetPermissionResponse | webview/src/stores/toolMessageStore.ts:81-85 | in place, as the store's `SetPermissionResponse` |
| ToolMessageTable.ToolMessageTable.ClearOldToolMessages | webview/src/stores/toolMessageStore.ts:90-99 | the loop inspects every record and removes none, so the map is unchanged (the method may modify nothing) |
| ToolMessageTable.ToolMessageTable.FindToolUseIdByCorrelationId | webview/src/stores/toolMessageStore.ts:104-111 | the first id in insertion order whose record has the correlation id, and nothing exactly when none has it |
| Tags.FirstSpan | webview/src/utils/toolErrorParser.ts:17 | a match of `<open>(.*?)<close>` with the `s` flag: the opening tag, a body and the closing tag, in that order and inside the text |
| Tags.FirstSpanLeftmostLazy | webview/src/utils/toolErrorParser.ts:17 | the match starts at the leftmost possible opening tag and its body holds no closing tag (the match is lazy) |
| Tags.FollowedOpenMatches | webview/src/utils/toolErrorParser.ts:17 | whenever an opening tag is followed, without overlap, by a closing tag, there is a match |
| Tags.TagBody | webview/src/utils/toolErrorParser.ts:17-18 | `match[1]` exists exactly when the expression matches |
| Tags.TagBodyBetween | webview/src/utils/toolErrorParser.ts:17-18 | the captured body sits between the two tags at the match position |
| ToolErrorParser.ParseToolError | webview/src/utils/toolErrorParser.ts:12-23 | a text comes back exactly when `is_error` and `content` are both truthy; for string content it is the trimmed tag body or the whole string; for other content it is `String(content)` |
| ToolErrorParser.ErrorTextTagged | webview/src/utils/toolErrorParser.ts:17-18 | with a tag pair, the text is the trimmed body between the leftmost opening tag and the next closing tag |
| ToolErrorParser.ErrorTextUntagged | webview/src/utils/toolErrorParser.ts:17-18 | when no closing tag follows an opening tag, the whole content is returned |
| ToolErrorParser.UnclosedTagKeepsContent | webview/src/utils/toolErrorParser.ts:17-18 | content without a closing tag comes back unchanged |
| ToolErrorParser.ParsedErrorHasError | webview/src/utils/toolErrorParser.ts:12-33 | `parseToolError` returns a text only when `hasToolError` holds |
| FileIcon.ToLowerIdempotent | webview/src/components/editor/FileIcon/FileIcon.tsx:221 | lower-casing twice is lower-casing once |
| FileIcon.ExtensionIgnoresCase | webview/src/components/editor/FileIcon/FileIcon.tsx:220-236 | the extension found for a name does not depend on its letter case |
| FileIcon.ExtensionIgnoresDirectory | webview/src/components/editor/FileIcon/FileIcon.tsx:224 | only the last path segment decides the extension |
| FileIcon.SpecialFilesResolve | webview/src/components/editor/FileIcon/FileIcon.tsx:175-212 | every special file name maps to a key that has an icon of its own, so a special file never falls back to the default icon |
| FileIcon.SpecialBeforeExtension | webview/src/components/editor/FileIcon/FileIcon.tsx:225-227 | a special base name wins over its extension |
| FileIcon.PackageJsonIsNpm | webview/src/components/editor/FileIcon/FileIcon.tsx:220-241 | `package.json`, in any letter case and any directory, shows the npm icon rather than the JSON icon |
| FileIcon.JsonFileIsJson | webview/src/components/editor/FileIcon/FileIcon.tsx:230-241 | any other `.json` file shows the JSON icon |
| FileIcon.ExtensionAfterDot | webview/src/components/editor/FileIcon/FileIcon.tsx:230-233 | for a name that is not special, the extension is the lower-cased text after the last dot |
| FileIcon.NoDotNoExtension | webview/src/components/editor/FileIcon/FileIcon.tsx:230-241 | a name without a dot that is not special has no extension and shows the default `file` icon |
| EditTool.ForwardSlashes | webview/src/components/Messages/blocks/tools/Edit/Edit.tsx:9 | every backslash becomes a slash and nothing else changes |
| EditTool.Basename | webview/src/components/Messages/blocks/tools/Edit/Edit.tsx:7-11 | the base name holds no slash |
| EditTool.BasenameWhole | webview/src/components/Messages/blocks/tools/Edit/Edit.tsx:7-11 | a name without separators is its own base name |
| EditTool.BasenameAfterSeparator | webview/src/components/Messages/blocks/tools/Edit/Edit.tsx:7-11 | after a `/` or `\` the base name is the last segment, on either platform |
| EditTool.Prefixed | webview/src/components/Messages/blocks/tools/Edit/Edit.tsx:52-57 | every line gets the marker in front, one for one |
| EditTool.ReplaceHunk | webview/src/components/Messages/blocks/tools/Edit/Edit.tsx:59-65 | the one generated hunk starts at line 1 on both sides, and its counts are the numbers of old and new lines, which together make up its lines |
| EditTool.GeneratePatch | webview/src/components/Messages/blocks/tools/Edit/Edit.tsx:47-66 | one hunk whose counts are the numbers of lines `split('\n')` gives for the old and the new text |
| EditTool.CountMarked | webview/src/components/Messages/blocks/tools/Edit/Edit.tsx:104-109 | no more lines are counted than there are |
| EditTool.CountMarkedAppend | webview/src/components/Messages/blocks/tools/Edit/Edit.tsx:104-109 | counting over two line lists adds up |
| EditTool.CountPrefixed | webview/src/components/Messages/blocks/tools/Edit/Edit.tsx:52-57 | lines given a marker all count for that marker and none for the other |
| EditTool.ReplaceHunkStats | webview/src/components/Messages/blocks/tools/Edit/Edit.tsx:99-112 | the statistics of a generated hunk are exactly the line counts its header states |
| EditTool.ReplaceHunkCount | webview/src/components/Messages/blocks/tools/Edit/Edit.tsx:52-57 | a generated hunk has as many `+` lines as new lines and as many `-` lines as old lines |
| EditTool.GeneratedStats | webview/src/components/Messages/blocks/tools/Edit/Edit.tsx:99-112 | a diff generated from the input reports as added and removed the header's new and old line counts |
| EditTool.DiffStats | webview/src/components/Messages/blocks/tools/Edit/Edit.tsx:99-112 | the nested loop counts the `+` and `-` lines over all hunks; no patch gives no statistics |
| EditTool.PrefixContentRoundTrip | webview/src/components/Messages/blocks/tools/Edit/Edit.tsx:120-132 | for a marked line, prefix followed by content gives the line back; an unmarked line shows a space and itself |
| EditTool.ReplaceHunkContent | webview/src/components/Messages/blocks/tools/Edit/Edit.tsx:120-132 | a generated hunk shows each old line as a removal and each new line as an addition, with the line text intact |
| EditTool.GetLineNumber | webview/src/components/Messages/blocks/tools/Edit/Edit.tsx:134-154 | the loop gives a removed line its old-side number (start plus the lines before it that are not additions) and any other line its new-side number |
| EditTool.ReplaceHunkRemovedNumber | webview/src/components/Messages/blocks/tools/Edit/Edit.tsx:134-154 | in a generated hunk the k-th removed line is numbered k+1 |
| EditTool.ReplaceHunkAddedNumber | webview/src/components/Messages/blocks/tools/Edit/Edit.tsx:134-154 | in a generated hunk the k-th added line is numbered k+1 |
| EditTool.PatchEffect | webview/src/components/Messages/blocks/tools/Edit/Edit.tsx:69-83 | an error clears the diff; the SDK's patch wins over the input; both strings give a generated patch; otherwise the previous state stays |
| EditTool.PatchEffectIdempotent | webview/src/components/Messages/blocks/tools/Edit/Edit.tsx:69-83 | running the effect again with the same props changes nothing |
| EditTool.PermissionRequestExpands | webview/src/components/Messages/blocks/tools/Edit/Edit.tsx:85-97 | a permission request without an error always opens on the generated diff; once the SDK's patch is there, or on an error, the view does not open by itself |
| BashTool.Combine | webview/src/components/Messages/blocks/tools/Bash/Bash.tsx:46-75 | nothing is shown from the streams exactly when both are empty; stdout alone is shown as is; stderr always comes last under the `[stderr]` header, after stdout and a blank line when both are present |
| BashTool.LiveOutput | webview/src/components/Messages/blocks/tools/Bash/Bash.tsx:60-75 | the trimmed `<stdout>`/`<stderr>` bodies are laid out as `Combine` does; when both are empty the raw content is shown |
| BashTool.OutputPriority | webview/src/components/Messages/blocks/tools/Bash/Bash.tsx:46-78 | a truthy `toolUseResult` with any output wins; otherwise string content gives the live output; otherwise nothing is shown |
| BashTool.UntaggedLiveOutput | webview/src/components/Messages/blocks/tools/Bash/Bash.tsx:60-75 | content with no closed stream tag is shown unchanged |
| BashTool.CommandLinesRoundTrip | webview/src/components/Messages/blocks/tools/Bash/Bash.tsx:80-83 | joining the command lines with newlines gives the command back; there are none exactly when the command is empty; no line holds a newline |
| BashTool.ExpandCases | webview/src/components/Messages/blocks/tools/Bash/Bash.tsx:85-94 | a failed call opens but counts as having no output; a call that neither waits for permission nor failed opens exactly when it printed something |
| McpTool.McpParts | webview/src/components/Messages/blocks/tools/McpTool/McpTool.tsx:23-38 | a name that splits on `__` into `mcp`, a server and at least one more part yields that server; any other name is server `unknown` with the whole name as tool |
| McpTool.McpPartsRebuild | webview/src/components/Messages/blocks/tools/McpTool/McpTool.tsx:25-31 | for an MCP name, `mcp__` + server + `__` + tool gives the name back, and the server holds no `__` |
| McpTool.McpPartsOfBuiltName | webview/src/components/Messages/blocks/tools/McpTool/McpTool.tsx:25-31 | a name built from a server (without `__` and not ending in `_`) and any tool splits back into exactly those two |
| McpTool.NonMcpName | webview/src/components/Messages/blocks/tools/McpTool/McpTool.tsx:34-37 | a name not starting with `mcp__` is shown whole under the `unknown` server |
| McpTool.ErrorHidesOutput | webview/src/components/Messages/blocks/tools/McpTool/McpTool.tsx:53-124 | a failed call opens on its error and never claims output; otherwise the view opens exactly when there is output |
| McpTool.TextsOf | webview/src/components/Messages/blocks/tools/McpTool/McpTool.tsx:111-113 | the texts of the `text` items, in order, never more than there are items |
| McpTool.ErrorMessage | webview/src/components/Messages/blocks/tools/McpTool/McpTool.tsx:101-118 | no error gives ""; string content is shown as is; an array shows its text items joined by newlines; anything else is pretty-printed |
| McpTool.ErrorLines | webview/src/components/Messages/blocks/tools/McpTool/McpTool.tsx:110-114 | when the item texts hold no newline, splitting the error text into lines gives the item texts back |
| ToolMessageWrapper.UntoggledExpansion | webview/src/components/Messages/blocks/tools/common/ToolMessageWrapper/ToolMessageWrapper.tsx:39-49 | before any toggle the frame is open exactly when it should open by default or shows an error |
| ToolMessageWrapper.ToggleFlipsAndPins | webview/src/components/Messages/blocks/tools/common/ToolMessageWrapper/ToolMessageWrapper.tsx:60-65 | a toggle on an expandable frame flips what is shown, and later props no longer change it |
| ToolMessageWrapper.ToggleWithoutContent | webview/src/components/Messages/blocks/tools/common/ToolMessageWrapper/ToolMessageWrapper.tsx:60-65 | a toggle on a frame with nothing to open changes nothing |
| ToolMessageWrapper.ToggleTwice | webview/src/components/Messages/blocks/tools/common/ToolMessageWrapper/ToolMessageWrapper.tsx:60-65 | two toggles with the same props give back what was shown |
| ToolMessageWrapper.ErrorOpens | webview/src/components/Messages/blocks/tools/common/ToolMessageWrapper/ToolMessageWrapper.tsx:39-49 | an error makes the frame expandable and open until the user closes it |
| ToolMessageWrapper.IndicatorRanks | webview/src/components/Messages/blocks/tools/common/ToolMessageWrapper/ToolMessageWrapper.tsx:52-57 | the status dot ranks an error over a pending permission over any result, and is absent exactly when there is neither a truthy result nor a pending request |
| ToolMessageWrapper.IconMatchesToggle | webview/src/components/Messages/blocks/tools/common/ToolMessageWrapper/ToolMessageWrapper.tsx:95-102 | on hover the chevron shows the action a click would take: fold when open, unfold when closed, and the opposite after the click |
| ToolMessageWrapper.ToolFrame.constructor | webview/src/components/Messages/blocks/tools/common/ToolMessageWrapper/ToolMessageWrapper.tsx:34-36 | a mounted frame has not been toggled and is not hovered |
| ToolMessageWrapper.ToolFrame.ToggleExpand | webview/src/components/Messages/blocks/tools/common/ToolMessageWrapper/ToolMessageWrapper.tsx:60-65 | a click on an expandable frame flips whether the expandable part is drawn; otherwise nothing changes |
| ToolMessageWrapper.ToolFrame.Rerender | webview/src/components/Messages/blocks/tools/common/ToolMessageWrapper/ToolMessageWrapper.tsx:34-36 | new props keep the toggle state, so a user's choice survives re-renders |
| ToolMessageWrapper.ToolFrame.SetHovered | webview/src/components/Messages/blocks/tools/common/ToolMessageWrapper/ToolMessageWrapper.tsx:91-92 | hovering changes only the hover flag |
| MessageUtils.TextsOf | webview/src/utils/messageUtils.ts:108-111 | the `text` values of the text blocks, in order, never more than there are blocks |
| MessageUtils.TextsOfTextBlocks | webview/src/utils/messageUtils.ts:108-111 | when every block is a text block, the filter keeps all of them and the map reads each text |
| MessageUtils.JsJoinStrings | webview/src/utils/messageUtils.ts:111 | `join` over string values is the plain join |
| MessageUtils.UserTextOfTextBlocks | webview/src/utils/messageUtils.ts:100-115 | a user message made of text blocks reads as their texts joined by single spaces |
| MessageUtils.ExtractStreamEventText | webview/src/utils/messageUtils.ts:190-199 | a `content_block_delta` event whose delta is a `text_delta` yields its string `delta.text`, and `""` when that is not a string; a non-empty result comes only from such an event |
| MessageUtils.GetAssistantMessageType | webview/src/utils/messageUtils.ts:271-288 | mixed exactly when the content array has both a text and a tool-use block, tool use exactly when it has tool use and no text, and text otherwise, non-array content included |
| MessageUtils.GetMessageType | webview/src/utils/messageUtils.ts:79-95 | the compact-boundary type comes exactly from a `system` message with that subtype, and the three assistant types exactly from `assistant` messages |
| MessageUtils.TableGet | webview/src/utils/messageUtils.ts:331-351 | a lookup in a literal table finds an entry of the table, and finds nothing only when no entry has the key |
| MessageUtils.GetToolIcon | webview/src/utils/messageUtils.ts:331-351 | the fallback `codicon-tools` is returned exactly for a tool the table does not know (inherited object keys aside) |
| MessageUtils.GetToolDescription | webview/src/utils/messageUtils.ts:356-376 | the empty description is returned exactly for a tool the table does not know (inherited object keys aside) |
| MessageUtils.ToolLookupIgnoresCase | webview/src/utils/messageUtils.ts:331-376 | names that differ only in letter case get the same icon and description |
| MessageUtils.ToolClassesHaveIcons | webview/src/utils/messageUtils.ts:381-400 | `glob` is both a file-operation and a search tool, and every tool in any class has an icon of its own |
| MessageUtils.FormatJson | webview/src/utils/messageUtils.ts:405-433 | a formatted string never exceeds 100 characters; it is the string itself exactly when that has at most 100; a longer one is its first 97 characters and `...` |
| MessageUtils.ShortArrayListsAll | webview/src/utils/messageUtils.ts:417-421 | an array of one to three elements lists every element, formatted, between brackets |
| MessageUtils.LongArraySummary | webview/src/utils/messageUtils.ts:417-422 | a longer array lists its first two elements and then `... +(n-2) more` |
| MessageUtils.LargeObjectSummary | webview/src/utils/messageUtils.ts:424-431 | an object with more than two keys shows its first entry and then `... +(k-1) more` |
| MessageUtils.SimpleStringShownInFull | webview/src/utils/messageUtils.ts:405-443 | a string is simple exactly when formatting shows it unchanged |
| MessageUtils.GetParameterValueClass | webview/src/utils/messageUtils.ts:448-457 | path (leading `/` or a backslash) is checked before url, and url before git; booleans and numbers have their own classes; anything else is a plain string |
| MessageUtils.DotGitImpliesGit | webview/src/utils/messageUtils.ts:453 | the `.git` test adds nothing to the `git` test |
| MessageUtils.GetMessageComponentType | webview/src/utils/messageUtils.ts:462-511 | `permission` exactly when the metadata has both a correlation id and a tool name; otherwise `error` exactly on an error role, status or metadata; `mixed` only for SDK messages with blocks of different types |
| BusSpec.RemoveHandler | webview/src/services/messageBus.ts:149-154 | unsubscribing removes the first occurrence of the handler and keeps the rest in order; a handler not in the list leaves it as it is |
| BusSpec.Subscribed | webview/src/services/messageBus.ts:141-145 | `on` appends the handler to its type's list, creating the list if needed; no other type's list changes; every stored list stays non-empty |
| BusSpec.Unsubscribed | webview/src/services/messageBus.ts:148-159 | the function `on` returns touches only its own type; it does nothing for an unknown type; it removes the handler and drops a list that becomes empty |
| BusSpec.RemoveAppended | webview/src/services/messageBus.ts:145-153 | removing a handler just appended, and not there before, restores the list |
| BusSpec.UnsubscribeUndoesSubscribe | webview/src/services/messageBus.ts:141-159 | subscribing a new handler and then calling the returned function gives back the same handler table, including dropping a list created for it |
| BusSpec.RemoveOnlyOccurrence | webview/src/services/messageBus.ts:151-154 | a handler present at most once is gone after one removal |
| BusSpec.UnsubscribeTwice | webview/src/services/messageBus.ts:148-159 | calling the returned function twice has the effect of calling it once |
| BusSpec.RegisterAll | webview/src/services/messageBus.ts:176-227 | registering a list of types one handler each keeps the handler table well formed |
| BusSpec.PermissionResultRoundTrip | webview/src/services/messageBus.ts:879-897 | the result `respondToPermission` sends reads back as allowed exactly when the answer was allow, whatever options are spread after it |
| BusSpec.PushConsistent | webview/src/services/messageBus.ts:29-33 | appending messages keeps every streaming key pointing at a distinct, still-streaming message |
| BusSpec.KeysAgreeIffSessionId | webview/src/services/messageBus.ts:435-505 | the key stream deltas are filed under (`'default'` as fallback) and the key the complete assistant message looks under (`''` as fallback) agree exactly when the SDK message carries a non-empty session id |
| BusSpec.TextNeedsTextBlock | webview/src/services/messageBus.ts:421-431 | concatenated assistant text is non-empty only if some block is a text block |
| BusSpec.UserContent | webview/src/services/messageBus.ts:267-291 | content is taken only from an SDK message of type user that is not meta and has a truthy `message.content` |
| BusSpec.UserChat | webview/src/services/messageBus.ts:267-396 | `handleUserMessage` never touches the streaming map, and content starting with a tool result adds no chat message |
| BusSpec.UserChatAddsOne | webview/src/services/messageBus.ts:294-396 | when `handleUserMessage` changes the chat it appends exactly one message, built from a string content or from text that is non-empty after trimming |
| BusSpec.ApplyToolResult | webview/src/services/messageBus.ts:328-354 | one `tool_result` block stores its result, with the error flag, under its tool-use id, and a truthy `toolUseResult` is stored with it; every other record is unchanged |
| BusSpec.ToolResultsApplied | webview/src/services/messageBus.ts:328-354 | applying a list of blocks keeps the tool table well formed |
| BusSpec.ToolResultsRecorded | webview/src/services/messageBus.ts:328-354 | after the loop, every tool use named by some `tool_result` block has a stored result with an error flag (and the `toolUseResult` when given), and every other record is unchanged |
| BusSpec.ToolChatMessages | webview/src/services/messageBus.ts:421-431 | the chat messages the tool-use blocks create are assistant messages of kind `tool_use` with status sent, at most one per block |
| BusSpec.ToolUsesApplied | webview/src/services/messageBus.ts:421-431 | recording the tool uses keeps the tool table well formed |
| BusSpec.ToolUsesRecorded | webview/src/services/messageBus.ts:467-497 | every tool-use block's id ends up with a record holding that tool use; no other record changes |
| BusSpec.ReplaceClosedConsistent | webview/src/services/messageBus.ts:438-448 | replacing a streaming message and removing its key keeps the streaming map consistent |
| BusSpec.FinishConsistent | webview/src/services/messageBus.ts:433-464 | finishing the assistant text keeps the streaming map consistent |
| BusSpec.AssistantConsistent | webview/src/services/messageBus.ts:398-465 | `handleAssistantMessage` keeps the streaming map consistent |
| BusSpec.AppendToSingleText | webview/src/services/messageBus.ts:515-526 | a delta appended to a message with one text block extends that block's text |
| BusSpec.StreamConsistent | webview/src/services/messageBus.ts:499-546 | `handleStreamEvent` keeps the streaming map consistent |
| BusSpec.StreamDeltasAccumulate | webview/src/services/messageBus.ts:499-546 | two deltas with the same key, on a key not yet streaming, give one new streaming message whose content is the two texts in order; earlier messages are untouched |
| BusSpec.StreamStarts | webview/src/services/messageBus.ts:528-544 | a non-empty delta on a new key appends a streaming message and files its index under the key |
| BusSpec.StreamExtends | webview/src/services/messageBus.ts:515-526 | a non-empty delta on a filed key changes only the message at the filed index, appending the delta, and leaves the map as it is |
| BusSpec.AssistantCompletesStream | webview/src/services/messageBus.ts:433-448 | a complete assistant message whose key is streaming finalizes the streamed message in place: its content becomes the full text, its status completed and it stops streaming; tool messages are appended |
| BusSpec.AssistantChatOf | webview/src/services/messageBus.ts:398-465 | `handleAssistantMessage` appends the tool messages and then finishes the text |
| BusSpec.FinishFiled | webview/src/services/messageBus.ts:438-448 | with non-blank text and a filed key, the filed message is replaced by the finished one and its key removed |
| BusSpec.FinishUnfiled | webview/src/services/messageBus.ts:450-463 | with non-blank text and no filed key, a new completed assistant message is appended and the map is unchanged |
| BusSpec.NoSessionIdLeavesStreamOpen | webview/src/services/messageBus.ts:435-528 | a delta without session id followed by its complete assistant message leaves two messages: the streamed one still marked streaming under `'default'`, and a second completed copy of the text |
| BusSpec.UserConsistent | webview/src/services/messageBus.ts:267-396 | `handleUserMessage` keeps the streaming map consistent |
| BusSpec.ErrorMessage | webview/src/services/messageBus.ts:588-606 | an error becomes a message with role error, status error and content `错误: ` followed by the error text |
| BusSpec.PermissionAnswered | webview/src/services/messageBus.ts:568-586 | a decision removes the first pending request with its tool-use id and keeps the others in order; without one the list is unchanged |
| BusSpec.AnswerRemovesOldestOnly | webview/src/services/messageBus.ts:580-583 | of two pending requests for the same tool use, an answer removes only the older |
| BusSpec.QueueWithout | webview/src/services/messageBus.ts:935-940 | removing by id drops exactly one message when the id is queued and none otherwise |
| BusSpec.QueueAddThenRemove | webview/src/services/messageBus.ts:923-940 | removing a message just queued under a fresh id restores the queue |
| MessageBus.ChatState.constructor | webview/src/services/messageBus.ts:29-33 | the chat state starts with no messages, no current request and no streaming messages |
| MessageBus.PermissionState.constructor | webview/src/services/messageBus.ts:41-43 | no permission request is pending at start |
| MessageBus.MessageQueueState.constructor | webview/src/services/messageBus.ts:45-47 | the queue starts empty |
| MessageBus.WebviewMessageBus.constructor | webview/src/services/messageBus.ts:51-62 | a new bus has the built-in handlers registered, sequence 0 and nothing posted |
| MessageBus.WebviewMessageBus.RegisterEventHandlers | webview/src/services/messageBus.ts:176-227 | registers one handler per type in order and posts nothing |
| MessageBus.WebviewMessageBus.Listeners | webview/src/services/messageBus.ts:95-107 | a type has listeners exactly when it has an entry in the handler table |
| MessageBus.WebviewMessageBus.On | webview/src/services/messageBus.ts:137-160 | the handler table becomes `Subscribed` of the old one; nothing is posted |
| MessageBus.WebviewMessageBus.Unsubscribe | webview/src/services/messageBus.ts:148-159 | the handler table becomes `Unsubscribed` of the old one; nothing is posted |
| MessageBus.WebviewMessageBus.Send | webview/src/services/messageBus.ts:112-132 | without the VS Code API nothing is posted; with it the message is posted with the next sequence number, so posted envelopes are numbered 1, 2, 3 in order |
| MessageBus.WebviewMessageBus.HandleUserMessage | webview/src/services/messageBus.ts:267-396 | the chat and tool table become `UserChat` and `UserTools` of the old ones; the current request is kept |
| MessageBus.WebviewMessageBus.ApplyToolResults | webview/src/services/messageBus.ts:328-354 | the loop over the blocks leaves the tool table equal to `ToolResultsApplied` |
| MessageBus.WebviewMessageBus.HandleAssistantMessage | webview/src/services/messageBus.ts:398-465 | the chat and tool table become `AssistantChat` and `AssistantTools` of the old ones |
| MessageBus.WebviewMessageBus.ApplyAssistantBlocks | webview/src/services/messageBus.ts:421-431 | the block loop appends the tool messages, records the tool uses and returns the concatenated text and whether any text block was seen |
| MessageBus.WebviewMessageBus.CompleteAssistantText | webview/src/services/messageBus.ts:433-464 | the chat becomes `FinishAssistantText` of the old one |
| MessageBus.WebviewMessageBus.CreateToolMessage | webview/src/services/messageBus.ts:467-497 | one tool-use block records its tool use and appends its tool message |
| MessageBus.WebviewMessageBus.HandleStreamEvent | webview/src/services/messageBus.ts:499-546 | the chat becomes `StreamChat` of the old one |
| MessageBus.WebviewMessageBus.HandlePermissionRequest | webview/src/services/messageBus.ts:548-566 | the request is added to the pending list and the tool record is marked as awaiting permission |
| MessageBus.WebviewMessageBus.HandlePermissionDecision | webview/src/services/messageBus.ts:568-586 | the tool record takes the decision, allowed exactly when the behavior is allow, and the first matching pending request is removed |
| MessageBus.WebviewMessageBus.HandleError | webview/src/services/messageBus.ts:588-606 | exactly one error message is appended |
| MessageBus.WebviewMessageBus.HandleResult | webview/src/services/messageBus.ts:608-621 | the streaming map is cleared and the next queued message, if any, is sent as a new request; the messages are kept |
| MessageBus.WebviewMessageBus.HandleClaudeEvent | webview/src/services/messageBus.ts:232-265 | each event kind has exactly the effect of its handler on the chat, the tool messages, the pending requests, the queue and the posted messages, and leaves the rest of that state as it was; a system event changes none of it; the handlers stay registered |
| MessageBus.CollectText | webview/src/services/messageBus.ts:357-362 | the text-block loop computes `TextOfBlocks` |
| MessageBus.RemovePending | webview/src/services/messageBus.ts:900-905 | removes the first pending request with the tool-use id, as `PermissionAnswered` |
| MessageBus.SendPermissionResponse | webview/src/services/messageBus.ts:789-797 | posts one permission response with the next sequence number, when the API is present, and keeps the handlers |
| MessageBus.SendChatMessage | webview/src/services/messageBus.ts:802-830 | returns the request id built from the time and the random part, sets it as the current request with status sending, and posts the text with the session id; the messages are kept |
| MessageBus.InterruptChat | webview/src/services/messageBus.ts:835-844 | posts an interrupt, clears the current request and the streaming map, and keeps the messages and the handlers |
| MessageBus.LoadSession | webview/src/services/messageBus.ts:849-854 | posts one session load for the id and keeps the handlers |
| MessageBus.CreateNewSession | webview/src/services/messageBus.ts:859-864 | posts one session create and keeps the handlers |
| MessageBus.RequestSessionList | webview/src/services/messageBus.ts:869-874 | posts one session list request and keeps the handlers |
| MessageBus.NotifyUIReady | webview/src/services/messageBus.ts:911-916 | posts one ready notice and keeps the handlers |
| MessageBus.RespondToPermission | webview/src/services/messageBus.ts:879-906 | posts the answer with the options spread after the behavior and removes the first pending request for the tool use, keeping the handlers |
| MessageBus.AddMessageToQueue | webview/src/services/messageBus.ts:923-930 | appends one queued message with the given content |
| MessageBus.RemoveMessageFromQueue | webview/src/services/messageBus.ts:935-940 | the queue becomes `QueueWithout` of the old one |
| MessageBus.ClearMessageQueue | webview/src/services/messageBus.ts:946-948 | the queue becomes empty |
| MessageBus.ProcessNextQueuedMessage | webview/src/services/messageBus.ts:953-960 | on an empty queue nothing happens; otherwise the head is removed and sent as a new chat request without session id |
| SessionRecords.RemoveReminders | src/services/claude/session.ts:398-401 | removing the `<system-reminder>` blocks never lengthens the text |
| SessionRecords.StripAttachments | src/services/claude/session.ts:398-401 | the stripped text is no longer than the input and starts and ends with a non-space character, or is empty |
| SessionRecords.ReminderTagsUnbordered | src/services/claude/session.ts:400 | neither tag contains its own first character again, so a match cannot start inside a tag |
| SessionRecords.NoReminderKept | src/services/claude/session.ts:398-401 | text without a closing tag is only trimmed |
| SessionRecords.RemoveBlock | src/services/claude/session.ts:400 | one reminder block, with the white space after it, is removed, and the scan goes on after it |
| SessionRecords.StripBlock | src/services/claude/session.ts:410-418 | a text block gets its text stripped and keeps its other fields; any other block is kept; the source throws exactly on `null` or a text that is not a string |
| SessionRecords.StripBlocks | src/services/claude/session.ts:410-418 | an array is stripped block by block, keeping its length, and throws when any block throws |
| SessionRecords.StripContent | src/services/claude/session.ts:406-421 | a string is stripped, an array is stripped block by block, anything else is kept |
| SessionRecords.ReviveRecord | src/services/claude/session.ts:284-303 | a user turn gets its content stripped; every other field, and every other record, is kept as it is |
| SessionRecords.ParentOf | src/services/claude/session.ts:241-251 | a parent is named only by a non-empty string `parentUuid` |
| SessionRecords.Revive | src/services/claude/session.ts:284-303 | a revived message keeps its non-empty uuid, its parent, and its record revived, with the timestamp as a date |
| SessionRecords.Classify | src/services/claude/session.ts:329-341 | a line with a truthy uuid and a message is a message keyed by its uuid; otherwise a line with a non-empty summary that is not an authentication error is a summary keyed by its leaf uuid; anything else is skipped |
| SessionRecords.AuthErrorSummaryDropped | src/services/claude/session.ts:335 | summaries starting with `API Error: 401` or `Invalid API key`, in any case, are never kept |
| SessionRecords.FirstUsefulText | src/services/claude/session.ts:382-385 | the text found is the text of the first text block whose text is not blank; nothing is found exactly when no text block has a non-blank text |
| SessionRecords.Shorten | src/services/claude/session.ts:392 | a line over 50 characters becomes its first 47 and `...`; a shorter one is kept; the result is at most 50 characters |
| SessionRecords.LabelContent | src/services/claude/session.ts:372-389 | the first user message raises, as the source throws, exactly when its `message` is `null` or stripping its content throws; otherwise a string content offers its stripped text, an array content the text of the first stripped text block that is not blank, and anything else, or no content, offers nothing |
| SessionRecords.UserLabel | src/services/claude/session.ts:372-393 | an offered non-empty text gives its first non-blank line, cut to 47 characters and `...` when longer than 50; an empty text or no text gives `Claude Session`; there is none, as the source throws, exactly when the content raises; the label is at most 50 characters |
| SessionRecords.GenerateLabel | src/services/claude/session.ts:359-396 | a non-empty summary is the label; otherwise the first user message's label; `Claude Session` when there is no user message; there is no label, as the source throws, exactly when there is no summary and the first user message's content raises |
| SessionRecords.NullMessageStoredButUnlabelled | src/services/claude/session.ts:291-375 | a user line with a string uuid and a `null` message is stored as a message, yet labelling a chain that starts with it throws |
| SessionRecords.StripLeadingReminder | src/services/claude/session.ts:398-401 | a reminder block in front of a trimmed text without a closing tag is stripped away, leaving exactly that text |
| SessionRecords.SingleLineLabel | src/services/claude/session.ts:390-392 | a single non-blank line of at most 50 characters is its own label line |
| SessionRecords.ReminderBeforeTextLabel | src/services/claude/session.ts:372-401 | a user turn whose content is a reminder block followed by a short single-line text is labelled by that text |
| SessionRecords.PleaseHelpLabel | src/services/claude/session.ts:372-401 | `<system-reminder>secret</system-reminder>Please help` is labelled `Please help` |
| SessionRecords.JoinNonBlank | src/services/claude/session.ts:391 | a joined text with a non-space character has a non-blank line |
| SessionRecords.FindNonBlank | src/services/claude/session.ts:391 | a non-blank line is always found when one exists |
| SessionRecords.FirstNonBlankLineOf | src/services/claude/session.ts:391 | non-blank content has a non-empty, non-blank first line |
| SessionRecords.LabelContentNotBlank | src/services/claude/session.ts:377-389 | content offered for a label, when not empty, is not blank, since stripping trims it |
| SessionRecords.UserLabelNotEmpty | src/services/claude/session.ts:372-395 | the label taken from a user message is never empty |
| SessionRecords.LabelNeverEmpty | src/services/claude/session.ts:359-396 | no session has an empty label |
| SessionRecords.ComputeFolderSlug | src/services/claude/session.ts:353-357 | a drive prefix `/x:` becomes `X-`; every `/`, `.` and `_` becomes `-`; every other character is kept in place |
| SessionRecords.SlugIdempotent | src/services/claude/session.ts:353-357 | slugging a slug changes nothing |
| SessionRecords.SeparatorsShareSlug | src/services/claude/session.ts:356 | paths that differ only in which separator is used share a slug, so their projects share a folder |
| SessionGraph.JsonlLines | src/services/claude/session.ts:322 | every line kept is non-blank |
| SessionGraph.LineRecord | src/services/claude/session.ts:325-344 | a line that does not parse is skipped, and a kept summary is non-empty and not an authentication error |
| SessionGraph.AddLine | src/services/claude/session.ts:325-341 | one line keeps the file's maps keyed by uuid and leaf uuid |
| SessionGraph.RecordsOf | src/services/claude/session.ts:313-351 | the maps read from a file are keyed by uuid and leaf uuid |
| SessionGraph.EntriesIn | src/services/claude/session.ts:206 | the entries of a map come in insertion order, one per key |
| SessionGraph.AddMessages | src/services/claude/session.ts:216-221 | merging messages keeps the index keyed and only adds referenced parents |
| SessionGraph.AddSummaries | src/services/claude/session.ts:222-224 | merging summaries keeps the messages and referenced parents |
| SessionGraph.MergeFile | src/services/claude/session.ts:206-226 | merging one file's records keeps the index well formed |
| SessionGraph.MergeAll | src/services/claude/session.ts:200-226 | merging all files gives a well-formed index |
| SessionGraph.Leaves | src/services/claude/session.ts:228-232 | a leaf is exactly a message whose uuid no message names as its parent |
| SessionGraph.LeafNotAParent | src/services/claude/session.ts:228-232 | no stored message names a leaf as its parent |
| SessionGraph.WalkLinked | src/services/claude/session.ts:235-253 | the walked chain runs from the oldest message to the leaf, each message naming the one before it as its parent |
| SessionGraph.WalkStops | src/services/claude/session.ts:235-253 | a walk that stops on its own ends at a message without a parent or whose parent is not stored |
| SessionGraph.WalkSummary | src/services/claude/session.ts:238-245 | the summary found is the one stored for the uuid nearest the root among the uuids the walk looked up; a later lookup with a summary overrides an earlier one, and without any the summary passed in is kept |
| SessionGraph.IncompleteWalkRepeats | src/services/claude/session.ts:235-253 | a walk longer than the number of messages has revisited a message, so it is a parent cycle, on which the source loops for ever |
| SessionGraph.SessionsPerLeaf | src/services/claude/session.ts:228-263 | one session per leaf, each a well-formed chain ending at its leaf, with the id and time of its last message |
| SessionGraph.DedupeMap | src/services/claude/session.ts:267-281 | the de-duplication map keeps one session per id under that id |
| SessionGraph.BetterChain | src/services/claude/session.ts:275-276 | the later-or-longer order is a strict order |
| SessionGraph.HasIdSnoc | src/services/claude/session.ts:267-281 | an id occurs in a longer list when it occurs in the shorter or is the new session's |
| SessionGraph.DedupeReplaced | src/services/claude/session.ts:275-278 | a better session for a kept id replaces the kept one |
| SessionGraph.DedupeKept | src/services/claude/session.ts:268-279 | a session that is not beaten stays kept |
| SessionGraph.DedupeMapKeeps | src/services/claude/session.ts:267-281 | every id seen is kept, with a session that no other session with its id beats, the first of the best |
| SessionGraph.DedupeKeptAt | src/services/claude/session.ts:267-281 | the kept session is the chosen one for its id |
| SessionGraph.DedupeOnePerId | src/services/claude/session.ts:267-281 | the result has one session per id, every input id survives, and each kept session is the chosen one |
| SessionGraph.DedupeDistinct | src/services/claude/session.ts:267-281 | sessions already with distinct ids are kept in their order |
| SessionGraph.DedupeIdempotent | src/services/claude/session.ts:267-281 | de-duplicating twice is de-duplicating once |
| SessionGraph.LoadedSessions | src/services/claude/session.ts:200-281 | loaded sessions have distinct ids and each is a well-formed chain ending at a leaf |
| SessionCache.Files | src/services/claude/session.ts:121-130 | the files compared are the directory joined with each accepted entry's name, in order |
| SessionCache.CancelAround | src/services/claude/session.ts:121-130 | equal strings with the same prefix and suffix have equal middles |
| SessionCache.JoinPathKeyInjective | src/services/claude/session.ts:121-130 | different names in one directory give different keys |
| SessionCache.FileData | src/services/claude/session.ts:313-351 | a file that cannot be read gives empty maps, and any file gives keyed maps |
| SessionCache.FilesData | src/services/claude/session.ts:196 | one result per file, each keyed |
| SessionCache.RecordMtimes | src/services/claude/session.ts:206-214 | recording modification times keeps every earlier key, and each new entry is a loaded file under its own key |
| SessionCache.RecordedMtime | src/services/claude/session.ts:209-214 | a file with a known time has that time recorded |
| SessionCache.Load | src/services/claude/session.ts:168-282 | a directory that cannot be read, or a cancelled load, gives no sessions and records nothing; otherwise the times of every session file are recorded |
| SessionCache.CheckWith | src/services/claude/session.ts:110-163 | a cache hit returns exactly the cached sessions; a cancelled check or an unreadable directory is a miss |
| SessionCache.CheckCacheAsWritten | src/services/claude/session.ts:110-163 | the check as written returns only the cached sessions, and never after cancellation |
| SessionCache.CheckCache | src/services/claude/session.ts:110-163 | the intended check returns only the cached sessions, and never after cancellation |
| SessionCache.UnlistedFails | src/services/claude/session.ts:147-153 | a recorded file in the directory missing from the listing makes the check miss |
| SessionCache.CheckPasses | src/services/claude/session.ts:110-157 | with a cache entry, an unchanged listing and nothing missing, the check hits |
| SessionCache.ChangedFileInvalidates | src/services/claude/session.ts:133-139 | a session file that is new or changed makes the intended check miss |
| SessionCache.FolderStep | src/services/claude/session.ts:83-96 | one folder of `getAllSessions`, as intended: cancellation while reading leaves the caches untouched |
| SessionCache.FolderStepAsWritten | src/services/claude/session.ts:83-96 | one folder as written: a loaded result, even an empty one from a cancelled load, is stored for the directory |
| SessionCache.RecordedFilesFresh | src/services/claude/session.ts:206-214 | after a load every listed session file is unchanged |
| SessionCache.RecordedFilesListed | src/services/claude/session.ts:147-153 | after a load, with no stale recorded files, nothing recorded is missing |
| SessionCache.RepeatedCallReusesCache | src/services/claude/session.ts:87-96 | as intended, after a completed load a second call on the same listing hits the cache |
| SessionCache.StoreKeepsOtherDirectories | src/services/claude/session.ts:94-96 | a folder step changes no other directory's cached sessions |
| SessionCache.DeletedFileUnnoticed | src/services/claude/session.ts:147-153 | as written, a deleted session file does not invalidate the cache, because the parent test never holds for a file under the directory |
| SessionCache.DeletedFileInvalidates | src/services/claude/session.ts:147-153 | as intended, a deleted session file makes the check miss |
| SessionCache.EndsWithAfter | src/services/claude/session.ts:125 | a suffix of the end is a suffix of the whole |
| SessionCache.NameNotListed | src/services/claude/session.ts:121-130 | a name not in the listing gives no listed key |
| SessionCache.CancelledLoadPoisonsCache | src/services/claude/session.ts:94-96 | as written, a load cancelled while reading stores an empty session list that later checks return |
| SessionCache.CancelledStepKeepsCache | src/services/claude/session.ts:94-96 | as intended, a load cancelled while reading leaves the check's answer unchanged |
| SessionCache.EmptyStemDefeatsCache | src/services/claude/session.ts:125-190 | as written, a file named `.jsonl` is compared by the check but never recorded by the load, so the cache never hits again |
| SessionCache.EmptyStemChanged | src/services/claude/session.ts:125-139 | as written, an unrecorded `.jsonl` file counts as changed |
| SessionCache.EmptyStemUnrecorded | src/services/claude/session.ts:187-214 | a load never records the `.jsonl` file |
| SessionCache.ProjectDir | src/services/claude/session.ts:83-84 | the project directory is the user's `.claude/projects` joined with the folder's slug |
| SessionCache.GetAllFrom | src/services/claude/session.ts:78-97 | the folder loop from folder `i`, as written or as intended (`written`): the remaining folders only add sessions after those already found, and the caches stay well formed |
| SessionCache.CachedStep | src/services/claude/session.ts:87-91 | a cache hit returns the cached sessions and changes no cache |
| SessionCache.GetAll | src/services/claude/session.ts:68-100 | `getAllSessions` as intended, with the corrected check and folder step: no folders give no sessions and change nothing |
| SessionCache.GetAllAsWritten | src/services/claude/session.ts:68-100 | `getAllSessions` as written: no folders give no sessions and change nothing |
| SessionCache.UncancelledRunSweeps | src/services/claude/session.ts:68-100 | a run never cancelled returns the folders' own outcomes concatenated in folder order, each folder starting from the caches the earlier ones left, and the first folder that hangs or throws decides the result |
| SessionCache.SessionById | src/services/claude/session.ts:102-105 | the session found has the id and is loaded; none is found only when no loaded session has the id |
| SessionService.ClaudeCodeSessionService.Contents | src/services/claude/session.ts:50-51 | the two caches are well formed and keyed by resource key |
| SessionService.ClaudeCodeSessionService.constructor | src/services/claude/session.ts:50-51 | a new service starts with both caches empty |
| SessionService.ClaudeCodeSessionService.GetMessagesFromSession | src/services/claude/session.ts:313-351 | reading one file gives `FileData`, keyed maps |
| SessionService.ClaudeCodeSessionService.CollectRecords | src/services/claude/session.ts:325-345 | the line loop computes `RecordsOf` |
| SessionService.ClaudeCodeSessionService.CachedSessionsIfValid | src/services/claude/session.ts:110-163 | the method answers exactly what the check as written, `CheckCacheAsWritten`, answers |
| SessionService.ClaudeCodeSessionService.ListedUnchanged | src/services/claude/session.ts:121-143 | the first loop reports up to date exactly when no listed `.jsonl` file is new or changed, and then holds exactly those files |
| SessionService.ClaudeCodeSessionService.IsUnchanged | src/services/claude/session.ts:133-139 | a file is unchanged exactly when its recorded and current times agree |
| SessionService.ClaudeCodeSessionService.NoneDeleted | src/services/claude/session.ts:147-153 | the second loop passes exactly when no recorded `.jsonl` file that `isEqualOrParent` places in the directory is missing from the listing |
| SessionService.ClaudeCodeSessionService.IsDeleted | src/services/claude/session.ts:148-151 | a recorded file is missing exactly when `isEqualOrParent` places it in the directory, it is a `.jsonl` file, and it is not listed |
| SessionService.ClaudeCodeSessionService.LoadSessionsFromDisk | src/services/claude/session.ts:168-282 | loading gives the sessions and recorded times of `Load` |
| SessionService.ClaudeCodeSessionService.SessionFiles | src/services/claude/session.ts:178-194 | the filter loop keeps exactly the session files, in listing order |
| SessionService.ClaudeCodeSessionService.ReadSessionFiles | src/services/claude/session.ts:196 | one result per file, as `FilesData` |
| SessionService.ClaudeCodeSessionService.RecordFileMtimes | src/services/claude/session.ts:206-214 | the recorded times become `RecordMtimes` of the old ones |
| SessionService.ClaudeCodeSessionService.RecordFileMtime | src/services/claude/session.ts:208-213 | a failed `stat` leaves the times as they were; a successful one sets that file's time under its printed URI and changes nothing else |
| SessionService.ClaudeCodeSessionService.FolderSessions | src/services/claude/session.ts:83-96 | one folder changes the caches and answers as `FolderStepAsWritten`: a loaded result, even the empty one of a cancelled load, is stored; a hang or a throw is passed on and stores nothing |
| SessionService.ClaudeCodeSessionService.GetAllSessions | src/services/claude/session.ts:68-100 | all folders change the caches and answer as `GetAllAsWritten` |
| SessionService.ClaudeCodeSessionService.NextFolder | src/services/claude/session.ts:79-96 | one turn of the folder loop as written: a cancelled token, or a load that hangs or throws, ends the loop with what `GetAllFrom` gives for the rest; otherwise the rest of the loop from the next folder, with this folder's sessions added, gives the same as the rest from this folder |
| SessionService.ClaudeCodeSessionService.GetSession | src/services/claude/session.ts:102-105 | leaves the caches as `GetAllAsWritten` leaves them; when loading hangs or throws, reports that outcome and finds nothing; otherwise finds the first session with the id among all sessions |

## Left out

- I/O is not modelled as effects. The file system, the parse and date functions, `Date.now` and `Math.random` are inputs, and `postMessage` is a log of posted envelopes.
- Logging, `console` output and the `connected` flag are left out, because none of them changes state the rest of the code reads.
- Concurrency is left out. `Promise.allSettled` is a sequential loop, and the file system is a fixed snapshot, so files changing during a load are not modelled.
- `JSON.parse`, `Buffer` decoding and `JSON.stringify` are left out. A line's parse is a parameter; `FormatJson` models only the summary shapes `formatParameterValue` builds.
- Numbers are integers only, because floating point is not modelled.
- `trim` and the regular expression class `\s` use JavaScript's full white-space set, but `toLowerCase` maps only the ASCII letters; Unicode case folding is not modelled.
- Strings are sequences of Unicode scalar values, not of UTF-16 code units, so a character outside the Basic Multilingual Plane counts as one where JavaScript's `length` and `substring` count two.
- SessionRecords.Shorten: the 50- and 47-character limits count Unicode scalar values, not UTF-16 code units, so a label holding characters outside the Basic Multilingual Plane is cut later than the source cuts it, and never in the middle of a surrogate pair.
- MessageUtils.FormatJson: the 100- and 97-character limits count Unicode scalar values, not UTF-16 code units; an object's entries are taken in their stored order, not in `Object.keys` order, which puts integer-like keys first in ascending order.
- The session files' `uuid`, `parentUuid`, `leafUuid` and `sessionId` count only when they are strings. A non-string truthy value, which the source would use as a key, is treated as missing.
- `new Date(raw.timestamp)` is a parameter `dateOf`, so invalid dates and their `NaN` comparisons are not modelled.
- A line on which `_stripAttachments` throws (a text block whose text is not a string, or a `null` block) is skipped, as the per-line `catch` does; the logged warning is left out.
- src/services/claude/fileTypes.ts is not part of this model.
- SessionGraph.Walk: the parent walk carries fuel equal to the number of messages. Running out of fuel stands for the source's endless loop on a parent cycle (`Hangs`), and `IncompleteWalkRepeats` shows that only a cycle does this.
- The merge, leaf, walk and de-duplication loops of `_loadSessionsFromDisk` are functions rather than loops, because they only build local maps.
- SessionCache.FilesData: its contract states only the length and that each result is well keyed; its contents are `FileData` per file by definition.
- SessionCache.RepeatedCallReusesCache: it requires that no recorded time is stale (`NoStaleMtimes`), because recorded times are never removed and a file deleted earlier keeps its entry.
- SessionGraph.LoadedSessions: it does not state that sessions from several folders sharing one project folder are listed twice by `getAllSessions`.
- `Uri.toString` has no percent-encoding, and `JoinPath` does no normalisation of `.` or `..`.
- ResourceMaps.GetOrSet: the source treats a stored `undefined` as missing; the model has no `undefined` value.
- The `session/current` and `session/created` handlers and `convertToUIMessage` are left out, because replaying stored history needs the SDK's full message conversion, which is outside this core.
- Handler callbacks are identities (`HandlerId`). Dispatch looks them up, but their bodies are the modelled handler methods, not arbitrary closures.
- `sessionStore`'s `requestSessionList`, `loadSession` and `createNewSession` only post messages; the same actions are modelled in `MessageBus`.
- `extractContentBlocks`, `getMessageDisplayTitle`, `isMessageEditable`, `isMessageStreaming` and the `isSDK*` type guards of messageUtils.ts are left out, because they only read fields; `isSDKUserMessage` and friends appear as type tests in the bus.
- MessageUtils.ExtractTextContent has no contract of its own; the stream lemmas state what it contributes.
- `String()` of values that are not strings, in Bash output and tool errors, is modelled only for the value shapes the `Json` datatype has.
- McpTool: `formattedOutput`, `hasInput` and `formattedInput` depend on `JSON.stringify` and `JSON.parse` and are left out, and `null` items in a content list are not modelled.
- MessageUtils.MessageContent: a missing or `null` `message` gives no content, where the source throws on `message.content`; the throw is not modelled.
- MessageUtils.TextsOf: a `null` block is skipped, where the source throws on `b.type`.
- MessageUtils.ExtractStreamEventText: a missing or `null` `event` gives `""`, where the source throws on `event.type`; a truthy `delta.text` that is not a string, which the source returns as it is, gives `""`.
- BusSpec.SessionIdOr: only a non-empty string `session_id` is used; a truthy id of another type, which the source would use as the key, falls back.
- BusSpec.IsToolResultBlock: only a non-empty string `tool_use_id` counts; a truthy id of another type is treated as missing.
- BusSpec.IsToolUseBlock: only non-empty string `id` and `name` count; truthy values of other types are treated as missing.
- MessageBus.WebviewMessageBus.ApplyToolResults, MessageBus.WebviewMessageBus.ApplyAssistantBlocks and the text-block loop of MessageBus.WebviewMessageBus.HandleUserMessage: a `null` block is skipped, where the source's `forEach` throws on `block.type`.
- Icon colors, CSS classes and layout in the tool views are left out, because they do not affect state; this includes `isCustomLayout` of `ToolMessageWrapper`, which only chooses where the expandable part is drawn.
- EditTool: `old_string` and `new_string` are taken as strings; other value types are not modelled.
- MessageUtils.GetToolIcon: a name that lower-cases to a key every JavaScript object inherits, `constructor` (in any case) or `__proto__`, finds the inherited value (a function or the prototype object), which is truthy, so the source returns that value and not `codicon-tools`; the model has no inherited keys and returns `codicon-tools` for both, so its ensures is stated for plain tool names only.
- MessageUtils.GetToolDescription: likewise, `constructor` (in any case) and `__proto__` find an inherited truthy value where the model returns `""`.
- FileIcon: keys inherited from a JavaScript object's prototype (`constructor`, `toString`) are not modelled in the extension table.
- BusSpec.NoSessionIdLeavesStreamOpen records the key mismatch between stream deltas (`'default'`) and the complete assistant message (`''`) as the code behaves; no corrected handler is modelled.

## Findings

| source | as written | input that shows it | evidently intended | confidence | as-written member | corrected member |
|---|---|---|---|---|---|---|
| src/services/common/resources.ts:18-32 | besides the path test, the two URIs must print the same, so only equal URIs pass | `file:///p/a.jsonl` checked against its directory `file:///p` | a URI passes when its path lies under the candidate's path and the other components agree, as the doc comment says | high; not executed | Resources.StrictParentNeverQualifies | Resources.ChildQualifiesIntended |
| src/services/claude/session.ts:147-153 | the deleted-file loop places recorded files with `isEqualOrParent`, which never holds for a file under the directory | a `.jsonl` file recorded by an earlier load and then deleted, with the other files unchanged | the deletion invalidates the cached sessions | high; not executed | SessionCache.DeletedFileUnnoticed | SessionCache.DeletedFileInvalidates |
| src/services/claude/session.ts:94-96 | `_loadSessionsFromDisk` returns `[]` when cancelled after reading (197-199), and `getAllSessions` stores that as the folder's sessions | the token is cancelled while a folder is loaded; the next call, not cancelled, finds the files unchanged and returns the stored empty list | a cancelled load leaves the cache as it was | medium; not executed | SessionCache.CancelledLoadPoisonsCache | SessionCache.CancelledStepKeepsCache |
| src/services/claude/session.ts:121-130 | the check compares every `.jsonl` file, but the load skips a file whose name is exactly `.jsonl` (187-190), so its time is never recorded | a project directory holding a file named `.jsonl` | the check compares the same files the load records, so a second call reuses the cache | medium; not executed | SessionCache.EmptyStemDefeatsCache | SessionCache.RepeatedCallReusesCache |

=== FILE: bash_tool.dfy ===
/**
 * The Bash tool view (webview/src/components/Messages/blocks/tools/Bash/Bash.tsx):
 * which text it shows as the command's output, how it lays out the command,
 * and when it opens by itself. A loaded session carries the streams in
 * `toolUseResult`; a live call carries them in `toolResult.content`, wrapped
 * in `<stdout>` and `<stderr>` tags.
 */
module BashTool {
  import opened Wrappers
  import opened Strs
  import opened Json
  import opened Tags
  import ToolErrorParser

  const StderrHeader := "[stderr]\n"
  const StreamSeparator := "\n\n"

  /** `value || ''` for a stream: a missing or falsy value is "". */
  function TextOr(o: Option<Json>): string {
    if Present(o) then ToJsString(o.value) else ""
  }

  /**
   * The shared layout of the two streams: stdout, then stderr under a
   * `[stderr]` header; `None` when both are empty and the view falls through.
   */
  function Combine(stdout: string, stderr: string): (r: Option<string>)
    ensures r.None? <==> stdout == "" && stderr == ""
    ensures r.Some? && stderr == "" ==> r.value == stdout
    ensures r.Some? && stderr != "" ==> EndsWith(r.value, StderrHeader + stderr)
    ensures r.Some? && stdout != "" && stderr != "" ==> StartsWith(r.value, stdout + StreamSeparator)
    ensures r.Some? && stdout == "" && stderr != "" ==> r.value == StderrHeader + stderr
  {
    if stdout != "" && stderr != "" then
      var out := stdout + StreamSeparator + StderrHeader + stderr;
      assert out[|out| - |StderrHeader + stderr|..] == StderrHeader + stderr;
      assert out[..|stdout + StreamSeparator|] == stdout + StreamSeparator;
      Some(out)
    else if stdout != "" then Some(stdout)
    else if stderr != "" then
      assert (StderrHeader + stderr)[|StderrHeader + stderr| - |StderrHeader + stderr|..] == StderrHeader + stderr;
      Some(StderrHeader + stderr)
    else None
  }

  /** The trimmed text of the first tag pair, or "" without one. */
  function Stream(content: string, open: string, close: string): string
    requires |open| > 0 && |close| > 0
  {
    match TagBody(content, open, close)
    case Some(body) => Trim(body)
    case None => ""
  }

  /** The streams of live `toolResult.content`, laid out; the raw content when both are empty. */
  function LiveOutput(content: string): (r: string)
    ensures var out := Stream(content, "<stdout>", "</stdout>");
      var err := Stream(content, "<stderr>", "</stderr>");
      && (out == "" && err == "" ==> r == content)
      && (out != "" || err != "" ==> Some(r) == Combine(out, err))
  {
    match Combine(Stream(content, "<stdout>", "</stdout>"), Stream(content, "<stderr>", "</stderr>"))
    case Some(o) => o
    case None => content
  }

  /** `outputContent`. */
  function OutputContent(toolUseResult: Option<Json>, toolResult: Option<Json>): (r: string)
  {
    var loaded :=
      if toolUseResult.Some? && Truthy(toolUseResult.value)
      then Combine(TextOr(Field(toolUseResult.value, "stdout")), TextOr(Field(toolUseResult.value, "stderr")))
      else None;
    if loaded.Some? then loaded.value
    else if toolResult.Some? && Field(toolResult.value, "content").Some? && Field(toolResult.value, "content").value.JStr?
    then LiveOutput(Field(toolResult.value, "content").value.s)
    else ""
  }

  /**
   * The streams of a loaded session win whenever either is non-empty;
   * otherwise a string `content` decides, and anything else shows nothing.
   */
  lemma OutputPriority(toolUseResult: Option<Json>, toolResult: Option<Json>)
    ensures var stdout := if toolUseResult.Some? then TextOr(Field(toolUseResult.value, "stdout")) else "";
      var stderr := if toolUseResult.Some? then TextOr(Field(toolUseResult.value, "stderr")) else "";
      var content := if toolResult.Some? then Field(toolResult.value, "content") else None;
      && (toolUseResult.Some? && Truthy(toolUseResult.value) && (stdout != "" || stderr != "") ==>
            Some(OutputContent(toolUseResult, toolResult)) == Combine(stdout, stderr))
      && (stdout == "" && stderr == "" && content.Some? && content.value.JStr? ==>
            OutputContent(toolUseResult, toolResult) == LiveOutput(content.value.s))
      && (stdout == "" && stderr == "" && !(content.Some? && content.value.JStr?) ==>
            OutputContent(toolUseResult, toolResult) == "")
  {
  }

  /** Live content without tags is shown as it came. */
  lemma UntaggedLiveOutput(content: string)
    requires !Contains(content, "</stdout>") && !Contains(content, "</stderr>")
    ensures LiveOutput(content) == content
  {
    if TagBody(content, "<stdout>", "</stdout>").Some? {
      ContainsAt(content, "</stdout>", FirstSpan(content, "<stdout>", "</stdout>").value.bodyEnd);
    }
    if TagBody(content, "<stderr>", "</stderr>").Some? {
      ContainsAt(content, "</stderr>", FirstSpan(content, "<stderr>", "</stderr>").value.bodyEnd);
    }
  }

  /** `command`: the input's command, else the loaded result's, else "". */
  function Command(toolUse: Option<Json>, toolUseResult: Option<Json>): string {
    var input := if toolUse.Some? then Field(toolUse.value, "input") else None;
    var fromInput := if input.Some? then Field(input.value, "command") else None;
    var fromResult := if toolUseResult.Some? then Field(toolUseResult.value, "command") else None;
    if Present(fromInput) then ToJsString(fromInput.value)
    else if Present(fromResult) then ToJsString(fromResult.value)
    else ""
  }

  /** `commandLines`: the command's lines, none for an empty command. */
  function CommandLines(command: string): (r: seq<string>)
  {
    if command == "" then [] else Split(command, "\n")
  }

  /** Joining the lines back with line breaks gives the command, and no line holds a break. */
  lemma CommandLinesRoundTrip(command: string)
    ensures Join(CommandLines(command), "\n") == command
    ensures |CommandLines(command)| == 0 <==> command == ""
    ensures forall i :: 0 <= i < |CommandLines(command)| ==> '\n' !in CommandLines(command)[i]
  {
    if command != "" {
      var lines := Split(command, "\n");
      forall i | 0 <= i < |lines| ensures '\n' !in lines[i] {
        ContainsChar(lines[i], '\n');
      }
    }
  }

  /** `hasOutput`. */
  predicate HasOutput(output: string, toolResult: Option<Json>) {
    output != "" && !ToolErrorParser.HasToolError(toolResult)
  }

  /** `shouldExpand`. */
  predicate ShouldExpand(permissionState: Option<string>, output: string, toolResult: Option<Json>) {
    permissionState == Some("pending") || ToolErrorParser.HasToolError(toolResult) || HasOutput(output, toolResult)
  }

  /**
   * A failed call opens but shows its error rather than output; a call that
   * neither waits for permission nor failed opens exactly when it printed something.
   */
  lemma ExpandCases(permissionState: Option<string>, output: string, toolResult: Option<Json>)
    ensures ToolErrorParser.HasToolError(toolResult) ==> ShouldExpand(permissionState, output, toolResult) && !HasOutput(output, toolResult)
    ensures permissionState != Some("pending") && !ToolErrorParser.HasToolError(toolResult) ==>
      (ShouldExpand(permissionState, output, toolResult) <==> output != "")
  {
  }
}

=== FILE: bus_spec.dfy ===
/**
 * What the webview message bus does to its state, as functions of the state
 * before: the handler lists per message type, the chat list with its map
 * from session key to the index of the message being streamed, the
 * tool-message table, the pending permission requests and the queue of
 * typed messages. The bus methods are proved to make exactly these changes;
 * the lemmas here say what the changes mean.
 */
module BusSpec {
  import opened Wrappers
  import opened Strs
  import opened Json
  import opened Seqs
  import opened OrderedMaps
  import opened ToolMessages
  import opened ChatMessages
  import opened MessageUtils
  import opened PermissionStore
  import opened MessageQueueStore
  import Store = ToolMessageStore

  // ---------------------------------------------------------------------
  // Handler registration

  /** A registered callback, by identity. */
  type HandlerId = nat

  type Handlers = OMap<string, seq<HandlerId>>

  /** A type with no handler left has no entry: an emptied list is deleted. */
  ghost predicate HandlersValid(hs: Handlers) {
    OrderedMaps.Valid(hs) && forall t :: t in hs.vals ==> hs.vals[t] != []
  }

  /** `list.indexOf(h)` and, when found, `list.splice(index, 1)`. */
  function RemoveHandler(list: seq<HandlerId>, h: HandlerId): (r: seq<HandlerId>)
    ensures h !in list ==> r == list
    ensures h in list ==> exists i :: (0 <= i < |list| && list[i] == h && h !in list[..i] && r == list[..i] + list[i + 1..])
  {
    match FindIndex(list, (x: HandlerId) => x == h)
    case None => list
    case Some(i) =>
      assert forall x :: x in list[..i] ==> x != h;
      list[..i] + list[i + 1..]
  }

  /** `on(type, handler)`: the handler goes to the end of its type's list, which is created if missing. */
  function Subscribed(hs: Handlers, t: string, h: HandlerId): (r: Handlers)
    requires HandlersValid(hs)
    ensures HandlersValid(r)
    ensures Get(r, t) == Some(Get(hs, t).GetOr([]) + [h])
    ensures forall k :: k != t ==> Get(r, k) == Get(hs, k)
  {
    Put(hs, t, Get(hs, t).GetOr([]) + [h])
  }

  /** The unsubscriber `on` returns: one occurrence of the handler goes, and an emptied type is deleted. */
  function Unsubscribed(hs: Handlers, t: string, h: HandlerId): (r: Handlers)
    requires HandlersValid(hs)
    ensures HandlersValid(r)
    ensures forall k :: k != t ==> Get(r, k) == Get(hs, k)
    ensures t !in hs.vals ==> r == hs
    ensures t in hs.vals ==> Get(r, t) == (var rest := RemoveHandler(hs.vals[t], h); if rest == [] then None else Some(rest))
  {
    match Get(hs, t)
    case None => hs
    case Some(list) =>
      var rest := RemoveHandler(list, h);
      if rest == [] then Remove(hs, t) else Put(hs, t, rest)
  }

  lemma {:induction false} WithoutLast(keys: seq<string>, k: string)
    requires k !in keys
    ensures Without(keys + [k], k) == keys
  {
    if keys != [] {
      assert (keys + [k])[1..] == keys[1..] + [k];
      WithoutLast(keys[1..], k);
    }
  }

  lemma RemoveAppended(list: seq<HandlerId>, h: HandlerId)
    requires h !in list
    ensures RemoveHandler(list + [h], h) == list
  {
    var l := list + [h];
    var i :| 0 <= i < |l| && l[i] == h && h !in l[..i] && RemoveHandler(l, h) == l[..i] + l[i + 1..];
    assert l[..|list|] == list;
  }

  /** Unregistering a handler registered once undoes its registration, key order included. */
  lemma UnsubscribeUndoesSubscribe(hs: Handlers, t: string, h: HandlerId)
    requires HandlersValid(hs) && h !in Get(hs, t).GetOr([])
    ensures Unsubscribed(Subscribed(hs, t, h), t, h) == hs
  {
    var list := Get(hs, t).GetOr([]);
    RemoveAppended(list, h);
    if t in hs.vals {
      assert hs.vals[t := list] == hs.vals;
    } else {
      WithoutLast(hs.keys, t);
      assert hs.vals[t := [h]] - {t} == hs.vals;
    }
  }

  /** The handler occurs at most once in the list. */
  predicate AtMostOnce(list: seq<HandlerId>, h: HandlerId) {
    forall i, j :: 0 <= i < j < |list| && list[i] == h ==> list[j] != h
  }

  lemma RemoveOnlyOccurrence(list: seq<HandlerId>, h: HandlerId)
    requires AtMostOnce(list, h)
    ensures h !in RemoveHandler(list, h)
  {
    if h in list {
      var i :| 0 <= i < |list| && list[i] == h && h !in list[..i] && RemoveHandler(list, h) == list[..i] + list[i + 1..];
    }
  }

  /** Calling an unsubscriber a second time changes nothing, when the handler was registered once. */
  lemma UnsubscribeTwice(hs: Handlers, t: string, h: HandlerId)
    requires HandlersValid(hs) && AtMostOnce(Get(hs, t).GetOr([]), h)
    ensures Unsubscribed(Unsubscribed(hs, t, h), t, h) == Unsubscribed(hs, t, h)
  {
    var u := Unsubscribed(hs, t, h);
    if t in hs.vals && t in u.vals {
      RemoveOnlyOccurrence(hs.vals[t], h);
      assert u.vals[t := u.vals[t]] == u.vals;
    }
  }

  /** The handlers the constructor registers, one per type, numbered from `next`. */
  function RegisterAll(hs: Handlers, types: seq<string>, next: HandlerId): (r: Handlers)
    requires HandlersValid(hs)
    ensures HandlersValid(r)
    decreases |types|
  {
    if types == [] then hs else RegisterAll(Subscribed(hs, types[0], next), types[1..], next + 1)
  }

  /** The message types `registerEventHandlers` listens to. */
  const BuiltInTypes: seq<string> :=
    ["claude/event", "session/list", "session/current", "session/created", "system/ready", "system/error"]

  // ---------------------------------------------------------------------
  // Outgoing messages

  datatype Outgoing =
    | ChatSend(text: string, sessionId: Option<string>)
    | ChatInterrupt
    | SessionLoad(id: string)
    | SessionCreate
    | SessionList
    | PermissionResponse(toolUseId: string, result: Json)
    | UiReady

  /** A posted message with the sequence number `send` stamped on it. */
  datatype Envelope = Envelope(message: Outgoing, sequence: nat)

  /** The sequence numbers of the posted messages are 1, 2, 3, … in posting order. */
  predicate Numbered(posted: seq<Envelope>) {
    forall i :: 0 <= i < |posted| ==> posted[i].sequence == i + 1
  }

  /** The options `respondToPermission` spreads after `behavior`. */
  datatype PermissionOptions = PermissionOptions(updatedInput: Option<Json>, message: Option<string>, interrupt: Option<bool>)

  /** `{ behavior, ...options }`, with the options that are set. */
  function PermissionResult(allow: bool, o: PermissionOptions): Json {
    JObj([("behavior", JStr(if allow then "allow" else "deny"))]
      + (if o.updatedInput.Some? then [("updatedInput", o.updatedInput.value)] else [])
      + (if o.message.Some? then [("message", JStr(o.message.value))] else [])
      + (if o.interrupt.Some? then [("interrupt", JBool(o.interrupt.value))] else []))
  }

  /** `event.result?.behavior === 'allow'`. */
  predicate Allowed(result: Option<Json>) {
    result.Some? && StrField(result.value, "behavior") == Some("allow")
  }

  /** A decision carrying the result `respondToPermission` builds reads back as the answer given. */
  lemma PermissionResultRoundTrip(allow: bool, o: PermissionOptions)
    ensures Allowed(Some(PermissionResult(allow, o))) <==> allow
  {
    var fields := PermissionResult(allow, o).fields;
    assert fields[0] == ("behavior", JStr(if allow then "allow" else "deny"));
  }

  // ---------------------------------------------------------------------
  // The chat list and the streaming index

  /** `chatState.messages` and `chatState.streamingMessages`. */
  datatype Chat = Chat(messages: seq<ChatMessage>, streaming: OMap<string, nat>)

  /**
   * Every streaming entry points at a message of the list that is still
   * streaming, and no two entries point at the same message.
   */
  ghost predicate StreamingConsistent(c: Chat) {
    && OrderedMaps.Valid(c.streaming)
    && (forall k :: k in c.streaming.vals ==> c.streaming.vals[k] < |c.messages| && c.messages[c.streaming.vals[k]].streaming == Some(true))
    && (forall k1, k2 :: k1 in c.streaming.vals && k2 in c.streaming.vals && c.streaming.vals[k1] == c.streaming.vals[k2] ==> k1 == k2)
  }

  /** Appending messages keeps every streaming entry pointing where it did. */
  lemma PushConsistent(c: Chat, ms: seq<ChatMessage>)
    requires StreamingConsistent(c)
    ensures StreamingConsistent(Chat(c.messages + ms, c.streaming))
  {
    forall k | k in c.streaming.vals
      ensures (c.messages + ms)[c.streaming.vals[k]] == c.messages[c.streaming.vals[k]]
    {
    }
  }

  /** `sdkMessage.session_id || fallback`, for a string id. */
  function SessionIdOr(m: Json, fallback: string): string {
    if Set(StrField(m, "session_id")) then StrField(m, "session_id").value else fallback
  }

  /** The key stream deltas are indexed under. */
  function StreamKey(m: Json): string {
    SessionIdOr(m, "default")
  }

  /** The key a complete assistant message looks its stream up under. */
  function AssistantKey(m: Json): string {
    SessionIdOr(m, "")
  }

  /**
   * The two keys agree exactly when the SDK message carries a non-empty
   * session id: without one, deltas are filed under "default" and the
   * assistant message looks under "".
   */
  lemma KeysAgreeIffSessionId(m: Json)
    ensures StreamKey(m) == AssistantKey(m) <==> Set(StrField(m, "session_id"))
  {
  }

  /** The SDK message is present and has the given `type`. */
  predicate IsSdkOfType(message: Option<Json>, t: string) {
    message.Some? && StrField(message.value, "type") == Some(t)
  }

  /** A block that contributes its text: `block.type === 'text' && typeof block.text === 'string'`. */
  predicate IsTextBlock(b: Json) {
    HasType(b, "text") && StrField(b, "text").Some?
  }

  /** `textContent += block.text` over the text blocks, in order. */
  function TextOfBlocks(bs: seq<Json>): string {
    if bs == [] then ""
    else TextOfBlocks(bs[..|bs| - 1]) + (if IsTextBlock(bs[|bs| - 1]) then StrField(bs[|bs| - 1], "text").value else "")
  }

  /** `hasTextContent`: some block is a text block. */
  predicate HasTextBlock(bs: seq<Json>) {
    bs != [] && (HasTextBlock(bs[..|bs| - 1]) || IsTextBlock(bs[|bs| - 1]))
  }

  /** The concatenated text is non-empty only if some block is a text block. */
  lemma {:induction false} TextNeedsTextBlock(bs: seq<Json>)
    ensures TextOfBlocks(bs) != "" ==> HasTextBlock(bs)
  {
    if bs != [] {
      TextNeedsTextBlock(bs[..|bs| - 1]);
    }
  }

  const InterruptMarker: string := "[Request interrupted by"

  /** The user or system message `handleUserMessage` pushes for a text. */
  function UserTextMessage(sdk: Json, text: string, now: int): ChatMessage {
    var system := Contains(text, InterruptMarker);
    ChatMessage((if system then "system_" else "user_") + IntToString(now), Some(sdk),
      if system then SystemRole else UserRole, text, Some([TextBlock(text)]), now,
      Some(Sent), None, None, Some(SessionIdOr(sdk, "")), None, None)
  }

  /** The content `handleUserMessage` goes on with, once a missing, meta or empty message has returned early. */
  function UserContent(message: Option<Json>): (r: Option<Json>)
    ensures r.Some? ==> IsSdkOfType(message, "user") && Present(r)
  {
    if IsSdkOfType(message, "user") && !Present(Field(message.value, "isMeta")) && Present(MessageContent(message.value))
    then MessageContent(message.value)
    else None
  }

  /** A user message whose first block is a `tool_result` carries tool results and no text. */
  predicate StartsWithToolResult(bs: seq<Json>) {
    |bs| > 0 && HasType(bs[0], "tool_result")
  }

  /** The chat list after `handleUserMessage`. */
  function UserChat(c: Chat, message: Option<Json>, now: int): (r: Chat)
    ensures r.streaming == c.streaming
    ensures (match UserContent(message) case Some(JArr(bs)) => StartsWithToolResult(bs) case _ => false) ==> r == c
  {
    match UserContent(message)
    case Some(JStr(s)) => Chat(c.messages + [UserTextMessage(message.value, s, now)], c.streaming)
    case Some(JArr(bs)) =>
      if StartsWithToolResult(bs) then c
      else if Trim(TextOfBlocks(bs)) != "" then Chat(c.messages + [UserTextMessage(message.value, TextOfBlocks(bs), now)], c.streaming)
      else c
    case _ => c
  }

  /**
   * A user message adds at most one chat message: a string content as it
   * is, or the joined text of the blocks when it is not blank.
   */
  lemma UserChatAddsOne(c: Chat, message: Option<Json>, now: int)
    ensures var r := UserChat(c, message, now);
      r != c ==> message.Some? && exists text :: (r.messages == c.messages + [UserTextMessage(message.value, text, now)]
        && (Trim(text) != "" || UserContent(message) == Some(JStr(text))))
  {
  }

  /** A `tool_result` block with a tool-use id. */
  predicate IsToolResultBlock(b: Json) {
    HasType(b, "tool_result") && Set(StrField(b, "tool_use_id"))
  }

  function ResultToolUseId(b: Json): string
    requires IsToolResultBlock(b)
  {
    StrField(b, "tool_use_id").value
  }

  /** `{ content, is_error: Boolean(block.is_error), tool_use_id }`. */
  function ToolResultOf(b: Json): ToolResult
    requires IsToolResultBlock(b)
  {
    ToolResult(Field(b, "content"), Some(Present(Field(b, "is_error"))), ResultToolUseId(b))
  }

  /** One tool-result block: the result is stored, then the message's `toolUseResult` if the record exists. */
  function ApplyToolResult(t: Store.Table, b: Json, toolUseResult: Option<Json>): (r: Store.Table)
    requires OrderedMaps.Valid(t) && IsToolResultBlock(b)
    ensures OrderedMaps.Valid(r)
    ensures var e := Store.GetToolMessage(r, ResultToolUseId(b));
      e.Some? && e.value.toolResult == Some(ToolResultOf(b)) && (Present(toolUseResult) ==> e.value.toolUseResult == toolUseResult)
    ensures forall k :: k != ResultToolUseId(b) ==> Store.GetToolMessage(r, k) == Store.GetToolMessage(t, k)
  {
    var t1 := Store.SetToolResult(t, ToolResultOf(b)).table;
    if Present(toolUseResult) && Store.GetToolMessage(t1, ResultToolUseId(b)).Some?
    then Store.Upsert(t1, ResultToolUseId(b), ToolUseResultPatch(toolUseResult.value)).table
    else t1
  }

  /** The tool-result blocks applied in order. */
  function ToolResultsApplied(t: Store.Table, bs: seq<Json>, toolUseResult: Option<Json>): (r: Store.Table)
    requires OrderedMaps.Valid(t)
    ensures OrderedMaps.Valid(r)
  {
    if bs == [] then t
    else
      var t1 := ToolResultsApplied(t, bs[..|bs| - 1], toolUseResult);
      if IsToolResultBlock(bs[|bs| - 1]) then ApplyToolResult(t1, bs[|bs| - 1], toolUseResult) else t1
  }

  /** One more block applied to the tool-message table. */
  lemma ToolResultStep(t: Store.Table, bs: seq<Json>, i: nat, toolUseResult: Option<Json>)
    requires OrderedMaps.Valid(t) && i < |bs|
    ensures ToolResultsApplied(t, bs[..i + 1], toolUseResult)
      == if IsToolResultBlock(bs[i]) then ApplyToolResult(ToolResultsApplied(t, bs[..i], toolUseResult), bs[i], toolUseResult)
         else ToolResultsApplied(t, bs[..i], toolUseResult)
  {
    assert bs[..i + 1][..i] == bs[..i];
  }

  /** Some `tool_result` block names the tool use `k`. */
  predicate ResultFor(bs: seq<Json>, k: string) {
    bs != [] && (ResultFor(bs[..|bs| - 1], k) || (IsToolResultBlock(bs[|bs| - 1]) && ResultToolUseId(bs[|bs| - 1]) == k))
  }

  /**
   * Every tool use a `tool_result` block names ends up with a stored result
   * whose error flag is set, and with the message's `toolUseResult` when it
   * has one; no other record changes.
   */
  lemma {:induction false} ToolResultsRecorded(t: Store.Table, bs: seq<Json>, toolUseResult: Option<Json>, k: string)
    requires OrderedMaps.Valid(t)
    ensures var e := Store.GetToolMessage(ToolResultsApplied(t, bs, toolUseResult), k);
      && (ResultFor(bs, k) ==> (e.Some? && e.value.toolResult.Some? && e.value.toolResult.value.isError.Some?
        && (Present(toolUseResult) ==> e.value.toolUseResult == toolUseResult)))
      && (!ResultFor(bs, k) ==> e == Store.GetToolMessage(t, k))
  {
    if bs != [] {
      var init := bs[..|bs| - 1];
      var last := bs[|bs| - 1];
      ToolResultsRecorded(t, init, toolUseResult, k);
      var t1 := ToolResultsApplied(t, init, toolUseResult);
      if IsToolResultBlock(last) {
        assert ToolResultsApplied(t, bs, toolUseResult) == ApplyToolResult(t1, last, toolUseResult);
      } else {
        assert ToolResultsApplied(t, bs, toolUseResult) == t1;
      }
    }
  }



  /** The tool-message table after `handleUserMessage`. */
  function UserTools(t: Store.Table, message: Option<Json>): Store.Table
    requires OrderedMaps.Valid(t)
  {
    match UserContent(message)
    case Some(JArr(bs)) =>
      if StartsWithToolResult(bs) then ToolResultsApplied(t, bs, Field(message.value, "toolUseResult")) else t
    case _ => t
  }

  /** A `tool_use` block with an id and a name. */
  predicate IsToolUseBlock(b: Json) {
    HasType(b, "tool_use") && Set(StrField(b, "id")) && Set(StrField(b, "name"))
  }

  /** `{ id, name, input }` of a tool-use block. */
  function ToolUseOf(b: Json): ToolUse
    requires IsToolUseBlock(b)
  {
    ToolUse(StrField(b, "id").value, StrField(b, "name").value, Field(b, "input"))
  }

  /** The chat message `createToolMessage` pushes. */
  function ToolChatMessage(b: Json, sdk: Json, now: int): ChatMessage
    requires IsToolUseBlock(b)
  {
    var tu := ToolUseOf(b);
    ChatMessage("tool_" + tu.id, Some(sdk), AssistantRole, "使用工具: " + tu.name,
      Some([ToolUseBlock(tu.id, tu.name, tu.input)]), now, Some(Sent), None, None,
      Some(SessionIdOr(sdk, "")), None, Some("tool_use"))
  }

  /** One tool message per tool-use block, in block order. */
  function ToolChatMessages(bs: seq<Json>, sdk: Json, now: int): (r: seq<ChatMessage>)
    ensures forall m :: m in r ==> m.kind == Some("tool_use") && m.role == AssistantRole && m.status == Some(Sent)
    ensures |r| <= |bs|
  {
    if bs == [] then []
    else
      var last := bs[|bs| - 1];
      ToolChatMessages(bs[..|bs| - 1], sdk, now) + (if IsToolUseBlock(last) then [ToolChatMessage(last, sdk, now)] else [])
  }

  /** The tool-use blocks stored in the tool-message table, in block order. */
  function ToolUsesApplied(t: Store.Table, bs: seq<Json>): (r: Store.Table)
    requires OrderedMaps.Valid(t)
    ensures OrderedMaps.Valid(r)
  {
    if bs == [] then t
    else
      var t1 := ToolUsesApplied(t, bs[..|bs| - 1]);
      if IsToolUseBlock(bs[|bs| - 1]) then Store.SetToolUse(t1, ToolUseOf(bs[|bs| - 1])).table else t1
  }

  /** Some tool-use block has the id `k`. */
  predicate UseFor(bs: seq<Json>, k: string) {
    bs != [] && (UseFor(bs[..|bs| - 1], k) || (IsToolUseBlock(bs[|bs| - 1]) && ToolUseOf(bs[|bs| - 1]).id == k))
  }

  /** Every tool-use block's id ends up with a record holding a tool use; no other record changes. */
  lemma {:induction false} ToolUsesRecorded(t: Store.Table, bs: seq<Json>, k: string)
    requires OrderedMaps.Valid(t)
    ensures var e := Store.GetToolMessage(ToolUsesApplied(t, bs), k);
      && (UseFor(bs, k) ==> e.Some? && e.value.toolUse.Some? && e.value.toolUse.value.id == k)
      && (!UseFor(bs, k) ==> e == Store.GetToolMessage(t, k))
  {
    if bs != [] {
      var init := bs[..|bs| - 1];
      var last := bs[|bs| - 1];
      ToolUsesRecorded(t, init, k);
      var t1 := ToolUsesApplied(t, init);
      if IsToolUseBlock(last) {
        assert ToolUsesApplied(t, bs) == Store.SetToolUse(t1, ToolUseOf(last)).table;
      } else {
        assert ToolUsesApplied(t, bs) == t1;
      }
    }
  }



  /** One more block of an assistant message: what it adds to the text and to the tool messages. */
  lemma AssistantBlockStep(bs: seq<Json>, i: nat, sdk: Json, now: int)
    requires i < |bs|
    ensures TextOfBlocks(bs[..i + 1]) == TextOfBlocks(bs[..i]) + (if IsTextBlock(bs[i]) then StrField(bs[i], "text").value else "")
    ensures HasTextBlock(bs[..i + 1]) == (HasTextBlock(bs[..i]) || IsTextBlock(bs[i]))
    ensures ToolChatMessages(bs[..i + 1], sdk, now)
      == ToolChatMessages(bs[..i], sdk, now) + (if IsToolUseBlock(bs[i]) then [ToolChatMessage(bs[i], sdk, now)] else [])
  {
    assert bs[..i + 1][..i] == bs[..i];
  }

  /** One more block applied to the tool-message table. */
  lemma ToolUseStep(t: Store.Table, bs: seq<Json>, i: nat)
    requires OrderedMaps.Valid(t) && i < |bs|
    ensures ToolUsesApplied(t, bs[..i + 1])
      == if IsToolUseBlock(bs[i]) then Store.SetToolUse(ToolUsesApplied(t, bs[..i]), ToolUseOf(bs[i])).table else ToolUsesApplied(t, bs[..i])
  {
    assert bs[..i + 1][..i] == bs[..i];
  }

  /** The blocks of an assistant message whose content is an array. */
  function AssistantBlocks(message: Option<Json>): Option<seq<Json>> {
    if IsSdkOfType(message, "assistant") then
      match MessageContent(message.value)
      case Some(JArr(bs)) => Some(bs)
      case _ => None
    else None
  }

  /** The streamed message, now complete: the full text replaces the deltas. */
  function Finalized(m: ChatMessage, text: string, sdk: Json): ChatMessage {
    m.(content := text, contentBlocks := Some([TextBlock(text)]), streaming := Some(false),
      status := Some(Completed), sdkMessage := Some(sdk))
  }

  /** The completed assistant message pushed when nothing was streamed under the key. */
  function AssistantTextMessage(sdk: Json, text: string, now: int): ChatMessage {
    ChatMessage("assistant_" + IntToString(now), Some(sdk), AssistantRole, text, Some([TextBlock(text)]), now,
      Some(Completed), Some(false), None, Some(AssistantKey(sdk)), None, None)
  }

  /** The text part of `handleAssistantMessage`, on the list the tool messages were pushed to. */
  function FinishAssistantText(c: Chat, sdk: Json, text: string, hasText: bool, now: int): Chat
    requires OrderedMaps.Valid(c.streaming)
  {
    if !(hasText && Trim(text) != "") then c
    else
      match Get(c.streaming, AssistantKey(sdk))
      case Some(i) =>
        if i < |c.messages| then Chat(c.messages[i := Finalized(c.messages[i], text, sdk)], Remove(c.streaming, AssistantKey(sdk)))
        else c
      case None => Chat(c.messages + [AssistantTextMessage(sdk, text, now)], c.streaming)
  }

  /** The chat list after `handleAssistantMessage`. */
  function AssistantChat(c: Chat, message: Option<Json>, now: int): Chat
    requires OrderedMaps.Valid(c.streaming)
  {
    match AssistantBlocks(message)
    case None => c
    case Some(bs) =>
      FinishAssistantText(Chat(c.messages + ToolChatMessages(bs, message.value, now), c.streaming),
        message.value, TextOfBlocks(bs), HasTextBlock(bs), now)
  }

  /** The tool-message table after `handleAssistantMessage`. */
  function AssistantTools(t: Store.Table, message: Option<Json>): Store.Table
    requires OrderedMaps.Valid(t)
  {
    match AssistantBlocks(message)
    case None => t
    case Some(bs) => ToolUsesApplied(t, bs)
  }

  /** Overwriting the message of a streaming entry while removing that entry keeps the rest consistent. */
  lemma ReplaceClosedConsistent(c: Chat, key: string, x: ChatMessage)
    requires StreamingConsistent(c) && key in c.streaming.vals
    ensures var i := c.streaming.vals[key];
      StreamingConsistent(Chat(c.messages[i := x], Remove(c.streaming, key)))
  {
    var i := c.streaming.vals[key];
    var r := Chat(c.messages[i := x], Remove(c.streaming, key));
    forall k | k in r.streaming.vals
      ensures r.streaming.vals[k] < |r.messages| && r.messages[r.streaming.vals[k]].streaming == Some(true)
    {
      assert k != key && c.streaming.vals[k] != i;
    }
  }

  /** Finishing a stream or appending a message keeps the streaming entries consistent. */
  lemma FinishConsistent(c: Chat, sdk: Json, text: string, hasText: bool, now: int)
    requires StreamingConsistent(c)
    ensures StreamingConsistent(FinishAssistantText(c, sdk, text, hasText, now))
  {
    var key := AssistantKey(sdk);
    if hasText && Trim(text) != "" {
      if key in c.streaming.vals {
        var i := c.streaming.vals[key];
        ReplaceClosedConsistent(c, key, Finalized(c.messages[i], text, sdk));
      } else {
        PushConsistent(c, [AssistantTextMessage(sdk, text, now)]);
      }
    }
  }

  lemma AssistantConsistent(c: Chat, message: Option<Json>, now: int)
    requires StreamingConsistent(c)
    ensures StreamingConsistent(AssistantChat(c, message, now))
  {
    if AssistantBlocks(message).Some? {
      var bs := AssistantBlocks(message).value;
      var c1 := Chat(c.messages + ToolChatMessages(bs, message.value, now), c.streaming);
      PushConsistent(c, ToolChatMessages(bs, message.value, now));
      FinishConsistent(c1, message.value, TextOfBlocks(bs), HasTextBlock(bs), now);
    }
  }

  /** `lastBlock.text += deltaText` when the last block is a text block with a text. */
  function AppendToLastText(blocks: Option<seq<Block>>, delta: string): Option<seq<Block>> {
    match blocks
    case Some(bs) =>
      if |bs| > 0 && bs[|bs| - 1].kind == "text" && bs[|bs| - 1].text.Some?
      then Some(bs[|bs| - 1 := bs[|bs| - 1].(text := Some(bs[|bs| - 1].text.value + delta))])
      else blocks
    case None => None
  }

  lemma AppendToSingleText(t: string, delta: string)
    ensures AppendToLastText(Some([TextBlock(t)]), delta) == Some([TextBlock(t + delta)])
  {
    var bs := [TextBlock(t)];
    assert bs[0 := bs[0].(text := Some(t + delta))] == [TextBlock(t + delta)];
  }

  /** The streamed message with one more delta. */
  function WithDelta(m: ChatMessage, delta: string): ChatMessage {
    m.(content := m.content + delta, contentBlocks := AppendToLastText(m.contentBlocks, delta))
  }

  /** The message the first delta of a stream creates. */
  function StreamDeltaMessage(sdk: Json, delta: string, now: int): ChatMessage {
    var parent := StrField(sdk, "parent_tool_use_id");
    ChatMessage("stream_" + IntToString(now), Some(sdk), AssistantRole, delta, Some([TextBlock(delta)]), now,
      Some(StreamingStatus), Some(true), Some(NoMetadata.(parentToolUseId := if Set(parent) then parent else None)),
      StrField(sdk, "session_id"), None, None)
  }

  /** The chat list after `handleStreamEvent`. */
  function StreamChat(c: Chat, message: Option<Json>, now: int): Chat
    requires OrderedMaps.Valid(c.streaming)
  {
    if !IsSdkOfType(message, "stream_event") then c
    else
      var sdk := message.value;
      var delta := ExtractTextContent(sdk);
      if delta == "" then c
      else
        match Get(c.streaming, StreamKey(sdk))
        case Some(i) =>
          if i < |c.messages| then Chat(c.messages[i := WithDelta(c.messages[i], delta)], c.streaming) else c
        case None =>
          Chat(c.messages + [StreamDeltaMessage(sdk, delta, now)], Put(c.streaming, StreamKey(sdk), |c.messages|))
  }

  lemma StreamConsistent(c: Chat, message: Option<Json>, now: int)
    requires StreamingConsistent(c)
    ensures StreamingConsistent(StreamChat(c, message, now))
  {
    if IsSdkOfType(message, "stream_event") && ExtractTextContent(message.value) != ""
      && StreamKey(message.value) !in c.streaming.vals
    {
      var r := StreamChat(c, message, now);
      forall k | k in r.streaming.vals
        ensures r.streaming.vals[k] < |r.messages| && r.messages[r.streaming.vals[k]].streaming == Some(true)
      {
        if k != StreamKey(message.value) {
          assert r.messages[c.streaming.vals[k]] == c.messages[c.streaming.vals[k]];
        }
      }
    }
  }

  /**
   * Deltas accumulate: the first delta of a session creates one streaming
   * message at the end of the list, and the next delta under the same key
   * extends that message's content and text block, adding nothing.
   */
  lemma StreamDeltasAccumulate(c: Chat, m1: Json, m2: Json, n1: int, n2: int)
    requires StreamingConsistent(c)
    requires IsSdkOfType(Some(m1), "stream_event") && IsSdkOfType(Some(m2), "stream_event")
    requires StreamKey(m1) == StreamKey(m2) && StreamKey(m1) !in c.streaming.vals
    requires ExtractTextContent(m1) != "" && ExtractTextContent(m2) != ""
    ensures var r := StreamChat(StreamChat(c, Some(m1), n1), Some(m2), n2);
      var d := ExtractTextContent(m1) + ExtractTextContent(m2);
      && |r.messages| == |c.messages| + 1
      && r.messages[..|c.messages|] == c.messages
      && r.messages[|c.messages|].content == d
      && r.messages[|c.messages|].contentBlocks == Some([TextBlock(d)])
      && r.messages[|c.messages|].streaming == Some(true)
      && Get(r.streaming, StreamKey(m1)) == Some(|c.messages|)
  {
    var d1 := ExtractTextContent(m1);
    var d2 := ExtractTextContent(m2);
    var first := StreamDeltaMessage(m1, d1, n1);
    var c1 := Chat(c.messages + [first], Put(c.streaming, StreamKey(m1), |c.messages|));
    StreamStarts(c, m1, n1);
    StreamExtends(c1, m2, n2, |c.messages|);
    assert c1.messages[|c.messages|] == first;
    assert first.contentBlocks == Some([TextBlock(d1)]);
    AppendToSingleText(d1, d2);
  }

  /** The first delta under a key pushes a streaming message and files its index. */
  lemma StreamStarts(c: Chat, m: Json, now: int)
    requires OrderedMaps.Valid(c.streaming)
    requires IsSdkOfType(Some(m), "stream_event") && ExtractTextContent(m) != "" && StreamKey(m) !in c.streaming.vals
    ensures StreamChat(c, Some(m), now)
      == Chat(c.messages + [StreamDeltaMessage(m, ExtractTextContent(m), now)], Put(c.streaming, StreamKey(m), |c.messages|))
  {
  }

  /** A later delta under a filed key extends the filed message in place. */
  lemma StreamExtends(c: Chat, m: Json, now: int, i: nat)
    requires OrderedMaps.Valid(c.streaming)
    requires IsSdkOfType(Some(m), "stream_event") && ExtractTextContent(m) != ""
    requires Get(c.streaming, StreamKey(m)) == Some(i) && i < |c.messages|
    ensures StreamChat(c, Some(m), now) == Chat(c.messages[i := WithDelta(c.messages[i], ExtractTextContent(m))], c.streaming)
  {
  }

  /**
   * A complete assistant message with text, arriving under the key its
   * stream was filed under, turns the streamed message into the completed
   * one in place and ends the stream; its tool messages follow the list.
   */
  lemma AssistantCompletesStream(c: Chat, message: Option<Json>, now: int)
    requires StreamingConsistent(c)
    requires AssistantBlocks(message).Some? && AssistantKey(message.value) in c.streaming.vals
    requires Trim(TextOfBlocks(AssistantBlocks(message).value)) != ""
    ensures var bs := AssistantBlocks(message).value;
      var i := c.streaming.vals[AssistantKey(message.value)];
      var r := AssistantChat(c, message, now);
      && |r.messages| == |c.messages| + |ToolChatMessages(bs, message.value, now)|
      && r.messages[i].content == TextOfBlocks(bs)
      && r.messages[i].status == Some(Completed) && r.messages[i].streaming == Some(false)
      && AssistantKey(message.value) !in r.streaming.vals
      && (forall j :: 0 <= j < |c.messages| && j != i ==> r.messages[j] == c.messages[j])
  {
    var bs := AssistantBlocks(message).value;
    var sdk := message.value;
    TextNeedsTextBlock(bs);
    var key := AssistantKey(sdk);
    var i := c.streaming.vals[key];
    var c1 := Chat(c.messages + ToolChatMessages(bs, sdk, now), c.streaming);
    AssistantChatOf(c, message, now);
    FinishFiled(c1, sdk, TextOfBlocks(bs), now);
    var msgs := c1.messages[i := Finalized(c1.messages[i], TextOfBlocks(bs), sdk)];
    assert AssistantChat(c, message, now) == Chat(msgs, Remove(c.streaming, key));
    FinalizeAt(c.messages, ToolChatMessages(bs, sdk, now), i, TextOfBlocks(bs), sdk);
  }

  /** Finalising one message of the list leaves the others and the length as they were. */
  lemma FinalizeAt(ms: seq<ChatMessage>, extra: seq<ChatMessage>, i: nat, text: string, sdk: Json)
    requires i < |ms|
    ensures var all := ms + extra;
      var r := all[i := Finalized(all[i], text, sdk)];
      && |r| == |ms| + |extra|
      && r[i].content == text && r[i].status == Some(Completed) && r[i].streaming == Some(false)
      && (forall j :: 0 <= j < |ms| && j != i ==> r[j] == ms[j])
  {
  }

  lemma AssistantChatOf(c: Chat, message: Option<Json>, now: int)
    requires OrderedMaps.Valid(c.streaming) && AssistantBlocks(message).Some?
    ensures var bs := AssistantBlocks(message).value;
      AssistantChat(c, message, now) == FinishAssistantText(Chat(c.messages + ToolChatMessages(bs, message.value, now), c.streaming),
        message.value, TextOfBlocks(bs), HasTextBlock(bs), now)
  {
  }

  /** With text and a filed stream, the filed message is finalised and the key deleted. */
  lemma FinishFiled(c: Chat, sdk: Json, text: string, now: int)
    requires OrderedMaps.Valid(c.streaming)
    requires Trim(text) != "" && AssistantKey(sdk) in c.streaming.vals && c.streaming.vals[AssistantKey(sdk)] < |c.messages|
    ensures var i := c.streaming.vals[AssistantKey(sdk)];
      FinishAssistantText(c, sdk, text, true, now)
        == Chat(c.messages[i := Finalized(c.messages[i], text, sdk)], Remove(c.streaming, AssistantKey(sdk)))
  {
  }

  /** With text and no filed stream, one completed message is appended. */
  lemma FinishUnfiled(c: Chat, sdk: Json, text: string, now: int)
    requires OrderedMaps.Valid(c.streaming)
    requires Trim(text) != "" && AssistantKey(sdk) !in c.streaming.vals
    ensures FinishAssistantText(c, sdk, text, true, now) == Chat(c.messages + [AssistantTextMessage(sdk, text, now)], c.streaming)
  {
  }

  /**
   * Without a session id the stream is filed under "default" and the
   * assistant message looks under "": the streamed message stays streaming
   * and the text is appended as a second, completed message.
   */
  lemma NoSessionIdLeavesStreamOpen(c: Chat, s: Json, message: Option<Json>, n1: int, n2: int)
    requires StreamingConsistent(c) && c.streaming.vals == map[]
    requires IsSdkOfType(Some(s), "stream_event") && ExtractTextContent(s) != "" && !Set(StrField(s, "session_id"))
    requires AssistantBlocks(message).Some? && !Set(StrField(message.value, "session_id"))
    requires Trim(TextOfBlocks(AssistantBlocks(message).value)) != ""
    ensures var bs := AssistantBlocks(message).value;
      var r := AssistantChat(StreamChat(c, Some(s), n1), message, n2);
      && |r.messages| == |c.messages| + 2 + |ToolChatMessages(bs, message.value, n2)|
      && r.messages[|c.messages|].streaming == Some(true)
      && r.messages[|r.messages| - 1] == AssistantTextMessage(message.value, TextOfBlocks(bs), n2)
      && Get(r.streaming, "default") == Some(|c.messages|)
  {
    var bs := AssistantBlocks(message).value;
    StreamStarts(c, s, n1);
    var first := StreamDeltaMessage(s, ExtractTextContent(s), n1);
    var c1 := StreamChat(c, Some(s), n1);
    assert c1.streaming.vals == map["default" := |c.messages|];
    UnfiledAssistant(c1, message, n2);
    AppendedShape(c.messages, first, ToolChatMessages(bs, message.value, n2), AssistantTextMessage(message.value, TextOfBlocks(bs), n2));
  }

  /** An assistant message with text and no stream filed under its key appends its tool messages, then its text. */
  lemma UnfiledAssistant(c: Chat, message: Option<Json>, now: int)
    requires OrderedMaps.Valid(c.streaming) && AssistantBlocks(message).Some?
    requires AssistantKey(message.value) !in c.streaming.vals
    requires Trim(TextOfBlocks(AssistantBlocks(message).value)) != ""
    ensures var bs := AssistantBlocks(message).value;
      && AssistantChat(c, message, now).messages
        == c.messages + ToolChatMessages(bs, message.value, now) + [AssistantTextMessage(message.value, TextOfBlocks(bs), now)]
      && AssistantChat(c, message, now).streaming == c.streaming
  {
    var bs := AssistantBlocks(message).value;
    TextNeedsTextBlock(bs);
    AssistantChatOf(c, message, now);
    FinishUnfiled(Chat(c.messages + ToolChatMessages(bs, message.value, now), c.streaming), message.value, TextOfBlocks(bs), now);
  }

  lemma AppendedShape<T>(ms: seq<T>, x: T, ys: seq<T>, z: T)
    ensures var all := ms + [x] + ys + [z];
      |all| == |ms| + 2 + |ys| && all[|ms|] == x && all[|all| - 1] == z
  {
  }

  lemma UserConsistent(c: Chat, message: Option<Json>, now: int)
    requires StreamingConsistent(c)
    ensures StreamingConsistent(UserChat(c, message, now))
  {
    var r := UserChat(c, message, now);
    UserChatAddsOne(c, message, now);
    if r != c {
      PushConsistent(c, [r.messages[|c.messages|]]);
    }
  }

  /** The error message `handleError` pushes. */
  function ErrorMessage(message: string, now: int): (m: ChatMessage)
    ensures m.role == ErrorRole && m.status == Some(Failed) && m.content == "错误: " + message
  {
    var content := "错误: " + message;
    ChatMessage("error_" + IntToString(now), None, ErrorRole, content, Some([TextBlock(content)]), now,
      Some(Failed), None, Some(NoMetadata.(error := Some(message))), None, None, None)
  }

  // ---------------------------------------------------------------------
  // Pending permission requests and the message queue

  /** `pendingRequests.findIndex(r => r.toolUseId === id)` and `splice(index, 1)`. */
  function PermissionAnswered(pending: seq<PermissionRequest>, toolUseId: string): (r: seq<PermissionRequest>)
    ensures (forall i :: 0 <= i < |pending| ==> pending[i].toolUseId != toolUseId) ==> r == pending
    ensures (exists i :: 0 <= i < |pending| && pending[i].toolUseId == toolUseId) ==>
      exists i :: (0 <= i < |pending| && pending[i].toolUseId == toolUseId
        && (forall j :: 0 <= j < i ==> pending[j].toolUseId != toolUseId)
        && r == pending[..i] + pending[i + 1..])
  {
    RemoveFirst(pending, (q: PermissionRequest) => q.toolUseId == toolUseId)
  }

  /**
   * Only the oldest request for the tool use goes: of two requests for the
   * same tool use, answering once leaves the later one pending.
   */
  lemma AnswerRemovesOldestOnly(pending: seq<PermissionRequest>, a: PermissionRequest, b: PermissionRequest)
    requires a.toolUseId == b.toolUseId && forall i :: 0 <= i < |pending| ==> pending[i].toolUseId != a.toolUseId
    ensures PermissionAnswered(pending + [a, b], a.toolUseId) == pending + [b]
  {
    var l := pending + [a, b];
    assert l[|pending|] == a;
    var i :| 0 <= i < |l| && l[i].toolUseId == a.toolUseId
      && (forall j :: 0 <= j < i ==> l[j].toolUseId != a.toolUseId)
      && PermissionAnswered(l, a.toolUseId) == l[..i] + l[i + 1..];
    assert i == |pending|;
    assert l[..i] == pending && l[i + 1..] == [b];
  }

  /** `queuedMessages.findIndex(m => m.id === id)` and `splice(index, 1)`. */
  function QueueWithout(queue: seq<QueuedMessage>, id: string): (r: seq<QueuedMessage>)
    ensures (forall i :: 0 <= i < |queue| ==> queue[i].id != id) ==> r == queue
    ensures (exists i :: 0 <= i < |queue| && queue[i].id == id) ==> |r| == |queue| - 1
  {
    RemoveFirst(queue, (m: QueuedMessage) => m.id == id)
  }

  /** Removing the id of a message just queued, when no earlier one has it, gives back the queue. */
  lemma QueueAddThenRemove(queue: seq<QueuedMessage>, m: QueuedMessage)
    requires forall i :: 0 <= i < |queue| ==> queue[i].id != m.id
    ensures QueueWithout(queue + [m], m.id) == queue
  {
    var l := queue + [m];
    assert l[|queue|] == m;
    assert FindIndex(l, (x: QueuedMessage) => x.id == m.id) == Some(|queue|);
    assert l[..|queue|] == queue;
  }

  /** The request id `sendChatMessage` returns: the clock, then a random suffix. */
  function RequestId(now: int, nonce: string): string {
    "chat_" + IntToString(now) + "_" + nonce
  }
}

=== FILE: cancellation.dfy ===
/**
 * Cancellation tokens and their source (src/services/common/cancellation.ts).
 * A listener is represented by an identifier; calling it appends the
 * identifier to `notified`. A call that the source defers with
 * `setTimeout(..., 0)` is appended to `scheduled` instead: it runs later, on
 * an empty stack.
 */
module Cancellation {

  type ListenerId = nat

  /** The two frozen tokens `CancellationToken.None` and `CancellationToken.Cancelled`. */
  datatype StaticToken = NoneToken | CancelledToken

  function IsCancellationRequested(t: StaticToken): bool {
    t.CancelledToken?
  }

  /**
   * `onCancellationRequested(listener)` on a static token: the listeners it
   * schedules. `None` drops the listener, `Cancelled` schedules it at once.
   */
  function StaticRegister(t: StaticToken, listener: ListenerId): (scheduled: seq<ListenerId>)
    ensures scheduled == [] <==> !IsCancellationRequested(t)
    ensures scheduled != [] ==> scheduled == [listener]
  {
    match t
    case NoneToken => []
    case CancelledToken => [listener]
  }

  /** The token object a source hands out; `cancel` flips its flag in place. */
  class Token {
    var isCancellationRequested: bool

    constructor(cancelled: bool)
      ensures isCancellationRequested == cancelled
    {
      isCancellationRequested := cancelled;
    }
  }

  class CancellationTokenSource {
    var token: Token?
    var hasParentListener: bool
    var isCancelled: bool
    var listeners: seq<ListenerId>
    /** Listener calls made synchronously by `cancel`, in order. */
    var notified: seq<ListenerId>
    /** Listener calls deferred through `setTimeout`. */
    var scheduled: seq<ListenerId>
    /** Every listener registered before cancellation, in registration order. */
    ghost var registered: seq<ListenerId>

    /**
     * Before cancellation every registered listener is waiting and none has
     * been called; afterwards each was called exactly once, in order, and
     * none waits. A created token mirrors the flag.
     */
    ghost predicate Valid()
      reads this, token
    {
      && (!isCancelled ==> listeners == registered && notified == [])
      && (isCancelled ==> listeners == [] && notified == registered)
      && (token != null ==> token.isCancellationRequested == isCancelled)
    }

    /**
     * `new CancellationTokenSource(parent)`: a parent token gets a listener
     * that cancels this source (the parent firing is `Cancel` below).
     */
    constructor(hasParent: bool)
      ensures Valid()
      ensures token == null && hasParentListener == hasParent && !isCancelled
      ensures listeners == [] && notified == [] && scheduled == [] && registered == []
    {
      token := null;
      hasParentListener := hasParent;
      isCancelled := false;
      listeners := [];
      notified := [];
      scheduled := [];
      registered := [];
    }

    /** The `token` getter: created on first use, the same object on every later use. */
    method GetToken() returns (t: Token)
      requires Valid()
      modifies this
      ensures Valid()
      ensures old(token) != null ==> t == old(token)
      ensures old(token) == null ==> fresh(t)
      ensures token == t && t.isCancellationRequested == isCancelled
      ensures isCancelled == old(isCancelled) && listeners == old(listeners)
      ensures notified == old(notified) && scheduled == old(scheduled) && registered == old(registered)
      ensures hasParentListener == old(hasParentListener)
    {
      if token == null {
        token := new Token(isCancelled);
      }
      t := token;
    }

    /**
     * The token's `onCancellationRequested(listener)`: once cancelled the
     * call is scheduled; before that the listener joins the list.
     */
    method OnCancellationRequested(listener: ListenerId)
      requires Valid()
      modifies this
      ensures Valid()
      ensures old(isCancelled) ==> listeners == old(listeners) && scheduled == old(scheduled) + [listener] && registered == old(registered)
      ensures !old(isCancelled) ==> listeners == old(listeners) + [listener] && scheduled == old(scheduled) && registered == old(registered) + [listener]
      ensures isCancelled == old(isCancelled) && token == old(token) && notified == old(notified)
      ensures hasParentListener == old(hasParentListener)
    {
      if isCancelled {
        scheduled := scheduled + [listener];
      } else {
        listeners := listeners + [listener];
        registered := registered + [listener];
      }
    }

    /**
     * `cancel()`: the first call sets the flag (also on a created token) and
     * calls the waiting listeners in registration order, then empties the
     * list; later calls change nothing.
     */
    method Cancel()
      requires Valid()
      modifies this, token
      ensures Valid()
      ensures isCancelled && listeners == []
      ensures token == old(token) && (token != null ==> token.isCancellationRequested)
      ensures old(isCancelled) ==> notified == old(notified)
      ensures !old(isCancelled) ==> notified == old(notified) + old(listeners)
      ensures notified == registered && registered == old(registered)
      ensures scheduled == old(scheduled) && hasParentListener == old(hasParentListener)
    {
      if !isCancelled {
        isCancelled := true;
        if token != null {
          token.isCancellationRequested := true;
        }
        var i := 0;
        while i < |listeners|
          invariant 0 <= i <= |listeners|
          invariant listeners == old(listeners) && token == old(token)
          invariant notified == old(notified) + listeners[..i]
          invariant token != null ==> token.isCancellationRequested
          invariant isCancelled && registered == old(registered) && scheduled == old(scheduled)
          invariant hasParentListener == old(hasParentListener)
        {
          notified := notified + [listeners[i]];
          i := i + 1;
        }
        assert listeners[..i] == listeners;
        listeners := [];
      }
    }

    /** `dispose()`: cancels, then lets go of the parent listener. */
    method Dispose()
      requires Valid()
      modifies this, token
      ensures Valid()
      ensures isCancelled && listeners == [] && !hasParentListener
      ensures token == old(token) && (token != null ==> token.isCancellationRequested)
      ensures !old(isCancelled) ==> notified == old(notified) + old(listeners)
      ensures old(isCancelled) ==> notified == old(notified)
      ensures scheduled == old(scheduled)
    {
      Cancel();
      hasParentListener := false;
    }
  }
}

=== FILE: chat_messages.dfy ===
/**
 * The chat-list entries the webview renders (`ChatMessage`), their parsed
 * content blocks, and the request in flight. An SDK message is kept as the
 * untyped value it is on the wire.
 */
module ChatMessages {
  import opened Wrappers
  import opened Json

  datatype Role = UserRole | AssistantRole | SystemRole | ErrorRole

  datatype Status = Sending | Sent | StreamingStatus | Completed | Failed

  /** A parsed content block: `type` is "text", "tool_use" or "tool_result". */
  datatype Block = Block(
    kind: string,
    text: Option<string>,
    id: Option<string>,
    name: Option<string>,
    input: Option<Json>,
    content: Option<Json>,
    toolUseId: Option<string>,
    isError: Option<bool>)

  function TextBlock(t: string): (b: Block)
    ensures b.kind == "text" && b.text == Some(t)
  {
    Block("text", Some(t), None, None, None, None, None, None)
  }

  function ToolUseBlock(id: string, name: string, input: Option<Json>): (b: Block)
    ensures b.kind == "tool_use" && b.id == Some(id) && b.name == Some(name) && b.input == input
  {
    Block("tool_use", None, Some(id), Some(name), input, None, None, None)
  }

  datatype Metadata = Metadata(
    toolName: Option<string>,
    toolUseId: Option<string>,
    parentToolUseId: Option<string>,
    error: Option<string>,
    correlationId: Option<string>)

  const NoMetadata: Metadata := Metadata(None, None, None, None, None)

  datatype ChatMessage = ChatMessage(
    id: string,
    sdkMessage: Option<Json>,
    role: Role,
    content: string,
    contentBlocks: Option<seq<Block>>,
    timestamp: int,
    status: Option<Status>,
    streaming: Option<bool>,
    metadata: Option<Metadata>,
    sessionId: Option<string>,
    requestId: Option<string>,
    kind: Option<string>)

  /** A `Partial<ChatMessage>` object literal: `None` is a key it does not have. */
  datatype ChatPatch = ChatPatch(
    id: Option<string>,
    sdkMessage: Option<Json>,
    role: Option<Role>,
    content: Option<string>,
    contentBlocks: Option<seq<Block>>,
    timestamp: Option<int>,
    status: Option<Status>,
    streaming: Option<bool>,
    metadata: Option<Metadata>,
    sessionId: Option<string>,
    requestId: Option<string>,
    kind: Option<string>)

  /** `{ ...m, ...p }`. */
  function MergeChat(m: ChatMessage, p: ChatPatch): ChatMessage {
    ChatMessage(
      p.id.GetOr(m.id),
      p.sdkMessage.OrElse(m.sdkMessage),
      p.role.GetOr(m.role),
      p.content.GetOr(m.content),
      p.contentBlocks.OrElse(m.contentBlocks),
      p.timestamp.GetOr(m.timestamp),
      p.status.OrElse(m.status),
      p.streaming.OrElse(m.streaming),
      p.metadata.OrElse(m.metadata),
      p.sessionId.OrElse(m.sessionId),
      p.requestId.OrElse(m.requestId),
      p.kind.OrElse(m.kind))
  }

  datatype RequestStatus = RequestSending | Thinking | Generating | UsingTool

  /** `chatState.currentRequest` when it is not null. */
  datatype CurrentRequest = CurrentRequest(id: string, status: RequestStatus, startTime: int)
}

=== FILE: chat_store.dfy ===
/**
 * The zustand chat store: the message list, the request in flight, and the
 * map from session id to the index of the message being streamed. Every
 * action returns a new state in which only the fields it names differ.
 */
module ChatStore {
  import opened Wrappers
  import opened OrderedMaps
  import opened ChatMessages

  datatype ChatStoreState = ChatStoreState(
    messages: seq<ChatMessage>,
    currentRequest: Option<CurrentRequest>,
    streamingMessages: OMap<string, int>)

  ghost predicate Valid(s: ChatStoreState) {
    OrderedMaps.Valid(s.streamingMessages)
  }

  function Initial(): (s: ChatStoreState)
    ensures Valid(s) && s.messages == [] && s.currentRequest.None? && Size(s.streamingMessages) == 0
  {
    ChatStoreState([], None, Empty())
  }

  /** `addMessage(message)`. */
  function AddMessage(s: ChatStoreState, m: ChatMessage): (r: ChatStoreState)
    ensures r.messages == s.messages + [m]
    ensures r.currentRequest == s.currentRequest && r.streamingMessages == s.streamingMessages
  {
    s.(messages := s.messages + [m])
  }

  /** `addMessages(messages)`: appended in their order. */
  function AddMessages(s: ChatStoreState, ms: seq<ChatMessage>): (r: ChatStoreState)
    ensures |r.messages| == |s.messages| + |ms|
    ensures r.messages[..|s.messages|] == s.messages && r.messages[|s.messages|..] == ms
    ensures r.currentRequest == s.currentRequest && r.streamingMessages == s.streamingMessages
  {
    s.(messages := s.messages + ms)
  }

  /** Adding a list is adding its messages one by one. */
  lemma {:induction false} AddMessagesOneByOne(s: ChatStoreState, ms: seq<ChatMessage>)
    ensures AddMessages(s, ms) == if ms == [] then s else AddMessages(AddMessage(s, ms[0]), ms[1..])
  {
    if ms != [] {
      assert s.messages + ms == (s.messages + [ms[0]]) + ms[1..];
    }
  }

  /** `messages.map(msg => msg.id === id ? { ...msg, ...updates } : msg)`. */
  function UpdateWhere(ms: seq<ChatMessage>, id: string, p: ChatPatch): (r: seq<ChatMessage>)
    ensures |r| == |ms|
    ensures forall i :: 0 <= i < |ms| ==> r[i] == if ms[i].id == id then MergeChat(ms[i], p) else ms[i]
  {
    if ms == [] then []
    else [if ms[0].id == id then MergeChat(ms[0], p) else ms[0]] + UpdateWhere(ms[1..], id, p)
  }

  /** `updateMessage(id, updates)`: every message with that id is merged, every other one stays. */
  function UpdateMessage(s: ChatStoreState, id: string, p: ChatPatch): (r: ChatStoreState)
    ensures |r.messages| == |s.messages|
    ensures forall i :: 0 <= i < |s.messages| && s.messages[i].id != id ==> r.messages[i] == s.messages[i]
    ensures forall i :: 0 <= i < |s.messages| && s.messages[i].id == id ==> r.messages[i] == MergeChat(s.messages[i], p)
    ensures r.currentRequest == s.currentRequest && r.streamingMessages == s.streamingMessages
  {
    s.(messages := UpdateWhere(s.messages, id, p))
  }

  /** An update for an id no message has changes nothing. */
  lemma UpdateMissing(s: ChatStoreState, id: string, p: ChatPatch)
    requires forall i :: 0 <= i < |s.messages| ==> s.messages[i].id != id
    ensures UpdateMessage(s, id, p) == s
  {
    assert UpdateMessage(s, id, p).messages == s.messages;
  }

  /** `setMessages(messages)`. */
  function SetMessages(s: ChatStoreState, ms: seq<ChatMessage>): (r: ChatStoreState)
    ensures r.messages == ms && r.currentRequest == s.currentRequest && r.streamingMessages == s.streamingMessages
  {
    s.(messages := ms)
  }

  /** `clearMessages()`. */
  function ClearMessages(s: ChatStoreState): (r: ChatStoreState)
    ensures r.messages == [] && r.currentRequest == s.currentRequest && r.streamingMessages == s.streamingMessages
  {
    s.(messages := [])
  }

  /** `setCurrentRequest(request)`. */
  function SetCurrentRequest(s: ChatStoreState, request: Option<CurrentRequest>): (r: ChatStoreState)
    ensures r.currentRequest == request && r.messages == s.messages && r.streamingMessages == s.streamingMessages
  {
    s.(currentRequest := request)
  }

  /** `selectIsLoading`: a request is in flight. */
  predicate IsLoading(s: ChatStoreState) {
    s.currentRequest.Some?
  }

  /** `getStreamingMessageIndex(sessionId)`. */
  function GetStreamingMessageIndex(s: ChatStoreState, sessionId: string): Option<int> {
    Get(s.streamingMessages, sessionId)
  }

  /** `setStreamingMessage(sessionId, index)`: that key now maps to `index`, every other key is unchanged. */
  function SetStreamingMessage(s: ChatStoreState, sessionId: string, index: int): (r: ChatStoreState)
    requires Valid(s)
    ensures Valid(r)
    ensures GetStreamingMessageIndex(r, sessionId) == Some(index)
    ensures forall k :: k != sessionId ==> GetStreamingMessageIndex(r, k) == GetStreamingMessageIndex(s, k)
    ensures r.messages == s.messages && r.currentRequest == s.currentRequest
  {
    s.(streamingMessages := Put(s.streamingMessages, sessionId, index))
  }

  /** `removeStreamingMessage(sessionId)`: only that key goes. */
  function RemoveStreamingMessage(s: ChatStoreState, sessionId: string): (r: ChatStoreState)
    requires Valid(s)
    ensures Valid(r)
    ensures GetStreamingMessageIndex(r, sessionId).None?
    ensures forall k :: k != sessionId ==> GetStreamingMessageIndex(r, k) == GetStreamingMessageIndex(s, k)
    ensures r.messages == s.messages && r.currentRequest == s.currentRequest
  {
    s.(streamingMessages := Remove(s.streamingMessages, sessionId))
  }

  /** `clearStreamingMessages()`. */
  function ClearStreamingMessages(s: ChatStoreState): (r: ChatStoreState)
    ensures Valid(r)
    ensures forall k :: GetStreamingMessageIndex(r, k).None?
    ensures r.messages == s.messages && r.currentRequest == s.currentRequest
  {
    s.(streamingMessages := Empty())
  }

  /** Setting then removing a key restores every lookup of the original map. */
  lemma SetThenRemove(s: ChatStoreState, sessionId: string, index: int)
    requires Valid(s) && GetStreamingMessageIndex(s, sessionId).None?
    ensures var r := RemoveStreamingMessage(SetStreamingMessage(s, sessionId, index), sessionId);
      forall k :: GetStreamingMessageIndex(r, k) == GetStreamingMessageIndex(s, k)
  {
  }
}

=== FILE: edit_tool.dfy ===
/**
 * The Edit tool view (webview/src/components/Messages/blocks/tools/Edit/Edit.tsx):
 * the file name it shows, the diff it builds from `old_string`/`new_string`
 * when the SDK has not sent a `structuredPatch`, the added/removed counts,
 * and the gutter's old/new line numbers.
 */
module EditTool {
  import opened Wrappers
  import opened Strs

  // ---------------------------------------------------------------- basename

  /** `filePath.replace(/\\/g, '/')`. */
  function ForwardSlashes(p: string): (r: string)
    ensures |r| == |p|
    ensures forall i :: 0 <= i < |p| ==> r[i] == (if p[i] == '\\' then '/' else p[i])
  {
    seq(|p|, i requires 0 <= i < |p| => if p[i] == '\\' then '/' else p[i])
  }

  /** `basename(filePath)`: the segment after the last `/` or `\`. */
  function Basename(p: string): (r: string)
    ensures '/' !in r
  {
    if p == "" then "" else
      LastSegmentFree(ForwardSlashes(p), '/');
      LastSegment(ForwardSlashes(p), "/")
  }

  /** A name without separators is its own base name. */
  lemma BasenameWhole(b: string)
    requires '/' !in b && '\\' !in b
    ensures Basename(b) == b
  {
    assert ForwardSlashes(b) == b;
    LastSegmentWhole(b, '/');
  }

  /** After either separator, whatever the directory part, the base name is the text after it. */
  lemma BasenameAfterSeparator(dir: string, sep: char, b: string)
    requires sep == '/' || sep == '\\'
    requires '/' !in b && '\\' !in b
    ensures Basename(dir + [sep] + b) == b
  {
    var p := dir + [sep] + b;
    assert ForwardSlashes(p) == ForwardSlashes(dir) + ['/'] + b;
    LastSegmentAfter(ForwardSlashes(dir), '/', b);
  }

  // ---------------------------------------------------------------- patches

  /** One hunk of a structured patch: `lines` start with "-", "+" or a context space. */
  datatype Hunk = Hunk(oldStart: int, oldLines: nat, newStart: int, newLines: nat, lines: seq<string>)

  /** Each line with `c` in front. */
  function Prefixed(c: char, xs: seq<string>): (r: seq<string>)
    ensures |r| == |xs|
    ensures forall i :: 0 <= i < |xs| ==> r[i] == [c] + xs[i]
  {
    seq(|xs|, i requires 0 <= i < |xs| => [c] + xs[i])
  }

  /** The hunk that removes every line of `olds` and adds every line of `news`. */
  function ReplaceHunk(olds: seq<string>, news: seq<string>): (h: Hunk)
    ensures h.oldStart == 1 && h.newStart == 1
    ensures h.oldLines == |olds| && h.newLines == |news|
    ensures |h.lines| == h.oldLines + h.newLines
  {
    Hunk(1, |olds|, 1, |news|, Prefixed('-', olds) + Prefixed('+', news))
  }

  /** `generatePatchFromInput(oldStr, newStr)`: one hunk over the lines of both strings. */
  function GeneratePatch(oldStr: string, newStr: string): (r: seq<Hunk>)
    ensures |r| == 1
    ensures r[0].oldLines == |Split(oldStr, "\n")| && r[0].newLines == |Split(newStr, "\n")|
  {
    [ReplaceHunk(Split(oldStr, "\n"), Split(newStr, "\n"))]
  }

  /** Does the line start with `c`? */
  predicate Marked(line: string, c: char) {
    StartsWith(line, [c])
  }

  /** The number of lines starting with `c`. */
  function CountMarked(lines: seq<string>, c: char): (r: nat)
    ensures r <= |lines|
  {
    if lines == [] then 0
    else CountMarked(lines[..|lines| - 1], c) + (if Marked(lines[|lines| - 1], c) then 1 else 0)
  }

  lemma CountMarkedSnoc(lines: seq<string>, line: string, c: char)
    ensures CountMarked(lines + [line], c) == CountMarked(lines, c) + (if Marked(line, c) then 1 else 0)
  {
    assert (lines + [line])[..|lines|] == lines;
  }

  lemma {:induction false} CountMarkedAppend(a: seq<string>, b: seq<string>, c: char)
    ensures CountMarked(a + b, c) == CountMarked(a, c) + CountMarked(b, c)
    decreases |b|
  {
    if b != [] {
      var b' := b[..|b| - 1];
      assert a + b == (a + b') + [b[|b| - 1]];
      CountMarkedSnoc(a + b', b[|b| - 1], c);
      CountMarkedAppend(a, b', c);
      assert b == b' + [b[|b| - 1]];
      CountMarkedSnoc(b', b[|b| - 1], c);
    } else {
      assert a + b == a;
    }
  }

  /** Every line prefixed with `c` is counted for `c`, and none for another marker. */
  lemma {:induction false} CountPrefixed(c: char, d: char, xs: seq<string>)
    ensures CountMarked(Prefixed(c, xs), d) == if c == d then |xs| else 0
    decreases |xs|
  {
    if xs != [] {
      var xs' := xs[..|xs| - 1];
      assert Prefixed(c, xs) == Prefixed(c, xs') + [[c] + xs[|xs| - 1]];
      CountMarkedSnoc(Prefixed(c, xs'), [c] + xs[|xs| - 1], d);
      assert ([c] + xs[|xs| - 1])[..1] == [c];
      CountPrefixed(c, d, xs');
    }
  }

  /** All lines of all hunks, in order. */
  function AllLines(hunks: seq<Hunk>): (r: seq<string>)
  {
    if hunks == [] then [] else AllLines(hunks[..|hunks| - 1]) + hunks[|hunks| - 1].lines
  }

  /** The added/removed counts `diffStats` reports. */
  function Stats(hunks: seq<Hunk>): (nat, nat) {
    (CountMarked(AllLines(hunks), '+'), CountMarked(AllLines(hunks), '-'))
  }

  /**
   * A generated patch adds as many lines as the new text has and removes as
   * many as the old text has, which are the counts its hunk header states.
   */
  lemma ReplaceHunkStats(olds: seq<string>, news: seq<string>)
    ensures var h := ReplaceHunk(olds, news);
      Stats([h]) == (h.newLines, h.oldLines)
  {
    var h := ReplaceHunk(olds, news);
    AllLinesSingle(h);
    ReplaceHunkCount(olds, news, '+');
    ReplaceHunkCount(olds, news, '-');
  }

  lemma AllLinesSingle(h: Hunk)
    ensures AllLines([h]) == h.lines
  {
    assert [h][..0] == [];
  }

  lemma ReplaceHunkCount(olds: seq<string>, news: seq<string>, d: char)
    requires d == '+' || d == '-'
    ensures CountMarked(ReplaceHunk(olds, news).lines, d) == if d == '+' then |news| else |olds|
  {
    CountMarkedAppend(Prefixed('-', olds), Prefixed('+', news), d);
    CountPrefixed('-', d, olds);
    CountPrefixed('+', d, news);
  }

  lemma GeneratedStats(oldStr: string, newStr: string)
    ensures var h := GeneratePatch(oldStr, newStr)[0];
      Stats(GeneratePatch(oldStr, newStr)) == (h.newLines, h.oldLines)
  {
    ReplaceHunkStats(Split(oldStr, "\n"), Split(newStr, "\n"));
  }

  lemma AllLinesSnoc(hunks: seq<Hunk>, h: nat)
    requires h < |hunks|
    ensures AllLines(hunks[..h + 1]) == AllLines(hunks[..h]) + hunks[h].lines
  {
    assert hunks[..h + 1][..h] == hunks[..h];
  }

  lemma PrefixSnoc(xs: seq<string>, i: nat)
    requires i < |xs|
    ensures xs[..i + 1] == xs[..i] + [xs[i]]
  {
  }

  /** `diffStats`: `None` stands for `null` when there is no patch. */
  method DiffStats(structuredPatch: Option<seq<Hunk>>) returns (r: Option<(nat, nat)>)
    ensures structuredPatch.None? ==> r.None?
    ensures structuredPatch.Some? ==> r == Some(Stats(structuredPatch.value))
  {
    if structuredPatch.None? {
      return None;
    }
    var hunks := structuredPatch.value;
    var added := 0;
    var removed := 0;
    var h := 0;
    while h < |hunks|
      invariant h <= |hunks|
      invariant added == CountMarked(AllLines(hunks[..h]), '+')
      invariant removed == CountMarked(AllLines(hunks[..h]), '-')
    {
      var lines := hunks[h].lines;
      var before := AllLines(hunks[..h]);
      var l := 0;
      assert before + lines[..l] == before;
      while l < |lines|
        invariant l <= |lines|
        invariant added == CountMarked(before + lines[..l], '+')
        invariant removed == CountMarked(before + lines[..l], '-')
      {
        PrefixSnoc(lines, l);
        assert before + lines[..l + 1] == (before + lines[..l]) + [lines[l]];
        CountMarkedSnoc(before + lines[..l], lines[l], '+');
        CountMarkedSnoc(before + lines[..l], lines[l], '-');
        if StartsWith(lines[l], "+") {
          added := added + 1;
        }
        if StartsWith(lines[l], "-") {
          removed := removed + 1;
        }
        l := l + 1;
      }
      assert lines[..l] == lines;
      AllLinesSnoc(hunks, h);
      h := h + 1;
    }
    assert hunks[..h] == hunks;
    return Some((added, removed));
  }

  // ---------------------------------------------------------------- gutter

  /** `getLinePrefix(line)`. */
  function LinePrefix(line: string): string {
    if Marked(line, '-') || Marked(line, '+') then [line[0]] else " "
  }

  /** `getLineContent(line)`. */
  function LineContent(line: string): string {
    if Marked(line, '-') || Marked(line, '+') then line[1..] else line
  }

  /**
   * A removed or added line splits into its marker and its text, which put
   * back together give the line; any other line shows a space and itself.
   */
  lemma PrefixContentRoundTrip(line: string)
    ensures (Marked(line, '-') || Marked(line, '+')) ==> LinePrefix(line) + LineContent(line) == line && |LinePrefix(line)| == 1
    ensures !(Marked(line, '-') || Marked(line, '+')) ==> LinePrefix(line) == " " && LineContent(line) == line
  {
    if Marked(line, '-') || Marked(line, '+') {
      assert [line[0]] + line[1..] == line;
    }
  }

  /** The text shown for a generated line is the old or new line it came from. */
  lemma ReplaceHunkContent(olds: seq<string>, news: seq<string>, i: nat)
    requires i < |olds| + |news|
    ensures var h := ReplaceHunk(olds, news);
      && (i < |olds| ==> LinePrefix(h.lines[i]) == "-" && LineContent(h.lines[i]) == olds[i])
      && (i >= |olds| ==> LinePrefix(h.lines[i]) == "+" && LineContent(h.lines[i]) == news[i - |olds|])
  {
    var h := ReplaceHunk(olds, news);
    if i < |olds| {
      assert h.lines[i] == "-" + olds[i];
    } else {
      assert h.lines[i] == "+" + news[i - |olds|];
    }
    assert h.lines[i][..1] == [h.lines[i][0]];
  }

  /**
   * The gutter number of a line: a removed line counts the old-side lines
   * (those not added) before it from `oldStart`; any other line counts the
   * new-side lines (those not removed) from `newStart`.
   */
  function LineNumber(h: Hunk, lineIndex: nat): int
    requires lineIndex < |h.lines|
  {
    var before := h.lines[..lineIndex];
    if Marked(h.lines[lineIndex], '-') then h.oldStart + (lineIndex - CountMarked(before, '+'))
    else h.newStart + (lineIndex - CountMarked(before, '-'))
  }

  /**
   * `getLineNumber(patch, lineIndex)`. Indexing past the hunk's lines makes
   * the source throw, so the index must be in range.
   */
  method GetLineNumber(h: Hunk, lineIndex: nat) returns (r: string)
    requires lineIndex < |h.lines|
    ensures r == IntToString(LineNumber(h, lineIndex))
  {
    var skip := if StartsWith(h.lines[lineIndex], "-") then '+' else '-';
    var n := if skip == '+' then h.oldStart else h.newStart;
    var i := 0;
    while i < lineIndex
      invariant i <= lineIndex
      invariant n == (if skip == '+' then h.oldStart else h.newStart) + (i - CountMarked(h.lines[..i], skip))
    {
      PrefixSnoc(h.lines, i);
      CountMarkedSnoc(h.lines[..i], h.lines[i], skip);
      if !StartsWith(h.lines[i], [skip]) {
        n := n + 1;
      }
      i := i + 1;
    }
    return IntToString(n);
  }

  /**
   * In a generated patch the k-th removed line and the k-th added line are
   * both numbered k + 1, so the two sides line up from 1.
   */
  lemma ReplaceHunkRemovedNumber(olds: seq<string>, news: seq<string>, k: nat)
    requires k < |olds|
    ensures var h := ReplaceHunk(olds, news);
      Marked(h.lines[k], '-') && LineNumber(h, k) == k + 1
  {
    var h := ReplaceHunk(olds, news);
    assert h.lines[k] == "-" + olds[k];
    assert h.lines[k][..1] == "-";
    assert h.lines[..k] == Prefixed('-', olds[..k]);
    CountPrefixed('-', '+', olds[..k]);
  }

  lemma ReplaceHunkAddedNumber(olds: seq<string>, news: seq<string>, k: nat)
    requires k < |news|
    ensures var h := ReplaceHunk(olds, news);
      Marked(h.lines[|olds| + k], '+') && LineNumber(h, |olds| + k) == k + 1
  {
    var h := ReplaceHunk(olds, news);
    var i := |olds| + k;
    assert h.lines[i] == "+" + news[k];
    assert h.lines[i][..1] == "+";
    assert h.lines[..i] == Prefixed('-', olds) + Prefixed('+', news[..k]);
    CountMarkedAppend(Prefixed('-', olds), Prefixed('+', news[..k]), '-');
    CountPrefixed('-', '-', olds);
    CountPrefixed('+', '-', news[..k]);
  }

  // ---------------------------------------------------------------- view state

  /**
   * The `structuredPatch` state after the effect runs. `resultPatch` is
   * `toolUseResult.structuredPatch` when present; `oldStr`/`newStr` are the
   * input strings, "" when missing.
   */
  function PatchEffect(prev: Option<seq<Hunk>>, isError: bool, resultPatch: Option<seq<Hunk>>, oldStr: string, newStr: string): (r: Option<seq<Hunk>>)
    ensures isError ==> r.None?
    ensures !isError && resultPatch.Some? ==> r == resultPatch
    ensures !isError && resultPatch.None? && oldStr != "" && newStr != "" ==> r == Some(GeneratePatch(oldStr, newStr))
    ensures !isError && resultPatch.None? && (oldStr == "" || newStr == "") ==> r == prev
  {
    if isError then None
    else if resultPatch.Some? then resultPatch
    else if oldStr != "" && newStr != "" then Some(GeneratePatch(oldStr, newStr))
    else prev
  }

  /** Running the effect again with the same props changes nothing. */
  lemma PatchEffectIdempotent(prev: Option<seq<Hunk>>, isError: bool, resultPatch: Option<seq<Hunk>>, oldStr: string, newStr: string)
    ensures var once := PatchEffect(prev, isError, resultPatch, oldStr, newStr);
      PatchEffect(once, isError, resultPatch, oldStr, newStr) == once
  {
  }

  /** `isPermissionRequest`: no patch from the SDK yet, and both strings given. */
  predicate IsPermissionRequest(resultPatch: Option<seq<Hunk>>, oldStr: string, newStr: string) {
    resultPatch.None? && oldStr != "" && newStr != ""
  }

  /** `hasDiffView`. */
  predicate HasDiffView(patch: Option<seq<Hunk>>) {
    patch.Some? && |patch.value| > 0
  }

  /** `shouldExpand`. */
  predicate ShouldExpand(patch: Option<seq<Hunk>>, resultPatch: Option<seq<Hunk>>, oldStr: string, newStr: string) {
    HasDiffView(patch) && IsPermissionRequest(resultPatch, oldStr, newStr)
  }

  /**
   * A permission request for a call without an error always shows the
   * generated diff expanded, whatever state the view held before; once the
   * SDK's patch arrives the view no longer opens by itself.
   */
  lemma PermissionRequestExpands(prev: Option<seq<Hunk>>, isError: bool, resultPatch: Option<seq<Hunk>>, oldStr: string, newStr: string)
    ensures var patch := PatchEffect(prev, isError, resultPatch, oldStr, newStr);
      && (!isError && IsPermissionRequest(resultPatch, oldStr, newStr) ==> ShouldExpand(patch, resultPatch, oldStr, newStr))
      && (resultPatch.Some? ==> !ShouldExpand(patch, resultPatch, oldStr, newStr))
      && (isError ==> !ShouldExpand(patch, resultPatch, oldStr, newStr))
  {
  }
}

=== FILE: file_icon.dfy ===
/**
 * The icon shown next to a file name (webview/src/components/editor/FileIcon/FileIcon.tsx):
 * the name is lower-cased and cut to its last path segment; a well-known
 * file name picks its own entry, any other name its extension, and a name
 * the table does not know gets the plain file icon.
 */
module FileIcon {
  import opened Wrappers
  import opened Strs

  datatype IconType = MdiIcon | Codicon

  datatype IconConfig = IconConfig(kind: IconType, icon: string)

  function Mdi(icon: string): IconConfig {
    IconConfig(MdiIcon, icon)
  }

  const DefaultIcon := Mdi("file")

  /**
   * `fileIconMap[key]`: the icon of an extension or well-known name, `None`
   * for `undefined`. The entries are grouped by the length of their key,
   * which leaves every lookup as it is and lets a key be ruled out by its length.
   */
  function FileIconEntry(key: string): Option<IconConfig> {
    match |key|
    case 1 =>
      (match key
      case "c" => Some(Mdi("c"))
      case "h" => Some(Mdi("c"))
      case "r" => Some(Mdi("r"))
      case "s" => Some(Mdi("assembly"))
      case "m" => Some(Mdi("matlab"))
      case _ => None)
    case 2 =>
      (match key
      case "js" => Some(Mdi("javascript"))
      case "ts" => Some(Mdi("typescript"))
      case "py" => Some(Mdi("python"))
      case "cs" => Some(Mdi("csharp"))
      case "go" => Some(Mdi("go"))
      case "rs" => Some(Mdi("rust"))
      case "rb" => Some(Mdi("ruby"))
      case "kt" => Some(Mdi("kotlin"))
      case "hs" => Some(Mdi("haskell"))
      case "fs" => Some(Mdi("fsharp"))
      case "ex" => Some(Mdi("elixir"))
      case "jl" => Some(Mdi("julia"))
      case "pl" => Some(Mdi("perl"))
      case "sh" => Some(Mdi("shell"))
      case "cr" => Some(Mdi("crystal"))
      case "hx" => Some(Mdi("haxe"))
      case "re" => Some(Mdi("reason"))
      case "md" => Some(Mdi("markdown"))
      case "db" => Some(Mdi("database"))
      case "gz" => Some(Mdi("zip"))
      case "7z" => Some(Mdi("zip"))
      case _ => None)
    case 3 =>
      (match key
      case "jsx" => Some(Mdi("react"))
      case "tsx" => Some(Mdi("react"))
      case "vue" => Some(Mdi("vue"))
      case "css" => Some(Mdi("css"))
      case "cpp" => Some(Mdi("cpp"))
      case "php" => Some(Mdi("php"))
      case "clj" => Some(Mdi("clojure"))
      case "exs" => Some(Mdi("elixir"))
      case "elm" => Some(Mdi("elm"))
      case "erl" => Some(Mdi("erlang"))
      case "lua" => Some(Mdi("lua"))
      case "ps1" => Some(Mdi("powershell"))
      case "zsh" => Some(Mdi("shell"))
      case "asm" => Some(Mdi("assembly"))
      case "sol" => Some(Mdi("solidity"))
      case "zig" => Some(Mdi("zig"))
      case "mat" => Some(Mdi("matlab"))
      case "tex" => Some(Mdi("tex"))
      case "yml" => Some(Mdi("yaml"))
      case "xml" => Some(Mdi("xml"))
      case "ini" => Some(Mdi("settings"))
      case "env" => Some(Mdi("tune"))
      case "mdx" => Some(Mdi("markdown"))
      case "txt" => Some(Mdi("document"))
      case "pdf" => Some(Mdi("pdf"))
      case "doc" => Some(Mdi("word"))
      case "sql" => Some(Mdi("database"))
      case "png" => Some(Mdi("image"))
      case "jpg" => Some(Mdi("image"))
      case "gif" => Some(Mdi("image"))
      case "svg" => Some(Mdi("svg"))
      case "ico" => Some(Mdi("image"))
      case "zip" => Some(Mdi("zip"))
      case "tar" => Some(Mdi("zip"))
      case "rar" => Some(Mdi("zip"))
      case "pug" => Some(Mdi("pug"))
      case _ => None)
    case 4 =>
      (match key
      case "html" => Some(Mdi("html"))
      case "scss" => Some(Mdi("sass"))
      case "sass" => Some(Mdi("sass"))
      case "less" => Some(Mdi("less"))
      case "java" => Some(Mdi("java"))
      case "dart" => Some(Mdi("dart"))
      case "bash" => Some(Mdi("shell"))
      case "fish" => Some(Mdi("shell"))
      case "json" => Some(Mdi("json"))
      case "yaml" => Some(Mdi("yaml"))
      case "toml" => Some(Mdi("toml"))
      case "docx" => Some(Mdi("word"))
      case "jpeg" => Some(Mdi("image"))
      case "webp" => Some(Mdi("image"))
      case "styl" => Some(Mdi("stylus"))
      case _ => None)
    case 5 =>
      (match key
      case "ipynb" => Some(Mdi("jupyter"))
      case "swift" => Some(Mdi("swift"))
      case "scala" => Some(Mdi("scala"))
      case "latex" => Some(Mdi("tex"))
      case "npmrc" => Some(Mdi("npm"))
      case "astro" => Some(Mdi("astro"))
      case _ => None)
    case 6 =>
      (match key
      case "coffee" => Some(Mdi("coffee"))
      case "groovy" => Some(Mdi("groovy"))
      case "reason" => Some(Mdi("reason"))
      case "sqlite" => Some(Mdi("database"))
      case "svelte" => Some(Mdi("svelte"))
      case "go.mod" => Some(Mdi("go"))
      case _ => None)
    case 7 =>
      (match key
      case "Gemfile" => Some(Mdi("ruby"))
      case "pom.xml" => Some(Mdi("java"))
      case _ => None)
    case 8 =>
      (match key
      case ".babelrc" => Some(Mdi("babel"))
      case _ => None)
    case 9 =>
      (match key
      case "gitignore" => Some(Mdi("git"))
      case "yarn.lock" => Some(Mdi("yarn"))
      case ".eslintrc" => Some(Mdi("eslint"))
      case "deno.json" => Some(Mdi("deno"))
      case _ => None)
    case 10 =>
      (match key
      case "dockerfile" => Some(Mdi("docker"))
      case "deno.jsonc" => Some(Mdi("deno"))
      case "Cargo.toml" => Some(Mdi("rust"))
      case _ => None)
    case 11 =>
      (match key
      case ".prettierrc" => Some(Mdi("prettier"))
      case ".travis.yml" => Some(Mdi("travis"))
      case "vercel.json" => Some(Mdi("vercel"))
      case _ => None)
    case 12 =>
      (match key
      case "dockerignore" => Some(Mdi("docker"))
      case "package.json" => Some(Mdi("npm"))
      case ".eslintrc.js" => Some(Mdi("eslint"))
      case "build.gradle" => Some(Mdi("gradle"))
      case _ => None)
    case 13 =>
      (match key
      case "gitattributes" => Some(Mdi("git"))
      case ".editorconfig" => Some(Mdi("editorconfig"))
      case "prisma.schema" => Some(Mdi("prisma"))
      case _ => None)
    case 14 =>
      (match key
      case "pnpm-lock.yaml" => Some(Mdi("pnpm"))
      case "vite.config.ts" => Some(Mdi("vite"))
      case "vite.config.js" => Some(Mdi("vite"))
      case ".eslintrc.json" => Some(Mdi("eslint"))
      case "jest.config.js" => Some(Mdi("jest"))
      case "code-workspace" => Some(Mdi("vscode"))
      case _ => None)
    case 15 =>
      (match key
      case "babel.config.js" => Some(Mdi("babel"))
      case _ => None)
    case 16 =>
      (match key
      case "rollup.config.js" => Some(Mdi("rollup"))
      case "eslint.config.js" => Some(Mdi("eslint"))
      case ".prettierrc.json" => Some(Mdi("prettier"))
      case "vitest.config.ts" => Some(Mdi("vitest"))
      case "requirements.txt" => Some(Mdi("python"))
      case _ => None)
    case 17 =>
      (match key
      case "package-lock.json" => Some(Mdi("npm"))
      case "webpack.config.js" => Some(Mdi("webpack"))
      case _ => None)
    case 18 =>
      (match key
      case "prettier.config.js" => Some(Mdi("prettier"))
      case _ => None)
    case _ => None
  }

  /** `specialFiles[baseName]`: the table key of a well-known (lower-case) file name, grouped the same way. */
  function SpecialFile(key: string): Option<string> {
    match |key|
    case 6 =>
      (match key
      case ".npmrc" => Some("npmrc")
      case "go.mod" => Some("go.mod")
      case _ => None)
    case 7 =>
      (match key
      case "gemfile" => Some("Gemfile")
      case "pom.xml" => Some("pom.xml")
      case _ => None)
    case 8 =>
      (match key
      case ".babelrc" => Some(".babelrc")
      case _ => None)
    case 9 =>
      (match key
      case "yarn.lock" => Some("yarn.lock")
      case ".eslintrc" => Some(".eslintrc")
      case "deno.json" => Some("deno.json")
      case _ => None)
    case 10 =>
      (match key
      case "dockerfile" => Some("dockerfile")
      case ".gitignore" => Some("gitignore")
      case "deno.jsonc" => Some("deno.jsonc")
      case "cargo.toml" => Some("Cargo.toml")
      case _ => None)
    case 11 =>
      (match key
      case ".prettierrc" => Some(".prettierrc")
      case ".travis.yml" => Some(".travis.yml")
      case "vercel.json" => Some("vercel.json")
      case _ => None)
    case 12 =>
      (match key
      case "package.json" => Some("package.json")
      case ".eslintrc.js" => Some(".eslintrc.js")
      case "build.gradle" => Some("build.gradle")
      case _ => None)
    case 13 =>
      (match key
      case ".dockerignore" => Some("dockerignore")
      case ".editorconfig" => Some(".editorconfig")
      case "prisma.schema" => Some("prisma.schema")
      case _ => None)
    case 14 =>
      (match key
      case ".gitattributes" => Some("gitattributes")
      case "pnpm-lock.yaml" => Some("pnpm-lock.yaml")
      case "vite.config.ts" => Some("vite.config.ts")
      case "vite.config.js" => Some("vite.config.ts")
      case ".eslintrc.json" => Some(".eslintrc.json")
      case "jest.config.js" => Some("jest.config.js")
      case _ => None)
    case 15 =>
      (match key
      case "babel.config.js" => Some("babel.config.js")
      case _ => None)
    case 16 =>
      (match key
      case "rollup.config.js" => Some("rollup.config.js")
      case "eslint.config.js" => Some("eslint.config.js")
      case ".prettierrc.json" => Some(".prettierrc.json")
      case "vitest.config.ts" => Some("vitest.config.ts")
      case "requirements.txt" => Some("requirements.txt")
      case _ => None)
    case 17 =>
      (match key
      case "package-lock.json" => Some("package-lock.json")
      case "webpack.config.js" => Some("webpack.config.js")
      case _ => None)
    case 18 =>
      (match key
      case "prettier.config.js" => Some("prettier.config.js")
      case _ => None)
    case _ => None
  }

  /** `fileExtension`. */
  function FileExtension(fileName: string): (r: string)
  {
    var name := ToLower(fileName);
    var baseName := LastSegment(name, "/");
    match SpecialFile(baseName)
    case Some(key) => key
    case None =>
      var parts := Split(baseName, ".");
      if |parts| > 1 then parts[|parts| - 1] else ""
  }

  /** `iconConfig`: the table's icon, or the plain file icon for a key it lacks. */
  function IconFor(fileExtension: string): IconConfig {
    match FileIconEntry(fileExtension)
    case Some(config) => config
    case None => DefaultIcon
  }

  lemma LowerCharIdempotent(c: char)
    ensures LowerChar(LowerChar(c)) == LowerChar(c)
  {
  }

  lemma ToLowerIdempotent(s: string)
    ensures ToLower(ToLower(s)) == ToLower(s)
  {
    forall i | 0 <= i < |s| ensures ToLower(ToLower(s))[i] == ToLower(s)[i] {
      LowerCharIdempotent(s[i]);
    }
  }

  /** Resolution ignores letter case. */
  lemma ExtensionIgnoresCase(fileName: string)
    ensures FileExtension(ToLower(fileName)) == FileExtension(fileName)
  {
    ToLowerIdempotent(fileName);
  }

  /** Lower-casing neither adds nor removes a character that is not a letter. */
  lemma ToLowerKeepsChar(s: string, c: char)
    requires !('A' <= c <= 'Z') && !('a' <= c <= 'z')
    ensures c in ToLower(s) <==> c in s
  {
    if c in ToLower(s) {
      var i :| 0 <= i < |s| && ToLower(s)[i] == c;
      assert s[i] == c;
    }
    if c in s {
      var i :| 0 <= i < |s| && s[i] == c;
      assert ToLower(s)[i] == c;
    }
  }

  /** Resolution ignores every directory: only the text after the last `/` counts. */
  lemma ExtensionIgnoresDirectory(dir: string, baseName: string)
    requires '/' !in baseName
    ensures FileExtension(dir + "/" + baseName) == FileExtension(baseName)
  {
    assert ToLower(dir + "/" + baseName) == ToLower(dir) + ['/'] + ToLower(baseName);
    ToLowerKeepsChar(baseName, '/');
    LastSegmentAfter(ToLower(dir), '/', ToLower(baseName));
    LastSegmentWhole(ToLower(baseName), '/');
  }

  /** Every well-known name leads to an entry of the icon table, never to the plain file icon. */
  lemma SpecialFilesResolve(baseName: string)
    ensures SpecialFile(baseName).Some? ==> FileIconEntry(SpecialFile(baseName).value).Some?
  {
    if |baseName| < 12 {
      ShortSpecialFilesResolve(baseName);
    } else {
      LongSpecialFilesResolve(baseName);
    }
  }

  lemma ShortSpecialFilesResolve(baseName: string)
    requires |baseName| < 12
    ensures SpecialFile(baseName).Some? ==> FileIconEntry(SpecialFile(baseName).value).Some?
  {
  }

  lemma LongSpecialFilesResolve(baseName: string)
    requires |baseName| >= 12
    ensures SpecialFile(baseName).Some? ==> FileIconEntry(SpecialFile(baseName).value).Some?
  {
  }

  /** A well-known name wins over its extension. */
  lemma SpecialBeforeExtension(baseName: string)
    requires '/' !in baseName && SpecialFile(ToLower(baseName)).Some?
    ensures FileExtension(baseName) == SpecialFile(ToLower(baseName)).value
  {
    ToLowerKeepsChar(baseName, '/');
    LastSegmentWhole(ToLower(baseName), '/');
  }

  /** `package.json`, in any letter case, gets the npm icon, not the JSON one. */
  lemma PackageJsonIsNpm(baseName: string)
    requires '/' !in baseName && ToLower(baseName) == "package.json"
    ensures IconFor(FileExtension(baseName)) == Mdi("npm")
  {
    SpecialBeforeExtension(baseName);
    PackageJsonEntries();
  }

  lemma PackageJsonEntries()
    ensures SpecialFile("package.json") == Some("package.json")
    ensures IconFor("package.json") == Mdi("npm")
  {
  }

  /** Any other `.json` file gets the JSON icon. */
  lemma JsonFileIsJson(stem: string)
    requires '/' !in stem && SpecialFile(ToLower(stem + ".json")).None?
    ensures IconFor(FileExtension(stem + ".json")) == Mdi("json")
  {
    assert stem + ".json" == stem + "." + "json";
    ExtensionAfterDot(stem, "json");
    JsonEntry();
  }

  lemma JsonEntry()
    ensures ToLower("json") == "json"
    ensures IconFor("json") == Mdi("json")
  {
  }

  lemma SplitHasMore(s: string, c: char)
    requires c in s
    ensures |Split(s, [c])| > 1
  {
    ContainsChar(s, c);
  }

  /**
   * Any other name resolves to the text after its last dot: `stem.ext`
   * gives `ext` (lower-cased) whatever dots the stem holds.
   */
  lemma ExtensionAfterDot(stem: string, ext: string)
    requires '/' !in stem && '/' !in ext && '.' !in ext
    requires SpecialFile(ToLower(stem + "." + ext)).None?
    ensures FileExtension(stem + "." + ext) == ToLower(ext)
  {
    var name := ToLower(stem + "." + ext);
    assert name == ToLower(stem) + ['.'] + ToLower(ext);
    ToLowerKeepsChar(stem + "." + ext, '/');
    assert '/' !in stem + "." + ext;
    LastSegmentWhole(name, '/');
    ToLowerKeepsChar(ext, '.');
    LastSegmentAfter(ToLower(stem), '.', ToLower(ext));
    assert name[|ToLower(stem)|] == '.';
    SplitHasMore(name, '.');
  }

  /** A name without a dot has no extension, and so the plain file icon unless it is well known. */
  lemma NoDotNoExtension(baseName: string)
    requires '/' !in baseName && '.' !in baseName
    requires SpecialFile(ToLower(baseName)).None?
    ensures FileExtension(baseName) == ""
    ensures IconFor(FileExtension(baseName)) == DefaultIcon
  {
    ToLowerKeepsChar(baseName, '/');
    ToLowerKeepsChar(baseName, '.');
    LastSegmentWhole(ToLower(baseName), '/');
    ContainsChar(ToLower(baseName), '.');
  }
}

=== FILE: json.dfy ===
/**
 * The untyped values (`any`, `unknown`) that flow through the webview: tool
 * inputs, tool results and SDK payloads. `undefined` is `None` of an
 * `Option<Json>` wherever a field may be missing.
 */
module Json {
  import opened Wrappers
  import opened Strs

  datatype Json =
    | JNull
    | JBool(b: bool)
    | JNum(n: int)
    | JStr(s: string)
    | JArr(items: seq<Json>)
    | JObj(fields: seq<(string, Json)>)

  /** JavaScript truthiness: `null`, `false`, `0` and `""` are falsy; arrays and objects never are. */
  predicate Truthy(j: Json) {
    match j
    case JNull => false
    case JBool(b) => b
    case JNum(n) => n != 0
    case JStr(s) => s != ""
    case JArr(_) => true
    case JObj(_) => true
  }

  /** `String(value)`: arrays join their elements with ",", `null` elements print as "". */
  function ToJsString(j: Json): string
    decreases j
  {
    match j
    case JNull => "null"
    case JBool(b) => if b then "true" else "false"
    case JNum(n) => IntToString(n)
    case JStr(s) => s
    case JArr(items) =>
      Join(seq(|items|, i requires 0 <= i < |items| => if items[i].JNull? then "" else ToJsString(items[i])), ",")
    case JObj(_) => "[object Object]"
  }

  /** `Object.keys(value)` of an object. */
  function Keys(fields: seq<(string, Json)>): seq<string> {
    seq(|fields|, i requires 0 <= i < |fields| => fields[i].0)
  }

  /** The value of the first entry named `key`. */
  function Lookup(fields: seq<(string, Json)>, key: string): (r: Option<Json>)
    ensures r.Some? <==> exists i :: 0 <= i < |fields| && fields[i].0 == key
    ensures r.Some? ==> exists i :: 0 <= i < |fields| && fields[i] == (key, r.value)
  {
    if fields == [] then None
    else if fields[0].0 == key then Some(fields[0].1)
    else Lookup(fields[1..], key)
  }

  /** `value[key]` where `value` may be any value: only objects have properties. */
  function Field(j: Json, key: string): Option<Json> {
    if j.JObj? then Lookup(j.fields, key) else None
  }

  /** `value[key]` when it is a string. */
  function StrField(j: Json, key: string): (r: Option<string>)
    ensures r.Some? <==> Field(j, key).Some? && Field(j, key).value.JStr?
  {
    match Field(j, key)
    case Some(JStr(s)) => Some(s)
    case _ => None
  }

  /** A property that exists and is truthy, as in `if (value.key)`. */
  predicate Present(o: Option<Json>) {
    o.Some? && Truthy(o.value)
  }

  /** The fields with every entry named `key` given the value `v`, or `key` appended when absent. */
  function SetIn(fields: seq<(string, Json)>, key: string, v: Json): (r: seq<(string, Json)>)
    ensures Lookup(r, key) == Some(v)
    ensures forall k :: k != key ==> Lookup(r, k) == Lookup(fields, k)
  {
    if fields == [] then [(key, v)]
    else if fields[0].0 == key then [(key, v)] + SetIn(fields[1..], key, v)
    else [fields[0]] + SetIn(fields[1..], key, v)
  }

  /** `{ ...value, [key]: v }` for an object `value`. */
  function With(j: Json, key: string, v: Json): (r: Json)
    requires j.JObj?
    ensures Field(r, key) == Some(v)
    ensures forall k :: k != key ==> Field(r, k) == Field(j, k)
  {
    JObj(SetIn(j.fields, key, v))
  }
}

=== FILE: l10n.dfy ===
/**
 * `{n}` placeholder substitution (src/services/common/l10n.ts). For each
 * argument in turn, every occurrence of its placeholder is replaced by a
 * global regular-expression replace, so the replacement text is subject to
 * JavaScript's `$` patterns.
 */
module L10n {
  import opened Strs
  import opened Json
  import opened Wrappers

  /** `{i}`. */
  function Placeholder(i: nat): (p: string)
    ensures |p| >= 3 && p[0] == '{' && p[|p| - 1] == '}'
    ensures forall k :: 0 < k < |p| - 1 ==> '0' <= p[k] <= '9'
  {
    "{" + NatToString(i) + "}"
  }

  /**
   * The replacement text for one match: `$$` is "$", `$&` the match, `` $` ``
   * the text before it, `$'` the text after it. With no capture groups every
   * other `$` stays as written.
   */
  function Expand(r: string, matched: string, before: string, after: string): string {
    if r == "" then ""
    else if r[0] == '$' && |r| >= 2 then
      if r[1] == '$' then "$" + Expand(r[2..], matched, before, after)
      else if r[1] == '&' then matched + Expand(r[2..], matched, before, after)
      else if r[1] == '`' then before + Expand(r[2..], matched, before, after)
      else if r[1] == '\'' then after + Expand(r[2..], matched, before, after)
      else [r[0]] + Expand(r[1..], matched, before, after)
    else [r[0]] + Expand(r[1..], matched, before, after)
  }

  /** A replacement without `$` is inserted as it is. */
  lemma {:induction false} ExpandLiteral(r: string, matched: string, before: string, after: string)
    requires '$' !in r
    ensures Expand(r, matched, before, after) == r
  {
    if r != "" {
      ExpandLiteral(r[1..], matched, before, after);
    }
  }

  /**
   * `s.replace(/p/g, r)` on the part `rest` not yet searched, `done` being the
   * text before it: matches are found left to right and do not overlap.
   */
  function ReplaceRest(done: string, rest: string, p: string, r: string): string
    requires |p| > 0
    decreases |rest|, 1
  {
    ReplaceFound(done, rest, p, r, IndexOf(rest, p))
  }

  /** The global replace once the first match in `rest`, if any, is known. */
  function ReplaceFound(done: string, rest: string, p: string, r: string, found: Option<nat>): string
    requires |p| > 0 && found == IndexOf(rest, p)
    decreases |rest|, 0
  {
    match found
    case None => rest
    case Some(j) =>
      rest[..j] + Expand(r, p, done + rest[..j], rest[j + |p|..])
      + ReplaceRest(done + rest[..j + |p|], rest[j + |p|..], p, r)
  }

  /** `s.replace(new RegExp(escaped p, 'g'), r)`. */
  function GlobalReplace(s: string, p: string, r: string): string
    requires |p| > 0
  {
    ReplaceRest("", s, p, r)
  }

  lemma {:induction false} ReplaceRestLiteral(done: string, rest: string, p: string, r: string)
    requires |p| > 0 && '$' !in r
    ensures ReplaceRest(done, rest, p, r) == ReplaceAll(rest, p, r)
    decreases |rest|
  {
    match IndexOf(rest, p)
    case None =>
    case Some(j) =>
      ExpandLiteral(r, p, done + rest[..j], rest[j + |p|..]);
      ReplaceRestLiteral(done + rest[..j + |p|], rest[j + |p|..], p, r);
  }

  /**
   * With a replacement free of `$`, every occurrence is replaced: the result
   * is the text between occurrences joined with the replacement.
   */
  lemma GlobalReplaceLiteral(s: string, p: string, r: string)
    requires |p| > 0 && '$' !in r
    ensures GlobalReplace(s, p, r) == Join(Split(s, p), r)
    ensures forall i :: 0 <= i < |Split(s, p)| ==> !Contains(Split(s, p)[i], p)
  {
    ReplaceRestLiteral("", s, p, r);
  }

  /** The substitution after the first `n` arguments. */
  function Substitute(message: string, args: seq<string>): string {
    if args == [] then message
    else GlobalReplace(Substitute(message, args[..|args| - 1]), Placeholder(|args| - 1), args[|args| - 1])
  }

  /** `t(message, ...args)`. */
  method T(message: string, args: seq<Json>) returns (result: string)
    ensures result == Substitute(message, seq(|args|, i requires 0 <= i < |args| => ToJsString(args[i])))
  {
    var strs := seq(|args|, i requires 0 <= i < |args| => ToJsString(args[i]));
    result := message;
    var index := 0;
    while index < |args|
      invariant 0 <= index <= |args|
      invariant result == Substitute(message, strs[..index])
    {
      assert strs[..index + 1][..index] == strs[..index];
      result := GlobalReplace(result, Placeholder(index), ToJsString(args[index]));
      index := index + 1;
    }
    assert strs[..index] == strs;
  }

  /** With no arguments the message comes back unchanged. */
  lemma NoArgumentsUnchanged(message: string)
    ensures Substitute(message, []) == message
  {
  }

  /** The decimal forms of different numbers differ. */
  lemma {:induction false} NatToStringInjective(a: nat, b: nat)
    requires NatToString(a) == NatToString(b)
    ensures a == b
  {
    if a >= 10 && b >= 10 {
      var sa := NatToString(a);
      assert sa[..|sa| - 1] == NatToString(a / 10);
      assert NatToString(b)[..|sa| - 1] == NatToString(b / 10);
      NatToStringInjective(a / 10, b / 10);
    }
  }

  lemma OccursAtChar(s: string, p: string, k: int, x: int)
    ensures OccursAt(s, p, k) && k <= x < k + |p| ==> s[x] == p[x - k]
  {
    if OccursAt(s, p, k) && k <= x < k + |p| {
      assert s[k..k + |p|][x - k] == s[x];
    }
  }

  /** A placeholder has its only '{' in front and its only '}' at the end. */
  lemma PlaceholderBrace(i: nat, m: int)
    ensures 0 < m < |Placeholder(i)| ==> Placeholder(i)[m] != '{'
    ensures 0 <= m < |Placeholder(i)| - 1 ==> Placeholder(i)[m] != '}'
  {
  }

  /** Occurrences of two different placeholders never overlap. */
  lemma PlaceholdersDisjoint(s: string, i: nat, j: nat, k: nat, q: nat)
    requires i != j
    requires OccursAt(s, Placeholder(i), k) && OccursAt(s, Placeholder(j), q)
    ensures k + |Placeholder(i)| <= q || q + |Placeholder(j)| <= k
  {
    var pi, pj := Placeholder(i), Placeholder(j);
    // An overlap puts the '{' of one placeholder against a digit or the '}' of
    // the other, unless both start together and have the same length.
    if !(k + |pi| <= q || q + |pj| <= k) {
      if k < q {
        OccursAtChar(s, pi, k, q);
        OccursAtChar(s, pj, q, q);
        PlaceholderBrace(i, q - k);
        assert false;
      } else if q < k {
        OccursAtChar(s, pj, q, k);
        OccursAtChar(s, pi, k, k);
        PlaceholderBrace(j, k - q);
        assert false;
      } else if |pi| < |pj| {
        OccursAtChar(s, pi, k, k + |pi| - 1);
        OccursAtChar(s, pj, q, k + |pi| - 1);
        PlaceholderBrace(j, |pi| - 1);
        assert false;
      } else if |pj| < |pi| {
        OccursAtChar(s, pj, q, q + |pj| - 1);
        OccursAtChar(s, pi, k, q + |pj| - 1);
        PlaceholderBrace(i, |pj| - 1);
        assert false;
      } else {
        assert pi == s[k..k + |pi|] == pj;
        assert NatToString(i) == pi[1..|pi| - 1] == pj[1..|pj| - 1] == NatToString(j);
        NatToStringInjective(i, j);
      }
    }
  }

  lemma OccursAfterDrop(t: string, p: string, d: nat, k: int)
    requires d <= |t|
    ensures OccursAt(t[d..], p, k) <==> k >= 0 && OccursAt(t, p, k + d)
  {
    if 0 <= k && k + |p| <= |t| - d {
      assert t[d..][k..k + |p|] == t[k + d..k + d + |p|];
    }
  }

  lemma NoOverlapAfterDrop(t: string, p: string, d: nat, P: string, q: nat)
    requires d <= q && OccursAt(t, P, q)
    requires forall k :: OccursAt(t, p, k) ==> k + |p| <= q || q + |P| <= k
    ensures OccursAt(t[d..], P, q - d)
    ensures forall k :: OccursAt(t[d..], p, k) ==> k + |p| <= q - d || q - d + |P| <= k
  {
    OccursAfterDrop(t, P, d, q - d);
    forall k | OccursAt(t[d..], p, k) ensures k + |p| <= q - d || q - d + |P| <= k {
      OccursAfterDrop(t, p, d, k);
    }
  }

  lemma KeepBefore(t: string, j: nat, P: string, q: nat, inserted: string, tail: string)
    requires j <= |t| && q + |P| <= j && OccursAt(t, P, q)
    ensures OccursAt((t[..j] + inserted) + tail, P, q)
  {
    assert t[..j][q..q + |P|] == t[q..q + |P|];
    OccursInPrefix(t[..j], inserted, P, q);
    OccursInPrefix(t[..j] + inserted, tail, P, q);
  }

  /** One step of the global replace, at the first match `j`. */
  lemma ReplaceRestAt(done: string, t: string, p: string, r: string, j: nat)
    requires |p| > 0 && IndexOf(t, p) == Some(j)
    ensures j + |p| <= |t|
    ensures ReplaceRest(done, t, p, r)
      == (t[..j] + Expand(r, p, done + t[..j], t[j + |p|..])) + ReplaceRest(done + t[..j + |p|], t[j + |p|..], p, r)
  {
  }

  /** An occurrence of `P` that no match of `p` overlaps survives a global replace of `p`. */
  lemma {:induction false} ReplaceRestKeeps(done: string, t: string, p: string, r: string, P: string, q: nat) returns (m: nat)
    requires |p| > 0 && OccursAt(t, P, q)
    requires forall k :: OccursAt(t, p, k) ==> k + |p| <= q || q + |P| <= k
    ensures OccursAt(ReplaceRest(done, t, p, r), P, m)
    decreases |t|
  {
    match IndexOf(t, p)
    case None =>
      m := q;
    case Some(j) =>
      if j + |p| <= q {
        NoOverlapAfterDrop(t, p, j + |p|, P, q);
        var m' := ReplaceRestKeeps(done + t[..j + |p|], t[j + |p|..], p, r, P, q - j - |p|);
        m := KeepAfterMatch(done, t, p, r, j, P, m');
      } else {
        KeepBeforeMatch(done, t, p, r, j, P, q);
        m := q;
      }
  }

  /** An occurrence in what follows the first match survives, shifted by what the match became. */
  lemma KeepAfterMatch(done: string, t: string, p: string, r: string, j: nat, P: string, m': nat) returns (m: nat)
    requires |p| > 0 && IndexOf(t, p) == Some(j)
    requires OccursAt(ReplaceRest(done + t[..j + |p|], t[j + |p|..], p, r), P, m')
    ensures OccursAt(ReplaceRest(done, t, p, r), P, m)
  {
    ReplaceRestAt(done, t, p, r, j);
    var inserted := Expand(r, p, done + t[..j], t[j + |p|..]);
    OccursInSuffix(t[..j] + inserted, ReplaceRest(done + t[..j + |p|], t[j + |p|..], p, r), P, m');
    m := |t[..j] + inserted| + m';
  }

  /** An occurrence ending before the first match survives in place. */
  lemma KeepBeforeMatch(done: string, t: string, p: string, r: string, j: nat, P: string, q: nat)
    requires |p| > 0 && IndexOf(t, p) == Some(j)
    requires q + |P| <= j && OccursAt(t, P, q)
    ensures OccursAt(ReplaceRest(done, t, p, r), P, q)
  {
    ReplaceRestAt(done, t, p, r, j);
    KeepBefore(t, j, P, q, Expand(r, p, done + t[..j], t[j + |p|..]), ReplaceRest(done + t[..j + |p|], t[j + |p|..], p, r));
  }

  /** A placeholder with no argument, `{j}` for `j >= args.length`, stays in the output. */
  lemma {:induction false} UnusedPlaceholderSurvives(message: string, args: seq<string>, j: nat)
    requires j >= |args| && Contains(message, Placeholder(j))
    ensures Contains(Substitute(message, args), Placeholder(j))
  {
    if args != [] {
      var n := |args| - 1;
      UnusedPlaceholderSurvives(message, args[..n], j);
      var s := Substitute(message, args[..n]);
      var q := IndexOf(s, Placeholder(j)).value;
      forall k | OccursAt(s, Placeholder(n), k)
        ensures k + |Placeholder(n)| <= q || q + |Placeholder(j)| <= k
      {
        PlaceholdersDisjoint(s, n, j, k, q);
      }
      var m := ReplaceRestKeeps("", s, Placeholder(n), args[n], Placeholder(j), q);
      ContainsAt(GlobalReplace(s, Placeholder(n), args[n]), Placeholder(j), m);
    }
  }

  /** Replacing a pattern in a string that is exactly the pattern gives the replacement. */
  lemma ReplaceWhole(p: string, r: string)
    requires |p| > 0 && '$' !in r
    ensures GlobalReplace(p, p, r) == r
  {
    assert OccursAt(p, p, 0);
    assert IndexOf(p, p) == Some(0);
    ReplaceRestAt("", p, p, r, 0);
    assert p[|p|..] == "";
    assert IndexOf("", p) == None;
    assert ReplaceRest("" + p[..|p|], p[|p|..], p, r) == "";
    ExpandLiteral(r, p, "" + p[..0], p[|p|..]);
    assert p[..0] == "";
  }

  /** Substitution is sequential: text inserted for `{0}` is itself searched for `{1}`. */
  lemma SequentialSubstitution()
    ensures Substitute("{0}", ["{1}", "x"]) == "x"
  {
    assert Placeholder(0) == "{0}";
    assert Placeholder(1) == "{1}";
    var args := ["{1}", "x"];
    assert args[..1] == ["{1}"];
    assert args[..1][..0] == [];
    ReplaceWhole("{0}", "{1}");
    assert Substitute("{0}", args[..1]) == "{1}";
    ReplaceWhole("{1}", "x");
  }
}

=== FILE: mcp_tool.dfy ===
/**
 * The view of a call to a tool served over the Model Context Protocol
 * (webview/src/components/Messages/blocks/tools/McpTool/McpTool.tsx). Such
 * tools are named `mcp__<server>__<tool>`; the view shows the two parts,
 * the output when there is one, and the error text of a failed call.
 */
module McpTool {
  import opened Wrappers
  import opened Strs
  import opened Json
  import ToolErrorParser

  const NameSeparator := "__"

  /** The server and tool a name designates. */
  datatype McpName = McpName(server: string, tool: string)

  /** Does the split name have the `mcp__<server>__<tool>` shape? */
  predicate IsMcpSplit(parts: seq<string>) {
    |parts| >= 3 && parts[0] == "mcp"
  }

  /** `mcpParts` for the name `toolUse?.name || ''`. */
  function McpParts(name: string): (r: McpName)
    ensures IsMcpSplit(Split(name, NameSeparator)) ==> r.server == Split(name, NameSeparator)[1]
    ensures !IsMcpSplit(Split(name, NameSeparator)) ==> r == McpName("unknown", name)
  {
    var parts := Split(name, NameSeparator);
    if IsMcpSplit(parts) then McpName(parts[1], Join(parts[2..], NameSeparator))
    else McpName("unknown", name)
  }

  /**
   * A name read as an MCP name is put back together from its parts, and
   * its server part never holds the separator.
   */
  lemma McpPartsRebuild(name: string)
    requires IsMcpSplit(Split(name, NameSeparator))
    ensures var r := McpParts(name);
      && name == "mcp" + NameSeparator + r.server + NameSeparator + r.tool
      && !Contains(r.server, NameSeparator)
  {
    var parts := Split(name, NameSeparator);
    assert Join(parts, NameSeparator) == parts[0] + NameSeparator + Join(parts[1..], NameSeparator);
    assert parts[1..][1..] == parts[2..];
    assert Join(parts[1..], NameSeparator) == parts[1] + NameSeparator + Join(parts[2..], NameSeparator);
  }

  /** In `mcp__<server>__<tool>` the first separator is the one after `mcp`. */
  lemma FirstSeparatorAfterMcp(rest: string)
    ensures IndexOf("mcp" + NameSeparator + rest, NameSeparator) == Some(3)
  {
    var s := "mcp" + NameSeparator + rest;
    assert s[3..5] == NameSeparator;
    assert s[0..2] == "mc" && s[1..3] == "cp" && s[2..4] == "p_";
    IndexOfAt(s, NameSeparator, 3);
  }

  /** After a server name without the separator and not ending in `_`, the next separator closes it. */
  lemma FirstSeparatorAfterServer(server: string, tool: string)
    requires !Contains(server, NameSeparator) && !EndsWith(server, "_")
    ensures IndexOf(server + NameSeparator + tool, NameSeparator) == Some(|server|)
  {
    var s := server + NameSeparator + tool;
    assert s[|server|..|server| + 2] == NameSeparator;
    forall k | 0 <= k < |server| ensures !OccursAt(s, NameSeparator, k) {
      NoSeparatorInsideServer(server, tool, k);
    }
    IndexOfAt(s, NameSeparator, |server|);
  }

  /** No separator starts inside such a server name, even one running into the separator after it. */
  lemma NoSeparatorInsideServer(server: string, tool: string, k: nat)
    requires !Contains(server, NameSeparator) && !EndsWith(server, "_") && k < |server|
    ensures !OccursAt(server + NameSeparator + tool, NameSeparator, k)
  {
    var s := server + NameSeparator + tool;
    if k + 2 <= |server| {
      assert s[k..k + 2] == server[k..k + 2];
      if OccursAt(server, NameSeparator, k) {
        ContainsAt(server, NameSeparator, k);
      }
    } else {
      assert s[k] == server[|server| - 1];
      assert server[|server| - 1..] == [server[|server| - 1]];
    }
  }

  /**
   * Reading back a name built from a server and a tool gives that server
   * and tool, provided the server cannot be confused with the separator:
   * it holds no `__` and does not end in `_`.
   */
  lemma McpPartsOfBuiltName(server: string, tool: string)
    requires !Contains(server, NameSeparator) && !EndsWith(server, "_")
    ensures McpParts("mcp" + NameSeparator + server + NameSeparator + tool) == McpName(server, tool)
  {
    var rest := server + NameSeparator + tool;
    var name := "mcp" + NameSeparator + rest;
    assert name == "mcp" + NameSeparator + server + NameSeparator + tool;
    FirstSeparatorAfterMcp(rest);
    assert name[..3] == "mcp" && name[5..] == rest;
    FirstSeparatorAfterServer(server, tool);
    assert rest[..|server|] == server && rest[|server| + 2..] == tool;
    var parts := Split(name, NameSeparator);
    assert parts == ["mcp"] + Split(rest, NameSeparator);
    assert Split(rest, NameSeparator) == [server] + Split(tool, NameSeparator);
    assert parts[2..] == Split(tool, NameSeparator);
  }

  /** A name that does not start with `mcp__` is shown whole under the `unknown` server. */
  lemma NonMcpName(name: string)
    requires !StartsWith(name, "mcp" + NameSeparator)
    ensures McpParts(name) == McpName("unknown", name)
  {
    var parts := Split(name, NameSeparator);
    if IsMcpSplit(parts) {
      McpPartsRebuild(name);
    }
  }

  /** `hasOutput`: never for a failed call; otherwise a loaded `output` or a live `content`. */
  predicate HasOutput(toolResult: Option<Json>, toolUseResult: Option<Json>) {
    && !ToolErrorParser.HasToolError(toolResult)
    && ((toolUseResult.Some? && Present(Field(toolUseResult.value, "output")))
        || (toolResult.Some? && Present(Field(toolResult.value, "content"))))
  }

  /** `shouldExpand`. */
  predicate ShouldExpand(toolResult: Option<Json>, toolUseResult: Option<Json>) {
    ToolErrorParser.HasToolError(toolResult) || HasOutput(toolResult, toolUseResult)
  }

  /** A failed call opens on its error and never claims output. */
  lemma ErrorHidesOutput(toolResult: Option<Json>, toolUseResult: Option<Json>)
    ensures ToolErrorParser.HasToolError(toolResult) ==> !HasOutput(toolResult, toolUseResult) && ShouldExpand(toolResult, toolUseResult)
    ensures !ToolErrorParser.HasToolError(toolResult) ==> (ShouldExpand(toolResult, toolUseResult) <==> HasOutput(toolResult, toolUseResult))
  {
  }

  /** What `errorMessage` shows: text, or a value handed to `JSON.stringify` (`None` is `undefined`). */
  datatype ErrorText = Text(s: string) | Stringified(value: Option<Json>)

  /** `item.type === 'text'`. */
  predicate IsTextItem(item: Json) {
    Field(item, "type") == Some(JStr("text"))
  }

  /** `item.text` as `join` prints it: `null` and `undefined` print as "". */
  function ItemText(item: Json): string {
    match Field(item, "text")
    case None => ""
    case Some(JNull) => ""
    case Some(t) => ToJsString(t)
  }

  /** The texts of the text items, in order. */
  function TextsOf(items: seq<Json>): (r: seq<string>)
    ensures |r| <= |items|
  {
    if items == [] then []
    else (if IsTextItem(items[0]) then [ItemText(items[0])] else []) + TextsOf(items[1..])
  }

  /** `errorMessage`. */
  function ErrorMessage(toolResult: Option<Json>): (r: ErrorText)
    ensures !ToolErrorParser.HasToolError(toolResult) ==> r == Text("")
    ensures ToolErrorParser.HasToolError(toolResult) ==>
      match Field(toolResult.value, "content")
      case Some(JStr(s)) => r == Text(s)
      case Some(JArr(items)) => r == Text(Join(TextsOf(items), "\n"))
      case c => r == Stringified(c)
  {
    if !ToolErrorParser.HasToolError(toolResult) then Text("")
    else
      match Field(toolResult.value, "content")
      case Some(JStr(s)) => Text(s)
      case Some(JArr(items)) => Text(Join(TextsOf(items), "\n"))
      case c => Stringified(c)
  }

  /**
   * The lines of an array's error message are its text items' texts, when
   * there is at least one text item and none of their texts holds a line break.
   */
  lemma ErrorLines(toolResult: Option<Json>, items: seq<Json>)
    requires ToolErrorParser.HasToolError(toolResult)
    requires Field(toolResult.value, "content") == Some(JArr(items))
    requires |TextsOf(items)| >= 1
    requires forall i :: 0 <= i < |TextsOf(items)| ==> '\n' !in TextsOf(items)[i]
    ensures Split(ErrorMessage(toolResult).s, "\n") == TextsOf(items)
  {
    SplitJoinChar(TextsOf(items), '\n');
  }
}

=== FILE: message_bus.dfy ===
/**
 * The webview message bus and the reactive state it updates in place: the
 * chat list with its streaming index, the pending permission requests, the
 * queue of typed messages and the tool-message table. Every handler is
 * proved to leave the state exactly as the functions of `BusSpec` say; the
 * lemmas there say what those changes mean.
 *
 * `vscode.postMessage` is modelled as the list of posted envelopes; the
 * clock (`Date.now()`) and the random suffixes are inputs.
 */
module MessageBus {
  import opened Wrappers
  import opened Strs
  import opened Json
  import opened OrderedMaps
  import opened ToolMessages
  import opened ChatMessages
  import opened MessageUtils
  import opened PermissionStore
  import opened MessageQueueStore
  import opened BusSpec
  import Store = ToolMessageStore
  import Tables = ToolMessageTable

  /** `chatState`. */
  class ChatState {
    var messages: seq<ChatMessage>
    var currentRequest: Option<CurrentRequest>
    /** `streamingMessages`: session key to the index of the message being streamed. */
    var streamingMessages: OMap<string, nat>

    ghost predicate Valid()
      reads this
    {
      StreamingConsistent(Snapshot())
    }

    function Snapshot(): Chat
      reads this
    {
      Chat(messages, streamingMessages)
    }

    constructor()
      ensures Valid() && messages == [] && currentRequest.None? && streamingMessages == Empty()
    {
      messages := [];
      currentRequest := None;
      streamingMessages := Empty();
    }
  }

  /** `permissionState`. */
  class PermissionState {
    var pendingRequests: seq<PermissionRequest>

    constructor()
      ensures pendingRequests == []
    {
      pendingRequests := [];
    }
  }

  /** `messageQueueState`. */
  class MessageQueueState {
    var queuedMessages: Queue

    constructor()
      ensures queuedMessages == []
    {
      queuedMessages := [];
    }
  }

  /** The payload of a `claude/event` message, by `kind`. */
  datatype ClaudeEvent =
    | UserEvent(message: Option<Json>)
    | AssistantEvent(message: Option<Json>)
    | StreamEvent(message: Option<Json>)
    | PermissionRequestEvent(toolUseId: string, toolName: string, input: Json)
    | PermissionDecisionEvent(toolUseId: string, result: Option<Json>)
    | ResultEvent
    | SystemEvent
    | ErrorEvent(error: string)

  class WebviewMessageBus {
    /** Whether the VS Code API was found when the bus was created. */
    const hasApi: bool
    /** `handlers`: message type to the callbacks registered for it, in registration order. */
    var handlers: Handlers
    var messageSequence: nat
    /** What `vscode.postMessage` received, in order. */
    var posted: seq<Envelope>

    const chat: ChatState
    const permissions: PermissionState
    const queue: MessageQueueState
    const tools: Tables.ToolMessageTable

    ghost predicate Valid()
      reads this, chat, tools
    {
      && HandlersValid(handlers)
      && |posted| == messageSequence && Numbered(posted)
      && chat.Valid() && tools.Valid()
    }

    /** The constructor registers one handler per built-in message type. */
    constructor(hasApi: bool, chat: ChatState, permissions: PermissionState, queue: MessageQueueState, tools: Tables.ToolMessageTable)
      requires chat.Valid() && tools.Valid()
      ensures Valid()
      ensures this.hasApi == hasApi && this.chat == chat && this.permissions == permissions
      ensures this.queue == queue && this.tools == tools
      ensures handlers == RegisterAll(Empty(), BuiltInTypes, 0)
      ensures messageSequence == 0 && posted == []
    {
      this.hasApi := hasApi;
      this.chat := chat;
      this.permissions := permissions;
      this.queue := queue;
      this.tools := tools;
      handlers := Empty();
      messageSequence := 0;
      posted := [];
      new;
      RegisterEventHandlers(BuiltInTypes);
    }

    /** `registerEventHandlers()`: handler `i` listens to the `i`-th of the given types. */
    method RegisterEventHandlers(types: seq<string>)
      requires Valid()
      modifies this
      ensures Valid()
      ensures handlers == RegisterAll(old(handlers), types, 0)
      ensures posted == old(posted) && messageSequence == old(messageSequence)
    {
      var i := 0;
      while i < |types|
        invariant 0 <= i <= |types|
        invariant Valid() && posted == old(posted) && messageSequence == old(messageSequence)
        invariant RegisterAll(handlers, types[i..], i) == RegisterAll(old(handlers), types, 0)
      {
        assert types[i..][1..] == types[i + 1..];
        On(types[i], i);
        i := i + 1;
      }
    }

    /** `handleIncomingMessage`: the callbacks run for a message of type `t`, in order. */
    function Listeners(t: string): (r: seq<HandlerId>)
      reads this
      requires HandlersValid(handlers)
      ensures r != [] <==> t in handlers.vals
    {
      Get(handlers, t).GetOr([])
    }

    /** `on(type, handler)`. */
    method On(t: string, h: HandlerId)
      requires Valid()
      modifies this
      ensures Valid()
      ensures handlers == Subscribed(old(handlers), t, h)
      ensures posted == old(posted) && messageSequence == old(messageSequence)
    {
      var list := Get(handlers, t).GetOr([]);
      handlers := Put(handlers, t, list + [h]);
    }

    /** The unsubscriber `on(type, handler)` returns, called. */
    method Unsubscribe(t: string, h: HandlerId)
      requires Valid()
      modifies this
      ensures Valid()
      ensures handlers == Unsubscribed(old(handlers), t, h)
      ensures posted == old(posted) && messageSequence == old(messageSequence)
    {
      var list := Get(handlers, t);
      if list.Some? {
        var rest := RemoveHandler(list.value, h);
        if rest == [] {
          handlers := Remove(handlers, t);
        } else {
          handlers := Put(handlers, t, rest);
        }
      }
    }

    /** `send(message)`: without the API the message is dropped; otherwise it is posted with the next sequence number. */
    method Send(m: Outgoing)
      requires Valid()
      modifies this
      ensures Valid()
      ensures handlers == old(handlers)
      ensures !hasApi ==> posted == old(posted) && messageSequence == old(messageSequence)
      ensures hasApi ==> (messageSequence == old(messageSequence) + 1
        && posted == old(posted) + [Envelope(m, messageSequence)])
    {
      if !hasApi {
        return;
      }
      messageSequence := messageSequence + 1;
      posted := posted + [Envelope(m, messageSequence)];
    }

    /** `handleUserMessage`. */
    method HandleUserMessage(message: Option<Json>, now: int)
      requires Valid()
      modifies chat, tools
      ensures Valid()
      ensures chat.Snapshot() == UserChat(old(chat.Snapshot()), message, now)
      ensures tools.messages == UserTools(old(tools.messages), message)
      ensures chat.currentRequest == old(chat.currentRequest)
    {
      UserConsistent(chat.Snapshot(), message, now);
      if !IsSdkOfType(message, "user") {
        assert UserContent(message) == None;
        return;
      }
      var sdk := message.value;
      if Present(Field(sdk, "isMeta")) {
        assert UserContent(message) == None;
        return;
      }
      var content := MessageContent(sdk);
      if !Present(content) {
        assert UserContent(message) == None;
        return;
      }
      assert UserContent(message) == content;
      match content.value {
        case JStr(s) =>
          chat.messages := chat.messages + [UserTextMessage(sdk, s, now)];
        case JArr(bs) =>
          if StartsWithToolResult(bs) {
            ApplyToolResults(bs, Field(sdk, "toolUseResult"));
          } else {
            var text := CollectText(bs);
            if Trim(text) != "" {
              chat.messages := chat.messages + [UserTextMessage(sdk, text, now)];
            }
          }
        case _ =>
      }
    }

    /** The `tool_result` loop of `handleUserMessage`. */
    method ApplyToolResults(bs: seq<Json>, toolUseResult: Option<Json>)
      requires tools.Valid()
      modifies tools
      ensures tools.Valid()
      ensures tools.messages == ToolResultsApplied(old(tools.messages), bs, toolUseResult)
    {
      var i := 0;
      while i < |bs|
        invariant 0 <= i <= |bs|
        invariant tools.Valid()
        invariant tools.messages == ToolResultsApplied(old(tools.messages), bs[..i], toolUseResult)
      {
        ToolResultStep(old(tools.messages), bs, i, toolUseResult);
        var b := bs[i];
        if IsToolResultBlock(b) {
          var id := StrField(b, "tool_use_id").value;
          var _ := tools.SetToolResult(ToolResult(Field(b, "content"), Some(Present(Field(b, "is_error"))), id));
          if Present(toolUseResult) {
            var existing := tools.GetToolMessage(id);
            if existing.Some? {
              var _ := tools.Upsert(id, ToolUseResultPatch(toolUseResult.value));
            }
          }
        }
        i := i + 1;
      }
      assert bs[..i] == bs;
    }

    /** `handleAssistantMessage`. */
    method HandleAssistantMessage(message: Option<Json>, now: int)
      requires Valid()
      modifies chat, tools
      ensures Valid()
      ensures chat.Snapshot() == AssistantChat(old(chat.Snapshot()), message, now)
      ensures tools.messages == AssistantTools(old(tools.messages), message)
      ensures chat.currentRequest == old(chat.currentRequest)
    {
      AssistantConsistent(chat.Snapshot(), message, now);
      if !IsSdkOfType(message, "assistant") {
        return;
      }
      var sdk := message.value;
      var content := MessageContent(sdk);
      if !Present(content) || !content.value.JArr? {
        return;
      }
      var bs := content.value.items;
      var text, hasText := ApplyAssistantBlocks(bs, sdk, now);
      AssistantChatOf(old(chat.Snapshot()), message, now);
      CompleteAssistantText(sdk, text, hasText, now);
    }

    /** The block loop of `handleAssistantMessage`: texts are collected, tool uses pushed and stored. */
    method ApplyAssistantBlocks(bs: seq<Json>, sdk: Json, now: int) returns (text: string, hasText: bool)
      requires tools.Valid()
      modifies chat, tools
      ensures tools.Valid()
      ensures chat.messages == old(chat.messages) + ToolChatMessages(bs, sdk, now)
      ensures chat.streamingMessages == old(chat.streamingMessages) && chat.currentRequest == old(chat.currentRequest)
      ensures tools.messages == ToolUsesApplied(old(tools.messages), bs)
      ensures text == TextOfBlocks(bs) && hasText == HasTextBlock(bs)
    {
      text := "";
      hasText := false;
      var i := 0;
      while i < |bs|
        invariant 0 <= i <= |bs|
        invariant tools.Valid()
        invariant chat.messages == old(chat.messages) + ToolChatMessages(bs[..i], sdk, now)
        invariant chat.streamingMessages == old(chat.streamingMessages)
        invariant chat.currentRequest == old(chat.currentRequest)
        invariant tools.messages == ToolUsesApplied(old(tools.messages), bs[..i])
        invariant text == TextOfBlocks(bs[..i]) && hasText == HasTextBlock(bs[..i])
      {
        AssistantBlockStep(bs, i, sdk, now);
        ToolUseStep(old(tools.messages), bs, i);
        var b := bs[i];
        ghost var before := chat.messages;
        if IsTextBlock(b) {
          text := text + StrField(b, "text").value;
          hasText := true;
        } else if IsToolUseBlock(b) {
          CreateToolMessage(b, sdk, now);
          AppendAssoc(old(chat.messages), ToolChatMessages(bs[..i], sdk, now), ToolChatMessage(b, sdk, now));
        }
        i := i + 1;
      }
      assert bs[..i] == bs;
    }

    /** The text part of `handleAssistantMessage`: finish the filed stream, or append a completed message. */
    method CompleteAssistantText(sdk: Json, text: string, hasText: bool, now: int)
      requires OrderedMaps.Valid(chat.streamingMessages)
      modifies chat
      ensures chat.Snapshot() == FinishAssistantText(old(chat.Snapshot()), sdk, text, hasText, now)
      ensures chat.currentRequest == old(chat.currentRequest)
    {
      if !(hasText && Trim(text) != "") {
        return;
      }
      var key := SessionIdOr(sdk, "");
      var existing := Get(chat.streamingMessages, key);
      if existing.Some? {
        var index := existing.value;
        if index < |chat.messages| {
          chat.messages := chat.messages[index := Finalized(chat.messages[index], text, sdk)];
          chat.streamingMessages := Remove(chat.streamingMessages, key);
        }
      } else {
        chat.messages := chat.messages + [AssistantTextMessage(sdk, text, now)];
      }
    }

    /** `createToolMessage(block, sdkMessage)`: one tool message pushed and the tool use stored. */
    method CreateToolMessage(b: Json, sdk: Json, now: int)
      requires IsToolUseBlock(b) && tools.Valid()
      modifies chat, tools
      ensures tools.Valid()
      ensures chat.messages == old(chat.messages) + [ToolChatMessage(b, sdk, now)]
      ensures chat.streamingMessages == old(chat.streamingMessages) && chat.currentRequest == old(chat.currentRequest)
      ensures tools.messages == Store.SetToolUse(old(tools.messages), ToolUseOf(b)).table
    {
      chat.messages := chat.messages + [ToolChatMessage(b, sdk, now)];
      var _ := tools.SetToolUse(ToolUseOf(b));
    }

    /** `handleStreamEvent`. */
    method HandleStreamEvent(message: Option<Json>, now: int)
      requires Valid()
      modifies chat
      ensures Valid()
      ensures chat.Snapshot() == StreamChat(old(chat.Snapshot()), message, now)
      ensures chat.currentRequest == old(chat.currentRequest)
    {
      StreamConsistent(chat.Snapshot(), message, now);
      if !IsSdkOfType(message, "stream_event") {
        return;
      }
      var sdk := message.value;
      var key := SessionIdOr(sdk, "default");
      var delta := ExtractTextContent(sdk);
      if delta == "" {
        return;
      }
      var existing := Get(chat.streamingMessages, key);
      if existing.Some? {
        var index := existing.value;
        if index < |chat.messages| {
          var m := chat.messages[index];
          var blocks := m.contentBlocks;
          if blocks.Some? && |blocks.value| > 0 {
            var last := blocks.value[|blocks.value| - 1];
            if last.kind == "text" && last.text.Some? {
              blocks := Some(blocks.value[|blocks.value| - 1 := last.(text := Some(last.text.value + delta))]);
            }
          }
          chat.messages := chat.messages[index := m.(content := m.content + delta, contentBlocks := blocks)];
        }
      } else {
        var index := |chat.messages|;
        chat.messages := chat.messages + [StreamDeltaMessage(sdk, delta, now)];
        chat.streamingMessages := Put(chat.streamingMessages, key, index);
      }
    }

    /** `handlePermissionRequest`: the request is queued and its tool message marked pending. */
    method HandlePermissionRequest(toolUseId: string, toolName: string, input: Json, now: int)
      requires Valid()
      modifies permissions, tools
      ensures Valid()
      ensures permissions.pendingRequests == AddRequest(old(permissions.pendingRequests), PermissionRequest(toolUseId, toolName, input, now))
      ensures tools.messages == Store.SetPermissionRequest(old(tools.messages), toolUseId, toolUseId).table
    {
      permissions.pendingRequests := permissions.pendingRequests + [PermissionRequest(toolUseId, toolName, input, now)];
      var _ := tools.SetPermissionRequest(toolUseId, toolUseId);
    }

    /** `handlePermissionDecision`: the tool message records the decision and the oldest matching request goes. */
    method HandlePermissionDecision(toolUseId: string, result: Option<Json>)
      requires Valid()
      modifies permissions, tools
      ensures Valid()
      ensures tools.messages == Store.SetPermissionResponse(old(tools.messages), toolUseId, BusSpec.Allowed(result)).table
      ensures permissions.pendingRequests == PermissionAnswered(old(permissions.pendingRequests), toolUseId)
    {
      var allowed := result.Some? && StrField(result.value, "behavior") == Some("allow");
      var _ := tools.SetPermissionResponse(toolUseId, allowed);
      RemovePending(permissions, toolUseId);
    }

    /** `handleError`: one error message pushed. */
    method HandleError(error: string, now: int)
      requires Valid()
      modifies chat
      ensures Valid()
      ensures chat.messages == old(chat.messages) + [ErrorMessage(error, now)]
      ensures chat.streamingMessages == old(chat.streamingMessages) && chat.currentRequest == old(chat.currentRequest)
    {
      PushConsistent(chat.Snapshot(), [ErrorMessage(error, now)]);
      chat.messages := chat.messages + [ErrorMessage(error, now)];
    }

    /**
     * `handleResult`: the request is over, every stream is forgotten, and
     * the next queued message, if any, is sent.
     */
    method HandleResult(now: int, nonce: string)
      requires Valid()
      modifies this, chat, queue
      ensures Valid()
      ensures chat.messages == old(chat.messages) && chat.streamingMessages == Empty()
      ensures handlers == old(handlers)
      ensures DrainedOne(old(queue.queuedMessages), queue.queuedMessages, old(posted), posted, old(messageSequence),
        chat.currentRequest, hasApi, None, now, nonce)
    {
      if chat.currentRequest.Some? {
        chat.currentRequest := None;
      }
      chat.streamingMessages := Empty();
      ProcessNextQueuedMessage(this, now, nonce);
    }

    /**
     * `handleClaudeEvent`: dispatch on the event's kind. Each kind has its
     * handler's effect and leaves every other part of the state as it was;
     * a system event changes nothing.
     */
    method HandleClaudeEvent(e: ClaudeEvent, now: int, nonce: string)
      requires Valid()
      modifies this, chat, tools, permissions, queue
      ensures Valid()
      ensures handlers == old(handlers)
      ensures e.UserEvent? ==>
        && chat.Snapshot() == UserChat(old(chat.Snapshot()), e.message, now)
        && tools.messages == UserTools(old(tools.messages), e.message)
        && chat.currentRequest == old(chat.currentRequest)
        && permissions.pendingRequests == old(permissions.pendingRequests)
        && queue.queuedMessages == old(queue.queuedMessages)
        && posted == old(posted) && messageSequence == old(messageSequence)
      ensures e.AssistantEvent? ==>
        && chat.Snapshot() == AssistantChat(old(chat.Snapshot()), e.message, now)
        && tools.messages == AssistantTools(old(tools.messages), e.message)
        && chat.currentRequest == old(chat.currentRequest)
        && permissions.pendingRequests == old(permissions.pendingRequests)
        && queue.queuedMessages == old(queue.queuedMessages)
        && posted == old(posted) && messageSequence == old(messageSequence)
      ensures e.StreamEvent? ==>
        && chat.Snapshot() == StreamChat(old(chat.Snapshot()), e.message, now)
        && tools.messages == old(tools.messages)
        && chat.currentRequest == old(chat.currentRequest)
        && permissions.pendingRequests == old(permissions.pendingRequests)
        && queue.queuedMessages == old(queue.queuedMessages)
        && posted == old(posted) && messageSequence == old(messageSequence)
      ensures e.PermissionRequestEvent? ==>
        && permissions.pendingRequests
          == AddRequest(old(permissions.pendingRequests), PermissionRequest(e.toolUseId, e.toolName, e.input, now))
        && tools.messages == Store.SetPermissionRequest(old(tools.messages), e.toolUseId, e.toolUseId).table
        && chat.Snapshot() == old(chat.Snapshot()) && chat.currentRequest == old(chat.currentRequest)
        && queue.queuedMessages == old(queue.queuedMessages)
        && posted == old(posted) && messageSequence == old(messageSequence)
      ensures e.PermissionDecisionEvent? ==>
        && permissions.pendingRequests == PermissionAnswered(old(permissions.pendingRequests), e.toolUseId)
        && tools.messages == Store.SetPermissionResponse(old(tools.messages), e.toolUseId, BusSpec.Allowed(e.result)).table
        && chat.Snapshot() == old(chat.Snapshot()) && chat.currentRequest == old(chat.currentRequest)
        && queue.queuedMessages == old(queue.queuedMessages)
        && posted == old(posted) && messageSequence == old(messageSequence)
      ensures e.ResultEvent? ==>
        && chat.messages == old(chat.messages) && chat.streamingMessages == Empty()
        && DrainedOne(old(queue.queuedMessages), queue.queuedMessages, old(posted), posted, old(messageSequence),
          chat.currentRequest, hasApi, None, now, nonce)
        && tools.messages == old(tools.messages)
        && permissions.pendingRequests == old(permissions.pendingRequests)
      ensures e.SystemEvent? ==>
        && chat.Snapshot() == old(chat.Snapshot()) && chat.currentRequest == old(chat.currentRequest)
        && tools.messages == old(tools.messages)
        && permissions.pendingRequests == old(permissions.pendingRequests)
        && queue.queuedMessages == old(queue.queuedMessages)
        && posted == old(posted) && messageSequence == old(messageSequence)
      ensures e.ErrorEvent? ==>
        && chat.messages == old(chat.messages) + [ErrorMessage(e.error, now)]
        && chat.streamingMessages == old(chat.streamingMessages) && chat.currentRequest == old(chat.currentRequest)
        && tools.messages == old(tools.messages)
        && permissions.pendingRequests == old(permissions.pendingRequests)
        && queue.queuedMessages == old(queue.queuedMessages)
        && posted == old(posted) && messageSequence == old(messageSequence)
    {
      match e {
        case UserEvent(m) => HandleUserMessage(m, now);
        case AssistantEvent(m) => HandleAssistantMessage(m, now);
        case StreamEvent(m) => HandleStreamEvent(m, now);
        case PermissionRequestEvent(id, name, input) => HandlePermissionRequest(id, name, input, now);
        case PermissionDecisionEvent(id, result) => HandlePermissionDecision(id, result);
        case ResultEvent => HandleResult(now, nonce);
        case SystemEvent =>
        case ErrorEvent(error) => HandleError(error, now);
      }
    }
  }

  /**
   * What draining the queue did: an empty queue leaves the request and the
   * posted messages as they were (`current` is the request before); a
   * non-empty one loses exactly its head, which is sent as a new chat
   * request without a session id.
   */
  ghost predicate DrainedOne(q0: Queue, q1: Queue, posted0: seq<Envelope>, posted1: seq<Envelope>, sequence0: nat,
    request: Option<CurrentRequest>, hasApi: bool, current: Option<CurrentRequest>, now: int, nonce: string)
  {
    && q1 == PopNextMessage(q0).queue
    && (q0 == [] ==> posted1 == posted0 && request == current)
    && (q0 != [] ==>
        && request == Some(CurrentRequest(RequestId(now, nonce), RequestSending, now))
        && posted1 == posted0 + (if hasApi then [Envelope(ChatSend(q0[0].content, None), sequence0 + 1)] else []))
  }

  lemma AppendAssoc<T>(a: seq<T>, b: seq<T>, x: T)
    ensures a + b + [x] == a + (b + [x])
  {
  }

  /** The `textContent += block.text` loop of `handleUserMessage`. */
  method CollectText(bs: seq<Json>) returns (text: string)
    ensures text == TextOfBlocks(bs)
  {
    text := "";
    var i := 0;
    while i < |bs|
      invariant 0 <= i <= |bs|
      invariant text == TextOfBlocks(bs[..i])
    {
      var b := bs[i];
      if HasType(b, "text") && StrField(b, "text").Some? {
        text := text + StrField(b, "text").value;
      }
      assert bs[..i + 1][..i] == bs[..i];
      i := i + 1;
    }
    assert bs[..i] == bs;
  }

  /** `pendingRequests.findIndex(...)` and `splice(index, 1)`. */
  method RemovePending(permissions: PermissionState, toolUseId: string)
    modifies permissions
    ensures permissions.pendingRequests == PermissionAnswered(old(permissions.pendingRequests), toolUseId)
  {
    permissions.pendingRequests := PermissionAnswered(permissions.pendingRequests, toolUseId);
  }

  /** `sendPermissionResponse(toolUseId, result)`. */
  method SendPermissionResponse(bus: WebviewMessageBus, toolUseId: string, result: Json)
    requires bus.Valid()
    modifies bus
    ensures bus.Valid()
    ensures bus.handlers == old(bus.handlers)
    ensures bus.posted == old(bus.posted) + (if bus.hasApi then [Envelope(PermissionResponse(toolUseId, result), old(bus.messageSequence) + 1)] else [])
  {
    bus.Send(PermissionResponse(toolUseId, result));
  }

  /** `sendChatMessage(text, sessionId)`: the request becomes current, the text is sent, and its id returned. */
  method SendChatMessage(bus: WebviewMessageBus, text: string, sessionId: Option<string>, now: int, nonce: string)
    returns (requestId: string)
    requires bus.Valid()
    modifies bus, bus.chat
    ensures bus.Valid()
    ensures requestId == RequestId(now, nonce)
    ensures bus.chat.currentRequest == Some(CurrentRequest(requestId, RequestSending, now))
    ensures bus.chat.Snapshot() == old(bus.chat.Snapshot()) && bus.handlers == old(bus.handlers)
    ensures bus.posted == old(bus.posted) + (if bus.hasApi then [Envelope(ChatSend(text, sessionId), old(bus.messageSequence) + 1)] else [])
  {
    requestId := RequestId(now, nonce);
    bus.chat.currentRequest := Some(CurrentRequest(requestId, RequestSending, now));
    bus.Send(ChatSend(text, sessionId));
  }

  /** `interruptChat()`: the interrupt is sent, and the request and every stream are forgotten. */
  method InterruptChat(bus: WebviewMessageBus)
    requires bus.Valid()
    modifies bus, bus.chat
    ensures bus.Valid()
    ensures bus.handlers == old(bus.handlers)
    ensures bus.chat.currentRequest.None? && bus.chat.streamingMessages == Empty()
    ensures bus.chat.messages == old(bus.chat.messages)
    ensures bus.posted == old(bus.posted) + (if bus.hasApi then [Envelope(ChatInterrupt, old(bus.messageSequence) + 1)] else [])
  {
    bus.Send(ChatInterrupt);
    bus.chat.currentRequest := None;
    bus.chat.streamingMessages := Empty();
  }

  /** `loadSession(sessionId)`. */
  method LoadSession(bus: WebviewMessageBus, sessionId: string)
    requires bus.Valid()
    modifies bus
    ensures bus.Valid()
    ensures bus.handlers == old(bus.handlers)
    ensures bus.posted == old(bus.posted) + (if bus.hasApi then [Envelope(SessionLoad(sessionId), old(bus.messageSequence) + 1)] else [])
  {
    bus.Send(SessionLoad(sessionId));
  }

  /** `createNewSession()`. */
  method CreateNewSession(bus: WebviewMessageBus)
    requires bus.Valid()
    modifies bus
    ensures bus.Valid()
    ensures bus.handlers == old(bus.handlers)
    ensures bus.posted == old(bus.posted) + (if bus.hasApi then [Envelope(SessionCreate, old(bus.messageSequence) + 1)] else [])
  {
    bus.Send(SessionCreate);
  }

  /** `requestSessionList()`. */
  method RequestSessionList(bus: WebviewMessageBus)
    requires bus.Valid()
    modifies bus
    ensures bus.Valid()
    ensures bus.handlers == old(bus.handlers)
    ensures bus.posted == old(bus.posted) + (if bus.hasApi then [Envelope(SessionList, old(bus.messageSequence) + 1)] else [])
  {
    bus.Send(SessionList);
  }

  /** `notifyUIReady()`. */
  method NotifyUIReady(bus: WebviewMessageBus)
    requires bus.Valid()
    modifies bus
    ensures bus.Valid()
    ensures bus.handlers == old(bus.handlers)
    ensures bus.posted == old(bus.posted) + (if bus.hasApi then [Envelope(UiReady, old(bus.messageSequence) + 1)] else [])
  {
    bus.Send(UiReady);
  }

  /** `respondToPermission(toolUseId, behavior, options)`: the answer is sent and the oldest matching request goes. */
  method RespondToPermission(bus: WebviewMessageBus, toolUseId: string, allow: bool, options: PermissionOptions)
    requires bus.Valid()
    modifies bus, bus.permissions
    ensures bus.Valid()
    ensures bus.handlers == old(bus.handlers)
    ensures bus.posted == old(bus.posted)
      + (if bus.hasApi then [Envelope(PermissionResponse(toolUseId, PermissionResult(allow, options)), old(bus.messageSequence) + 1)] else [])
    ensures bus.permissions.pendingRequests == PermissionAnswered(old(bus.permissions.pendingRequests), toolUseId)
  {
    bus.Send(PermissionResponse(toolUseId, PermissionResult(allow, options)));
    RemovePending(bus.permissions, toolUseId);
  }

  /** `addMessageToQueue(content)`. */
  method AddMessageToQueue(bus: WebviewMessageBus, content: string, id: string, now: int)
    modifies bus.queue
    ensures bus.queue.queuedMessages == AddMessage(old(bus.queue.queuedMessages), content, id, now).queue
  {
    bus.queue.queuedMessages := bus.queue.queuedMessages + [QueuedMessage(id, content, now)];
  }

  /** `removeMessageFromQueue(messageId)`: the first message with that id goes. */
  method RemoveMessageFromQueue(bus: WebviewMessageBus, messageId: string)
    modifies bus.queue
    ensures bus.queue.queuedMessages == QueueWithout(old(bus.queue.queuedMessages), messageId)
  {
    bus.queue.queuedMessages := QueueWithout(bus.queue.queuedMessages, messageId);
  }

  /** `clearMessageQueue()`. */
  method ClearMessageQueue(bus: WebviewMessageBus)
    modifies bus.queue
    ensures bus.queue.queuedMessages == []
  {
    bus.queue.queuedMessages := [];
  }

  /** `processNextQueuedMessage()`: the head of the queue, if any, is shifted off and sent. */
  method ProcessNextQueuedMessage(bus: WebviewMessageBus, now: int, nonce: string)
    requires bus.Valid()
    modifies bus, bus.chat, bus.queue
    ensures bus.Valid()
    ensures bus.chat.Snapshot() == old(bus.chat.Snapshot()) && bus.handlers == old(bus.handlers)
    ensures DrainedOne(old(bus.queue.queuedMessages), bus.queue.queuedMessages, old(bus.posted), bus.posted,
      old(bus.messageSequence), bus.chat.currentRequest, bus.hasApi, old(bus.chat.currentRequest), now, nonce)
  {
    if |bus.queue.queuedMessages| > 0 {
      var next := bus.queue.queuedMessages[0];
      bus.queue.queuedMessages := bus.queue.queuedMessages[1..];
      var _ := SendChatMessage(bus, next.content, None, now, nonce);
    }
  }
}

=== FILE: message_queue_store.dfy ===
/**
 * The zustand queue of chat messages typed while a request is running:
 * a first-in first-out array that every action replaces with a new array.
 * The id and timestamp of a new item come from the clock and a random
 * source, so they are inputs here.
 */
module MessageQueueStore {
  import opened Wrappers
  import opened Seqs

  datatype QueuedMessage = QueuedMessage(id: string, content: string, timestamp: int)

  type Queue = seq<QueuedMessage>

  /** The new queue and the item `addMessage` returns. */
  datatype Added = Added(queue: Queue, item: QueuedMessage)

  /** The new queue and the item `popNextMessage` returns, if any. */
  datatype Popped = Popped(queue: Queue, item: Option<QueuedMessage>)

  /** `addMessage(content)`: the new item goes to the tail and is returned. */
  function AddMessage(q: Queue, content: string, id: string, now: int): (r: Added)
    ensures |r.queue| == |q| + 1
    ensures r.queue[..|q|] == q && r.queue[|q|] == r.item
    ensures r.item.content == content && r.item.id == id && r.item.timestamp == now
  {
    var item := QueuedMessage(id, content, now);
    Added(q + [item], item)
  }

  /** `removeMessage(id)`: every item with that id goes; the others keep their order. */
  function RemoveMessage(q: Queue, id: string): (r: Queue)
    ensures |r| <= |q|
    ensures forall m :: m in r <==> m in q && m.id != id
  {
    Filter(q, (m: QueuedMessage) => m.id != id)
  }

  /** Removing from a concatenation removes from each part, so the survivors stay in order. */
  lemma RemoveMessageAppend(a: Queue, b: Queue, id: string)
    ensures RemoveMessage(a + b, id) == RemoveMessage(a, id) + RemoveMessage(b, id)
  {
    FilterAppend(a, b, (m: QueuedMessage) => m.id != id);
  }

  /** Removing an id no item has leaves the queue as it is. */
  lemma RemoveMissing(q: Queue, id: string)
    requires forall i :: 0 <= i < |q| ==> q[i].id != id
    ensures RemoveMessage(q, id) == q
  {
    FilterAll(q, (m: QueuedMessage) => m.id != id);
  }

  /** `clearQueue()`. */
  function ClearQueue(): (r: Queue)
    ensures |r| == 0
  {
    []
  }

  /** `getNextMessage()`: the head, without changing the queue. */
  function GetNextMessage(q: Queue): (r: Option<QueuedMessage>)
    ensures r.None? <==> q == []
    ensures r.Some? ==> r.value == q[0]
  {
    if |q| > 0 then Some(q[0]) else None
  }

  /** `popNextMessage()`: the head is returned and exactly the tail remains. */
  function PopNextMessage(q: Queue): (r: Popped)
    ensures q == [] ==> r.item.None? && r.queue == q
    ensures q != [] ==> r.item == Some(q[0]) && r.queue == q[1..]
    ensures r.item.Some? ==> q == [r.item.value] + r.queue
  {
    if |q| == 0 then Popped(q, None)
    else Popped(q[1..], Some(q[0]))
  }

  /** `getQueueLength()`. */
  function GetQueueLength(q: Queue): (n: nat)
    ensures n == 0 <==> q == []
  {
    |q|
  }

  /** First in, first out: what is popped next does not depend on what is added afterwards, unless the queue was empty. */
  lemma FirstInFirstOut(q: Queue, content: string, id: string, now: int)
    ensures var added := AddMessage(q, content, id, now);
      && (q != [] ==> PopNextMessage(added.queue).item == GetNextMessage(q)
                      && PopNextMessage(added.queue).queue == PopNextMessage(q).queue + [added.item])
      && (q == [] ==> PopNextMessage(added.queue) == Popped([], Some(added.item)))
  {
    var added := AddMessage(q, content, id, now);
    if q != [] {
      assert added.queue[1..] == q[1..] + [added.item];
    }
  }
}

=== FILE: message_utils.dfy ===
/**
 * Helpers the webview uses to read SDK messages and to present tool calls:
 * text extraction per message type, message-type classification, tool-name
 * lookups and the inline formatting of tool parameters. An SDK message is
 * the untyped value it is on the wire.
 */
module MessageUtils {
  import opened Wrappers
  import opened Strs
  import opened Json
  import opened ChatMessages

  /** `message.message.content`. */
  function MessageContent(m: Json): Option<Json> {
    match Field(m, "message")
    case Some(o) => Field(o, "content")
    case None => None
  }

  /** The block's `type` is `t`. */
  predicate HasType(block: Json, t: string) {
    StrField(block, "type") == Some(t)
  }

  /** `blocks.filter(b => b.type === 'text').map(b => b.text)`. */
  function TextsOf(blocks: seq<Json>): (r: seq<Option<Json>>)
    ensures |r| <= |blocks|
  {
    if blocks == [] then []
    else if HasType(blocks[0], "text") then [Field(blocks[0], "text")] + TextsOf(blocks[1..])
    else TextsOf(blocks[1..])
  }

  /** `values.join(sep)`: `undefined` and `null` print as "". */
  function JsJoin(values: seq<Option<Json>>, sep: string): string {
    Join(seq(|values|, i requires 0 <= i < |values| =>
      match values[i] case None => "" case Some(JNull) => "" case Some(v) => ToJsString(v)), sep)
  }

  /** `extractUserMessageText`: string content verbatim; for block arrays, the text blocks joined with one space. */
  function ExtractUserMessageText(m: Json): string {
    match MessageContent(m)
    case Some(JStr(s)) => s
    case Some(JArr(blocks)) => JsJoin(TextsOf(blocks), " ")
    case _ => ""
  }

  /** `extractAssistantMessageText`: the text blocks joined with one space. */
  function ExtractAssistantMessageText(m: Json): string {
    match MessageContent(m)
    case Some(JArr(blocks)) => JsJoin(TextsOf(blocks), " ")
    case _ => ""
  }

  /** A block whose type is "text" and whose text is the string `t`. */
  function TextOnlyBlock(t: string): Json {
    JObj([("type", JStr("text")), ("text", JStr(t))])
  }

  /** Every block is a text block: the filter keeps all and the map reads each text. */
  lemma {:induction false} TextsOfTextBlocks(texts: seq<string>)
    ensures TextsOf(seq(|texts|, i requires 0 <= i < |texts| => TextOnlyBlock(texts[i])))
      == seq(|texts|, i requires 0 <= i < |texts| => Some(JStr(texts[i])))
  {
    var blocks := seq(|texts|, i requires 0 <= i < |texts| => TextOnlyBlock(texts[i]));
    if texts != [] {
      assert blocks[0] == TextOnlyBlock(texts[0]);
      var fields := [("type", JStr("text")), ("text", JStr(texts[0]))];
      assert Lookup(fields, "text") == Lookup(fields[1..], "text");
      assert HasType(blocks[0], "text") && Field(blocks[0], "text") == Some(JStr(texts[0]));
      assert blocks[1..] == seq(|texts[1..]|, i requires 0 <= i < |texts[1..]| => TextOnlyBlock(texts[1..][i]));
      TextsOfTextBlocks(texts[1..]);
    }
  }

  /** Joining values that are all strings prints each string as it is. */
  lemma JsJoinStrings(texts: seq<string>, sep: string)
    ensures JsJoin(seq(|texts|, i requires 0 <= i < |texts| => Some(JStr(texts[i]))), sep) == Join(texts, sep)
  {
    var vs := seq(|texts|, i requires 0 <= i < |texts| => Some(JStr(texts[i])));
    var printed := seq(|vs|, i requires 0 <= i < |vs| =>
      match vs[i] case None => "" case Some(JNull) => "" case Some(v) => ToJsString(v));
    forall k | 0 <= k < |texts|
      ensures printed[k] == texts[k]
    {
      assert vs[k] == Some(JStr(texts[k]));
    }
    assert printed == texts;
  }

  /** A user message made only of text blocks reads as those texts joined by single spaces. */
  lemma UserTextOfTextBlocks(m: Json, texts: seq<string>)
    requires MessageContent(m) == Some(JArr(seq(|texts|, i requires 0 <= i < |texts| => TextOnlyBlock(texts[i]))))
    ensures ExtractUserMessageText(m) == Join(texts, " ")
  {
    TextsOfTextBlocks(texts);
    JsJoinStrings(texts, " ");
  }

  /** `extractResultMessageText`. */
  function ExtractResultMessageText(m: Json): string {
    var subtype := StrField(m, "subtype");
    if subtype == Some("success") && Present(Field(m, "result")) then "任务完成 - " + ToJsString(Field(m, "result").value)
    else if subtype == Some("error_max_turns") then "已达到最大对话轮次限制"
    else if subtype == Some("error_during_execution") then "执行过程中发生错误"
    else "任务结束"
  }

  /** `extractSystemMessageText`: the init message names its model. */
  function ExtractSystemMessageText(m: Json): string {
    if StrField(m, "type") != Some("system") then ""
    else if StrField(m, "subtype") == Some("init") then
      "系统初始化 - 模型: " + (if Present(Field(m, "model")) then ToJsString(Field(m, "model").value) else "未知")
    else if StrField(m, "subtype") == Some("compact_boundary") then "压缩边界标记"
    else "系统消息"
  }

  /** `event.type === 'content_block_delta' && event.delta?.type === 'text_delta'`. */
  predicate IsTextDelta(event: Json) {
    && StrField(event, "type") == Some("content_block_delta")
    && Field(event, "delta").Some?
    && StrField(Field(event, "delta").value, "type") == Some("text_delta")
  }

  /** `extractStreamEventText`: the text of a `content_block_delta` event carrying a `text_delta`, else "". */
  function ExtractStreamEventText(m: Json): (r: string)
    ensures r != "" ==>
              && Field(m, "event").Some? && IsTextDelta(Field(m, "event").value)
              && StrField(Field(Field(m, "event").value, "delta").value, "text") == Some(r)
    ensures Field(m, "event").Some? && IsTextDelta(Field(m, "event").value) ==>
              r == StrField(Field(Field(m, "event").value, "delta").value, "text").GetOr("")
  {
    match Field(m, "event")
    case None => ""
    case Some(e) =>
      if StrField(e, "type") == Some("content_block_delta") then
        match Field(e, "delta")
        case Some(d) => if StrField(d, "type") == Some("text_delta") then StrField(d, "text").GetOr("") else ""
        case None => ""
      else ""
  }

  /** `extractTextContent`: dispatch on the message type. */
  function ExtractTextContent(m: Json): string {
    match StrField(m, "type")
    case Some("user") => ExtractUserMessageText(m)
    case Some("assistant") => ExtractAssistantMessageText(m)
    case Some("result") => ExtractResultMessageText(m)
    case Some("system") => ExtractSystemMessageText(m)
    case Some("stream_event") => ExtractStreamEventText(m)
    case _ => ""
  }

  /** Some block of `blocks` has type `t`. */
  predicate SomeBlockOfType(blocks: seq<Json>, t: string) {
    exists i :: 0 <= i < |blocks| && HasType(blocks[i], t)
  }

  datatype MessageType =
    | UserType | AssistantText | AssistantToolUse | AssistantMixed | StreamEventType
    | ResultType | SystemType | SystemCompactBoundary | PermissionRequestType | ErrorType

  /** `getAssistantMessageType`: mixed iff text and tool use, tool use iff only tool use, otherwise text. */
  function GetAssistantMessageType(m: Json): (r: MessageType)
    ensures r in {AssistantText, AssistantToolUse, AssistantMixed}
    ensures r == AssistantMixed <==> exists bs :: MessageContent(m) == Some(JArr(bs)) && SomeBlockOfType(bs, "text") && SomeBlockOfType(bs, "tool_use")
    ensures r == AssistantToolUse <==> exists bs :: MessageContent(m) == Some(JArr(bs)) && !SomeBlockOfType(bs, "text") && SomeBlockOfType(bs, "tool_use")
  {
    match MessageContent(m)
    case Some(JArr(bs)) =>
      var hasText := SomeBlockOfType(bs, "text");
      var hasToolUse := SomeBlockOfType(bs, "tool_use");
      if hasText && hasToolUse then AssistantMixed
      else if hasToolUse then AssistantToolUse
      else AssistantText
    case _ => AssistantText
  }

  /** `getMessageType`. */
  function GetMessageType(m: Json): (r: MessageType)
    ensures r == SystemCompactBoundary <==> StrField(m, "type") == Some("system") && StrField(m, "subtype") == Some("compact_boundary")
    ensures r in {AssistantText, AssistantToolUse, AssistantMixed} <==> StrField(m, "type") == Some("assistant")
  {
    match StrField(m, "type")
    case Some("user") => UserType
    case Some("assistant") => GetAssistantMessageType(m)
    case Some("stream_event") => StreamEventType
    case Some("result") => ResultType
    case Some("system") => if StrField(m, "subtype") == Some("compact_boundary") then SystemCompactBoundary else SystemType
    case _ => ErrorType
  }

  /** A string-keyed lookup table, as an object literal. */
  function TableGet(table: seq<(string, string)>, key: string): (r: Option<string>)
    ensures r.Some? ==> (key, r.value) in table
    ensures r.None? ==> forall i :: 0 <= i < |table| ==> table[i].0 != key
  {
    if table == [] then None
    else if table[0].0 == key then Some(table[0].1)
    else TableGet(table[1..], key)
  }

  const ToolIcons: seq<(string, string)> := [
    ("bash", "codicon-terminal"), ("read", "codicon-eye-two"), ("write", "codicon-edit"),
    ("edit", "codicon-edit"), ("multiedit", "codicon-edit"), ("glob", "codicon-search"),
    ("grep", "codicon-search"), ("task", "codicon-play"), ("webfetch", "codicon-globe"),
    ("websearch", "codicon-search"), ("exitplanmode", "codicon-checklist"),
    ("todowrite", "codicon-list-unordered"), ("notebookedit", "codicon-notebook")]

  const ToolDescriptions: seq<(string, string)> := [
    ("bash", "执行命令"), ("read", "读取文件"), ("write", "写入文件"), ("edit", "编辑文件"),
    ("multiedit", "多重编辑"), ("glob", "文件匹配"), ("grep", "文本搜索"), ("task", "任务执行"),
    ("webfetch", "网页获取"), ("websearch", "网络搜索"), ("exitplanmode", "退出计划模式"),
    ("todowrite", "任务管理"), ("notebookedit", "笔记本编辑")]

  /** The tool names both tables know, in lower case. */
  predicate KnownTool(name: string) {
    exists i :: 0 <= i < |ToolIcons| && ToolIcons[i].0 == ToLower(name)
  }

  /** `getToolIcon`: a lookup by the lower-cased name, "codicon-tools" for an unknown tool. */
  function GetToolIcon(toolName: string): (r: string)
    ensures r == "codicon-tools" <==> !KnownTool(toolName)
  {
    TableGet(ToolIcons, ToLower(toolName)).GetOr("codicon-tools")
  }

  /** `getToolDescription`: a lookup by the lower-cased name, "" for an unknown tool. */
  function GetToolDescription(toolName: string): (r: string)
    ensures r == "" <==> !KnownTool(toolName)
  {
    assert forall i :: 0 <= i < |ToolIcons| ==> ToolIcons[i].0 == ToolDescriptions[i].0;
    TableGet(ToolDescriptions, ToLower(toolName)).GetOr("")
  }

  /** Both lookups ignore case: names that differ only in case get the same icon and description. */
  lemma ToolLookupIgnoresCase(a: string, b: string)
    requires ToLower(a) == ToLower(b)
    ensures GetToolIcon(a) == GetToolIcon(b) && GetToolDescription(a) == GetToolDescription(b)
  {
  }

  /** `isFileOperationTool`. */
  predicate IsFileOperationTool(toolName: string) {
    ToLower(toolName) in ["read", "write", "edit", "multiedit", "glob", "notebookedit"]
  }

  /** `isSearchTool`. */
  predicate IsSearchTool(toolName: string) {
    ToLower(toolName) in ["grep", "websearch", "glob"]
  }

  /** `isTerminalTool`. */
  predicate IsTerminalTool(toolName: string) {
    ToLower(toolName) == "bash"
  }

  /** "glob" is both a file-operation tool and a search tool; every classified tool has an icon. */
  lemma ToolClassesHaveIcons(toolName: string)
    ensures ToLower(toolName) == "glob" ==> IsFileOperationTool(toolName) && IsSearchTool(toolName)
    ensures IsFileOperationTool(toolName) || IsSearchTool(toolName) || IsTerminalTool(toolName) ==> KnownTool(toolName)
  {
    var n := ToLower(toolName);
    if IsFileOperationTool(toolName) || IsSearchTool(toolName) || IsTerminalTool(toolName) {
      if n == "read" { assert ToolIcons[1].0 == n; }
      else if n == "write" { assert ToolIcons[2].0 == n; }
      else if n == "edit" { assert ToolIcons[3].0 == n; }
      else if n == "multiedit" { assert ToolIcons[4].0 == n; }
      else if n == "glob" { assert ToolIcons[5].0 == n; }
      else if n == "grep" { assert ToolIcons[6].0 == n; }
      else if n == "websearch" { assert ToolIcons[9].0 == n; }
      else if n == "notebookedit" { assert ToolIcons[12].0 == n; }
      else { assert ToolIcons[0].0 == n; }
    }
  }

  /** `${k}: ${formatToolParameterValue(value[k])}` for the entries shown. */
  function FormatEntries(fields: seq<(string, Json)>, n: nat, ghost whole: Json): string
    requires n <= |fields|
    requires whole == JObj(fields)
    decreases whole, 0
  {
    Join(seq(n, i requires 0 <= i < n => fields[i].0 + ": " + FormatJson(fields[i].1)), ", ")
  }

  /** `items.slice(0, n).map(formatToolParameterValue).join(', ')`. */
  function FormatItems(items: seq<Json>, n: nat, ghost whole: Json): string
    requires n <= |items|
    requires whole == JArr(items)
    decreases whole, 0
  {
    Join(seq(n, i requires 0 <= i < n => FormatJson(items[i])), ", ")
  }

  /**
   * `formatToolParameterValue` of a defined value: strings are cut to 100
   * characters, arrays show at most three elements and objects at most two
   * entries.
   */
  function FormatJson(j: Json): (r: string)
    ensures j.JStr? ==> |r| <= 100
    ensures j.JStr? ==> (r == j.s <==> |j.s| <= 100)
    ensures j.JStr? && |j.s| > 100 ==> r == j.s[..97] + "..."
    decreases j, 1
  {
    match j
    case JNull => "null"
    case JBool(b) => if b then "true" else "false"
    case JNum(n) => IntToString(n)
    case JStr(s) => if |s| > 100 then s[..97] + "..." else s
    case JArr(items) =>
      if |items| == 0 then "[]"
      else if |items| <= 3 then "[" + FormatItems(items, |items|, j) + "]"
      else "[" + FormatItems(items, 2, j) + ", ... +" + IntToString(|items| - 2) + " more]"
    case JObj(fields) =>
      if |fields| == 0 then "{}"
      else if |fields| <= 2 then "{" + FormatEntries(fields, |fields|, j) + "}"
      else "{" + FormatEntries(fields, 1, j) + ", ... +" + IntToString(|fields| - 1) + " more}"
  }

  /** `formatToolParameterValue(value)`, where `None` is `undefined`. */
  function FormatToolParameterValue(v: Option<Json>): string {
    match v
    case None => "undefined"
    case Some(j) => FormatJson(j)
  }

  /** `isSimpleParameterValue`: null, undefined, booleans, numbers and strings of at most 100 characters. */
  predicate IsSimpleParameterValue(v: Option<Json>) {
    match v
    case None => true
    case Some(JNull) => true
    case Some(JBool(_)) => true
    case Some(JNum(_)) => true
    case Some(JStr(s)) => |s| <= 100
    case Some(_) => false
  }

  /** A simple value is shown in full: formatting a simple string returns it unchanged. */
  lemma SimpleStringShownInFull(s: string)
    ensures IsSimpleParameterValue(Some(JStr(s))) <==> FormatToolParameterValue(Some(JStr(s))) == s
  {
  }

  /** An array of at most three elements lists every element. */
  lemma ShortArrayListsAll(items: seq<Json>)
    requires 0 < |items| <= 3
    ensures FormatJson(JArr(items)) == "[" + Join(seq(|items|, i requires 0 <= i < |items| => FormatJson(items[i])), ", ") + "]"
  {
  }

  /** A longer array lists its first two elements and counts the rest. */
  lemma LongArraySummary(items: seq<Json>)
    requires |items| > 3
    ensures FormatJson(JArr(items)) == "[" + (FormatJson(items[0]) + ", " + FormatJson(items[1])) + ", ... +" + NatToString(|items| - 2) + " more]"
  {
    var j := JArr(items);
    var a, b := FormatJson(items[0]), FormatJson(items[1]);
    assert seq(2, i requires 0 <= i < 2 => FormatJson(items[i])) == [a, b];
    JoinPair(a, b, ", ");
    assert FormatItems(items, 2, j) == a + ", " + b;
  }

  lemma JoinPair(a: string, b: string, sep: string)
    ensures Join([a, b], sep) == a + sep + b
  {
    assert [a, b][1..] == [b];
  }

  /** An object with more than two keys shows its first entry and counts the rest. */
  lemma LargeObjectSummary(fields: seq<(string, Json)>)
    requires |fields| > 2
    ensures FormatJson(JObj(fields)) == "{" + fields[0].0 + ": " + FormatJson(fields[0].1) + ", ... +" + NatToString(|fields| - 1) + " more}"
  {
  }

  datatype ValueClass = ParamBoolean | ParamNumber | ParamPath | ParamUrl | ParamGit | ParamString

  predicate LooksLikePath(s: string) {
    StartsWith(s, "/") || Contains(s, "\\")
  }

  predicate LooksLikeUrl(s: string) {
    Contains(s, "http://") || Contains(s, "https://")
  }

  predicate LooksLikeGit(s: string) {
    Contains(s, "git") || Contains(s, ".git")
  }

  /** `getParameterValueClass`: path before url before git; everything else is a plain string. */
  function GetParameterValueClass(v: Option<Json>): (r: ValueClass)
    ensures r == ParamPath <==> v.Some? && v.value.JStr? && LooksLikePath(v.value.s)
    ensures r == ParamUrl <==> v.Some? && v.value.JStr? && !LooksLikePath(v.value.s) && LooksLikeUrl(v.value.s)
    ensures r == ParamGit <==> v.Some? && v.value.JStr? && !LooksLikePath(v.value.s) && !LooksLikeUrl(v.value.s) && LooksLikeGit(v.value.s)
    ensures r == ParamString ==> v.None? || !(v.value.JBool? || v.value.JNum?)
  {
    match v
    case Some(JBool(_)) => ParamBoolean
    case Some(JNum(_)) => ParamNumber
    case Some(JStr(s)) =>
      if LooksLikePath(s) then ParamPath
      else if LooksLikeUrl(s) then ParamUrl
      else if LooksLikeGit(s) then ParamGit
      else ParamString
    case _ => ParamString
  }

  /** The ".git" test adds nothing: a string containing ".git" contains "git". */
  lemma DotGitImpliesGit(s: string)
    ensures LooksLikeGit(s) <==> Contains(s, "git")
  {
    if Contains(s, ".git") {
      var i := IndexOf(s, ".git").value;
      assert s[i + 1..i + 4] == s[i..i + 4][1..];
      ContainsAt(s, "git", i + 1);
    }
  }

  datatype ComponentType = Permission | ErrorComponent | UserComponent | Streaming | Mixed | Text | ResultComponent | SystemComponent | Unknown

  /** A string property that is set and non-empty, as in `if (metadata?.key)`. */
  predicate Set(o: Option<string>) {
    o.Some? && o.value != ""
  }

  predicate IsPermissionMessage(m: ChatMessage) {
    m.metadata.Some? && Set(m.metadata.value.correlationId) && Set(m.metadata.value.toolName)
  }

  predicate IsErrorMessage(m: ChatMessage) {
    m.role == ErrorRole || m.status == Some(Failed) || (m.metadata.Some? && Set(m.metadata.value.error))
  }

  /** More than one distinct block type. */
  predicate MixedKinds(blocks: seq<Block>) {
    exists i, j :: 0 <= i < |blocks| && 0 <= j < |blocks| && blocks[i].kind != blocks[j].kind
  }

  /** `getMessageComponentType`: permission, then error, then the SDK message type, then the role. */
  function GetMessageComponentType(m: ChatMessage): (r: ComponentType)
    ensures IsPermissionMessage(m) <==> r == Permission
    ensures !IsPermissionMessage(m) && IsErrorMessage(m) <==> r == ErrorComponent
    ensures r == Mixed ==> m.sdkMessage.Some? && m.contentBlocks.Some? && MixedKinds(m.contentBlocks.value)
  {
    if IsPermissionMessage(m) then Permission
    else if IsErrorMessage(m) then ErrorComponent
    else if m.sdkMessage.Some? && Truthy(m.sdkMessage.value) then
      match StrField(m.sdkMessage.value, "type")
      case Some("user") => UserComponent
      case Some("assistant") =>
        if m.streaming == Some(true) then Streaming
        else if m.contentBlocks.Some? && |m.contentBlocks.value| > 1 && MixedKinds(m.contentBlocks.value) then Mixed
        else Text
      case Some("result") => ResultComponent
      case Some("system") => SystemComponent
      case Some("stream_event") => Streaming
      case _ => Unknown
    else
      match m.role
      case UserRole => UserComponent
      case AssistantRole => if m.streaming == Some(true) then Streaming else Text
      case SystemRole => SystemComponent
      case ErrorRole => Unknown
  }
}

=== FILE: ordered_map.dfy ===
/**
 * A JavaScript `Map`: a finite map that also remembers the order in which
 * its keys were first inserted, because `entries()`, `keys()` and `values()`
 * iterate in that order. Re-setting a key keeps its position; deleting it
 * forgets the position.
 */
module OrderedMaps {
  import opened Wrappers

  datatype OMap<K(==), V> = OMap(keys: seq<K>, vals: map<K, V>)

  /** The keys are distinct and are exactly the keys of the map. */
  ghost predicate Valid<K(!new), V>(m: OMap<K, V>) {
    && (forall i, j :: 0 <= i < j < |m.keys| ==> m.keys[i] != m.keys[j])
    && (forall k :: k in m.vals <==> k in m.keys)
  }

  function Empty<K(!new), V>(): (m: OMap<K, V>)
    ensures Valid(m) && m.vals == map[]
  {
    OMap([], map[])
  }

  /** `map.get(k)`. */
  function Get<K, V>(m: OMap<K, V>, k: K): Option<V> {
    if k in m.vals then Some(m.vals[k]) else None
  }

  /** `map.size`. */
  function Size<K, V>(m: OMap<K, V>): nat {
    |m.keys|
  }

  /** `map.set(k, v)`: a new key goes last, an existing key keeps its place. */
  function Put<K(!new), V>(m: OMap<K, V>, k: K, v: V): (r: OMap<K, V>)
    requires Valid(m)
    ensures Valid(r)
    ensures r.vals == m.vals[k := v]
    ensures r.keys == if k in m.vals then m.keys else m.keys + [k]
  {
    if k in m.vals then OMap(m.keys, m.vals[k := v]) else OMap(m.keys + [k], m.vals[k := v])
  }

  /** The sequence `keys` without `k`. */
  function Without<K(==,!new)>(keys: seq<K>, k: K): (r: seq<K>)
    ensures forall x :: x in r <==> x in keys && x != k
    ensures |r| <= |keys|
    ensures k !in keys ==> r == keys
  {
    if keys == [] then []
    else if keys[0] == k then Without(keys[1..], k)
    else [keys[0]] + Without(keys[1..], k)
  }

  lemma {:induction false} WithoutDistinct<K(!new)>(keys: seq<K>, k: K)
    requires forall i, j :: 0 <= i < j < |keys| ==> keys[i] != keys[j]
    ensures var r := Without(keys, k);
      (forall i, j :: 0 <= i < j < |r| ==> r[i] != r[j]) && (k in keys ==> |r| == |keys| - 1)
  {
    if keys != [] {
      WithoutDistinct(keys[1..], k);
      if keys[0] == k {
        assert k !in keys[1..];
      } else {
        var r := Without(keys, k);
        assert keys[0] !in keys[1..];
        assert r[0] == keys[0] && r[1..] == Without(keys[1..], k);
      }
    }
  }

  /** `map.delete(k)`. */
  function Remove<K(!new), V>(m: OMap<K, V>, k: K): (r: OMap<K, V>)
    requires Valid(m)
    ensures Valid(r)
    ensures r.vals == m.vals - {k}
    ensures r.keys == Without(m.keys, k)
    ensures Size(r) == if k in m.vals then Size(m) - 1 else Size(m)
  {
    WithoutDistinct(m.keys, k);
    OMap(Without(m.keys, k), m.vals - {k})
  }

  /** `Array.from(map.values())`. */
  function Values<K(!new), V>(m: OMap<K, V>): (r: seq<V>)
    requires Valid(m)
    ensures |r| == |m.keys|
    ensures forall i :: 0 <= i < |r| ==> r[i] == m.vals[m.keys[i]]
  {
    seq(|m.keys|, i requires 0 <= i < |m.keys| && Valid(m) => m.vals[m.keys[i]])
  }

  /** Distinct keys that are exactly the map's keys: as many keys as map entries. */
  lemma {:induction false} DistinctKeysCount<K(!new), V>(m: OMap<K, V>)
    requires Valid(m)
    decreases |m.keys|
    ensures |m.keys| == |m.vals|
  {
    if m.keys != [] {
      var k := m.keys[|m.keys| - 1];
      var rest := OMap(m.keys[..|m.keys| - 1], m.vals - {k});
      assert m.keys == rest.keys + [k];
      assert forall x :: x in rest.vals <==> x in rest.keys;
      DistinctKeysCount(rest);
    }
  }
}

=== FILE: permission_store.dfy ===
/** The zustand list of permission requests waiting for the user's answer. */
module PermissionStore {
  import opened Wrappers
  import opened Json
  import opened Seqs

  datatype PermissionRequest = PermissionRequest(toolUseId: string, toolName: string, input: Json, timestamp: int)

  /** `addRequest(request)`: appended at the end. */
  function AddRequest(pending: seq<PermissionRequest>, request: PermissionRequest): (r: seq<PermissionRequest>)
    ensures |r| == |pending| + 1 && r[..|pending|] == pending && r[|pending|] == request
  {
    pending + [request]
  }

  /** `removeRequest(toolUseId)`: every request for that tool use goes; the others keep their order. */
  function RemoveRequest(pending: seq<PermissionRequest>, toolUseId: string): (r: seq<PermissionRequest>)
    ensures |r| <= |pending|
    ensures forall q :: q in r <==> q in pending && q.toolUseId != toolUseId
  {
    Filter(pending, (q: PermissionRequest) => q.toolUseId != toolUseId)
  }

  lemma RemoveRequestAppend(a: seq<PermissionRequest>, b: seq<PermissionRequest>, toolUseId: string)
    ensures RemoveRequest(a + b, toolUseId) == RemoveRequest(a, toolUseId) + RemoveRequest(b, toolUseId)
  {
    FilterAppend(a, b, (q: PermissionRequest) => q.toolUseId != toolUseId);
  }

  /** Adding a request and removing its tool use leaves no request for it. */
  lemma AddThenRemove(pending: seq<PermissionRequest>, request: PermissionRequest)
    ensures GetRequestByToolUseId(RemoveRequest(AddRequest(pending, request), request.toolUseId), request.toolUseId).None?
  {
  }

  /** `clearRequests()`. */
  function ClearRequests(): (r: seq<PermissionRequest>)
    ensures |r| == 0
  {
    []
  }

  /** `getRequestByToolUseId(toolUseId)`: the first request for that tool use. */
  function GetRequestByToolUseId(pending: seq<PermissionRequest>, toolUseId: string): (r: Option<PermissionRequest>)
    ensures r.Some? ==> r.value.toolUseId == toolUseId && r.value in pending
    ensures r.Some? ==> exists i :: (0 <= i < |pending| && pending[i] == r.value
      && forall j :: 0 <= j < i ==> pending[j].toolUseId != toolUseId)
    ensures r.None? <==> forall i :: 0 <= i < |pending| ==> pending[i].toolUseId != toolUseId
  {
    Find(pending, (q: PermissionRequest) => q.toolUseId == toolUseId)
  }
}

=== FILE: resource_map.dfy ===
/**
 * `ResourceMap` and `ResourceSet` (src/services/common/map.ts): maps and sets
 * of URIs whose identity is the string a key function makes of each URI
 * (by default its printed form), plus the `getOrSet` helper on plain maps.
 */
module ResourceMaps {
  import opened Wrappers
  import opened OrderedMaps
  import opened Uris

  /** What the map stores under a key: the URI last set under it and its value. */
  datatype Entry<T> = Entry(uri: Uri, value: T)

  /** The default key function: the printed URI. */
  function DefaultToKey(u: Uri): string {
    UriToString(u)
  }

  /** Every entry is stored under the key of its own URI. */
  ghost predicate KeyedBy<T>(m: OMap<string, Entry<T>>, toKey: Uri -> string) {
    forall k :: k in m.vals ==> toKey(m.vals[k].uri) == k
  }

  /** `set(u, v)` on the underlying map. */
  function SetEntry<T>(m: OMap<string, Entry<T>>, toKey: Uri -> string, u: Uri, v: T): (r: OMap<string, Entry<T>>)
    requires Valid(m)
    ensures Valid(r)
    ensures KeyedBy(m, toKey) ==> KeyedBy(r, toKey)
  {
    Put(m, toKey(u), Entry(u, v))
  }

  /** `set` applied to each pair in turn. */
  function SetAll<T>(m: OMap<string, Entry<T>>, toKey: Uri -> string, items: seq<(Uri, T)>): (r: OMap<string, Entry<T>>)
    requires Valid(m)
    ensures Valid(r)
    ensures KeyedBy(m, toKey) ==> KeyedBy(r, toKey)
  {
    if items == [] then m
    else
      var last := items[|items| - 1];
      SetEntry(SetAll(m, toKey, items[..|items| - 1]), toKey, last.0, last.1)
  }

  /** `get(u)`. */
  function GetValue<T>(m: OMap<string, Entry<T>>, toKey: Uri -> string, u: Uri): Option<T> {
    if toKey(u) in m.vals then Some(m.vals[toKey(u)].value) else None
  }

  /** The pairs `entries()` yields, in insertion order. */
  function EntriesOf<T>(m: OMap<string, Entry<T>>): (r: seq<(Uri, T)>)
    requires Valid(m)
    ensures |r| == |m.keys|
    ensures forall i :: 0 <= i < |r| ==> r[i] == (m.vals[m.keys[i]].uri, m.vals[m.keys[i]].value)
  {
    seq(|m.keys|, i requires 0 <= i < |m.keys| && Valid(m) => (m.vals[m.keys[i]].uri, m.vals[m.keys[i]].value))
  }

  /** After `set(u, v)`, `get(w)` is `v` for every `w` with the same key, and unchanged otherwise. */
  lemma GetAfterSet<T>(m: OMap<string, Entry<T>>, toKey: Uri -> string, u: Uri, v: T, w: Uri)
    requires Valid(m)
    ensures GetValue(SetEntry(m, toKey, u, v), toKey, w) == if toKey(w) == toKey(u) then Some(v) else GetValue(m, toKey, w)
  {
  }

  /** After `set(u, v)` the URI reported for that key is `u`, the most recent one. */
  lemma KeysAfterSet<T>(m: OMap<string, Entry<T>>, toKey: Uri -> string, u: Uri, v: T)
    requires Valid(m)
    ensures var r := SetEntry(m, toKey, u, v);
      exists i :: 0 <= i < |r.keys| && EntriesOf(r)[i] == (u, v)
  {
    var r := SetEntry(m, toKey, u, v);
    var i :| 0 <= i < |r.keys| && r.keys[i] == toKey(u);
    assert EntriesOf(r)[i] == (u, v);
  }

  /** `size` counts distinct keys: setting a key already present does not grow the map. */
  lemma SizeAfterSet<T>(m: OMap<string, Entry<T>>, toKey: Uri -> string, u: Uri, v: T)
    requires Valid(m)
    ensures Size(SetEntry(m, toKey, u, v)) == if toKey(u) in m.vals then Size(m) else Size(m) + 1
  {
  }

  /** Adding the same URI to a set twice has the effect of adding it once. */
  lemma AddTwiceSameSize(m: OMap<string, Entry<Uri>>, toKey: Uri -> string, u: Uri)
    requires Valid(m)
    ensures SetEntry(SetEntry(m, toKey, u, u), toKey, u, u) == SetEntry(m, toKey, u, u)
  {
  }

  /** The first `i` entries, set one by one into an empty map, rebuild the first `i` keys. */
  lemma {:induction false} SetAllPrefix<T>(m: OMap<string, Entry<T>>, toKey: Uri -> string, i: nat)
    requires Valid(m) && KeyedBy(m, toKey) && i <= |m.keys|
    ensures var r := SetAll(Empty(), toKey, EntriesOf(m)[..i]);
      r.keys == m.keys[..i] && (forall k :: k in r.vals ==> k in m.vals && r.vals[k] == m.vals[k])
  {
    if i > 0 {
      SetAllPrefix(m, toKey, i - 1);
      var items := EntriesOf(m)[..i];
      assert items[..i - 1] == EntriesOf(m)[..i - 1];
      var prev := SetAll(Empty(), toKey, EntriesOf(m)[..i - 1]);
      var k := m.keys[i - 1];
      var e := m.vals[k];
      assert items[i - 1] == (e.uri, e.value);
      assert toKey(e.uri) == k;
      assert k !in prev.keys;
      assert Entry(e.uri, e.value) == e;
      var r := SetAll(Empty(), toKey, items);
      assert r == SetEntry(SetAll(Empty(), toKey, items[..i - 1]), toKey, items[i - 1].0, items[i - 1].1);
      assert r == SetEntry(prev, toKey, e.uri, e.value);
      assert r == Put(prev, k, e);
      PrefixSnoc(m.keys, i);
    }
  }

  /** A prefix one longer is the shorter prefix followed by the next element. */
  lemma PrefixSnoc<K>(s: seq<K>, i: nat)
    requires 0 < i <= |s|
    ensures s[..i] == s[..i - 1] + [s[i - 1]]
  {
  }

  /** Copying a map through `set` with the same key function reproduces it exactly. */
  lemma CopyReproduces<T>(m: OMap<string, Entry<T>>, toKey: Uri -> string)
    requires Valid(m) && KeyedBy(m, toKey)
    ensures SetAll(Empty(), toKey, EntriesOf(m)) == m
  {
    var items := EntriesOf(m);
    SetAllPrefix(m, toKey, |m.keys|);
    assert items[..|m.keys|] == items;
    var r := SetAll(Empty(), toKey, items);
    assert r.keys == m.keys by {
      assert m.keys[..|m.keys|] == m.keys;
    }
    SameEntriesEqual(r, m);
  }

  /** Two valid maps with the same key order and the same values are equal. */
  lemma SameEntriesEqual<T>(a: OMap<string, Entry<T>>, b: OMap<string, Entry<T>>)
    requires Valid(a) && Valid(b) && a.keys == b.keys
    requires forall k :: k in a.vals ==> k in b.vals && a.vals[k] == b.vals[k]
    ensures a == b
  {
    assert a.vals.Keys == b.vals.Keys;
    assert a.vals == b.vals;
  }

  class ResourceMap<T> {
    const toKey: Uri -> string
    var entries: OMap<string, Entry<T>>

    ghost predicate Valid()
      reads this
    {
      OrderedMaps.Valid(entries) && KeyedBy(entries, toKey)
    }

    /** `new ResourceMap(toKey)`: an empty map. */
    constructor(toKey: Uri -> string)
      ensures Valid() && this.toKey == toKey && entries == Empty()
    {
      this.toKey := toKey;
      entries := Empty();
    }

    /** `new ResourceMap(entries, toKey)`: each pair is `set` in order. */
    constructor FromEntries(items: seq<(Uri, T)>, toKey: Uri -> string)
      ensures Valid() && this.toKey == toKey
      ensures entries == SetAll(Empty(), toKey, items)
    {
      this.toKey := toKey;
      entries := Empty();
      new;
      var i := 0;
      while i < |items|
        invariant 0 <= i <= |items|
        invariant Valid()
        invariant entries == SetAll(Empty(), toKey, items[..i])
      {
        assert items[..i + 1][..i] == items[..i];
        Set(items[i].0, items[i].1);
        i := i + 1;
      }
      assert items[..i] == items;
    }

    /** `new ResourceMap(other, toKey)`: each entry of `other` is `set` in its order. */
    constructor FromMap(other: ResourceMap<T>, toKey: Uri -> string)
      requires other.Valid()
      ensures Valid() && this.toKey == toKey
      ensures entries == SetAll(Empty(), toKey, EntriesOf(other.entries))
    {
      this.toKey := toKey;
      entries := Empty();
      new;
      var items := EntriesOf(other.entries);
      var i := 0;
      while i < |items|
        invariant 0 <= i <= |items|
        invariant Valid()
        invariant entries == SetAll(Empty(), toKey, items[..i])
      {
        assert items[..i + 1][..i] == items[..i];
        Set(items[i].0, items[i].1);
        i := i + 1;
      }
      assert items[..i] == items;
    }

    /** `set(resource, value)`: stores the URI and value under the URI's key. */
    method Set(u: Uri, v: T)
      requires Valid()
      modifies this
      ensures Valid()
      ensures entries == SetEntry(old(entries), toKey, u, v)
    {
      entries := SetEntry(entries, toKey, u, v);
    }

    /** `get(resource)`. */
    method Get(u: Uri) returns (r: Option<T>)
      requires Valid()
      ensures r == GetValue(entries, toKey, u)
      ensures r.Some? <==> toKey(u) in entries.keys
    {
      var k := toKey(u);
      if k in entries.vals {
        r := Some(entries.vals[k].value);
      } else {
        r := None;
      }
    }

    /** `has(resource)`. */
    method Has(u: Uri) returns (b: bool)
      requires Valid()
      ensures b <==> GetValue(entries, toKey, u).Some?
    {
      b := toKey(u) in entries.vals;
    }

    /** `size`: the number of distinct keys. */
    method Size() returns (n: nat)
      requires Valid()
      ensures n == |entries.keys| && n == |entries.vals|
    {
      DistinctKeysCount(entries);
      n := |entries.keys|;
    }

    /** `clear()`. */
    method Clear()
      requires Valid()
      modifies this
      ensures Valid() && entries == Empty()
    {
      entries := Empty();
    }

    /** `delete(resource)`: reports whether an entry with the URI's key existed. */
    method Delete(u: Uri) returns (existed: bool)
      requires Valid()
      modifies this
      ensures Valid()
      ensures existed <==> toKey(u) in old(entries.vals)
      ensures entries == Remove(old(entries), toKey(u))
      ensures GetValue(entries, toKey, u).None?
    {
      existed := toKey(u) in entries.vals;
      entries := Remove(entries, toKey(u));
    }

    /** `keys()`: for each key in insertion order, the URI most recently stored under it. */
    method Keys() returns (us: seq<Uri>)
      requires Valid()
      ensures |us| == |entries.keys|
      ensures forall i :: 0 <= i < |us| ==> us[i] == entries.vals[entries.keys[i]].uri
      ensures forall i :: 0 <= i < |us| ==> toKey(us[i]) == entries.keys[i]
    {
      us := [];
      var i := 0;
      while i < |entries.keys|
        invariant 0 <= i <= |entries.keys|
        invariant |us| == i
        invariant forall j :: 0 <= j < i ==> us[j] == entries.vals[entries.keys[j]].uri
      {
        us := us + [entries.vals[entries.keys[i]].uri];
        i := i + 1;
      }
    }

    /** `values()`: the stored values in insertion order. */
    method Values() returns (vs: seq<T>)
      requires Valid()
      ensures |vs| == |entries.keys|
      ensures forall i :: 0 <= i < |vs| ==> vs[i] == entries.vals[entries.keys[i]].value
    {
      vs := [];
      var i := 0;
      while i < |entries.keys|
        invariant 0 <= i <= |entries.keys|
        invariant |vs| == i
        invariant forall j :: 0 <= j < i ==> vs[j] == entries.vals[entries.keys[j]].value
      {
        vs := vs + [entries.vals[entries.keys[i]].value];
        i := i + 1;
      }
    }

    /** `entries()`: the (URI, value) pairs in insertion order. */
    method Entries() returns (ps: seq<(Uri, T)>)
      requires Valid()
      ensures ps == EntriesOf(entries)
    {
      ps := [];
      var i := 0;
      while i < |entries.keys|
        invariant 0 <= i <= |entries.keys|
        invariant ps == EntriesOf(entries)[..i]
      {
        ps := ps + [(entries.vals[entries.keys[i]].uri, entries.vals[entries.keys[i]].value)];
        i := i + 1;
      }
    }
  }

  /** The keys present are exactly the keys of the URIs in `us`. */
  ghost predicate HoldsExactly<T>(m: OMap<string, Entry<T>>, toKey: Uri -> string, us: seq<Uri>) {
    forall u {:trigger GetValue(m, toKey, u)} :: GetValue(m, toKey, u).Some? <==> exists j :: 0 <= j < |us| && toKey(us[j]) == toKey(u)
  }

  /** Adding one more URI to a set that holds exactly `us` makes it hold exactly `us + [x]`. */
  lemma AddKeeps(m: OMap<string, Entry<Uri>>, toKey: Uri -> string, us: seq<Uri>, x: Uri)
    requires Valid(m) && HoldsExactly(m, toKey, us)
    ensures HoldsExactly(SetEntry(m, toKey, x, x), toKey, us + [x])
  {
    var r := SetEntry(m, toKey, x, x);
    var vs := us + [x];
    forall u
      ensures GetValue(r, toKey, u).Some? <==> exists j :: 0 <= j < |vs| && toKey(vs[j]) == toKey(u)
    {
      if toKey(u) == toKey(x) {
        assert vs[|us|] == x;
      } else if GetValue(m, toKey, u).Some? {
        var j :| 0 <= j < |us| && toKey(us[j]) == toKey(u);
        assert vs[j] == us[j];
      } else {
        forall j | 0 <= j < |vs| ensures toKey(vs[j]) != toKey(u) {
          if j < |us| { assert vs[j] == us[j]; }
        }
      }
    }
  }

  class ResourceSet {
    const inner: ResourceMap<Uri>

    ghost predicate Valid()
      reads this, inner
    {
      inner.Valid()
    }

    /** `new ResourceSet(toKey)`. */
    constructor(toKey: Uri -> string)
      ensures Valid() && fresh(inner) && inner.toKey == toKey && inner.entries == Empty()
    {
      inner := new ResourceMap(toKey);
    }

    /** `new ResourceSet(entries, toKey)`: each URI is added in order. */
    constructor FromUris(us: seq<Uri>, toKey: Uri -> string)
      ensures Valid() && fresh(inner) && inner.toKey == toKey
      ensures forall u :: GetValue(inner.entries, toKey, u).Some? <==> exists i :: 0 <= i < |us| && toKey(us[i]) == toKey(u)
    {
      inner := new ResourceMap(toKey);
      new;
      var i := 0;
      while i < |us|
        invariant 0 <= i <= |us|
        invariant Valid() && inner.toKey == toKey
        invariant HoldsExactly(inner.entries, toKey, us[..i])
      {
        ghost var before := inner.entries;
        Add(us[i]);
        AddKeeps(before, toKey, us[..i], us[i]);
        PrefixSnoc(us, i + 1);
        i := i + 1;
      }
      assert us[..i] == us;
    }

    /** `size`. */
    method Size() returns (n: nat)
      requires Valid()
      ensures n == |inner.entries.keys|
    {
      n := inner.Size();
    }

    /** `add(value)`: `set(value, value)` on the underlying inner; `has(value)` holds afterwards. */
    method Add(u: Uri)
      requires Valid()
      modifies inner
      ensures Valid()
      ensures inner.entries == SetEntry(old(inner.entries), inner.toKey, u, u)
      ensures GetValue(inner.entries, inner.toKey, u) == Some(u)
    {
      inner.Set(u, u);
    }

    /** `clear()`. */
    method Clear()
      requires Valid()
      modifies inner
      ensures Valid() && inner.entries == Empty()
    {
      inner.Clear();
    }

    /** `delete(value)`. */
    method Delete(u: Uri) returns (existed: bool)
      requires Valid()
      modifies inner
      ensures Valid()
      ensures existed <==> inner.toKey(u) in old(inner.entries.vals)
      ensures inner.entries == Remove(old(inner.entries), inner.toKey(u))
    {
      existed := inner.Delete(u);
    }

    /** `has(value)`. */
    method Has(u: Uri) returns (b: bool)
      requires Valid()
      ensures b <==> inner.toKey(u) in inner.entries.vals
    {
      b := inner.Has(u);
    }

    /** `keys()` and `values()`: the URIs, in insertion order. */
    method Keys() returns (us: seq<Uri>)
      requires Valid()
      ensures |us| == |inner.entries.keys|
      ensures forall i :: 0 <= i < |us| ==> us[i] == inner.entries.vals[inner.entries.keys[i]].uri
    {
      us := inner.Keys();
    }
  }

  /** A plain JavaScript `Map` that `getOrSet` mutates. */
  class MapCell<K(==,!new), V> {
    var contents: OMap<K, V>

    ghost predicate Valid()
      reads this
    {
      OrderedMaps.Valid(contents)
    }

    constructor()
      ensures Valid() && contents == Empty()
    {
      contents := Empty();
    }
  }

  /** `getOrSet(map, key, value)`: the present value, or `value` after storing it. */
  method GetOrSet<K(==,!new), V>(cell: MapCell<K, V>, key: K, value: V) returns (r: V)
    requires cell.Valid()
    modifies cell
    ensures cell.Valid()
    ensures key in old(cell.contents.vals) ==> r == old(cell.contents.vals[key]) && cell.contents == old(cell.contents)
    ensures key !in old(cell.contents.vals) ==> r == value && cell.contents == Put(old(cell.contents), key, value)
    ensures Get(cell.contents, key) == Some(r)
  {
    match Get(cell.contents, key)
    case Some(v) =>
      r := v;
    case None =>
      r := value;
      cell.contents := Put(cell.contents, key, r);
  }
}

=== FILE: resources.dfy ===
/**
 * Path normalisation and the equal-or-parent test on URIs
 * (src/services/common/resources.ts).
 */
module Resources {
  import opened Strs
  import opened Uris

  /** `path.replace(/\\/g, '/')`. */
  function ForwardSlashes(p: string): (r: string)
    ensures |r| == |p|
    ensures forall i :: 0 <= i < |p| ==> r[i] == (if p[i] == '\\' then '/' else p[i])
  {
    seq(|p|, i requires 0 <= i < |p| => if p[i] == '\\' then '/' else p[i])
  }

  /** No two adjacent slashes. */
  predicate NoDoubleSlash(p: string) {
    forall i :: 0 <= i < |p| - 1 ==> !(p[i] == '/' && p[i + 1] == '/')
  }

  /** `.replace(/\/+/g, '/')`: every run of slashes becomes one slash. */
  function CollapseSlashes(p: string): (r: string)
    ensures |r| <= |p|
    ensures p != "" ==> r != "" && r[0] == p[0]
    ensures p != "" ==> r[|r| - 1] == p[|p| - 1]
    ensures NoDoubleSlash(r)
    ensures forall c :: c in r ==> c in p
    ensures NoDoubleSlash(p) ==> r == p
  {
    if |p| < 2 then p
    else if p[0] == '/' && p[1] == '/' then CollapseSlashes(p[1..])
    else [p[0]] + CollapseSlashes(p[1..])
  }

  /** `.replace(/\/$/, '')`: one trailing slash goes. */
  function DropTrailingSlash(p: string): (r: string)
    ensures r == p || (p == r + "/")
  {
    if |p| > 0 && p[|p| - 1] == '/' then p[..|p| - 1] else p
  }

  /** `normalizePath`: the result uses only "/", has no "//" and no trailing "/". */
  function NormalizePath(p: string): (r: string)
    ensures '\\' !in r
    ensures NoDoubleSlash(r)
    ensures r == "" || r[|r| - 1] != '/'
  {
    var c := CollapseSlashes(ForwardSlashes(p));
    var r := DropTrailingSlash(c);
    assert '\\' !in c;
    assert r != c && r != "" ==> c[|c| - 2] == r[|r| - 1];
    r
  }

  /** Normalising a normalised path changes nothing. */
  lemma NormalizePathIdempotent(p: string)
    ensures NormalizePath(NormalizePath(p)) == NormalizePath(p)
  {
    var n := NormalizePath(p);
    assert ForwardSlashes(n) == n;
  }

  /** `isEqualOrParentPath(base, candidate)`: the candidate is the base or one of its ancestors. */
  predicate IsEqualOrParentPath(base: string, candidate: string) {
    base == candidate
    || (var b := NormalizePath(base); var c := NormalizePath(candidate);
        StartsWith(b, c + "/") || b == c)
  }

  /** The test sees only normalised paths: normalising its arguments first does not change it. */
  lemma IsEqualOrParentPathNormalized(base: string, candidate: string)
    ensures IsEqualOrParentPath(base, candidate) == IsEqualOrParentPath(NormalizePath(base), NormalizePath(candidate))
  {
    NormalizePathIdempotent(base);
    NormalizePathIdempotent(candidate);
  }

  /** Collapsing distributes over a concatenation whose seam is not between two slashes. */
  lemma {:induction false} CollapseAppend(u: string, v: string)
    requires u == "" || v == "" || u[|u| - 1] != '/' || v[0] != '/'
    ensures CollapseSlashes(u + v) == CollapseSlashes(u) + CollapseSlashes(v)
  {
    if u == "" {
      assert u + v == v;
    } else if v == "" {
      assert u + v == u;
    } else if |u| == 1 {
      assert (u + v)[1..] == v;
    } else {
      assert (u + v)[1..] == u[1..] + v;
      CollapseAppend(u[1..], v);
    }
  }

  /** Appending "/" to a collapsed path ends in exactly one slash. */
  lemma CollapseSlashAppend(u: string)
    ensures CollapseSlashes(u + "/") == DropTrailingSlash(CollapseSlashes(u)) + "/"
  {
    var c := CollapseSlashes(u);
    if u == "" || u[|u| - 1] != '/' {
      CollapseAppend(u, "/");
    } else {
      CollapseTrailingSlashes(u);
    }
  }

  lemma {:induction false} CollapseTrailingSlashes(u: string)
    requires u != "" && u[|u| - 1] == '/'
    ensures CollapseSlashes(u + "/") == CollapseSlashes(u)
  {
    if |u| == 1 {
      assert u + "/" == "//";
    } else {
      assert (u + "/")[1..] == u[1..] + "/";
      CollapseTrailingSlashes(u[1..]);
    }
  }

  lemma ForwardSlashesAppend(u: string, v: string)
    ensures ForwardSlashes(u + v) == ForwardSlashes(u) + ForwardSlashes(v)
  {
  }

  lemma DropTrailingSlashAppend(u: string, v: string)
    requires v != ""
    ensures DropTrailingSlash(u + v) == u + DropTrailingSlash(v)
  {
    if v[|v| - 1] == '/' {
      assert (u + v)[..|u + v| - 1] == u + v[..|v| - 1];
    }
  }

  /** The normalised path of a directory entry is the directory's normalised path, "/", and more. */
  lemma NormalizeChild(dir: string, name: string)
    requires name != "" && name[0] != '/' && name[0] != '\\'
    ensures NormalizePath(dir + "/" + name) == NormalizePath(dir) + "/" + NormalizePath(name)
    ensures NormalizePath(name) != ""
  {
    var a := ForwardSlashes(dir);
    var n := ForwardSlashes(name);
    ForwardSlashesAppend(dir + "/", name);
    ForwardSlashesAppend(dir, "/");
    assert ForwardSlashes(dir + "/" + name) == (a + "/") + n;
    var ca := CollapseSlashes(a);
    var cn := CollapseSlashes(n);
    assert n[0] != '/';
    CollapseAppend(a + "/", n);
    CollapseSlashAppend(a);
    var x := DropTrailingSlash(ca) + "/";
    assert CollapseSlashes((a + "/") + n) == x + cn;
    assert cn != "" && cn[0] != '/';
    DropTrailingSlashAppend(x, cn);
  }

  /** A named entry below a directory passes the path test against that directory. */
  lemma ChildPathQualifies(dir: string, name: string)
    requires name != "" && name[0] != '/' && name[0] != '\\'
    ensures IsEqualOrParentPath(dir + "/" + name, dir)
  {
    NormalizeChild(dir, name);
    assert StartsWith(NormalizePath(dir + "/" + name), NormalizePath(dir) + "/");
  }

  /**
   * `isEqualOrParent(base, parentCandidate, ignoreFragment)` as written: the
   * path test, and the printed URIs must also be equal unless `ignoreFragment`
   * is set on a `file` URI.
   */
  predicate IsEqualOrParent(base: Uri, candidate: Uri, ignoreFragment: bool) {
    if base.scheme != candidate.scheme then false
    else if base.scheme == "file" then
      IsEqualOrParentPath(base.path, candidate.path) && (ignoreFragment || UriToString(base) == UriToString(candidate))
    else
      IsEqualOrParentPath(base.path, candidate.path) && UriToString(base) == UriToString(candidate)
  }

  /** URIs with different schemes are never equal-or-parent. */
  lemma DifferentSchemesNeverQualify(base: Uri, candidate: Uri, ignoreFragment: bool)
    requires base.scheme != candidate.scheme
    ensures !IsEqualOrParent(base, candidate, ignoreFragment)
  {
  }

  /** Unless the fragment is ignored on a `file` URI, only URIs that print identically qualify. */
  lemma IsEqualOrParentNeedsSameString(base: Uri, candidate: Uri, ignoreFragment: bool)
    requires IsEqualOrParent(base, candidate, ignoreFragment)
    requires !ignoreFragment || base.scheme != "file"
    ensures UriToString(base) == UriToString(candidate)
  {
  }

  /** A strict parent directory never qualifies under the default arguments. */
  lemma StrictParentNeverQualifies(dir: Uri, name: string)
    requires name != ""
    ensures !IsEqualOrParent(JoinPath(dir, name), dir, false)
  {
    var child := JoinPath(dir, name);
    assert |UriToString(child)| == |UriToString(dir)| + 1 + |name|;
  }

  /**
   * The intended test, as in the VS Code helper this file simplifies: same
   * scheme, same authority, the path test, same query, and the same fragment
   * unless it is ignored.
   */
  predicate IsEqualOrParentIntended(base: Uri, candidate: Uri, ignoreFragment: bool) {
    && base.scheme == candidate.scheme
    && base.authority == candidate.authority
    && IsEqualOrParentPath(base.path, candidate.path)
    && base.query == candidate.query
    && (ignoreFragment || base.fragment == candidate.fragment)
  }

  /** Under the intended test every entry of a directory has that directory as a parent. */
  lemma ChildQualifiesIntended(dir: Uri, name: string)
    requires name != "" && name[0] != '/' && name[0] != '\\'
    ensures IsEqualOrParentIntended(JoinPath(dir, name), dir, false)
  {
    ChildPathQualifies(dir.path, name);
  }

  /** The intended test agrees with the written one on equal URIs. */
  lemma IntendedAgreesOnEqual(u: Uri, ignoreFragment: bool)
    ensures IsEqualOrParentIntended(u, u, ignoreFragment) && IsEqualOrParent(u, u, ignoreFragment)
  {
  }
}

=== FILE: seqs.dfy ===
/**
 * The array operations the stores use: `filter`, `find`/`findIndex`, and
 * `splice(i, 1)` of one element.
 */
module Seqs {
  import opened Wrappers

  /** `xs.filter(keep)`. */
  function Filter<T(==,!new)>(xs: seq<T>, keep: T -> bool): (r: seq<T>)
    ensures |r| <= |xs|
    ensures forall i :: 0 <= i < |r| ==> keep(r[i])
    ensures forall x :: x in r <==> x in xs && keep(x)
  {
    if xs == [] then []
    else if keep(xs[0]) then [xs[0]] + Filter(xs[1..], keep)
    else Filter(xs[1..], keep)
  }

  /** Filtering keeps relative order: the result of a concatenation is the concatenation of the results. */
  lemma {:induction false} FilterAppend<T(!new)>(a: seq<T>, b: seq<T>, keep: T -> bool)
    ensures Filter(a + b, keep) == Filter(a, keep) + Filter(b, keep)
  {
    if a != [] {
      assert (a + b)[0] == a[0] && (a + b)[1..] == a[1..] + b;
      FilterAppend(a[1..], b, keep);
      if keep(a[0]) {
        assert Filter(a + b, keep) == [a[0]] + Filter(a[1..] + b, keep);
      } else {
        assert Filter(a + b, keep) == Filter(a[1..] + b, keep);
      }
    } else {
      assert a + b == b;
    }
  }

  /** Filtering with a test every element passes returns the array unchanged. */
  lemma {:induction false} FilterAll<T(!new)>(xs: seq<T>, keep: T -> bool)
    requires forall i :: 0 <= i < |xs| ==> keep(xs[i])
    ensures Filter(xs, keep) == xs
  {
    if xs != [] {
      FilterAll(xs[1..], keep);
    }
  }

  /** Filtering twice with the same test is filtering once. */
  lemma FilterIdempotent<T(!new)>(xs: seq<T>, keep: T -> bool)
    ensures Filter(Filter(xs, keep), keep) == Filter(xs, keep)
  {
    FilterAll(Filter(xs, keep), keep);
  }

  /** `xs.findIndex(p)`, as `Some(index)` or `None` for -1. */
  function FindIndex<T>(xs: seq<T>, p: T -> bool): (r: Option<nat>)
    ensures r.Some? ==> r.value < |xs| && p(xs[r.value])
    ensures r.Some? ==> forall i :: 0 <= i < r.value ==> !p(xs[i])
    ensures r.None? ==> forall i :: 0 <= i < |xs| ==> !p(xs[i])
  {
    if xs == [] then None
    else if p(xs[0]) then Some(0)
    else match FindIndex(xs[1..], p)
      case None => None
      case Some(i) => Some(i + 1)
  }

  /** `xs.find(p)`. */
  function Find<T>(xs: seq<T>, p: T -> bool): (r: Option<T>)
    ensures r.Some? ==> exists i :: (0 <= i < |xs| && xs[i] == r.value && p(xs[i])
      && forall j :: 0 <= j < i ==> !p(xs[j]))
    ensures r.None? <==> forall i :: 0 <= i < |xs| ==> !p(xs[i])
  {
    match FindIndex(xs, p)
    case None => None
    case Some(i) => Some(xs[i])
  }

  /** `xs.splice(i, 1)`. */
  function RemoveAt<T>(xs: seq<T>, i: nat): (r: seq<T>)
    requires i < |xs|
    ensures |r| == |xs| - 1
    ensures forall j :: 0 <= j < i ==> r[j] == xs[j]
    ensures forall j :: i <= j < |r| ==> r[j] == xs[j + 1]
  {
    xs[..i] + xs[i + 1..]
  }

  /**
   * `const i = xs.findIndex(p); if (i !== -1) xs.splice(i, 1);`: only the
   * first match goes, everything before it and after it stays in order.
   */
  function RemoveFirst<T>(xs: seq<T>, p: T -> bool): (r: seq<T>)
    ensures FindIndex(xs, p).None? ==> r == xs
    ensures FindIndex(xs, p).Some? ==> var i := FindIndex(xs, p).value;
      r == xs[..i] + xs[i + 1..] && |r| == |xs| - 1
  {
    match FindIndex(xs, p)
    case None => xs
    case Some(i) => RemoveAt(xs, i)
  }
}

=== FILE: session_cache.dfy ===
/**
 * The per-directory cache of `ClaudeCodeSessionService`
 * (src/services/claude/session.ts), written as functions on values.
 * `getAllSessions` visits each workspace folder's project directory
 * `~/.claude/projects/<slug>`. It returns the sessions cached for that
 * directory while no log file there is new, changed or deleted. Otherwise
 * it reloads them from disk, recording each file's modification time.
 */
module SessionCache {
  import opened Wrappers
  import opened Strs
  import opened Json
  import opened Seqs
  import opened OrderedMaps
  import opened Uris
  import opened Resources
  import opened ResourceMaps
  import opened SessionRecords
  import opened SessionGraph

  /** `[name, type]` as `readDirectory` lists it; only whether the type is `FileType.File` matters. */
  datatype DirEntry = DirEntry(name: string, isFile: bool)

  /** The file system at one moment: `None` where the call throws. `stat` gives the modification time. */
  datatype FileSystem = FileSystem(
    readDirectory: Uri -> Option<seq<DirEntry>>,
    stat: Uri -> Option<int>,
    readFile: Uri -> Option<string>)

  /** The file system, `JSON.parse`, and the time `new Date(...)` makes of a stored timestamp. */
  datatype Env = Env(fs: FileSystem, parse: string -> Option<Json>, dateOf: Option<Json> -> int)

  /** The places where the work for one folder polls the cancellation token. */
  datatype Poll = BeforeFolder | AfterListing | AfterReading

  /** `_sessionCache` and `_fileMtimes`, both keyed by the printed URI. */
  datatype Caches = Caches(sessions: OMap<string, Entry<seq<Session>>>, mtimes: OMap<string, Entry<int>>)

  ghost predicate CachesOk(c: Caches) {
    && Valid(c.sessions) && KeyedBy(c.sessions, DefaultToKey)
    && Valid(c.mtimes) && KeyedBy(c.mtimes, DefaultToKey)
  }

  const Extension := ".jsonl"

  /** A file whose name ends in `.jsonl`. */
  predicate IsJsonlEntry(e: DirEntry) {
    e.isFile && EndsWith(e.name, Extension)
  }

  /** A `.jsonl` file whose name without the extension is not empty. */
  predicate IsSessionFile(e: DirEntry) {
    IsJsonlEntry(e) && |e.name| > |Extension|
  }

  /** `URI.joinPath(dir, name)` for each entry `keep` accepts, in listing order. */
  function Files(dir: Uri, entries: seq<DirEntry>, keep: DirEntry -> bool): (r: seq<Uri>)
    ensures |r| <= |entries|
    ensures forall u :: u in r <==> exists i :: 0 <= i < |entries| && keep(entries[i]) && u == JoinPath(dir, entries[i].name)
  {
    if entries == [] then []
    else
      var init := entries[..|entries| - 1];
      var e := entries[|entries| - 1];
      assert forall i :: 0 <= i < |init| ==> init[i] == entries[i];
      Files(dir, init, keep) + (if keep(e) then [JoinPath(dir, e.name)] else [])
  }

  /** Strings that agree around a middle part agree in the middle. */
  lemma CancelAround(p: string, a: string, b: string, q: string)
    requires p + a + q == p + b + q
    ensures a == b
  {
    assert |a| == |b|;
    assert (p + a + q)[|p|..|p| + |a|] == a;
    assert (p + b + q)[|p|..|p| + |b|] == b;
  }

  /** Entries of one directory with different names print differently, so they never share a key. */
  lemma JoinPathKeyInjective(dir: Uri, a: string, b: string)
    requires DefaultToKey(JoinPath(dir, a)) == DefaultToKey(JoinPath(dir, b))
    ensures a == b
  {
    var p := dir.scheme + ":" + (if dir.authority != "" || dir.scheme == "file" then "//" + dir.authority else "") + dir.path + "/";
    var q := (if dir.query != "" then "?" + dir.query else "") + (if dir.fragment != "" then "#" + dir.fragment else "");
    PrintedChild(dir, a, p, q);
    PrintedChild(dir, b, p, q);
    CancelAround(p, a, b, q);
  }

  lemma PrintedChild(dir: Uri, name: string, p: string, q: string)
    requires p == dir.scheme + ":" + (if dir.authority != "" || dir.scheme == "file" then "//" + dir.authority else "") + dir.path + "/"
    requires q == (if dir.query != "" then "?" + dir.query else "") + (if dir.fragment != "" then "#" + dir.fragment else "")
    ensures DefaultToKey(JoinPath(dir, name)) == p + name + q
  {
  }

  // Loading

  /** `_getMessagesFromSession`: a file that cannot be read gives no records. */
  function FileData(env: Env, u: Uri): (r: FileRecords)
    ensures WellKeyed(r)
    ensures env.fs.readFile(u).None? ==> r.messages.vals == map[] && r.summaries.vals == map[]
  {
    match env.fs.readFile(u)
    case None => FileRecords(Empty(), Empty())
    case Some(text) => RecordsOf(JsonlLines(text), env.parse, env.dateOf)
  }

  /** The records of each file, in file order; `Promise.allSettled` never sees a rejection. */
  function FilesData(env: Env, files: seq<Uri>): (r: seq<FileRecords>)
    ensures |r| == |files|
    ensures forall i :: 0 <= i < |r| ==> WellKeyed(r[i])
  {
    if files == [] then []
    else FilesData(env, files[..|files| - 1]) + [FileData(env, files[|files| - 1])]
  }

  /**
   * The `stat` calls of the merge loop: each file whose `stat` succeeds has
   * its time recorded. Entries are only added or replaced: each entry is
   * the earlier one or one set for a file under that file's own key.
   */
  function RecordMtimes(m: OMap<string, Entry<int>>, fs: FileSystem, files: seq<Uri>): (r: OMap<string, Entry<int>>)
    requires Valid(m)
    ensures Valid(r)
    ensures KeyedBy(m, DefaultToKey) ==> KeyedBy(r, DefaultToKey)
    ensures m.vals.Keys <= r.vals.Keys
    ensures forall k :: k in r.vals ==>
      (k in m.vals && r.vals[k] == m.vals[k]) || (r.vals[k].uri in files && DefaultToKey(r.vals[k].uri) == k)
  {
    if files == [] then m
    else
      var prev := RecordMtimes(m, fs, files[..|files| - 1]);
      var u := files[|files| - 1];
      match fs.stat(u)
      case None => prev
      case Some(t) => SetEntry(prev, DefaultToKey, u, t)
  }

  /** A file whose key no other file shares ends with its own `stat` time recorded. */
  lemma {:induction false} RecordedMtime(m: OMap<string, Entry<int>>, fs: FileSystem, files: seq<Uri>, u: Uri)
    requires Valid(m) && u in files && fs.stat(u).Some?
    requires forall v :: v in files && DefaultToKey(v) == DefaultToKey(u) ==> v == u
    ensures GetValue(RecordMtimes(m, fs, files), DefaultToKey, u) == fs.stat(u)
  {
    var init := files[..|files| - 1];
    var last := files[|files| - 1];
    var prev := RecordMtimes(m, fs, init);
    if last != u {
      assert u in init;
      RecordedMtime(m, fs, init, u);
      if fs.stat(last).Some? {
        GetAfterSet(prev, DefaultToKey, last, fs.stat(last).value, u);
      }
    }
  }

  /** What `_loadSessionsFromDisk` returns, with the times it records. */
  datatype Loaded = Loaded(mtimes: OMap<string, Entry<int>>, outcome: Outcome)

  /**
   * `_loadSessionsFromDisk`. A directory that cannot be listed, or a token
   * cancelled once the files are read, gives no sessions and records
   * nothing. Otherwise every session file is read, its time recorded, and
   * the sessions built from all their records.
   */
  function Load(mtimes: OMap<string, Entry<int>>, env: Env, dir: Uri, cancelled: bool): (r: Loaded)
    requires Valid(mtimes)
    ensures Valid(r.mtimes)
    ensures KeyedBy(mtimes, DefaultToKey) ==> KeyedBy(r.mtimes, DefaultToKey)
    ensures env.fs.readDirectory(dir).None? || cancelled ==> r == Loaded(mtimes, Done([]))
    ensures env.fs.readDirectory(dir).Some? && !cancelled ==>
      r.mtimes == RecordMtimes(mtimes, env.fs, Files(dir, env.fs.readDirectory(dir).value, IsSessionFile))
  {
    match env.fs.readDirectory(dir)
    case None => Loaded(mtimes, Done([]))
    case Some(entries) =>
      var files := Files(dir, entries, IsSessionFile);
      if cancelled then Loaded(mtimes, Done([]))
      else Loaded(RecordMtimes(mtimes, env.fs, files), SessionsOf(FilesData(env, files)))
  }

  // Checking the cache

  /** `!cachedMtime || stat.mtime > cachedMtime`, or the `stat` throws: the file is new or changed. */
  predicate Changed(mtimes: OMap<string, Entry<int>>, fs: FileSystem, u: Uri) {
    match fs.stat(u)
    case None => true
    case Some(t) =>
      match GetValue(mtimes, DefaultToKey, u)
      case None => true
      case Some(c) => c == 0 || t > c
  }

  /** A recorded `.jsonl` file that `under` places in `dir` and whose key no listed file has. */
  predicate Unlisted(u: Uri, dir: Uri, listed: seq<Uri>, under: (Uri, Uri) -> bool) {
    && under(u, dir)
    && EndsWith(u.path, Extension)
    && forall i :: 0 <= i < |listed| ==> DefaultToKey(listed[i]) != DefaultToKey(u)
  }

  /** The first loop of the check passes: no listed file is new or changed. */
  predicate AllUnchanged(mtimes: OMap<string, Entry<int>>, fs: FileSystem, listed: seq<Uri>) {
    forall i :: 0 <= i < |listed| ==> !Changed(mtimes, fs, listed[i])
  }

  /** The second loop of the check passes: no recorded file in the directory is missing from the listing. */
  predicate NoneMissing(mtimes: OMap<string, Entry<int>>, dir: Uri, listed: seq<Uri>, under: (Uri, Uri) -> bool) {
    forall k :: k in mtimes.vals ==> !Unlisted(mtimes.vals[k].uri, dir, listed, under)
  }

  /**
   * `_getCachedSessionsIfValid`, with the filter for the files it compares
   * (`keep`) and the test that places a recorded file in the directory
   * (`under`) as parameters. `None` is `null`. The order of the early
   * returns does not matter, since each returns `null`.
   */
  function CheckWith(c: Caches, fs: FileSystem, dir: Uri, cancelled: bool, keep: DirEntry -> bool, under: (Uri, Uri) -> bool): (r: Option<seq<Session>>)
    ensures r.Some? ==> r == GetValue(c.sessions, DefaultToKey, dir)
    ensures cancelled || fs.readDirectory(dir).None? ==> r.None?
  {
    if DefaultToKey(dir) !in c.sessions.vals then None
    else
      match fs.readDirectory(dir)
      case None => None
      case Some(entries) =>
        var listed := Files(dir, entries, keep);
        if cancelled then None
        else if !AllUnchanged(c.mtimes, fs, listed) then None
        else if !NoneMissing(c.mtimes, dir, listed, under) then None
        else Some(c.sessions.vals[DefaultToKey(dir)].value)
  }

  /** The parent test as written: `isEqualOrParent(cachedFileUri, projectDirUri)`. */
  predicate UnderAsWritten(u: Uri, dir: Uri) {
    IsEqualOrParent(u, dir, false)
  }

  /** The parent test as intended: the file's path lies in the directory, and the other parts agree. */
  predicate UnderIntended(u: Uri, dir: Uri) {
    IsEqualOrParentIntended(u, dir, false)
  }

  /** The check as written: it compares every `.jsonl` file and places files with `isEqualOrParent`. */
  function CheckCacheAsWritten(c: Caches, fs: FileSystem, dir: Uri, cancelled: bool): (r: Option<seq<Session>>)
    ensures r.Some? ==> r == GetValue(c.sessions, DefaultToKey, dir)
    ensures cancelled ==> r.None?
  {
    CheckWith(c, fs, dir, cancelled, IsJsonlEntry, UnderAsWritten)
  }

  /** The check as intended: it compares the files loading reads, and places files by path. */
  function CheckCache(c: Caches, fs: FileSystem, dir: Uri, cancelled: bool): (r: Option<seq<Session>>)
    ensures r.Some? ==> r == GetValue(c.sessions, DefaultToKey, dir)
    ensures cancelled ==> r.None?
  {
    CheckWith(c, fs, dir, cancelled, IsSessionFile, UnderIntended)
  }

  /** A recorded file in the directory that the listing lacks makes the check fail. */
  lemma UnlistedFails(c: Caches, fs: FileSystem, dir: Uri, cancelled: bool, keep: DirEntry -> bool, under: (Uri, Uri) -> bool, entries: seq<DirEntry>, k: string)
    requires fs.readDirectory(dir) == Some(entries)
    requires k in c.mtimes.vals && Unlisted(c.mtimes.vals[k].uri, dir, Files(dir, entries, keep), under)
    ensures CheckWith(c, fs, dir, cancelled, keep, under).None?
  {
  }

  /** With the directory cached and listed, no listed file changed and none recorded missing, the check returns the cached sessions. */
  lemma CheckPasses(c: Caches, fs: FileSystem, dir: Uri, keep: DirEntry -> bool, under: (Uri, Uri) -> bool, entries: seq<DirEntry>)
    requires DefaultToKey(dir) in c.sessions.vals
    requires fs.readDirectory(dir) == Some(entries)
    requires AllUnchanged(c.mtimes, fs, Files(dir, entries, keep))
    requires NoneMissing(c.mtimes, dir, Files(dir, entries, keep), under)
    ensures CheckWith(c, fs, dir, false, keep, under) == Some(c.sessions.vals[DefaultToKey(dir)].value)
  {
  }

  /** A new or changed session file invalidates the cache. */
  lemma ChangedFileInvalidates(c: Caches, fs: FileSystem, dir: Uri, cancelled: bool, entries: seq<DirEntry>, name: string)
    requires fs.readDirectory(dir) == Some(entries)
    requires DirEntry(name, true) in entries && IsSessionFile(DirEntry(name, true))
    requires Changed(c.mtimes, fs, JoinPath(dir, name))
    ensures CheckCache(c, fs, dir, cancelled).None?
  {
    var i :| 0 <= i < |entries| && entries[i] == DirEntry(name, true);
    var listed := Files(dir, entries, IsSessionFile);
    assert JoinPath(dir, name) in listed;
  }

  // One folder

  /** What one folder contributes, and the caches after it. */
  datatype Step = Step(caches: Caches, outcome: Outcome)

  /**
   * The body of the folder loop of `getAllSessions`: the cached sessions
   * when the check allows them, else a reload. A reload stores its
   * sessions for the directory unless the token was cancelled while it ran.
   */
  function FolderStep(c: Caches, env: Env, dir: Uri, listing: bool, reading: bool): (r: Step)
    requires CachesOk(c)
    ensures CachesOk(r.caches)
    ensures reading ==> r.caches == c
  {
    match CheckCache(c, env.fs, dir, listing)
    case Some(ss) => Step(c, Done(ss))
    case None =>
      var l := Load(c.mtimes, env, dir, reading);
      match l.outcome
      case Done(ss) =>
        if reading then Step(c.(mtimes := l.mtimes), Done(ss))
        else Step(Caches(SetEntry(c.sessions, DefaultToKey, dir, ss), l.mtimes), Done(ss))
      case failed => Step(c.(mtimes := l.mtimes), failed)
  }

  /** The folder loop body as written: the as-written check, and a reload always stored. */
  function FolderStepAsWritten(c: Caches, env: Env, dir: Uri, listing: bool, reading: bool): (r: Step)
    requires CachesOk(c)
    ensures CachesOk(r.caches)
    ensures r.outcome.Done? && CheckCacheAsWritten(c, env.fs, dir, listing).None? ==>
      GetValue(r.caches.sessions, DefaultToKey, dir) == Some(r.outcome.sessions)
  {
    match CheckCacheAsWritten(c, env.fs, dir, listing)
    case Some(ss) => Step(c, Done(ss))
    case None =>
      var l := Load(c.mtimes, env, dir, reading);
      match l.outcome
      case Done(ss) => Step(Caches(SetEntry(c.sessions, DefaultToKey, dir, ss), l.mtimes), Done(ss))
      case failed => Step(c.(mtimes := l.mtimes), failed)
  }

  /** Every session file of the listing has a `stat` with a non-zero time. */
  ghost predicate StatsKnown(fs: FileSystem, dir: Uri, entries: seq<DirEntry>) {
    forall i :: 0 <= i < |entries| && IsSessionFile(entries[i]) ==>
      fs.stat(JoinPath(dir, entries[i].name)).Some? && fs.stat(JoinPath(dir, entries[i].name)).value != 0
  }

  /** Every recorded `.jsonl` file in `dir` is one of the listing's session files. */
  ghost predicate NoStaleMtimes(mtimes: OMap<string, Entry<int>>, dir: Uri, entries: seq<DirEntry>) {
    forall k :: k in mtimes.vals && UnderIntended(mtimes.vals[k].uri, dir) && EndsWith(mtimes.vals[k].uri.path, Extension) ==>
      exists i :: 0 <= i < |entries| && IsSessionFile(entries[i]) && DefaultToKey(JoinPath(dir, entries[i].name)) == k
  }

  /** After recording, no session file of the listing counts as changed. */
  lemma RecordedFilesFresh(m: OMap<string, Entry<int>>, fs: FileSystem, dir: Uri, entries: seq<DirEntry>)
    requires Valid(m) && StatsKnown(fs, dir, entries)
    ensures var files := Files(dir, entries, IsSessionFile);
      AllUnchanged(RecordMtimes(m, fs, files), fs, files)
  {
    var files := Files(dir, entries, IsSessionFile);
    forall i | 0 <= i < |files| ensures !Changed(RecordMtimes(m, fs, files), fs, files[i]) {
      var u := files[i];
      assert u in files;
      var j :| 0 <= j < |entries| && IsSessionFile(entries[j]) && u == JoinPath(dir, entries[j].name);
      forall v | v in files && DefaultToKey(v) == DefaultToKey(u) ensures v == u {
        var l :| 0 <= l < |entries| && IsSessionFile(entries[l]) && v == JoinPath(dir, entries[l].name);
        JoinPathKeyInjective(dir, entries[l].name, entries[j].name);
      }
      RecordedMtime(m, fs, files, u);
    }
  }

  /** After recording, no recorded file in `dir` is missing from the listing. */
  lemma RecordedFilesListed(m: OMap<string, Entry<int>>, fs: FileSystem, dir: Uri, entries: seq<DirEntry>)
    requires Valid(m) && KeyedBy(m, DefaultToKey) && NoStaleMtimes(m, dir, entries)
    ensures var files := Files(dir, entries, IsSessionFile);
      var r := RecordMtimes(m, fs, files);
      NoneMissing(r, dir, files, UnderIntended)
  {
    var files := Files(dir, entries, IsSessionFile);
    var r := RecordMtimes(m, fs, files);
    forall k | k in r.vals ensures !Unlisted(r.vals[k].uri, dir, files, UnderIntended) {
      var u := r.vals[k].uri;
      if u in files {
        var j :| 0 <= j < |files| && files[j] == u;
      } else if UnderIntended(u, dir) && EndsWith(u.path, Extension) {
        assert k in m.vals && r.vals[k] == m.vals[k];
        var i :| 0 <= i < |entries| && IsSessionFile(entries[i]) && DefaultToKey(JoinPath(dir, entries[i].name)) == k;
        var f := JoinPath(dir, entries[i].name);
        assert f in files;
        var j :| 0 <= j < |files| && files[j] == f;
        assert DefaultToKey(files[j]) == DefaultToKey(u);
      }
    }
  }

  /**
   * The cache round trip. A reload records every session file's time and
   * stores the sessions it built. The next check then returns exactly those
   * sessions, provided three things hold:
   * - the directory is unchanged;
   * - every session file's `stat` succeeds with a non-zero time;
   * - no recorded file in the directory has since disappeared.
   * An empty-stem `.jsonl` file in the listing does not get in the way.
   */
  lemma RepeatedCallReusesCache(c: Caches, env: Env, dir: Uri, listing: bool, reading: bool, entries: seq<DirEntry>)
    requires CachesOk(c)
    requires env.fs.readDirectory(dir) == Some(entries)
    requires StatsKnown(env.fs, dir, entries) && NoStaleMtimes(c.mtimes, dir, entries)
    requires !reading
    requires FolderStep(c, env, dir, listing, reading).outcome.Done?
    ensures var r := FolderStep(c, env, dir, listing, reading);
      CheckCache(r.caches, env.fs, dir, false) == Some(r.outcome.sessions)
  {
    var r := FolderStep(c, env, dir, listing, reading);
    if CheckCache(c, env.fs, dir, listing).None? {
      var files := Files(dir, entries, IsSessionFile);
      var m := RecordMtimes(c.mtimes, env.fs, files);
      var ss := r.outcome.sessions;
      assert r.caches == Caches(SetEntry(c.sessions, DefaultToKey, dir, ss), m);
      RecordedFilesFresh(c.mtimes, env.fs, dir, entries);
      RecordedFilesListed(c.mtimes, env.fs, dir, entries);
      CheckPasses(r.caches, env.fs, dir, IsSessionFile, UnderIntended, entries);
    }
  }

  /** Storing a reload leaves the entries of every other directory as they were. */
  lemma StoreKeepsOtherDirectories(c: Caches, env: Env, dir: Uri, listing: bool, reading: bool, other: Uri)
    requires CachesOk(c) && DefaultToKey(other) != DefaultToKey(dir)
    ensures GetValue(FolderStep(c, env, dir, listing, reading).caches.sessions, DefaultToKey, other) == GetValue(c.sessions, DefaultToKey, other)
  {
    var r := FolderStep(c, env, dir, listing, reading);
    if r.caches.sessions != c.sessions {
      GetAfterSet(c.sessions, DefaultToKey, dir, r.outcome.sessions, other);
    }
  }

  // Findings

  /**
   * As written, deleting a session file never invalidates the cache. The
   * written parent test needs the printed URIs to be equal, and no recorded
   * file prints as its directory. So while the remaining files are
   * unchanged, the check keeps returning the cached sessions, the deleted
   * file's among them.
   */
  lemma DeletedFileUnnoticed(c: Caches, fs: FileSystem, dir: Uri, entries: seq<DirEntry>, name: string)
    requires CachesOk(c) && DefaultToKey(dir) in c.sessions.vals
    requires fs.readDirectory(dir) == Some(entries)
    requires GetValue(c.mtimes, DefaultToKey, JoinPath(dir, name)).Some?
    requires forall i :: 0 <= i < |entries| ==> entries[i].name != name
    requires forall i :: 0 <= i < |entries| && IsJsonlEntry(entries[i]) ==> !Changed(c.mtimes, fs, JoinPath(dir, entries[i].name))
    requires forall k :: k in c.mtimes.vals ==> UriToString(c.mtimes.vals[k].uri) != UriToString(dir)
    ensures CheckCacheAsWritten(c, fs, dir, false) == GetValue(c.sessions, DefaultToKey, dir)
  {
    var listed := Files(dir, entries, IsJsonlEntry);
    forall i | 0 <= i < |listed| ensures !Changed(c.mtimes, fs, listed[i]) {
      assert listed[i] in listed;
    }
  }

  /** Corrected: a recorded session file in the directory that the listing no longer has invalidates the cache. */
  lemma DeletedFileInvalidates(c: Caches, fs: FileSystem, dir: Uri, entries: seq<DirEntry>, name: string)
    requires fs.readDirectory(dir) == Some(entries)
    requires DefaultToKey(JoinPath(dir, name)) in c.mtimes.vals
    requires c.mtimes.vals[DefaultToKey(JoinPath(dir, name))].uri == JoinPath(dir, name)
    requires |name| > |Extension| && EndsWith(name, Extension) && name[0] != '/' && name[0] != '\\'
    requires forall i :: 0 <= i < |entries| ==> entries[i].name != name
    ensures CheckCache(c, fs, dir, false).None?
  {
    var u := JoinPath(dir, name);
    ChildQualifiesIntended(dir, name);
    EndsWithAfter(dir.path + "/", name, Extension);
    NameNotListed(dir, entries, name, IsSessionFile);
    UnlistedFails(c, fs, dir, false, IsSessionFile, UnderIntended, entries, DefaultToKey(u));
  }

  lemma EndsWithAfter(x: string, y: string, e: string)
    requires EndsWith(y, e)
    ensures EndsWith(x + y, e)
  {
    assert (x + y)[|x + y| - |e|..] == y[|y| - |e|..];
  }

  /** A name the listing does not have has a key no listed file has. */
  lemma NameNotListed(dir: Uri, entries: seq<DirEntry>, name: string, keep: DirEntry -> bool)
    requires forall i :: 0 <= i < |entries| ==> entries[i].name != name
    ensures var listed := Files(dir, entries, keep);
      forall i :: 0 <= i < |listed| ==> DefaultToKey(listed[i]) != DefaultToKey(JoinPath(dir, name))
  {
    var listed := Files(dir, entries, keep);
    forall i | 0 <= i < |listed| ensures DefaultToKey(listed[i]) != DefaultToKey(JoinPath(dir, name)) {
      assert listed[i] in listed;
      var j :| 0 <= j < |entries| && keep(entries[j]) && listed[i] == JoinPath(dir, entries[j].name);
      if DefaultToKey(listed[i]) == DefaultToKey(JoinPath(dir, name)) {
        JoinPathKeyInjective(dir, entries[j].name, name);
      }
    }
  }

  /**
   * As written, a check cancelled after listing followed by a reload
   * cancelled after reading replaces a valid cache entry with no sessions.
   * The recorded times stay as they were, so the next uncancelled check
   * returns that empty list for as long as the files stay unchanged.
   */
  lemma CancelledLoadPoisonsCache(c: Caches, env: Env, dir: Uri, listing: bool, reading: bool)
    requires CachesOk(c)
    requires CheckCacheAsWritten(c, env.fs, dir, false).Some?
    requires listing && reading
    ensures var r := FolderStepAsWritten(c, env, dir, listing, reading);
      && r.outcome == Done([])
      && r.caches.mtimes == c.mtimes
      && CheckCacheAsWritten(r.caches, env.fs, dir, false) == Some([])
  {
    var r := FolderStepAsWritten(c, env, dir, listing, reading);
    var s := SetEntry(c.sessions, DefaultToKey, dir, []);
    assert r.caches == Caches(s, c.mtimes);
  }

  /** Corrected: a reload cancelled while it ran leaves both caches as they were, so a valid entry stays valid. */
  lemma CancelledStepKeepsCache(c: Caches, env: Env, dir: Uri, listing: bool, reading: bool)
    requires CachesOk(c) && reading
    ensures var r := FolderStep(c, env, dir, listing, reading);
      CheckCache(r.caches, env.fs, dir, false) == CheckCache(c, env.fs, dir, false)
  {
  }

  /**
   * As written, a file named just `.jsonl` defeats the cache. Loading skips
   * it because its session id is empty, so its time is never recorded. The
   * check still compares it and finds no recorded time, so every call
   * reloads the directory.
   */
  lemma EmptyStemDefeatsCache(c: Caches, env: Env, dir: Uri, listing: bool, reading: bool, entries: seq<DirEntry>)
    requires CachesOk(c)
    requires env.fs.readDirectory(dir) == Some(entries) && DirEntry(Extension, true) in entries
    requires GetValue(c.mtimes, DefaultToKey, JoinPath(dir, Extension)).None?
    ensures var r := FolderStepAsWritten(c, env, dir, listing, reading);
      && GetValue(r.caches.mtimes, DefaultToKey, JoinPath(dir, Extension)).None?
      && CheckCacheAsWritten(r.caches, env.fs, dir, false).None?
  {
    EmptyStemChanged(c, env.fs, dir, entries, listing);
    var r := FolderStepAsWritten(c, env, dir, listing, reading);
    if !reading {
      EmptyStemUnrecorded(c.mtimes, env.fs, dir, entries);
    }
    EmptyStemChanged(r.caches, env.fs, dir, entries, false);
  }

  /** The empty-stem file is listed by the written check, and without a recorded time it counts as changed. */
  lemma EmptyStemChanged(c: Caches, fs: FileSystem, dir: Uri, entries: seq<DirEntry>, cancelled: bool)
    requires fs.readDirectory(dir) == Some(entries) && DirEntry(Extension, true) in entries
    requires GetValue(c.mtimes, DefaultToKey, JoinPath(dir, Extension)).None?
    ensures CheckCacheAsWritten(c, fs, dir, cancelled).None?
  {
    var listed := Files(dir, entries, IsJsonlEntry);
    var i :| 0 <= i < |entries| && entries[i] == DirEntry(Extension, true);
    assert IsJsonlEntry(entries[i]);
    assert JoinPath(dir, Extension) in listed;
    var j :| 0 <= j < |listed| && listed[j] == JoinPath(dir, Extension);
    assert Changed(c.mtimes, fs, listed[j]);
  }

  /** Loading records no time for the empty-stem file: every file it reads has a longer name. */
  lemma EmptyStemUnrecorded(m: OMap<string, Entry<int>>, fs: FileSystem, dir: Uri, entries: seq<DirEntry>)
    requires Valid(m) && GetValue(m, DefaultToKey, JoinPath(dir, Extension)).None?
    ensures GetValue(RecordMtimes(m, fs, Files(dir, entries, IsSessionFile)), DefaultToKey, JoinPath(dir, Extension)).None?
  {
    var files := Files(dir, entries, IsSessionFile);
    var r := RecordMtimes(m, fs, files);
    var k := DefaultToKey(JoinPath(dir, Extension));
    if k in r.vals {
      var u := r.vals[k].uri;
      assert u in files;
      var j :| 0 <= j < |entries| && IsSessionFile(entries[j]) && u == JoinPath(dir, entries[j].name);
      JoinPathKeyInjective(dir, entries[j].name, Extension);
      assert false;
    }
  }

  // All folders

  /** `URI.joinPath(userHome, '.claude', 'projects', slug)`. */
  function ProjectDir(home: Uri, folder: Uri): (r: Uri)
    ensures r.path == home.path + "/.claude/projects/" + ComputeFolderSlug(folder.path)
  {
    JoinPath(JoinPath(JoinPath(home, ".claude"), "projects"), ComputeFolderSlug(folder.path))
  }

  /** The body of the folder loop: as written, or as intended. */
  function FolderStepOf(written: bool, c: Caches, env: Env, dir: Uri, listing: bool, reading: bool): (r: Step)
    requires CachesOk(c)
    ensures CachesOk(r.caches)
  {
    if written then FolderStepAsWritten(c, env, dir, listing, reading) else FolderStep(c, env, dir, listing, reading)
  }

  /**
   * The folder loop of `getAllSessions` from folder `i` on, with the
   * sessions gathered so far. A token cancelled before a folder ends the
   * loop with what it has. A folder whose load hangs or throws ends the
   * whole call that way.
   */
  function GetAllFrom(written: bool, c: Caches, env: Env, home: Uri, folders: seq<Uri>, i: nat, cancelled: (nat, Poll) -> bool, items: seq<Session>): (r: Step)
    requires i <= |folders| && CachesOk(c)
    ensures CachesOk(r.caches)
    ensures r.outcome.Done? ==> items <= r.outcome.sessions
    decreases |folders| - i
  {
    if i == |folders| || cancelled(i, BeforeFolder) then Step(c, Done(items))
    else
      var s := FolderStepOf(written, c, env, ProjectDir(home, folders[i]), cancelled(i, AfterListing), cancelled(i, AfterReading));
      match s.outcome
      case Done(ss) => GetAllFrom(written, s.caches, env, home, folders, i + 1, cancelled, items + ss)
      case _ => s
  }

  /** A folder whose check passes contributes the cached sessions and changes no cache. */
  lemma CachedStep(c: Caches, env: Env, dir: Uri, listing: bool, reading: bool)
    requires CachesOk(c) && CheckCache(c, env.fs, dir, listing).Some?
    ensures FolderStep(c, env, dir, listing, reading) == Step(c, Done(CheckCache(c, env.fs, dir, listing).value))
  {
  }

  /** `getAllSessions` as written. */
  function GetAllAsWritten(c: Caches, env: Env, home: Uri, folders: seq<Uri>, cancelled: (nat, Poll) -> bool): (r: Step)
    requires CachesOk(c)
    ensures CachesOk(r.caches)
    ensures folders == [] ==> r == Step(c, Done([]))
  {
    GetAllFrom(true, c, env, home, folders, 0, cancelled, [])
  }

  /** `getAllSessions` as intended: the corrected check, and a cancelled load that stores nothing. */
  function GetAll(c: Caches, env: Env, home: Uri, folders: seq<Uri>, cancelled: (nat, Poll) -> bool): (r: Step)
    requires CachesOk(c)
    ensures CachesOk(r.caches)
    ensures folders == [] ==> r == Step(c, Done([]))
  {
    GetAllFrom(false, c, env, home, folders, 0, cancelled, [])
  }

  /** A token that is never cancelled. */
  function NeverCancelled(i: nat, p: Poll): bool {
    false
  }

  /** `items` put before the sessions of a finished step; a hang or a throw is kept. */
  function Prefixed(items: seq<Session>, s: Step): (r: Step)
    ensures r.caches == s.caches
    ensures r.outcome.Done? <==> s.outcome.Done?
    ensures r.outcome.Done? ==> r.outcome.sessions == items + s.outcome.sessions
    ensures !r.outcome.Done? ==> r == s
  {
    match s.outcome
    case Done(ss) => Step(s.caches, Done(items + ss))
    case _ => s
  }

  /** Putting `items + ss` before a step is putting `ss` and then `items` before it. */
  lemma PrefixedTwice(items: seq<Session>, ss: seq<Session>, t: Step)
    ensures Prefixed(items + ss, t) == Prefixed(items, Prefixed(ss, t))
  {
    if t.outcome.Done? {
      assert items + ss + t.outcome.sessions == items + (ss + t.outcome.sessions);
    }
  }

  /**
   * An uncancelled run from folder `i` on: that folder's outcome, with the
   * caches it leaves, followed by what the later folders give. The first
   * folder that hangs or throws decides the outcome.
   */
  function Sweep(written: bool, c: Caches, env: Env, home: Uri, folders: seq<Uri>, i: nat): (r: Step)
    requires i <= |folders| && CachesOk(c)
    ensures CachesOk(r.caches)
    decreases |folders| - i
  {
    if i == |folders| then Step(c, Done([]))
    else
      var s := FolderStepOf(written, c, env, ProjectDir(home, folders[i]), false, false);
      match s.outcome
      case Done(ss) => Prefixed(ss, Sweep(written, s.caches, env, home, folders, i + 1))
      case _ => s
  }

  /**
   * A run that is never cancelled returns what the folders give one after
   * another, in folder order, each from the caches the earlier ones left,
   * after the sessions gathered so far.
   */
  lemma {:induction false} UncancelledRunSweeps(written: bool, c: Caches, env: Env, home: Uri, folders: seq<Uri>, i: nat, items: seq<Session>)
    requires i <= |folders| && CachesOk(c)
    ensures GetAllFrom(written, c, env, home, folders, i, NeverCancelled, items) == Prefixed(items, Sweep(written, c, env, home, folders, i))
    decreases |folders| - i
  {
    if i == |folders| {
      assert items + [] == items;
    } else {
      var s := FolderStepOf(written, c, env, ProjectDir(home, folders[i]), false, false);
      if s.outcome.Done? {
        var ss := s.outcome.sessions;
        UncancelledRunSweeps(written, s.caches, env, home, folders, i + 1, items + ss);
        PrefixedTwice(items, ss, Sweep(written, s.caches, env, home, folders, i + 1));
      }
    }
  }

  /** `all.find(session => session.id === claudeCodeSessionId)`. */
  function SessionById(all: seq<Session>, id: string): (r: Option<Session>)
    ensures r.Some? ==> r.value.id == id && r.value in all
    ensures r.None? <==> forall i :: 0 <= i < |all| ==> all[i].id != id
  {
    Find(all, (s: Session) => s.id == id)
  }
}

=== FILE: session_graph.dfy ===
/**
 * How `_loadSessionsFromDisk` (src/services/claude/session.ts) turns the
 * records of a project's log files into resumable sessions:
 * - it indexes every message by uuid and notes every uuid named as a parent;
 * - it takes the uuids nobody names as leaves;
 * - from each leaf it follows `parentUuid` back to the root;
 * - it keeps one session per SDK session id.
 */
module SessionGraph {
  import opened Wrappers
  import opened Strs
  import opened Json
  import opened Seqs
  import opened OrderedMaps
  import opened SessionRecords

  /** `IClaudeCodeSession`: the chain from root to leaf, and the time of its last message. */
  datatype Session = Session(id: string, labelText: string, messages: seq<StoredMessage>, timestamp: int)

  /** One file's messages by uuid and summaries by leaf uuid, each in first-insertion order. */
  datatype FileRecords = FileRecords(messages: OMap<string, StoredMessage>, summaries: OMap<string, SummaryEntry>)

  /** Each message is stored under its uuid and each summary under its leaf uuid. No kept summary is empty or reports a failed login. */
  ghost predicate WellKeyed(f: FileRecords) {
    && Valid(f.messages) && Valid(f.summaries)
    && (forall k :: k in f.messages.vals ==> f.messages.vals[k].uuid == k)
    && (forall k :: k in f.summaries.vals ==>
          f.summaries.vals[k].leafUuid == k && f.summaries.vals[k].summary != "" && !IsAuthError(f.summaries.vals[k].summary))
  }

  // One file

  /** `text.trim().split('\n').filter(line => line.trim())`. */
  function JsonlLines(text: string): (r: seq<string>)
    ensures forall i :: 0 <= i < |r| ==> Trim(r[i]) != ""
  {
    Filter(Split(Trim(text), "\n"), l => Trim(l) != "")
  }

  /**
   * What one line holds: `parse` stands for `JSON.parse`, and `None` means
   * it throws, which skips the line.
   */
  function LineRecord(line: string, parse: string -> Option<Json>, dateOf: Option<Json> -> int): (r: Record)
    ensures parse(line).None? ==> r.Skipped?
    ensures r.Summary? ==> r.s.summary != "" && !IsAuthError(r.s.summary)
  {
    match parse(line)
    case None => Skipped
    case Some(entry) => Classify(entry, dateOf)
  }

  /** One line added to what the earlier lines gave. A later record with the same key replaces an earlier one. */
  function AddLine(f: FileRecords, line: string, parse: string -> Option<Json>, dateOf: Option<Json> -> int): (r: FileRecords)
    requires WellKeyed(f)
    ensures WellKeyed(r)
  {
    match LineRecord(line, parse, dateOf)
    case Message(m) => f.(messages := Put(f.messages, m.uuid, m))
    case Summary(s) => f.(summaries := Put(f.summaries, s.leafUuid, s))
    case Skipped => f
  }

  /** What the loop of `_getMessagesFromSession` collects from the lines, in order. */
  function RecordsOf(lines: seq<string>, parse: string -> Option<Json>, dateOf: Option<Json> -> int): (r: FileRecords)
    ensures WellKeyed(r)
  {
    if lines == [] then FileRecords(Empty(), Empty())
    else AddLine(RecordsOf(lines[..|lines| - 1], parse, dateOf), lines[|lines| - 1], parse, dateOf)
  }

  // All files

  /** The maps and the parent set `_loadSessionsFromDisk` fills from all files. */
  datatype Index = Index(messages: OMap<string, StoredMessage>, summaries: OMap<string, SummaryEntry>, referenced: set<string>)

  /** Messages are keyed by uuid, and every stored message's parent is marked as referenced. */
  ghost predicate IndexOk(idx: Index) {
    && Valid(idx.messages) && Valid(idx.summaries)
    && (forall k :: k in idx.messages.vals ==> idx.messages.vals[k].uuid == k)
    && (forall k :: k in idx.messages.vals && idx.messages.vals[k].parentUuid.Some? ==>
          idx.messages.vals[k].parentUuid.value in idx.referenced)
  }

  /** The entries of an ordered map, in order. */
  function EntriesIn<V>(m: OMap<string, V>): (r: seq<(string, V)>)
    requires Valid(m)
    ensures |r| == |m.keys|
    ensures forall i :: 0 <= i < |r| ==> r[i] == (m.keys[i], m.vals[m.keys[i]])
  {
    seq(|m.keys|, i requires 0 <= i < |m.keys| && Valid(m) => (m.keys[i], m.vals[m.keys[i]]))
  }

  /** `allMessages.set(uuid, message)` in order, marking each parent as referenced. */
  function AddMessages(idx: Index, es: seq<(string, StoredMessage)>): (r: Index)
    requires IndexOk(idx)
    requires forall i :: 0 <= i < |es| ==> es[i].1.uuid == es[i].0
    ensures IndexOk(r) && r.summaries == idx.summaries
    ensures idx.referenced <= r.referenced
  {
    if es == [] then idx
    else
      var prev := AddMessages(idx, es[..|es| - 1]);
      var m := es[|es| - 1].1;
      var referenced := if m.parentUuid.Some? then prev.referenced + {m.parentUuid.value} else prev.referenced;
      Index(Put(prev.messages, m.uuid, m), prev.summaries, referenced)
  }

  /** `allSummaries.set(uuid, summary)` in order. */
  function AddSummaries(idx: Index, es: seq<(string, SummaryEntry)>): (r: Index)
    requires IndexOk(idx)
    ensures IndexOk(r) && r.messages == idx.messages && r.referenced == idx.referenced
  {
    if es == [] then idx
    else
      var prev := AddSummaries(idx, es[..|es| - 1]);
      prev.(summaries := Put(prev.summaries, es[|es| - 1].0, es[|es| - 1].1))
  }

  function MergeFile(idx: Index, f: FileRecords): (r: Index)
    requires IndexOk(idx) && WellKeyed(f)
    ensures IndexOk(r)
  {
    AddSummaries(AddMessages(idx, EntriesIn(f.messages)), EntriesIn(f.summaries))
  }

  /** The index after every file's records, taken in file order. */
  function MergeAll(files: seq<FileRecords>): (r: Index)
    requires forall i :: 0 <= i < |files| ==> WellKeyed(files[i])
    ensures IndexOk(r)
  {
    if files == [] then Index(Empty(), Empty(), {})
    else MergeFile(MergeAll(files[..|files| - 1]), files[|files| - 1])
  }

  /** The leaves: stored uuids that no message read names as its parent, in insertion order. */
  function Leaves(idx: Index): (r: seq<string>)
    ensures forall k :: k in r <==> k in idx.messages.keys && k !in idx.referenced
  {
    Filter(idx.messages.keys, k => k !in idx.referenced)
  }

  /** A leaf is a stored message, and no stored message names it as its parent. */
  lemma LeafNotAParent(idx: Index, leaf: string)
    requires IndexOk(idx) && leaf in Leaves(idx)
    ensures leaf in idx.messages.vals
    ensures forall k :: k in idx.messages.vals ==> idx.messages.vals[k].parentUuid != Some(leaf)
  {
  }

  // The parent walk

  /**
   * The result of following parents from a leaf. `chain` runs from root to
   * leaf, `summary` is the last one found, and `looked` lists the uuids
   * looked up, leaf first. `complete` is false when the walk ran out of fuel.
   */
  datatype Walked = Walked(chain: seq<StoredMessage>, summary: Option<SummaryEntry>, complete: bool, looked: seq<string>)

  /**
   * The `while (currentUuid)` loop of `_loadSessionsFromDisk`. The summary
   * lookup comes before the test that stops at a missing message. The
   * source has no cycle guard, so the walk carries `fuel`. It stops
   * incomplete once it holds one message more than `fuel`.
   */
  function Walk(msgs: map<string, StoredMessage>, sums: map<string, SummaryEntry>, cur: Option<string>, found: Option<SummaryEntry>, fuel: nat): (w: Walked)
    decreases fuel
  {
    if cur.None? then Walked([], found, true, [])
    else
      var u := cur.value;
      var s := if u in sums then Some(sums[u]) else found;
      if u !in msgs then Walked([], s, true, [u])
      else if fuel == 0 then Walked([msgs[u]], s, false, [u])
      else
        var w := Walk(msgs, sums, msgs[u].parentUuid, s, fuel - 1);
        Walked(w.chain + [msgs[u]], w.summary, w.complete, [u] + w.looked)
  }

  /** Messages keyed by their own uuid. */
  ghost predicate KeyedByUuid(msgs: map<string, StoredMessage>) {
    forall k :: k in msgs ==> msgs[k].uuid == k
  }

  /** Stored messages, each naming the one before it as its parent. */
  ghost predicate Linked(msgs: map<string, StoredMessage>, c: seq<StoredMessage>) {
    && (forall i :: 0 <= i < |c| ==> c[i].uuid in msgs && msgs[c[i].uuid] == c[i])
    && (forall i :: 0 < i < |c| ==> c[i].parentUuid == Some(c[i - 1].uuid))
  }

  /**
   * The chain runs from root to leaf: it is linked, and it ends at the
   * message the walk started from. It is empty exactly when that message is
   * not stored.
   */
  lemma {:induction false} WalkLinked(msgs: map<string, StoredMessage>, sums: map<string, SummaryEntry>, cur: Option<string>, found: Option<SummaryEntry>, fuel: nat)
    requires KeyedByUuid(msgs)
    decreases fuel
    ensures var w := Walk(msgs, sums, cur, found, fuel);
      && Linked(msgs, w.chain)
      && (cur.Some? && cur.value in msgs <==> |w.chain| > 0)
      && (|w.chain| > 0 ==> w.chain[|w.chain| - 1] == msgs[cur.value])
  {
    if cur.Some? && cur.value in msgs && fuel > 0 {
      var u := cur.value;
      var s := if u in sums then Some(sums[u]) else found;
      var p := msgs[u].parentUuid;
      WalkLinked(msgs, sums, p, s, fuel - 1);
      var w := Walk(msgs, sums, p, s, fuel - 1);
      var c := w.chain + [msgs[u]];
      forall i | 0 < i < |c| ensures c[i].parentUuid == Some(c[i - 1].uuid) {
        if i < |w.chain| {
          assert c[i] == w.chain[i] && c[i - 1] == w.chain[i - 1];
        } else {
          assert c[i - 1] == msgs[p.value];
        }
      }
    }
  }

  /**
   * A complete walk stops at a root whose parent is absent or not stored.
   * An incomplete one holds one message more than its fuel.
   */
  lemma {:induction false} WalkStops(msgs: map<string, StoredMessage>, sums: map<string, SummaryEntry>, cur: Option<string>, found: Option<SummaryEntry>, fuel: nat)
    decreases fuel
    ensures var w := Walk(msgs, sums, cur, found, fuel);
      && |w.chain| <= fuel + 1
      && (!w.complete ==> |w.chain| == fuel + 1)
      && (w.complete && |w.chain| > 0 ==> w.chain[0].parentUuid.None? || w.chain[0].parentUuid.value !in msgs)
  {
    if cur.Some? && cur.value in msgs && fuel > 0 {
      var u := cur.value;
      var s := if u in sums then Some(sums[u]) else found;
      WalkStops(msgs, sums, msgs[u].parentUuid, s, fuel - 1);
    }
  }

  /** The summary of the last uuid in `ids` that has one, or `found` when none has. */
  function Latest(ids: seq<string>, sums: map<string, SummaryEntry>, found: Option<SummaryEntry>): Option<SummaryEntry> {
    if ids == [] then found
    else if ids[|ids| - 1] in sums then Some(sums[ids[|ids| - 1]])
    else Latest(ids[..|ids| - 1], sums, found)
  }

  lemma {:induction false} LatestCons(u: string, ids: seq<string>, sums: map<string, SummaryEntry>, found: Option<SummaryEntry>)
    ensures Latest([u] + ids, sums, found) == Latest(ids, sums, if u in sums then Some(sums[u]) else found)
    decreases |ids|
  {
    if ids != [] {
      assert ([u] + ids)[..|ids|] == [u] + ids[..|ids| - 1];
      LatestCons(u, ids[..|ids| - 1], sums, found);
    } else {
      assert [u] + ids == [u];
    }
  }

  /**
   * The summary a walk ends with belongs to the last uuid looked up that
   * has one. A summary found later, closer to the root, overrides one found
   * earlier. Without any, the summary the walk started with stays.
   */
  lemma {:induction false} WalkSummary(msgs: map<string, StoredMessage>, sums: map<string, SummaryEntry>, cur: Option<string>, found: Option<SummaryEntry>, fuel: nat)
    decreases fuel
    ensures var w := Walk(msgs, sums, cur, found, fuel); w.summary == Latest(w.looked, sums, found)
  {
    if cur.Some? {
      var u := cur.value;
      var s := if u in sums then Some(sums[u]) else found;
      if u !in msgs || fuel == 0 {
        assert Latest([u], sums, found) == Latest([], sums, s);
      } else {
        var w := Walk(msgs, sums, msgs[u].parentUuid, s, fuel - 1);
        WalkSummary(msgs, sums, msgs[u].parentUuid, s, fuel - 1);
        LatestCons(u, w.looked, sums, found);
      }
    }
  }

  /** Distinct elements make a set as large as the sequence. */
  lemma {:induction false} DistinctCardinality(xs: seq<string>)
    requires forall i, j :: 0 <= i < j < |xs| ==> xs[i] != xs[j]
    ensures |set i | 0 <= i < |xs| :: xs[i]| == |xs|
    decreases |xs|
  {
    if xs != [] {
      var init := xs[..|xs| - 1];
      DistinctCardinality(init);
      var a := set i | 0 <= i < |init| :: init[i];
      var b := set i | 0 <= i < |xs| :: xs[i];
      assert b == a + {xs[|xs| - 1]};
      assert xs[|xs| - 1] !in a;
    }
  }

  /** A subset is no larger than the set that holds it. */
  lemma {:induction false} SubsetCardinality(a: set<string>, b: set<string>)
    requires a <= b
    ensures |a| <= |b|
    decreases |a|
  {
    if a != {} {
      var x :| x in a;
      SubsetCardinality(a - {x}, b - {x});
    }
  }

  /**
   * A walk that runs out of fuel `|msgs|` has visited some uuid twice.
   * Since the walk is deterministic, the source's loop then goes round that
   * cycle for ever.
   */
  lemma IncompleteWalkRepeats(msgs: map<string, StoredMessage>, sums: map<string, SummaryEntry>, leaf: string)
    requires KeyedByUuid(msgs)
    requires !Walk(msgs, sums, Some(leaf), None, |msgs|).complete
    ensures var c := Walk(msgs, sums, Some(leaf), None, |msgs|).chain;
      exists i, j :: 0 <= i < j < |c| && c[i].uuid == c[j].uuid
  {
    var c := Walk(msgs, sums, Some(leaf), None, |msgs|).chain;
    WalkLinked(msgs, sums, Some(leaf), None, |msgs|);
    WalkStops(msgs, sums, Some(leaf), None, |msgs|);
    var ids := seq(|c|, i requires 0 <= i < |c| => c[i].uuid);
    if forall i, j :: 0 <= i < j < |ids| ==> ids[i] != ids[j] {
      DistinctCardinality(ids);
      var s := set i | 0 <= i < |ids| :: ids[i];
      assert s <= msgs.Keys;
      SubsetCardinality(s, msgs.Keys);
      assert false;
    }
    var i, j :| 0 <= i < j < |ids| && ids[i] == ids[j];
    assert c[i].uuid == c[j].uuid;
  }

  // Sessions

  /** The walk from a leaf, with fuel for as many messages as are stored. */
  function ChainOf(idx: Index, leaf: string): Walked {
    Walk(idx.messages.vals, idx.summaries.vals, Some(leaf), None, |idx.messages.vals|)
  }

  /**
   * What loading ends with: the sessions, `Hangs` when a parent walk would
   * never end, or `Throws` when a label cannot be generated.
   */
  datatype Outcome = Done(sessions: seq<Session>) | Hangs | Throws

  /** The session of a non-empty chain: the leaf's session id, the label, the chain and the last message's time. */
  function SessionOf(w: Walked, title: string): Session
    requires |w.chain| > 0
  {
    var last := w.chain[|w.chain| - 1];
    Session(last.sessionId, title, w.chain, last.timestamp)
  }

  /**
   * One session per leaf with a non-empty chain, in leaf order. The first
   * leaf whose walk never ends or whose label throws decides the outcome.
   */
  function BuildSessions(idx: Index, leaves: seq<string>): (r: Outcome)
  {
    if leaves == [] then Done([])
    else
      match BuildSessions(idx, leaves[..|leaves| - 1])
      case Done(ss) =>
        var w := ChainOf(idx, leaves[|leaves| - 1]);
        if !w.complete then Hangs
        else if |w.chain| == 0 then Done(ss)
        else
          (match GenerateLabel(w.summary, w.chain)
           case None => Throws
           case Some(title) => Done(ss + [SessionOf(w, title)]))
      case failed => failed
  }

  /**
   * A session as loading builds it. It has messages, and each names the
   * one before it as its parent. Its first message has no stored parent.
   * Its id and time are those of its last message.
   */
  ghost predicate WellFormed(msgs: map<string, StoredMessage>, s: Session) {
    && |s.messages| > 0
    && s.id == s.messages[|s.messages| - 1].sessionId
    && s.timestamp == s.messages[|s.messages| - 1].timestamp
    && Linked(msgs, s.messages)
    && (s.messages[0].parentUuid.None? || s.messages[0].parentUuid.value !in msgs)
  }

  /**
   * Every leaf gets exactly one session, in leaf order, ending at that
   * leaf. Every session is well formed.
   */
  lemma {:induction false} SessionsPerLeaf(idx: Index, leaves: seq<string>)
    requires IndexOk(idx)
    requires forall i :: 0 <= i < |leaves| ==> leaves[i] in idx.messages.vals
    requires BuildSessions(idx, leaves).Done?
    ensures var ss := BuildSessions(idx, leaves).sessions;
      && |ss| == |leaves|
      && (forall i :: 0 <= i < |ss| ==> WellFormed(idx.messages.vals, ss[i]))
      && (forall i :: 0 <= i < |ss| ==> ss[i].messages[|ss[i].messages| - 1] == idx.messages.vals[leaves[i]])
  {
    if leaves != [] {
      var init := leaves[..|leaves| - 1];
      var leaf := leaves[|leaves| - 1];
      SessionsPerLeaf(idx, init);
      var ss0 := BuildSessions(idx, init).sessions;
      var w := ChainOf(idx, leaf);
      var title := GenerateLabel(w.summary, w.chain).value;
      LeafSession(idx, leaf, title);
      assert BuildSessions(idx, leaves).sessions == ss0 + [SessionOf(w, title)];
      assert leaves == init + [leaf];
      AppendSession(idx.messages.vals, ss0, init, SessionOf(w, title), leaf);
    }
  }

  /** One more well-formed session ending at one more leaf keeps every session matched with its leaf. */
  lemma AppendSession(msgs: map<string, StoredMessage>, ss0: seq<Session>, init: seq<string>, x: Session, leaf: string)
    requires |ss0| == |init| && leaf in msgs && forall i :: 0 <= i < |init| ==> init[i] in msgs
    requires forall i :: 0 <= i < |ss0| ==> WellFormed(msgs, ss0[i])
    requires forall i :: 0 <= i < |ss0| ==> |ss0[i].messages| > 0 && ss0[i].messages[|ss0[i].messages| - 1] == msgs[init[i]]
    requires WellFormed(msgs, x) && x.messages[|x.messages| - 1] == msgs[leaf]
    ensures var ss := ss0 + [x]; var leaves := init + [leaf];
      && (forall i :: 0 <= i < |ss| ==> WellFormed(msgs, ss[i]))
      && (forall i :: 0 <= i < |ss| ==> ss[i].messages[|ss[i].messages| - 1] == msgs[leaves[i]])
  {
    var ss := ss0 + [x];
    var leaves := init + [leaf];
    forall i | 0 <= i < |ss|
      ensures WellFormed(msgs, ss[i])
      ensures ss[i].messages[|ss[i].messages| - 1] == msgs[leaves[i]]
    {
      if i < |ss0| {
        assert ss[i] == ss0[i] && leaves[i] == init[i];
      }
    }
  }

  /** The complete walk from a stored leaf makes a well-formed session ending at that leaf. */
  lemma LeafSession(idx: Index, leaf: string, title: string)
    requires IndexOk(idx) && leaf in idx.messages.vals && ChainOf(idx, leaf).complete
    ensures var w := ChainOf(idx, leaf);
      && |w.chain| > 0
      && WellFormed(idx.messages.vals, SessionOf(w, title))
      && w.chain[|w.chain| - 1] == idx.messages.vals[leaf]
  {
    WalkLinked(idx.messages.vals, idx.summaries.vals, Some(leaf), None, |idx.messages.vals|);
    WalkStops(idx.messages.vals, idx.summaries.vals, Some(leaf), None, |idx.messages.vals|);
  }

  // De-duplication

  /** `s.timestamp > existing.timestamp`, or the same time with more messages. */
  predicate Better(s: Session, e: Session) {
    s.timestamp > e.timestamp || (s.timestamp == e.timestamp && |s.messages| > |e.messages|)
  }

  /** `byId` after the sessions in order: a session replaces the kept one for its id only if it is better. */
  function DedupeMap(xs: seq<Session>): (m: OMap<string, Session>)
    ensures Valid(m)
    ensures forall k :: k in m.vals ==> m.vals[k].id == k
  {
    if xs == [] then Empty()
    else
      var m := DedupeMap(xs[..|xs| - 1]);
      var x := xs[|xs| - 1];
      if x.id !in m.vals || Better(x, m.vals[x.id]) then Put(m, x.id, x) else m
  }

  /** `Array.from(byId.values())`. */
  function Dedupe(xs: seq<Session>): seq<Session> {
    Values(DedupeMap(xs))
  }

  /** Some session in `xs` has id `k`. */
  ghost predicate HasId(xs: seq<Session>, k: string) {
    exists i :: 0 <= i < |xs| && xs[i].id == k
  }

  /** No session in `xs` with the id of `s` is better than `s`. */
  ghost predicate Unbeaten(xs: seq<Session>, s: Session) {
    forall i :: 0 <= i < |xs| && xs[i].id == s.id ==> !Better(xs[i], s)
  }

  /** `s` is `xs[j]`, and it is better than every session with its id before position `j`. */
  ghost predicate FirstBestAt(xs: seq<Session>, s: Session, j: int) {
    0 <= j < |xs| && xs[j] == s && forall i :: 0 <= i < j && xs[i].id == s.id ==> Better(s, xs[i])
  }

  /** `s` is the session de-duplication should keep for its id among `xs`. */
  ghost predicate Chosen(xs: seq<Session>, s: Session) {
    Unbeaten(xs, s) && exists j :: FirstBestAt(xs, s, j)
  }

  /** Better is a strict order: a session better than a second is better than any session the second is at least as good as. */
  lemma BetterChain(x: Session, y: Session, a: Session)
    requires Better(x, y) && !Better(a, y)
    ensures Better(x, a) && !Better(a, x)
  {
  }

  lemma HasIdSnoc(xs: seq<Session>, k: string)
    requires xs != []
    ensures HasId(xs, k) <==> HasId(xs[..|xs| - 1], k) || xs[|xs| - 1].id == k
  {
    if HasId(xs, k) {
      var i :| 0 <= i < |xs| && xs[i].id == k;
      if i < |xs| - 1 {
        assert xs[..|xs| - 1][i] == xs[i];
      }
    }
    if HasId(xs[..|xs| - 1], k) {
      var i :| 0 <= i < |xs| - 1 && xs[..|xs| - 1][i].id == k;
      assert xs[i].id == k;
    }
  }

  /** The session kept for the last session's id, when the last session replaces it. */
  lemma {:induction false} DedupeReplaced(xs: seq<Session>)
    requires xs != []
    requires var m0 := DedupeMap(xs[..|xs| - 1]); var x := xs[|xs| - 1];
      && (forall k :: k in m0.vals <==> HasId(xs[..|xs| - 1], k))
      && (forall k :: k in m0.vals ==> Unbeaten(xs[..|xs| - 1], m0.vals[k]))
      && (x.id !in m0.vals || Better(x, m0.vals[x.id]))
    ensures Unbeaten(xs, xs[|xs| - 1]) && FirstBestAt(xs, xs[|xs| - 1], |xs| - 1)
  {
    var init := xs[..|xs| - 1];
    var m0 := DedupeMap(init);
    var x := xs[|xs| - 1];
    forall i | 0 <= i < |xs| - 1 && xs[i].id == x.id ensures Better(x, xs[i]) && !Better(xs[i], x) {
      assert init[i] == xs[i];
      assert HasId(init, x.id);
      assert !Better(init[i], m0.vals[x.id]);
      BetterChain(x, m0.vals[x.id], xs[i]);
    }
  }

  /** The session kept for another id, or kept against the last session, stays what it was. */
  lemma {:induction false} DedupeKept(xs: seq<Session>, s: Session, j: int)
    requires xs != []
    requires Unbeaten(xs[..|xs| - 1], s) && FirstBestAt(xs[..|xs| - 1], s, j)
    requires xs[|xs| - 1].id == s.id ==> !Better(xs[|xs| - 1], s)
    ensures Unbeaten(xs, s) && FirstBestAt(xs, s, j)
  {
    var init := xs[..|xs| - 1];
    forall i | 0 <= i < |xs| - 1 ensures xs[i] == init[i] {
    }
  }

  /**
   * What `byId` holds: exactly the ids seen. Under each id it holds a
   * session that no session with that id beats. That session is the first
   * one that beats every session with its id before it.
   */
  lemma {:induction false} DedupeMapKeeps(xs: seq<Session>)
    ensures var m := DedupeMap(xs);
      && (forall k :: k in m.vals <==> HasId(xs, k))
      && (forall k :: k in m.vals ==> Unbeaten(xs, m.vals[k]))
      && (forall k :: k in m.vals ==> exists j :: FirstBestAt(xs, m.vals[k], j))
  {
    if xs != [] {
      var init := xs[..|xs| - 1];
      var x := xs[|xs| - 1];
      var m0 := DedupeMap(init);
      var m := DedupeMap(xs);
      DedupeMapKeeps(init);
      forall k ensures k in m.vals <==> HasId(xs, k) {
        HasIdSnoc(xs, k);
      }
      var replace := x.id !in m0.vals || Better(x, m0.vals[x.id]);
      DedupeMapLast(xs);
      if replace {
        DedupeReplaced(xs);
      }
      forall k | k in m.vals ensures Unbeaten(xs, m.vals[k]) && exists j :: FirstBestAt(xs, m.vals[k], j) {
        if !(replace && k == x.id) {
          assert k in m0.vals && m.vals[k] == m0.vals[k];
          var j :| FirstBestAt(init, m0.vals[k], j);
          DedupeKept(xs, m0.vals[k], j);
        }
      }
    }
  }

  /** One more session either replaces the kept session for its id or changes nothing. */
  lemma DedupeMapLast(xs: seq<Session>)
    requires xs != []
    ensures var m0 := DedupeMap(xs[..|xs| - 1]); var x := xs[|xs| - 1];
      DedupeMap(xs) == if x.id !in m0.vals || Better(x, m0.vals[x.id]) then Put(m0, x.id, x) else m0
  {
  }

  lemma DedupeKeptAt(xs: seq<Session>, k: string)
    requires k in DedupeMap(xs).vals
    ensures Chosen(xs, DedupeMap(xs).vals[k])
  {
    DedupeMapKeeps(xs);
  }

  /**
   * De-duplication keeps one session per id and drops no id. No session
   * with its id beats a kept session. Each kept session is one of the
   * inputs, and on a tie the first one seen stays: it beats every session
   * with its id before it.
   */
  lemma DedupeOnePerId(xs: seq<Session>)
    ensures var ys := Dedupe(xs);
      && (forall i, j :: 0 <= i < j < |ys| ==> ys[i].id != ys[j].id)
      && (forall i :: 0 <= i < |xs| ==> HasId(ys, xs[i].id))
      && (forall j :: 0 <= j < |ys| ==> Chosen(xs, ys[j]))
  {
    var m := DedupeMap(xs);
    var ys := Values(m);
    DedupeMapKeeps(xs);
    forall j | 0 <= j < |ys| ensures Chosen(xs, ys[j]) {
      var k := m.keys[j];
      assert k in m.vals && ys[j] == m.vals[k];
      DedupeKeptAt(xs, k);
    }
    forall i | 0 <= i < |xs| ensures HasId(ys, xs[i].id) {
      assert HasId(xs, xs[i].id);
      var j :| 0 <= j < |m.keys| && m.keys[j] == xs[i].id;
      assert ys[j].id == xs[i].id;
    }
    forall i, j | 0 <= i < j < |ys| ensures ys[i].id != ys[j].id {
      assert ys[i].id == m.keys[i] && ys[j].id == m.keys[j];
    }
    assert ys == Dedupe(xs);
  }

  /** Sessions whose ids are distinct come through de-duplication unchanged, keyed in their order. */
  lemma {:induction false} DedupeDistinct(ys: seq<Session>)
    requires forall i, j :: 0 <= i < j < |ys| ==> ys[i].id != ys[j].id
    ensures var m := DedupeMap(ys);
      && |m.keys| == |ys|
      && forall i :: 0 <= i < |ys| ==> m.keys[i] == ys[i].id && m.vals[ys[i].id] == ys[i]
  {
    if ys != [] {
      var init := ys[..|ys| - 1];
      var y := ys[|ys| - 1];
      DedupeDistinct(init);
      var m0 := DedupeMap(init);
      assert y.id !in m0.keys by {
        forall i | 0 <= i < |init| ensures m0.keys[i] != y.id {
          assert init[i] == ys[i];
        }
      }
      DedupeMapLast(ys);
      var m := DedupeMap(ys);
      assert m.keys == m0.keys + [y.id] && m.vals == m0.vals[y.id := y];
      forall i | 0 <= i < |ys| ensures m.keys[i] == ys[i].id && m.vals[ys[i].id] == ys[i] {
        if i < |init| {
          assert init[i] == ys[i];
          PutKeepsEarlier(m0, m, y, init[i], i);
        }
      }
    }
  }

  /** Keying a new session after the others keeps each earlier key and its session. */
  lemma PutKeepsEarlier(m0: OMap<string, Session>, m: OMap<string, Session>, y: Session, x: Session, i: nat)
    requires i < |m0.keys| && m0.keys[i] == x.id && x.id in m0.vals && m0.vals[x.id] == x && x.id != y.id
    requires m.keys == m0.keys + [y.id] && m.vals == m0.vals[y.id := y]
    ensures m.keys[i] == x.id && m.vals[x.id] == x
  {
  }

  /** De-duplicating twice gives what de-duplicating once gives. */
  lemma DedupeIdempotent(xs: seq<Session>)
    ensures Dedupe(Dedupe(xs)) == Dedupe(xs)
  {
    var ys := Dedupe(xs);
    DedupeOnePerId(xs);
    DedupeDistinct(ys);
  }

  /** The session's last message is one of the leaves. */
  ghost predicate EndsAtLeaf(idx: Index, s: Session) {
    |s.messages| > 0 && s.messages[|s.messages| - 1].uuid in Leaves(idx)
  }

  /** What loading makes of the files' records: sessions built from every leaf, one kept per id. */
  function SessionsOf(files: seq<FileRecords>): Outcome
    requires forall i :: 0 <= i < |files| ==> WellKeyed(files[i])
  {
    var idx := MergeAll(files);
    match BuildSessions(idx, Leaves(idx))
    case Done(ss) => Done(Dedupe(ss))
    case failed => failed
  }

  /**
   * The sessions loading returns are well formed, have distinct ids, and
   * each ends at a leaf: a stored message that no stored message names as
   * its parent.
   */
  lemma LoadedSessions(files: seq<FileRecords>)
    requires forall i :: 0 <= i < |files| ==> WellKeyed(files[i])
    requires SessionsOf(files).Done?
    ensures var idx := MergeAll(files);
      var ys := SessionsOf(files).sessions;
      && (forall i, j :: 0 <= i < j < |ys| ==> ys[i].id != ys[j].id)
      && (forall j :: 0 <= j < |ys| ==> WellFormed(idx.messages.vals, ys[j]) && EndsAtLeaf(idx, ys[j]))
  {
    var idx := MergeAll(files);
    var leaves := Leaves(idx);
    var ss := BuildSessions(idx, leaves).sessions;
    SessionsPerLeaf(idx, leaves);
    DedupeOnePerId(ss);
    var ys := Dedupe(ss);
    forall j | 0 <= j < |ys| ensures WellFormed(idx.messages.vals, ys[j]) && EndsAtLeaf(idx, ys[j]) {
      var k :| FirstBestAt(ss, ys[j], k);
      assert leaves[k] in leaves;
    }
  }
}

=== FILE: session_records.dfy ===
/**
 * The records of a Claude session log (src/services/claude/session.ts).
 * Every line of a `.jsonl` log is one parsed record: a stored SDK message
 * or a summary of a conversation. This module reads one record, removes
 * `<system-reminder>` attachments from user turns, derives the label a
 * session is listed under, and names the project directory of a workspace
 * folder.
 */
module SessionRecords {
  import opened Wrappers
  import opened Strs
  import opened Json
  import opened Tags
  import opened Seqs

  /**
   * A stored message after reviving. `timestamp` is the parsed date in
   * milliseconds and `record` is the revived object, whose user content
   * has been stripped.
   */
  datatype StoredMessage = StoredMessage(uuid: string, parentUuid: Option<string>, sessionId: string, timestamp: int, record: Json)

  datatype SummaryEntry = SummaryEntry(summary: string, leafUuid: string)

  /** What one parsed line contributes. */
  datatype Record = Message(m: StoredMessage) | Summary(s: SummaryEntry) | Skipped

  const ReminderOpen := "<system-reminder>"
  const ReminderClose := "</system-reminder>"

  // Attachments

  /**
   * The global replace of `/<system-reminder>[\s\S]*?<\/system-reminder>\s*\/g`
   * by "". Each match is the leftmost opening tag that some closing tag
   * follows, the text up to the nearest closing tag, and all white space
   * after it. The scan resumes where the match ended.
   */
  function RemoveReminders(s: string): (r: string)
    ensures |r| <= |s|
    decreases |s|
  {
    match FirstSpan(s, ReminderOpen, ReminderClose)
    case None => s
    case Some(sp) => s[..sp.start] + RemoveReminders(TrimStart(s[sp.end..]))
  }

  /** `_stripAttachments`: the blocks removed, then the text trimmed. */
  function StripAttachments(text: string): (r: string)
    ensures |r| <= |text|
    ensures r == "" || (!IsWhitespace(r[0]) && !IsWhitespace(r[|r| - 1]))
  {
    Trim(RemoveReminders(text))
  }

  /** The first character of each tag appears nowhere else in it, so two matches of a tag cannot overlap. */
  lemma ReminderTagsUnbordered()
    ensures forall k :: 0 < k < |ReminderOpen| ==> ReminderOpen[k] != ReminderOpen[0]
    ensures forall k :: 0 < k < |ReminderClose| ==> ReminderClose[k] != ReminderClose[0]
  {
  }

  /** Text without a closing tag loses nothing but its surrounding white space. */
  lemma NoReminderKept(text: string)
    requires !Contains(text, ReminderClose)
    ensures RemoveReminders(text) == text
    ensures StripAttachments(text) == Trim(text)
  {
    match FirstSpan(text, ReminderOpen, ReminderClose)
    case Some(sp) =>
      ContainsAt(text, ReminderClose, sp.bodyEnd);
    case None =>
  }

  /**
   * The first block goes together with all the white space after it, and
   * the scan goes on after that. The text before the block stays as it is.
   */
  lemma RemoveBlock(x: string, body: string, w: string, y: string)
    requires !Contains(x, ReminderOpen) && !Contains(body, ReminderClose)
    requires forall i :: 0 <= i < |w| ==> IsWhitespace(w[i])
    requires y == "" || !IsWhitespace(y[0])
    ensures RemoveReminders(x + ReminderOpen + body + ReminderClose + w + y) == x + RemoveReminders(y)
  {
    var s := x + ReminderOpen + body + ReminderClose + w + y;
    var e := |x| + |ReminderOpen| + |body| + |ReminderClose|;
    assert s == x + ReminderOpen + body + ReminderClose + (w + y);
    FirstBlockSpan(x, body, w + y);
    assert s[..|x|] == x;
    assert s[e..] == w + y;
    TrimStartSkips(w, y);
  }

  /** The first block of such a text spans from its opening tag to the end of its closing tag. */
  lemma FirstBlockSpan(x: string, body: string, rest: string)
    requires !Contains(x, ReminderOpen) && !Contains(body, ReminderClose)
    ensures
      var sp := FirstSpan(x + ReminderOpen + body + ReminderClose + rest, ReminderOpen, ReminderClose);
      && sp.Some?
      && sp.value.start == |x|
      && sp.value.end == |x| + |ReminderOpen| + |body| + |ReminderClose|
  {
    ReminderTagsUnbordered();
    var tail := body + ReminderClose + rest;
    var s := x + ReminderOpen + tail;
    assert s == x + ReminderOpen + body + ReminderClose + rest;
    IndexOfUnbordered(x, ReminderOpen, tail);
    assert s[|x| + |ReminderOpen|..] == tail;
    IndexOfUnbordered(body, ReminderClose, rest);
    FirstSpanAt(s, ReminderOpen, ReminderClose, |x|, |body|);
  }

  /** `block.type === 'text'`. */
  predicate IsTextBlock(block: Json) {
    Field(block, "type") == Some(JStr("text"))
  }

  /**
   * One block of a content array. A text block gets its text stripped and
   * any other block is kept. `None` means the source throws: `block.type`
   * on `null`, or `replace` on a text that is not a string.
   */
  function StripBlock(block: Json): (r: Option<Json>)
    ensures r.None? <==> block.JNull? || (IsTextBlock(block) && StrField(block, "text").None?)
    ensures r.Some? && !IsTextBlock(block) ==> r.value == block
    ensures r.Some? && IsTextBlock(block) ==>
      && IsTextBlock(r.value)
      && StrField(r.value, "text") == Some(StripAttachments(StrField(block, "text").value))
      && (forall k :: k != "text" ==> Field(r.value, k) == Field(block, k))
  {
    if block.JNull? then None
    else if IsTextBlock(block) then
      match Field(block, "text")
      case Some(JStr(t)) => Some(With(block, "text", JStr(StripAttachments(t))))
      case _ => None
    else Some(block)
  }

  /** `content.map(...)`: every block in turn, or `None` when one of them throws. */
  function StripBlocks(items: seq<Json>): (r: Option<seq<Json>>)
    ensures r.Some? <==> forall i :: 0 <= i < |items| ==> StripBlock(items[i]).Some?
    ensures r.Some? ==> |r.value| == |items|
    ensures r.Some? ==> forall i :: 0 <= i < |items| ==> r.value[i] == StripBlock(items[i]).value
  {
    if items == [] then Some([])
    else
      match (StripBlock(items[0]), StripBlocks(items[1..]))
      case (Some(b), Some(rest)) => Some([b] + rest)
      case _ => None
  }

  /**
   * `_stripAttachmentsFromMessageContent`. A string is stripped. In an
   * array only text blocks change, and the array keeps its length. Any
   * other value is returned as it is.
   */
  function StripContent(content: Json): (r: Option<Json>)
    ensures content.JStr? ==> r == Some(JStr(StripAttachments(content.s)))
    ensures content.JArr? ==> (r.Some? <==> StripBlocks(content.items).Some?)
    ensures content.JArr? && r.Some? ==> r.value == JArr(StripBlocks(content.items).value) && |r.value.items| == |content.items|
    ensures !content.JStr? && !content.JArr? ==> r == Some(content)
  {
    match content
    case JStr(s) => Some(JStr(StripAttachments(s)))
    case JArr(items) =>
      (match StripBlocks(items)
       case Some(stripped) => Some(JArr(stripped))
       case None => None)
    case _ => Some(content)
  }

  // Reading a record

  /** `type === 'user' && message?.role === 'user'`: a user turn, whose content is stripped on loading. */
  predicate IsUserTurn(entry: Json) {
    && StrField(entry, "type") == Some("user")
    && Field(entry, "message").Some?
    && Field(Field(entry, "message").value, "role") == Some(JStr("user"))
  }

  /**
   * The record `_reviveStoredSDKMessage` builds, apart from the date. For a
   * user turn, `message.content` is replaced by its stripped form.
   * `None` means the stripping throws.
   */
  function ReviveRecord(entry: Json): (r: Option<Json>)
    ensures !IsUserTurn(entry) ==> r == Some(entry)
    ensures r.Some? ==> forall k :: k != "message" ==> Field(r.value, k) == Field(entry, k)
    ensures r.Some? && IsUserTurn(entry) && Field(Field(entry, "message").value, "content").Some? ==>
      var message := Field(entry, "message").value;
      Field(r.value, "message").Some?
      && Field(Field(r.value, "message").value, "content") == StripContent(Field(message, "content").value)
  {
    if !IsUserTurn(entry) then Some(entry)
    else
      var message := Field(entry, "message").value;
      match Field(message, "content")
      case None => Some(entry)
      case Some(c) =>
        match StripContent(c)
        case None => None
        case Some(stripped) => Some(With(entry, "message", With(message, "content", stripped)))
  }

  /** `parentUuid` when it is a non-empty string: the only parents the walk follows. */
  function ParentOf(entry: Json): (r: Option<string>)
    ensures r.Some? ==> r.value != "" && Field(entry, "parentUuid") == Some(JStr(r.value))
  {
    match Field(entry, "parentUuid")
    case Some(JStr(p)) => if p != "" then Some(p) else None
    case _ => None
  }

  /**
   * `_reviveStoredSDKMessage` followed by the `if (uuid)` test. `dateOf`
   * stands for `new Date(...)` applied to the `timestamp` field.
   */
  function Revive(entry: Json, dateOf: Option<Json> -> int): (r: Option<StoredMessage>)
    ensures r.Some? ==> Some(r.value.uuid) == StrField(entry, "uuid") && r.value.uuid != ""
    ensures r.Some? ==> r.value.parentUuid == ParentOf(entry) && r.value.timestamp == dateOf(Field(entry, "timestamp"))
    ensures r.Some? ==> Some(r.value.record) == ReviveRecord(entry)
    ensures StrField(entry, "uuid").Some? && StrField(entry, "uuid").value != "" && ReviveRecord(entry).Some? ==> r.Some?
  {
    match (StrField(entry, "uuid"), ReviveRecord(entry))
    case (Some(u), Some(rec)) =>
      if u != "" then Some(StoredMessage(u, ParentOf(entry), StrField(entry, "sessionId").GetOr(""), dateOf(Field(entry, "timestamp")), rec))
      else None
    case _ => None
  }

  /** A summary that reports a failed login, which the list must not show. */
  predicate IsAuthError(summary: string) {
    StartsWith(ToLower(summary), "api error: 401") || StartsWith(ToLower(summary), "invalid api key")
  }

  /**
   * What the loop body of `_getMessagesFromSession` does with one parsed
   * line. A record with a truthy `uuid` and a `message` key is a message.
   * Otherwise a record with a non-empty, non-authentication-error `summary`
   * and a non-empty `leafUuid` is a summary. Anything else, including a
   * line on which the source throws, is skipped.
   */
  function Classify(entry: Json, dateOf: Option<Json> -> int): (r: Record)
    ensures r.Message? ==> Present(Field(entry, "uuid")) && Field(entry, "message").Some?
    ensures r.Message? ==> r.m.uuid != "" && Some(r.m.uuid) == StrField(entry, "uuid")
    ensures r.Summary? ==> !(Present(Field(entry, "uuid")) && Field(entry, "message").Some?)
    ensures r.Summary? ==> r.s.summary != "" && !IsAuthError(r.s.summary) && r.s.leafUuid != ""
    ensures r.Summary? ==> Some(r.s.summary) == StrField(entry, "summary") && Some(r.s.leafUuid) == StrField(entry, "leafUuid")
  {
    if Present(Field(entry, "uuid")) && Field(entry, "message").Some? then
      match Revive(entry, dateOf)
      case Some(m) => Message(m)
      case None => Skipped
    else
      match (StrField(entry, "summary"), StrField(entry, "leafUuid"))
      case (Some(s), Some(u)) =>
        if s != "" && !IsAuthError(s) && u != "" then Summary(SummaryEntry(s, u)) else Skipped
      case _ => Skipped
  }

  /** A summary that begins, in any letter case, with a login failure is never kept. */
  lemma AuthErrorSummaryDropped(entry: Json, dateOf: Option<Json> -> int)
    requires StrField(entry, "summary").Some? && IsAuthError(StrField(entry, "summary").value)
    ensures !Classify(entry, dateOf).Summary?
  {
  }

  // The label

  const FallbackLabel := "Claude Session"
  const MaxLabel := 50

  /** `m.type === 'user'`. */
  predicate IsUserMessage(m: StoredMessage) {
    StrField(m.record, "type") == Some("user")
  }

  /** A text block whose text is a string with a non-space character. */
  predicate UsefulText(block: Json) {
    IsTextBlock(block) && StrField(block, "text").Some? && Trim(StrField(block, "text").value) != ""
  }

  /** `.filter(b => b.type === 'text').map(b => b.text).find(t => t.trim().length > 0)`. */
  function FirstUsefulText(items: seq<Json>): (r: Option<string>)
    ensures r.Some? ==> Trim(r.value) != ""
    ensures r.Some? ==> exists i :: (0 <= i < |items| && UsefulText(items[i]) && StrField(items[i], "text") == r
      && forall j :: 0 <= j < i ==> !UsefulText(items[j]))
    ensures r.None? <==> forall i :: 0 <= i < |items| ==> !UsefulText(items[i])
  {
    match FindIndex(items, UsefulText)
    case Some(i) => StrField(items[i], "text")
    case None => None
  }

  /** What the first user message offers `_generateSessionLabel`: a text, nothing, or a throw. */
  datatype Offer = Text(s: string) | NoText | Raises

  /**
   * The text a user message offers for its label. A `message` that is
   * `null` throws on `message.content`, and so does stripping content that
   * holds a `null` block or a text that is not a string. A string is used
   * as it is, once stripped. An array offers its first text block with a
   * non-blank text, so an empty one offers nothing. Anything else offers
   * nothing.
   */
  function LabelContent(record: Json): (r: Offer)
    ensures r.Raises? <==>
      Field(record, "message") == Some(JNull) ||
      (Field(record, "message").Some? && Field(Field(record, "message").value, "content").Some? &&
       StripContent(Field(Field(record, "message").value, "content").value).None?)
    ensures Field(record, "message").None? ==> r == NoText
    ensures Field(record, "message").Some? && Field(record, "message") != Some(JNull) ==>
      var content := Field(Field(record, "message").value, "content");
      && (content.None? ==> r == NoText)
      && (content.Some? && content.value.JStr? ==> r == Text(StripAttachments(content.value.s)))
      && (content.Some? && content.value.JArr? && StripBlocks(content.value.items).Some? ==>
            var found := FirstUsefulText(StripBlocks(content.value.items).value);
            (found.Some? ==> r == Text(found.value)) && (found.None? ==> r == NoText))
      && (content.Some? && !content.value.JStr? && !content.value.JArr? ==> r == NoText)
  {
    match Field(record, "message")
    case None => NoText
    case Some(JNull) => Raises
    case Some(message) =>
      match Field(message, "content")
      case None => NoText
      case Some(content) =>
        match StripContent(content)
        case None => Raises
        case Some(JStr(s)) => Text(s)
        case Some(JArr(items)) =>
          (match FirstUsefulText(items)
           case Some(t) => Text(t)
           case None => NoText)
        case _ => NoText
  }

  /** `content.split('\n').find(l => l.trim().length > 0) ?? ''`. */
  function FirstNonBlankLine(content: string): string {
    match Find(Split(content, "\n"), l => Trim(l) != "")
    case Some(l) => l
    case None => ""
  }

  /** A line longer than 50 characters is cut to 47 and marked with "...". */
  function Shorten(line: string): (r: string)
    ensures |r| <= MaxLabel
    ensures |line| <= MaxLabel ==> r == line
    ensures |line| > MaxLabel ==> |r| == MaxLabel && StartsWith(r, line[..47]) && EndsWith(r, "...")
  {
    if |line| > MaxLabel then
      var r := line[..47] + "...";
      assert r[..47] == line[..47] && r[47..] == "...";
      r
    else line
  }

  /**
   * The label a user message gives: the first non-blank line of its text,
   * shortened, or the fallback. `None` means the source throws.
   */
  function UserLabel(m: StoredMessage): (r: Option<string>)
    ensures r.None? <==> LabelContent(m.record).Raises?
    ensures r.Some? ==> |r.value| <= MaxLabel
    ensures LabelContent(m.record).NoText? ==> r == Some(FallbackLabel)
    ensures LabelContent(m.record).Text? ==>
      var c := LabelContent(m.record).s;
      r == if c != "" then Some(Shorten(FirstNonBlankLine(c))) else Some(FallbackLabel)
  {
    match LabelContent(m.record)
    case Raises => None
    case Text(c) => if c != "" then Some(Shorten(FirstNonBlankLine(c))) else Some(FallbackLabel)
    case NoText => Some(FallbackLabel)
  }

  /**
   * `_generateSessionLabel`. A non-empty summary comes first. Otherwise the
   * first non-blank line of the first user message's stripped text is used,
   * shortened. Failing both, the label is "Claude Session". `None` means
   * the call throws, on the first user message only.
   */
  function GenerateLabel(summary: Option<SummaryEntry>, messages: seq<StoredMessage>): (r: Option<string>)
    ensures summary.Some? && summary.value.summary != "" ==> r == Some(summary.value.summary)
    ensures !(summary.Some? && summary.value.summary != "") ==> r.None? || |r.value| <= MaxLabel
    ensures !(summary.Some? && summary.value.summary != "") && Find(messages, IsUserMessage).None? ==> r == Some(FallbackLabel)
    ensures !(summary.Some? && summary.value.summary != "") && Find(messages, IsUserMessage).Some? ==>
      r == UserLabel(Find(messages, IsUserMessage).value)
    ensures r.None? <==>
      !(summary.Some? && summary.value.summary != "") && Find(messages, IsUserMessage).Some? &&
      LabelContent(Find(messages, IsUserMessage).value.record).Raises?
  {
    if summary.Some? && summary.value.summary != "" then Some(summary.value.summary)
    else
      match Find(messages, IsUserMessage)
      case None => Some(FallbackLabel)
      case Some(m) => UserLabel(m)
  }

  /** A character that is not white space in joined lines lies in one of the lines. */
  lemma {:induction false} JoinNonBlank(parts: seq<string>, i: nat)
    requires i < |Join(parts, "\n")| && !IsWhitespace(Join(parts, "\n")[i])
    ensures exists j :: 0 <= j < |parts| && Trim(parts[j]) != ""
    decreases |parts|
  {
    if |parts| == 1 {
      TrimNonEmpty(parts[0]);
    } else {
      var rest := Join(parts[1..], "\n");
      assert Join(parts, "\n") == parts[0] + "\n" + rest;
      if i < |parts[0]| {
        assert parts[0][i] == Join(parts, "\n")[i];
        TrimNonEmpty(parts[0]);
      } else {
        assert i != |parts[0]|;
        assert rest[i - |parts[0]| - 1] == Join(parts, "\n")[i];
        JoinNonBlank(parts[1..], i - |parts[0]| - 1);
        var j :| 0 <= j < |parts[1..]| && Trim(parts[1..][j]) != "";
        assert parts[j + 1] == parts[1..][j];
      }
    }
  }

  /** Lines with a non-blank one have a first non-blank one. */
  lemma FindNonBlank(parts: seq<string>, j: nat)
    requires j < |parts| && Trim(parts[j]) != ""
    ensures Find(parts, l => Trim(l) != "").Some?
  {
  }

  /** Text that is not blank has a non-blank line, which is then not empty. */
  lemma FirstNonBlankLineOf(content: string)
    requires Trim(content) != ""
    ensures Trim(FirstNonBlankLine(content)) != "" && FirstNonBlankLine(content) != ""
  {
    TrimNonEmpty(content);
    var i :| 0 <= i < |content| && !IsWhitespace(content[i]);
    var parts := Split(content, "\n");
    JoinNonBlank(parts, i);
    var j :| 0 <= j < |parts| && Trim(parts[j]) != "";
    FindNonBlank(parts, j);
  }

  /** The text offered for a label is never blank. */
  lemma LabelContentNotBlank(record: Json)
    requires LabelContent(record).Text? && LabelContent(record).s != ""
    ensures Trim(LabelContent(record).s) != ""
  {
    var message := Field(record, "message");
    var content := Field(message.value, "content").value;
    if content.JStr? {
      var s := StripAttachments(content.s);
      TrimNonEmpty(s);
    }
  }

  /** The label a user message gives is never empty: stripped user text is trimmed, so it has a non-blank line. */
  lemma UserLabelNotEmpty(m: StoredMessage)
    ensures UserLabel(m).Some? ==> UserLabel(m).value != ""
  {
    match LabelContent(m.record)
    case Raises =>
    case NoText =>
    case Text(c) =>
      if c != "" {
        LabelContentNotBlank(m.record);
        FirstNonBlankLineOf(c);
        ShortenNotEmpty(FirstNonBlankLine(c));
      }
  }

  lemma ShortenNotEmpty(line: string)
    requires line != ""
    ensures Shorten(line) != ""
  {
  }

  /** A session always has a label: a summary is used only when non-empty, and the fallback is not empty either. */
  lemma LabelNeverEmpty(summary: Option<SummaryEntry>, messages: seq<StoredMessage>)
    ensures GenerateLabel(summary, messages).Some? ==> GenerateLabel(summary, messages).value != ""
  {
    if !(summary.Some? && summary.value.summary != "") && Find(messages, IsUserMessage).Some? {
      UserLabelNotEmpty(Find(messages, IsUserMessage).value);
    }
  }

  /**
   * A user record whose `message` is `null` is stored, since only a user
   * turn is stripped on loading, yet its label cannot be generated.
   */
  lemma NullMessageStoredButUnlabelled(entry: Json, dateOf: Option<Json> -> int)
    requires StrField(entry, "type") == Some("user") && Field(entry, "message") == Some(JNull)
    requires StrField(entry, "uuid").Some? && StrField(entry, "uuid").value != ""
    ensures Classify(entry, dateOf).Message?
    ensures UserLabel(Classify(entry, dateOf).m).None?
  {
    assert !IsUserTurn(entry);
    assert Present(Field(entry, "uuid"));
  }

  /** A reminder block in front of a trimmed text is stripped away entirely. */
  lemma StripLeadingReminder(body: string, text: string)
    requires !Contains(body, ReminderClose) && !Contains(text, ReminderClose)
    requires text == "" || (!IsWhitespace(text[0]) && !IsWhitespace(text[|text| - 1]))
    ensures StripAttachments(ReminderOpen + body + ReminderClose + text) == text
  {
    var s := ReminderOpen + body + ReminderClose + text;
    assert RemoveReminders(s) == RemoveReminders(text) by {
      assert !Contains("", ReminderOpen);
      RemoveBlock("", body, "", text);
      EmptyEnds(ReminderOpen, body, ReminderClose, text);
    }
    assert RemoveReminders(text) == text by {
      NoReminderKept(text);
    }
    assert Trim(text) == text by {
      assert TrimStart(text) == text;
      assert TrimEnd(text) == text;
    }
  }

  lemma EmptyEnds(a: string, b: string, c: string, d: string)
    ensures "" + a + b + c + "" + d == a + b + c + d
  {
  }

  /** A single non-blank line of at most 50 characters is its own label. */
  lemma SingleLineLabel(text: string)
    requires '\n' !in text && |text| <= MaxLabel
    requires text != "" && !IsWhitespace(text[0])
    ensures Shorten(FirstNonBlankLine(text)) == text
  {
    SplitJoinChar([text], '\n');
    assert Split(text, "\n") == [text];
    TrimNonEmpty(text);
    assert FindIndex([text], l => Trim(l) != "") == Some(0);
  }

  /**
   * A user turn that opens with a reminder block is labelled by the text
   * after the block: the block is stripped before the label is taken.
   */
  lemma ReminderBeforeTextLabel(m: StoredMessage, body: string, text: string)
    requires Field(m.record, "message").Some?
    requires Field(Field(m.record, "message").value, "content") == Some(JStr(ReminderOpen + body + ReminderClose + text))
    requires !Contains(body, ReminderClose) && !Contains(text, ReminderClose) && '\n' !in text
    requires text != "" && !IsWhitespace(text[0]) && !IsWhitespace(text[|text| - 1]) && |text| <= MaxLabel
    ensures LabelContent(m.record) == Text(text)
    ensures UserLabel(m) == Some(text)
  {
    var whole := ReminderOpen + body + ReminderClose + text;
    assert LabelContent(m.record) == Text(StripAttachments(whole)) by {
      assert Field(m.record, "message") != Some(JNull);
    }
    assert StripAttachments(whole) == text by {
      StripLeadingReminder(body, text);
    }
    assert Shorten(FirstNonBlankLine(text)) == text by {
      SingleLineLabel(text);
    }
  }

  /** A reminder followed by "Please help" gives the label "Please help". */
  lemma PleaseHelpLabel(m: StoredMessage)
    requires Field(m.record, "message").Some?
    requires Field(Field(m.record, "message").value, "content") == Some(JStr(ReminderOpen + "secret" + ReminderClose + "Please help"))
    ensures UserLabel(m) == Some("Please help")
  {
    assert IndexOf("secret", ReminderClose).None?;
    assert IndexOf("Please help", ReminderClose).None?;
    ReminderBeforeTextLabel(m, "secret", "Please help");
  }

  // The project directory

  predicate IsAsciiLetter(c: char) {
    'a' <= c <= 'z' || 'A' <= c <= 'Z'
  }

  /** `/^\/([a-z]):/i`: a Windows drive letter at the start of the path. */
  predicate HasDrivePrefix(path: string) {
    |path| >= 3 && path[0] == '/' && IsAsciiLetter(path[1]) && path[2] == ':'
  }

  /** A character of `/[\/\._]/`. */
  predicate IsSlugSeparator(c: char) {
    c == '/' || c == '.' || c == '_'
  }

  function Dashed(c: char): char {
    if IsSlugSeparator(c) then '-' else c
  }

  /**
   * `_computeFolderSlug`. A leading "/X:" becomes "X-" with the letter in
   * upper case. Then every "/", "." and "_" becomes "-".
   */
  function ComputeFolderSlug(path: string): (r: string)
    ensures forall i :: 0 <= i < |r| ==> !IsSlugSeparator(r[i])
    ensures HasDrivePrefix(path) ==>
      && |r| == |path| - 1 && r[0] == UpperChar(path[1]) && r[1] == '-'
      && forall i :: 3 <= i < |path| ==> r[i - 1] == Dashed(path[i])
    ensures !HasDrivePrefix(path) ==> |r| == |path| && forall i :: 0 <= i < |path| ==> r[i] == Dashed(path[i])
  {
    var p := if HasDrivePrefix(path) then [UpperChar(path[1]), '-'] + path[3..] else path;
    seq(|p|, i requires 0 <= i < |p| => Dashed(p[i]))
  }

  /** A slug is its own slug: it has no separators left and no drive prefix. */
  lemma SlugIdempotent(path: string)
    ensures ComputeFolderSlug(ComputeFolderSlug(path)) == ComputeFolderSlug(path)
  {
    var r := ComputeFolderSlug(path);
    assert !HasDrivePrefix(r);
  }

  /**
   * Folders that differ only in which separator stands at one place share
   * a project directory: "/a/b", "/a.b" and "/a_b" all become "-a-b".
   */
  lemma SeparatorsShareSlug(x: string, y: string, c: char, d: char)
    requires IsSlugSeparator(c) && IsSlugSeparator(d)
    requires !HasDrivePrefix(x + [c] + y) && !HasDrivePrefix(x + [d] + y)
    ensures ComputeFolderSlug(x + [c] + y) == ComputeFolderSlug(x + [d] + y)
  {
    var a, b := ComputeFolderSlug(x + [c] + y), ComputeFolderSlug(x + [d] + y);
    forall i | 0 <= i < |a| ensures a[i] == b[i] {
      if i < |x| {
        assert (x + [c] + y)[i] == x[i] == (x + [d] + y)[i];
      } else if i > |x| {
        assert (x + [c] + y)[i] == y[i - |x| - 1] == (x + [d] + y)[i];
      }
    }
  }
}

=== FILE: session_service.dfy ===
/**
 * `ClaudeCodeSessionService` (src/services/claude/session.ts) as an object:
 * its two caches are `ResourceMap`s that the methods update in place, and
 * each method is proved to do what the value functions of `SessionCache`
 * and `SessionGraph` describe, in their as-written form: the cache check
 * is `CheckCacheAsWritten` and the folder loop is `GetAllAsWritten`. The
 * file system, `JSON.parse` and the date reviver are the `Env` the service
 * is built with; the workspace folders and the cancellation token are
 * arguments.
 */
module SessionService {
  import opened Wrappers
  import opened Strs
  import opened Json
  import opened Seqs
  import opened OrderedMaps
  import opened Uris
  import opened Resources
  import opened ResourceMaps
  import opened SessionRecords
  import opened SessionGraph
  import opened SessionCache

  /** The records of one more line are those of the earlier lines with that line added. */
  lemma RecordsOfNext(lines: seq<string>, i: nat, parse: string -> Option<Json>, dateOf: Option<Json> -> int)
    requires i < |lines|
    ensures RecordsOf(lines[..i + 1], parse, dateOf) == AddLine(RecordsOf(lines[..i], parse, dateOf), lines[i], parse, dateOf)
  {
    assert lines[..i + 1][..i] == lines[..i];
  }

  /** The files of one more kept entry are those of the earlier entries, then that entry's file. */
  lemma FilesNextKept(dir: Uri, entries: seq<DirEntry>, i: nat, keep: DirEntry -> bool)
    requires i < |entries| && keep(entries[i])
    ensures Files(dir, entries[..i + 1], keep) == Files(dir, entries[..i], keep) + [JoinPath(dir, entries[i].name)]
  {
    assert entries[..i + 1][..i] == entries[..i];
  }

  /** An entry that is not kept adds no file. */
  lemma FilesNextSkipped(dir: Uri, entries: seq<DirEntry>, i: nat, keep: DirEntry -> bool)
    requires i < |entries| && !keep(entries[i])
    ensures Files(dir, entries[..i + 1], keep) == Files(dir, entries[..i], keep)
  {
    assert entries[..i + 1][..i] == entries[..i];
    assert Files(dir, entries[..i], keep) + [] == Files(dir, entries[..i], keep);
  }

  /** A listed file that is new or changed fails the first loop. */
  lemma ChangedListed(mtimes: OMap<string, Entry<int>>, fs: FileSystem, listed: seq<Uri>, u: Uri)
    requires u in listed && Changed(mtimes, fs, u)
    ensures !AllUnchanged(mtimes, fs, listed)
  {
  }

  /** A kept entry whose file is unchanged keeps the first loop passing. */
  lemma UnchangedKept(mtimes: OMap<string, Entry<int>>, fs: FileSystem, dir: Uri, entries: seq<DirEntry>, i: nat, keep: DirEntry -> bool)
    requires i < |entries| && keep(entries[i])
    requires AllUnchanged(mtimes, fs, Files(dir, entries[..i], keep))
    requires !Changed(mtimes, fs, JoinPath(dir, entries[i].name))
    ensures AllUnchanged(mtimes, fs, Files(dir, entries[..i + 1], keep))
  {
    var listed := Files(dir, entries[..i], keep);
    FilesNextKept(dir, entries, i, keep);
    forall k | 0 <= k < |listed| + 1 ensures !Changed(mtimes, fs, (listed + [JoinPath(dir, entries[i].name)])[k]) {
    }
  }

  /** Adding a kept entry's file to the set of the earlier entries' files gives the set of one more entry's files. */
  lemma AddedKept(m: OMap<string, Entry<Uri>>, dir: Uri, entries: seq<DirEntry>, i: nat, keep: DirEntry -> bool)
    requires Valid(m) && i < |entries| && keep(entries[i])
    requires HoldsExactly(m, DefaultToKey, Files(dir, entries[..i], keep))
    ensures HoldsExactly(SetEntry(m, DefaultToKey, JoinPath(dir, entries[i].name), JoinPath(dir, entries[i].name)), DefaultToKey, Files(dir, entries[..i + 1], keep))
  {
    FilesNextKept(dir, entries, i, keep);
    AddKeeps(m, DefaultToKey, Files(dir, entries[..i], keep), JoinPath(dir, entries[i].name));
  }

  /** A kept entry's file is among the files of the listing. */
  lemma EntryListed(dir: Uri, entries: seq<DirEntry>, i: nat, keep: DirEntry -> bool)
    requires i < |entries| && keep(entries[i])
    ensures JoinPath(dir, entries[i].name) in Files(dir, entries, keep)
  {
  }

  /** The second loop passes when no recorded file, taken in key order, is unlisted. */
  lemma NoneMissingByKeys(m: OMap<string, Entry<int>>, dir: Uri, listed: seq<Uri>, under: (Uri, Uri) -> bool)
    requires Valid(m)
    requires forall t :: 0 <= t < |m.keys| ==> !Unlisted(m.vals[m.keys[t]].uri, dir, listed, under)
    ensures NoneMissing(m, dir, listed, under)
  {
    forall k | k in m.vals ensures !Unlisted(m.vals[k].uri, dir, listed, under) {
      var t :| 0 <= t < |m.keys| && m.keys[t] == k;
    }
  }

  /** A file the set of listed files lacks is unlisted, once it is in the directory and a `.jsonl` file. */
  lemma AbsentIsUnlisted(m: OMap<string, Entry<Uri>>, listed: seq<Uri>, u: Uri, dir: Uri, under: (Uri, Uri) -> bool)
    requires HoldsExactly(m, DefaultToKey, listed) && DefaultToKey(u) !in m.vals
    requires under(u, dir) && EndsWith(u.path, Extension)
    ensures Unlisted(u, dir, listed, under)
  {
    assert GetValue(m, DefaultToKey, u).None?;
  }

  /** A file the set of listed files holds is not unlisted. */
  lemma PresentIsListed(m: OMap<string, Entry<Uri>>, listed: seq<Uri>, u: Uri, dir: Uri, under: (Uri, Uri) -> bool)
    requires HoldsExactly(m, DefaultToKey, listed) && DefaultToKey(u) in m.vals
    ensures !Unlisted(u, dir, listed, under)
  {
    assert GetValue(m, DefaultToKey, u).Some?;
  }

  /** The times of one more file are those of the earlier files, then that file's `stat` if it succeeds. */
  lemma RecordMtimesNext(m: OMap<string, Entry<int>>, fs: FileSystem, files: seq<Uri>, k: nat)
    requires Valid(m) && k < |files|
    ensures fs.stat(files[k]).None? ==> RecordMtimes(m, fs, files[..k + 1]) == RecordMtimes(m, fs, files[..k])
    ensures fs.stat(files[k]).Some? ==>
      RecordMtimes(m, fs, files[..k + 1]) == SetEntry(RecordMtimes(m, fs, files[..k]), DefaultToKey, files[k], fs.stat(files[k]).value)
  {
    assert files[..k + 1][..k] == files[..k];
  }

  /** The records of one more file are those of the earlier files, then that file's. */
  lemma FilesDataNext(env: Env, files: seq<Uri>, k: nat)
    requires k < |files|
    ensures FilesData(env, files[..k + 1]) == FilesData(env, files[..k]) + [FileData(env, files[k])]
  {
    assert files[..k + 1][..k] == files[..k];
  }

  /** The folder loop ends with the sessions gathered so far after the last folder or on a cancelled token. */
  lemma GetAllFromStop(c: Caches, env: Env, home: Uri, folders: seq<Uri>, i: nat, cancelled: (nat, Poll) -> bool, items: seq<Session>)
    requires i <= |folders| && CachesOk(c) && (i == |folders| || cancelled(i, BeforeFolder))
    ensures GetAllFrom(true, c, env, home, folders, i, cancelled, items) == Step(c, Done(items))
  {
  }

  /** A folder whose load never ends or throws ends the whole loop that way. */
  lemma GetAllFromFails(c: Caches, env: Env, home: Uri, folders: seq<Uri>, i: nat, cancelled: (nat, Poll) -> bool, items: seq<Session>, next: Caches, failed: Outcome)
    requires i < |folders| && CachesOk(c) && !cancelled(i, BeforeFolder) && !failed.Done?
    requires FolderStepAsWritten(c, env, ProjectDir(home, folders[i]), cancelled(i, AfterListing), cancelled(i, AfterReading)) == Step(next, failed)
    ensures GetAllFrom(true, c, env, home, folders, i, cancelled, items) == Step(next, failed)
  {
  }

  /** The folder loop goes on from the next folder with what one folder contributed. */
  lemma GetAllFromNext(c: Caches, env: Env, home: Uri, folders: seq<Uri>, i: nat, cancelled: (nat, Poll) -> bool, items: seq<Session>, next: Caches, ss: seq<Session>)
    requires i < |folders| && CachesOk(c) && !cancelled(i, BeforeFolder)
    requires FolderStepAsWritten(c, env, ProjectDir(home, folders[i]), cancelled(i, AfterListing), cancelled(i, AfterReading)) == Step(next, Done(ss))
    ensures CachesOk(next)
    ensures GetAllFrom(true, c, env, home, folders, i, cancelled, items) == GetAllFrom(true, next, env, home, folders, i + 1, cancelled, items + ss)
  {
  }

  class ClaudeCodeSessionService {
    const sessionCache: ResourceMap<seq<Session>>
    const fileMtimes: ResourceMap<int>
    const env: Env
    const userHome: Uri

    /** Both caches are well-formed maps keyed by the printed URI. */
    ghost predicate Valid()
      reads this, sessionCache, fileMtimes
    {
      && sessionCache.Valid() && sessionCache.toKey == DefaultToKey
      && fileMtimes.Valid() && fileMtimes.toKey == DefaultToKey
    }

    /** The contents of the two caches, as values. */
    function Contents(): (r: Caches)
      reads this, sessionCache, fileMtimes
      requires Valid()
      ensures CachesOk(r)
    {
      Caches(sessionCache.entries, fileMtimes.entries)
    }

    /** A new service starts with both caches empty. */
    constructor(env: Env, userHome: Uri)
      ensures Valid() && fresh(sessionCache) && fresh(fileMtimes)
      ensures Contents() == Caches(Empty(), Empty())
      ensures this.env == env && this.userHome == userHome
    {
      this.env := env;
      this.userHome := userHome;
      sessionCache := new ResourceMap(DefaultToKey);
      fileMtimes := new ResourceMap(DefaultToKey);
    }

    /**
     * `_getMessagesFromSession`: the records of one file. An unreadable
     * file gives no records.
     */
    method GetMessagesFromSession(fileUri: Uri) returns (r: FileRecords)
      ensures r == FileData(env, fileUri)
      ensures WellKeyed(r)
    {
      match env.fs.readFile(fileUri) {
        case None =>
          r := FileRecords(Empty(), Empty());
        case Some(text) =>
          r := CollectRecords(JsonlLines(text));
      }
    }

    /**
     * The line loop of `_getMessagesFromSession`: a line that does not
     * parse, or is neither a message nor a summary, is skipped, and a later
     * record replaces an earlier one with the same key.
     */
    method CollectRecords(lines: seq<string>) returns (r: FileRecords)
      ensures r == RecordsOf(lines, env.parse, env.dateOf)
    {
      var messages: OMap<string, StoredMessage> := Empty();
      var summaries: OMap<string, SummaryEntry> := Empty();
      var i := 0;
      assert lines[..0] == [];
      while i < |lines|
        invariant 0 <= i <= |lines|
        invariant FileRecords(messages, summaries) == RecordsOf(lines[..i], env.parse, env.dateOf)
      {
        RecordsOfNext(lines, i, env.parse, env.dateOf);
        var rec := LineRecord(lines[i], env.parse, env.dateOf);
        if rec.Message? {
          messages := Put(messages, rec.m.uuid, rec.m);
        } else if rec.Summary? {
          summaries := Put(summaries, rec.s.leafUuid, rec.s);
        }
        i := i + 1;
      }
      assert lines[..i] == lines;
      r := FileRecords(messages, summaries);
    }

    /**
     * `_getCachedSessionsIfValid`, with `cancelled` the token's state once
     * the directory is listed: the cached sessions, or `None` for `null`
     * when there are none, the directory cannot be listed, the token is
     * cancelled, a listed session file is new or changed, or a recorded
     * file in the directory is no longer listed. It compares every `.jsonl`
     * file and places recorded files with `isEqualOrParent`.
     */
    method CachedSessionsIfValid(projectDir: Uri, cancelled: bool) returns (r: Option<seq<Session>>)
      requires Valid()
      ensures r == CheckCacheAsWritten(Contents(), env.fs, projectDir, cancelled)
    {
      var has := sessionCache.Has(projectDir);
      if !has {
        return None;
      }
      match env.fs.readDirectory(projectDir) {
        case None =>
          return None;
        case Some(entries) =>
          if cancelled {
            return None;
          }
          var upToDate, currentFiles := ListedUnchanged(projectDir, entries);
          if !upToDate {
            return None;
          }
          var noneMissing := NoneDeleted(projectDir, Files(projectDir, entries, IsJsonlEntry), currentFiles);
          if !noneMissing {
            return None;
          }
          CheckPasses(Contents(), env.fs, projectDir, IsJsonlEntry, UnderAsWritten, entries);
          r := sessionCache.Get(projectDir);
      }
    }

    /**
     * The first loop of `_getCachedSessionsIfValid`: it gathers the listed
     * `.jsonl` files in `currentFiles` and stops at the first one that is
     * new or changed, or whose `stat` fails.
     */
    method ListedUnchanged(projectDir: Uri, entries: seq<DirEntry>) returns (upToDate: bool, currentFiles: ResourceSet)
      requires Valid()
      ensures upToDate <==> AllUnchanged(fileMtimes.entries, env.fs, Files(projectDir, entries, IsJsonlEntry))
      ensures fresh(currentFiles.inner) && currentFiles.Valid() && currentFiles.inner.toKey == DefaultToKey
      ensures upToDate ==> HoldsExactly(currentFiles.inner.entries, DefaultToKey, Files(projectDir, entries, IsJsonlEntry))
    {
      currentFiles := new ResourceSet(DefaultToKey);
      var i := 0;
      while i < |entries|
        invariant 0 <= i <= |entries|
        invariant fresh(currentFiles.inner) && currentFiles.Valid() && currentFiles.inner.toKey == DefaultToKey
        invariant HoldsExactly(currentFiles.inner.entries, DefaultToKey, Files(projectDir, entries[..i], IsJsonlEntry))
        invariant AllUnchanged(fileMtimes.entries, env.fs, Files(projectDir, entries[..i], IsJsonlEntry))
      {
        var e := entries[i];
        if IsJsonlEntry(e) {
          var fileUri := JoinPath(projectDir, e.name);
          ghost var before := currentFiles.inner.entries;
          currentFiles.Add(fileUri);
          AddedKept(before, projectDir, entries, i, IsJsonlEntry);
          var same := IsUnchanged(fileUri);
          if !same {
            EntryListed(projectDir, entries, i, IsJsonlEntry);
            ChangedListed(fileMtimes.entries, env.fs, Files(projectDir, entries, IsJsonlEntry), fileUri);
            return false, currentFiles;
          }
          UnchangedKept(fileMtimes.entries, env.fs, projectDir, entries, i, IsJsonlEntry);
        } else {
          FilesNextSkipped(projectDir, entries, i, IsJsonlEntry);
        }
        i := i + 1;
      }
      assert entries[..i] == entries;
      upToDate := true;
    }

    /** The test the first loop makes of one listed file: a `stat` that fails, no recorded time, or a newer time all count as a change. */
    method IsUnchanged(fileUri: Uri) returns (same: bool)
      requires Valid()
      ensures same <==> !Changed(fileMtimes.entries, env.fs, fileUri)
    {
      match env.fs.stat(fileUri) {
        case None =>
          same := false;
        case Some(mtime) =>
          var cachedMtime := fileMtimes.Get(fileUri);
          same := !(cachedMtime.None? || cachedMtime.value == 0 || mtime > cachedMtime.value);
      }
    }

    /**
     * The second loop of `_getCachedSessionsIfValid`: every recorded
     * `.jsonl` file that `isEqualOrParent` places in the directory must
     * be among the listed ones.
     */
    method NoneDeleted(projectDir: Uri, ghost listed: seq<Uri>, currentFiles: ResourceSet) returns (noneMissing: bool)
      requires Valid() && currentFiles.Valid() && currentFiles.inner.toKey == DefaultToKey
      requires HoldsExactly(currentFiles.inner.entries, DefaultToKey, listed)
      ensures noneMissing <==> NoneMissing(fileMtimes.entries, projectDir, listed, UnderAsWritten)
    {
      var cachedFiles := fileMtimes.Keys();
      var j := 0;
      while j < |cachedFiles|
        invariant 0 <= j <= |cachedFiles|
        invariant forall t :: 0 <= t < j ==> !Unlisted(cachedFiles[t], projectDir, listed, UnderAsWritten)
      {
        var missing := IsDeleted(cachedFiles[j], projectDir, listed, currentFiles);
        if missing {
          assert fileMtimes.entries.keys[j] in fileMtimes.entries.vals;
          return false;
        }
        j := j + 1;
      }
      NoneMissingByKeys(fileMtimes.entries, projectDir, listed, UnderAsWritten);
      noneMissing := true;
    }

    /** The test the second loop makes of one recorded file. */
    method IsDeleted(cachedFileUri: Uri, projectDir: Uri, ghost listed: seq<Uri>, currentFiles: ResourceSet) returns (missing: bool)
      requires currentFiles.Valid() && currentFiles.inner.toKey == DefaultToKey
      requires HoldsExactly(currentFiles.inner.entries, DefaultToKey, listed)
      ensures missing <==> Unlisted(cachedFileUri, projectDir, listed, UnderAsWritten)
    {
      missing := false;
      if IsEqualOrParent(cachedFileUri, projectDir, false) && EndsWith(cachedFileUri.path, Extension) {
        var present := currentFiles.Has(cachedFileUri);
        if present {
          PresentIsListed(currentFiles.inner.entries, listed, cachedFileUri, projectDir, UnderAsWritten);
        } else {
          AbsentIsUnlisted(currentFiles.inner.entries, listed, cachedFileUri, projectDir, UnderAsWritten);
          missing := true;
        }
      }
    }

    /**
     * `_loadSessionsFromDisk`, with `cancelled` the token's state once the
     * files are read. It reads every session file, records the time of
     * each whose `stat` succeeds, and builds the sessions from all their
     * records.
     */
    method LoadSessionsFromDisk(projectDir: Uri, cancelled: bool) returns (outcome: Outcome)
      requires Valid()
      modifies fileMtimes
      ensures Valid()
      ensures Loaded(fileMtimes.entries, outcome) == Load(old(fileMtimes.entries), env, projectDir, cancelled)
    {
      match env.fs.readDirectory(projectDir) {
        case None =>
          return Done([]);
        case Some(entries) =>
          var files := SessionFiles(projectDir, entries);
          var results := ReadSessionFiles(files);
          if cancelled {
            return Done([]);
          }
          RecordFileMtimes(files);
          outcome := SessionsOf(results);
      }
    }

    /** The filters of `_loadSessionsFromDisk`: files named `<id>.jsonl` with a non-empty id. */
    method SessionFiles(projectDir: Uri, entries: seq<DirEntry>) returns (files: seq<Uri>)
      ensures files == Files(projectDir, entries, IsSessionFile)
    {
      files := [];
      var i := 0;
      assert entries[..0] == [];
      while i < |entries|
        invariant 0 <= i <= |entries|
        invariant files == Files(projectDir, entries[..i], IsSessionFile)
      {
        var e := entries[i];
        if IsSessionFile(e) {
          FilesNextKept(projectDir, entries, i, IsSessionFile);
          files := files + [JoinPath(projectDir, e.name)];
        } else {
          FilesNextSkipped(projectDir, entries, i, IsSessionFile);
        }
        i := i + 1;
      }
      assert entries[..i] == entries;
    }

    /** `Promise.allSettled` over the file reads: the records of each file, in file order. */
    method ReadSessionFiles(files: seq<Uri>) returns (results: seq<FileRecords>)
      ensures results == FilesData(env, files)
    {
      results := [];
      var k := 0;
      assert files[..0] == [];
      while k < |files|
        invariant 0 <= k <= |files|
        invariant results == FilesData(env, files[..k])
      {
        var data := GetMessagesFromSession(files[k]);
        FilesDataNext(env, files, k);
        results := results + [data];
        k := k + 1;
      }
      assert files[..k] == files;
    }

    /** The `stat` calls of the merge loop: each file whose `stat` succeeds has its time set. */
    method RecordFileMtimes(files: seq<Uri>)
      requires Valid()
      modifies fileMtimes
      ensures Valid()
      ensures fileMtimes.entries == RecordMtimes(old(fileMtimes.entries), env.fs, files)
    {
      var k := 0;
      assert files[..0] == [];
      while k < |files|
        invariant 0 <= k <= |files|
        invariant Valid()
        invariant fileMtimes.entries == RecordMtimes(old(fileMtimes.entries), env.fs, files[..k])
      {
        RecordMtimesNext(old(fileMtimes.entries), env.fs, files, k);
        RecordFileMtime(files[k]);
        k := k + 1;
      }
      assert files[..k] == files;
    }

    /** One `stat` of the merge loop: the file's time is set when the call succeeds. */
    method RecordFileMtime(u: Uri)
      requires Valid()
      modifies fileMtimes
      ensures Valid()
      ensures env.fs.stat(u).None? ==> fileMtimes.entries == old(fileMtimes.entries)
      ensures env.fs.stat(u).Some? ==> fileMtimes.entries == SetEntry(old(fileMtimes.entries), DefaultToKey, u, env.fs.stat(u).value)
    {
      var stat := env.fs.stat(u);
      if stat.Some? {
        fileMtimes.Set(u, stat.value);
      }
    }

    /**
     * One pass of the folder loop of `getAllSessions`: the cached sessions
     * when the check allows them, else a reload, which is stored for the
     * directory even when the token was cancelled while it ran.
     */
    method FolderSessions(projectDir: Uri, listing: bool, reading: bool) returns (outcome: Outcome)
      requires Valid()
      modifies sessionCache, fileMtimes
      ensures Valid()
      ensures Step(Contents(), outcome) == FolderStepAsWritten(old(Contents()), env, projectDir, listing, reading)
    {
      var cachedSessions := CachedSessionsIfValid(projectDir, listing);
      if cachedSessions.Some? {
        return Done(cachedSessions.value);
      }
      outcome := LoadSessionsFromDisk(projectDir, reading);
      if outcome.Done? {
        sessionCache.Set(projectDir, outcome.sessions);
      }
    }

    /**
     * `getAllSessions`, with `cancelled(i, p)` the token's state at poll
     * `p` of folder `i`. A cancelled token ends the loop with the sessions
     * gathered so far.
     */
    method GetAllSessions(folders: seq<Uri>, cancelled: (nat, Poll) -> bool) returns (outcome: Outcome)
      requires Valid()
      modifies sessionCache, fileMtimes
      ensures Valid()
      ensures Step(Contents(), outcome) == GetAllAsWritten(old(Contents()), env, userHome, folders, cancelled)
    {
      ghost var goal := GetAllAsWritten(Contents(), env, userHome, folders, cancelled);
      var items := [];
      if |folders| == 0 {
        return Done(items);
      }
      var i := 0;
      while i < |folders|
        invariant 0 <= i <= |folders| && Valid()
        invariant GetAllFrom(true, Contents(), env, userHome, folders, i, cancelled, items) == goal
      {
        var stop, more := NextFolder(folders, cancelled, i, items);
        if stop.Some? {
          return stop.value;
        }
        items := more;
        i := i + 1;
      }
      GetAllFromStop(Contents(), env, userHome, folders, i, cancelled, items);
      outcome := Done(items);
    }

    /**
     * One turn of the folder loop of `getAllSessions`: either the loop ends
     * here, with what it returns, or it goes on to the next folder with the
     * sessions gathered so far.
     */
    method NextFolder(folders: seq<Uri>, cancelled: (nat, Poll) -> bool, i: nat, items: seq<Session>) returns (stop: Option<Outcome>, more: seq<Session>)
      requires Valid() && i < |folders|
      modifies sessionCache, fileMtimes
      ensures Valid()
      ensures stop.Some? ==> Step(Contents(), stop.value) == GetAllFrom(true, old(Contents()), env, userHome, folders, i, cancelled, items)
      ensures stop.None? ==>
        GetAllFrom(true, Contents(), env, userHome, folders, i + 1, cancelled, more) == GetAllFrom(true, old(Contents()), env, userHome, folders, i, cancelled, items)
    {
      if cancelled(i, BeforeFolder) {
        GetAllFromStop(Contents(), env, userHome, folders, i, cancelled, items);
        return Some(Done(items)), items;
      }
      var projectDir := ProjectDir(userHome, folders[i]);
      ghost var before := Contents();
      var folderOutcome := FolderSessions(projectDir, cancelled(i, AfterListing), cancelled(i, AfterReading));
      if !folderOutcome.Done? {
        GetAllFromFails(before, env, userHome, folders, i, cancelled, items, Contents(), folderOutcome);
        return Some(folderOutcome), items;
      }
      GetAllFromNext(before, env, userHome, folders, i, cancelled, items, Contents(), folderOutcome.sessions);
      stop, more := None, items + folderOutcome.sessions;
    }

    /**
     * `getSession`: the first session with the id among all sessions.
     * `failed` is how loading them failed, when it hangs or throws.
     */
    method GetSession(folders: seq<Uri>, cancelled: (nat, Poll) -> bool, claudeCodeSessionId: string) returns (failed: Option<Outcome>, r: Option<Session>)
      requires Valid()
      modifies sessionCache, fileMtimes
      ensures Valid()
      ensures var all := GetAllAsWritten(old(Contents()), env, userHome, folders, cancelled);
        && Contents() == all.caches
        && (failed.None? <==> all.outcome.Done?)
        && (failed.Some? ==> failed.value == all.outcome)
        && (failed.None? ==> r == SessionById(all.outcome.sessions, claudeCodeSessionId))
    {
      var all := GetAllSessions(folders, cancelled);
      if !all.Done? {
        return Some(all), None;
      }
      failed := None;
      r := Find(all.sessions, (s: Session) => s.id == claudeCodeSessionId);
    }
  }
}

=== FILE: session_store.dfy ===
/**
 * The zustand session store: the current session id, the session list and
 * the extension's capabilities. The actions that post a request to the
 * extension (`requestSessionList`, `loadSession`, `createNewSession`) are
 * not part of this model.
 */
module SessionStore {
  import opened Wrappers
  import opened Json
  import opened Seqs

  /** A session as the webview lists it; the timestamp is in milliseconds. */
  datatype Session = Session(id: string, labelText: string, timestamp: int, messages: seq<Json>)

  /** A `Partial<Session>` object literal. */
  datatype SessionPatch = SessionPatch(id: Option<string>, labelText: Option<string>, timestamp: Option<int>, messages: Option<seq<Json>>)

  function MergeSession(s: Session, p: SessionPatch): Session {
    Session(p.id.GetOr(s.id), p.labelText.GetOr(s.labelText), p.timestamp.GetOr(s.timestamp), p.messages.GetOr(s.messages))
  }

  datatype SessionStoreState = SessionStoreState(currentSessionId: string, sessions: seq<Session>, capabilities: seq<string>)

  function Initial(): (s: SessionStoreState)
    ensures s.currentSessionId == "" && s.sessions == [] && s.capabilities == []
  {
    SessionStoreState("", [], [])
  }

  /** `setCurrentSessionId(id)`. */
  function SetCurrentSessionId(s: SessionStoreState, id: string): (r: SessionStoreState)
    ensures r.currentSessionId == id && r.sessions == s.sessions && r.capabilities == s.capabilities
  {
    s.(currentSessionId := id)
  }

  /** `setSessions(sessions)`. */
  function SetSessions(s: SessionStoreState, sessions: seq<Session>): (r: SessionStoreState)
    ensures r.sessions == sessions && r.currentSessionId == s.currentSessionId && r.capabilities == s.capabilities
  {
    s.(sessions := sessions)
  }

  /** `setCapabilities(capabilities)`. */
  function SetCapabilities(s: SessionStoreState, capabilities: seq<string>): (r: SessionStoreState)
    ensures r.capabilities == capabilities && r.sessions == s.sessions && r.currentSessionId == s.currentSessionId
  {
    s.(capabilities := capabilities)
  }

  /** `addSession(session)`: appended at the end. */
  function AddSession(s: SessionStoreState, session: Session): (r: SessionStoreState)
    ensures |r.sessions| == |s.sessions| + 1 && r.sessions[..|s.sessions|] == s.sessions && r.sessions[|s.sessions|] == session
    ensures r.currentSessionId == s.currentSessionId && r.capabilities == s.capabilities
  {
    s.(sessions := s.sessions + [session])
  }

  /** `sessions.map(x => x.id === id ? { ...x, ...updates } : x)`. */
  function UpdateWhere(xs: seq<Session>, id: string, p: SessionPatch): (r: seq<Session>)
    ensures |r| == |xs|
    ensures forall i :: 0 <= i < |xs| ==> r[i] == if xs[i].id == id then MergeSession(xs[i], p) else xs[i]
  {
    if xs == [] then []
    else [if xs[0].id == id then MergeSession(xs[0], p) else xs[0]] + UpdateWhere(xs[1..], id, p)
  }

  /** `updateSession(id, updates)`: every session with that id is merged, every other one stays. */
  function UpdateSession(s: SessionStoreState, id: string, p: SessionPatch): (r: SessionStoreState)
    ensures |r.sessions| == |s.sessions|
    ensures forall i :: 0 <= i < |s.sessions| && s.sessions[i].id != id ==> r.sessions[i] == s.sessions[i]
    ensures forall i :: 0 <= i < |s.sessions| && s.sessions[i].id == id ==> r.sessions[i] == MergeSession(s.sessions[i], p)
    ensures r.currentSessionId == s.currentSessionId && r.capabilities == s.capabilities
  {
    s.(sessions := UpdateWhere(s.sessions, id, p))
  }

  /** `removeSession(id)`: every session with that id goes; the others keep their order. */
  function RemoveSession(s: SessionStoreState, id: string): (r: SessionStoreState)
    ensures forall x :: x in r.sessions <==> x in s.sessions && x.id != id
    ensures r.currentSessionId == s.currentSessionId && r.capabilities == s.capabilities
  {
    s.(sessions := Filter(s.sessions, (x: Session) => x.id != id))
  }

  /** `getSessionById(id)`: the first session with that id. */
  function GetSessionById(s: SessionStoreState, id: string): (r: Option<Session>)
    ensures r.Some? ==> r.value.id == id && exists i :: (0 <= i < |s.sessions| && s.sessions[i] == r.value
      && forall j :: 0 <= j < i ==> s.sessions[j].id != id)
    ensures r.None? <==> forall i :: 0 <= i < |s.sessions| ==> s.sessions[i].id != id
  {
    Find(s.sessions, (x: Session) => x.id == id)
  }

  /** After removing an id, looking it up finds nothing. */
  lemma RemoveThenGet(s: SessionStoreState, id: string)
    ensures GetSessionById(RemoveSession(s, id), id).None?
  {
  }

  /** An update that keeps ids finds the merged first session under the same id. */
  lemma UpdateThenGet(s: SessionStoreState, id: string, p: SessionPatch)
    requires p.id.None? || p.id == Some(id)
    ensures var before := GetSessionById(s, id);
      GetSessionById(UpdateSession(s, id, p), id) == if before.Some? then Some(MergeSession(before.value, p)) else None
  {
    var r := UpdateSession(s, id, p);
    var after := GetSessionById(r, id);
    var before := GetSessionById(s, id);
    assert forall i :: 0 <= i < |s.sessions| ==> (r.sessions[i].id == id <==> s.sessions[i].id == id);
    if before.Some? {
      var i :| 0 <= i < |s.sessions| && s.sessions[i] == before.value && forall j :: 0 <= j < i ==> s.sessions[j].id != id;
      assert r.sessions[i].id == id;
      var k :| 0 <= k < |r.sessions| && r.sessions[k] == after.value && forall j :: 0 <= j < k ==> r.sessions[j].id != id;
      assert k == i;
    }
  }
}

=== FILE: strs.dfy ===
/**
 * String operations the TypeScript sources use through the built-in `String`
 * methods (`startsWith`, `indexOf`, `split`, `join`, `trim`, `toLowerCase`,
 * literal global `replace`). Strings are Dafny strings, sequences of Unicode
 * scalar values, so a character outside the Basic Multilingual Plane is one
 * character here where JavaScript counts two UTF-16 code units.
 */
module Strs {
  import opened Wrappers

  predicate StartsWith(s: string, p: string) {
    |p| <= |s| && s[..|p|] == p
  }

  predicate EndsWith(s: string, p: string) {
    |p| <= |s| && s[|s| - |p|..] == p
  }

  /** `p` occurs in `s` starting at index `i`. */
  predicate OccursAt(s: string, p: string, i: int) {
    0 <= i && i + |p| <= |s| && s[i..i + |p|] == p
  }

  lemma OccursAtTail(s: string, p: string, k: nat)
    requires |s| > 0
    ensures OccursAt(s, p, k + 1) <==> OccursAt(s[1..], p, k)
  {
    if k + 1 + |p| <= |s| {
      assert s[k + 1..k + 1 + |p|] == s[1..][k..k + |p|];
    }
  }

  /** A match in a suffix is a match in the whole string, shifted by what was dropped. */
  lemma OccursAtDrop(s: string, p: string, b: nat, k: nat)
    requires b <= |s|
    ensures OccursAt(s[b..], p, k) <==> OccursAt(s, p, b + k)
  {
    if b + k + |p| <= |s| {
      assert s[b..][k..k + |p|] == s[b + k..b + k + |p|];
    }
  }

  /** A slice is the two slices on either side of any point inside it. */
  lemma SliceSplit(s: string, i: nat, j: nat, k: nat)
    requires i <= j <= k <= |s|
    ensures s[i..k] == s[i..j] + s[j..k]
  {
    var t := s[i..j] + s[j..k];
    forall x | 0 <= x < k - i ensures s[i..k][x] == t[x] {
      if x < j - i {
        assert t[x] == s[i..j][x];
      } else {
        assert t[x] == s[j..k][x - (j - i)];
      }
    }
  }

  lemma SliceOfSlice(s: string, i: nat, j: nat, a: nat, b: nat)
    requires i <= j <= |s| && a <= b <= j - i
    ensures s[i..j][a..b] == s[i + a..i + b]
  {
    var t, u := s[i..j][a..b], s[i + a..i + b];
    forall x | 0 <= x < |t| ensures t[x] == u[x] {
      assert t[x] == s[i..j][a + x];
    }
  }

  lemma OccursInPrefix(x: string, y: string, p: string, a: int)
    requires OccursAt(x, p, a)
    ensures OccursAt(x + y, p, a)
  {
    assert (x + y)[a..a + |p|] == x[a..a + |p|];
  }

  lemma OccursInSuffix(x: string, y: string, p: string, a: int)
    requires OccursAt(y, p, a)
    ensures OccursAt(x + y, p, |x| + a)
  {
    assert (x + y)[|x| + a..|x| + a + |p|] == y[a..a + |p|];
  }

  /** `s.indexOf(p)`: the first index at which `p` occurs, if any. */
  function IndexOf(s: string, p: string): (r: Option<nat>)
    ensures r.Some? ==> OccursAt(s, p, r.value)
    ensures r.Some? ==> forall k :: 0 <= k < r.value ==> !OccursAt(s, p, k)
    ensures r.None? ==> forall k :: !OccursAt(s, p, k)
    decreases |s|
  {
    if |s| < |p| then None
    else if s[..|p|] == p then Some(0)
    else
      var t := IndexOf(s[1..], p);
      forall k: nat ensures OccursAt(s, p, k + 1) <==> OccursAt(s[1..], p, k) {
        OccursAtTail(s, p, k);
      }
      assert !OccursAt(s, p, 0);
      if t.None? then
        assert forall k :: !OccursAt(s, p, k) by {
          forall k ensures !OccursAt(s, p, k) {
            if k > 0 { assert !OccursAt(s[1..], p, k - 1); }
          }
        }
        None
      else
        assert forall k :: 0 <= k < t.value + 1 ==> !OccursAt(s, p, k) by {
          forall k | 0 <= k < t.value + 1 ensures !OccursAt(s, p, k) {
            if k > 0 { assert !OccursAt(s[1..], p, k - 1); }
          }
        }
        Some(t.value + 1)
  }

  /** The first occurrence is where `p` occurs with no occurrence before it. */
  lemma IndexOfAt(s: string, p: string, i: nat)
    requires OccursAt(s, p, i)
    requires forall k :: 0 <= k < i ==> !OccursAt(s, p, k)
    ensures IndexOf(s, p) == Some(i)
  {
  }

  /**
   * A pattern whose first character occurs nowhere else in it is first found
   * right after a prefix that does not contain it: no occurrence can straddle
   * the end of the prefix.
   */
  lemma IndexOfUnbordered(x: string, p: string, y: string)
    requires |p| > 0 && IndexOf(x, p).None?
    requires forall k :: 0 < k < |p| ==> p[k] != p[0]
    ensures IndexOf(x + p + y, p) == Some(|x|)
  {
    var s := x + p + y;
    assert s[|x|..|x| + |p|] == p;
    forall k | 0 <= k < |x| ensures !OccursAt(s, p, k) {
      if k + |p| <= |x| {
        assert s[k..k + |p|] == x[k..k + |p|];
        assert !OccursAt(x, p, k);
      } else {
        assert s[k..k + |p|][|x| - k] == s[|x|] == p[0] != p[|x| - k];
      }
    }
    IndexOfAt(s, p, |x|);
  }

  /** `s.includes(p)`. */
  predicate Contains(s: string, p: string) {
    IndexOf(s, p).Some?
  }

  lemma ContainsAt(s: string, p: string, i: int)
    requires OccursAt(s, p, i)
    ensures Contains(s, p)
  {
  }

  /** `parts.join(sep)`. */
  function Join(parts: seq<string>, sep: string): string {
    if |parts| == 0 then ""
    else if |parts| == 1 then parts[0]
    else parts[0] + sep + Join(parts[1..], sep)
  }

  lemma PrefixBeforeFirstOccurrence(s: string, p: string, i: nat)
    requires |p| > 0 && IndexOf(s, p) == Some(i)
    ensures !Contains(s[..i], p)
  {
    if Contains(s[..i], p) {
      var k := IndexOf(s[..i], p).value;
      assert OccursAt(s[..i], p, k);
      assert k + |p| <= i;
      assert s[..i][k..k + |p|] == s[k..k + |p|];
      assert OccursAt(s, p, k);
    }
  }

  /** `s.split(sep)` for a non-empty literal separator. */
  function Split(s: string, sep: string): (parts: seq<string>)
    requires |sep| > 0
    ensures |parts| >= 1
    ensures Join(parts, sep) == s
    ensures forall i :: 0 <= i < |parts| ==> !Contains(parts[i], sep)
    decreases |s|
  {
    match IndexOf(s, sep)
    case None => [s]
    case Some(i) =>
      PrefixBeforeFirstOccurrence(s, sep, i);
      var rest := Split(s[i + |sep|..], sep);
      assert s == s[..i] + sep + s[i + |sep|..];
      [s[..i]] + rest
  }

  /** A one-character pattern occurs exactly where that character is. */
  lemma ContainsChar(s: string, c: char)
    ensures Contains(s, [c]) <==> c in s
  {
    if c in s {
      var k :| 0 <= k < |s| && s[k] == c;
      assert s[k..k + 1] == [c];
      ContainsAt(s, [c], k);
    } else {
      forall k | 0 <= k < |s| ensures !OccursAt(s, [c], k) {
        assert s[k..k + 1][0] == s[k];
      }
    }
  }

  /** A one-character separator is first found right after a prefix that lacks it. */
  lemma IndexOfChar(x: string, c: char, y: string)
    requires c !in x
    ensures IndexOf(x + [c] + y, [c]) == Some(|x|)
  {
    var s := x + [c] + y;
    assert s[|x|..|x| + 1] == [c];
    forall k | 0 <= k < |x| ensures !OccursAt(s, [c], k) {
      assert s[k..k + 1][0] == x[k];
    }
    IndexOfAt(s, [c], |x|);
  }

  /** Splitting joined parts that lack a one-character separator gives the parts back. */
  lemma {:induction false} SplitJoinChar(parts: seq<string>, c: char)
    requires |parts| >= 1
    requires forall i :: 0 <= i < |parts| ==> c !in parts[i]
    ensures Split(Join(parts, [c]), [c]) == parts
    decreases |parts|
  {
    if |parts| == 1 {
      ContainsChar(parts[0], c);
    } else {
      var y := Join(parts[1..], [c]);
      var s := parts[0] + [c] + y;
      assert Join(parts, [c]) == s;
      IndexOfChar(parts[0], c, y);
      SplitAt(s, [c], |parts[0]|);
      assert s[..|parts[0]|] == parts[0];
      assert s[|parts[0]| + 1..] == y;
      SplitJoinChar(parts[1..], c);
      assert parts == [parts[0]] + parts[1..];
    }
  }

  /** `s.split(sep).pop()`: the text after the last separator. */
  function LastSegment(s: string, sep: string): string
    requires |sep| > 0
  {
    Last(Split(s, sep))
  }

  function Last<T>(xs: seq<T>): T
    requires |xs| > 0
  {
    xs[|xs| - 1]
  }

  lemma LastOfCons<T>(a: T, xs: seq<T>)
    requires |xs| > 0
    ensures Last([a] + xs) == Last(xs)
  {
  }

  /** The last segment never holds the separator, and is the text after the last separator when it is one character. */
  lemma {:induction false} LastSegmentAfter(p: string, c: char, b: string)
    requires c !in b
    ensures LastSegment(p + [c] + b, [c]) == b
    decreases |p|
  {
    var s := p + [c] + b;
    assert s[|p|..|p| + 1] == [c];
    assert OccursAt(s, [c], |p|);
    var i := IndexOf(s, [c]).value;
    SplitAt(s, [c], i);
    LastSegmentCons(s, s[i + 1..], [c], s[..i]);
    if i == |p| {
      assert s[i + 1..] == b;
      LastSegmentWhole(b, c);
    } else {
      assert i < |p|;
      DropWithinPrefix(p, [c] + b, i + 1);
      assert p + [c] + b == p + ([c] + b);
      assert p[i + 1..] + ([c] + b) == p[i + 1..] + [c] + b;
      LastSegmentAfter(p[i + 1..], c, b);
    }
  }

  /** Dropping no more than the prefix leaves the rest of the prefix in front. */
  lemma DropWithinPrefix(p: string, q: string, k: nat)
    requires k <= |p|
    ensures (p + q)[k..] == p[k..] + q
  {
  }

  /** `Split` at the first separator. */
  lemma SplitAt(s: string, sep: string, i: nat)
    requires |sep| > 0 && IndexOf(s, sep) == Some(i)
    ensures i + |sep| <= |s| && Split(s, sep) == [s[..i]] + Split(s[i + |sep|..], sep)
  {
  }

  /** Dropping the first part of a split keeps its last part. */
  lemma LastSegmentCons(s: string, t: string, sep: string, a: string)
    requires |sep| > 0 && Split(s, sep) == [a] + Split(t, sep)
    ensures LastSegment(s, sep) == LastSegment(t, sep)
  {
    LastOfCons(a, Split(t, sep));
  }

  /** A string without the separator is its own last segment. */
  lemma LastSegmentWhole(s: string, c: char)
    requires c !in s
    ensures LastSegment(s, [c]) == s
  {
    ContainsChar(s, c);
  }

  /** The last segment does not contain a one-character separator. */
  lemma LastSegmentFree(s: string, c: char)
    ensures c !in LastSegment(s, [c])
  {
    var parts := Split(s, [c]);
    ContainsChar(parts[|parts| - 1], c);
  }

  /** `s.replace(/p/g, r)` for a literal pattern `p` and a replacement without `$`. */
  function ReplaceAll(s: string, p: string, r: string): string
    requires |p| > 0
  {
    Join(Split(s, p), r)
  }

  /** The characters JavaScript's `trim` and the regex class `\s` treat as white space. */
  predicate IsWhitespace(c: char) {
    c == ' ' || c == '\t' || c == '\n' || c == '\r' || c == '\U{000B}' || c == '\U{000C}'
    || c == '\U{00A0}' || c == '\U{1680}' || ('\U{2000}' <= c <= '\U{200A}')
    || c == '\U{2028}' || c == '\U{2029}' || c == '\U{202F}' || c == '\U{205F}'
    || c == '\U{3000}' || c == '\U{FEFF}'
  }

  function TrimStart(s: string): (r: string)
    ensures |r| <= |s| && r == s[|s| - |r|..]
    ensures r == "" || !IsWhitespace(r[0])
    ensures forall i :: 0 <= i < |s| - |r| ==> IsWhitespace(s[i])
  {
    if |s| > 0 && IsWhitespace(s[0]) then TrimStart(s[1..]) else s
  }

  function TrimEnd(s: string): (r: string)
    ensures |r| <= |s| && r == s[..|r|]
    ensures r == "" || !IsWhitespace(r[|r| - 1])
    ensures forall i :: |r| <= i < |s| ==> IsWhitespace(s[i])
  {
    if |s| > 0 && IsWhitespace(s[|s| - 1]) then TrimEnd(s[..|s| - 1]) else s
  }

  /** `s.trim()`. */
  function Trim(s: string): (r: string)
    ensures |r| <= |s|
    ensures r == "" || (!IsWhitespace(r[0]) && !IsWhitespace(r[|r| - 1]))
  {
    TrimEnd(TrimStart(s))
  }

  /** Leading white space followed by text that does not start with white space is all that `trimStart` removes. */
  lemma {:induction false} TrimStartSkips(w: string, y: string)
    requires forall i :: 0 <= i < |w| ==> IsWhitespace(w[i])
    requires y == "" || !IsWhitespace(y[0])
    ensures TrimStart(w + y) == y
    decreases |w|
  {
    if w != [] {
      assert (w + y)[1..] == w[1..] + y;
      TrimStartSkips(w[1..], y);
    } else {
      assert w + y == y;
    }
  }

  /** A string that `trim()` leaves non-empty has a character that is not white space. */
  lemma TrimNonEmpty(s: string)
    ensures Trim(s) != "" <==> exists i :: 0 <= i < |s| && !IsWhitespace(s[i])
  {
    var t := TrimStart(s);
    if Trim(s) != "" {
      var k := |s| - |t|;
      assert s[k] == t[0];
    } else {
      assert t == "";
    }
  }

  function LowerChar(c: char): char {
    if 'A' <= c <= 'Z' then (c as int + 32) as char else c
  }

  function UpperChar(c: char): char {
    if 'a' <= c <= 'z' then (c as int - 32) as char else c
  }

  /** `s.toLowerCase()` on the ASCII letters. */
  function ToLower(s: string): (r: string)
    ensures |r| == |s|
    ensures forall i :: 0 <= i < |s| ==> r[i] == LowerChar(s[i])
  {
    seq(|s|, i requires 0 <= i < |s| => LowerChar(s[i]))
  }

  function DigitChar(d: nat): char
    requires d < 10
  {
    "0123456789"[d]
  }

  /** `String(n)` for a natural number: its decimal digits. */
  function NatToString(n: nat): (r: string)
    ensures |r| >= 1
    ensures forall i :: 0 <= i < |r| ==> '0' <= r[i] <= '9'
  {
    if n < 10 then [DigitChar(n)] else NatToString(n / 10) + [DigitChar(n % 10)]
  }

  /** `String(n)` for an integer. */
  function IntToString(n: int): string {
    if n < 0 then "-" + NatToString(-n) else NatToString(n)
  }
}

=== FILE: tags.dfy ===
/**
 * The first match of a lazy tag pattern such as `/<tag>([\s\S]*?)<\/tag>/`:
 * the leftmost opening tag that some closing tag follows, and the text up
 * to the nearest closing tag after it. The tool-error parser, the Bash
 * output view and the session-label cleaner all match this way.
 */
module Tags {
  import opened Wrappers
  import opened Strs

  /** Where the match starts, where the captured text starts and ends, and where the match ends. */
  datatype Span = Span(start: nat, bodyStart: nat, bodyEnd: nat, end: nat)

  function FirstSpan(s: string, open: string, close: string): (r: Option<Span>)
    requires |open| > 0 && |close| > 0
    ensures r.Some? ==> (
      && r.value.bodyStart == r.value.start + |open|
      && r.value.end == r.value.bodyEnd + |close|
      && r.value.bodyStart <= r.value.bodyEnd
      && r.value.end <= |s|
      && OccursAt(s, open, r.value.start)
      && OccursAt(s, close, r.value.bodyEnd))
  {
    match IndexOf(s, open)
    case None => None
    case Some(i) => SpanFrom(s, open, close, i)
  }

  /** The match whose opening tag is the one at `i`: it ends at the first closing tag after that tag. */
  function SpanFrom(s: string, open: string, close: string, i: nat): (r: Option<Span>)
    requires |open| > 0 && |close| > 0 && OccursAt(s, open, i)
    ensures r.Some? ==> (
      && r.value.start == i
      && r.value.bodyStart == i + |open|
      && r.value.end == r.value.bodyEnd + |close|
      && r.value.bodyStart <= r.value.bodyEnd
      && r.value.end <= |s|
      && OccursAt(s, close, r.value.bodyEnd))
  {
    var b := i + |open|;
    var rest := s[b..];
    match IndexOf(rest, close)
    case None => None
    case Some(j) =>
      assert s[b + j..b + j + |close|] == rest[j..j + |close|];
      Some(Span(i, b, b + j, b + j + |close|))
  }

  /**
   * The match is the leftmost one, and lazy: no opening tag starts before
   * it, and no closing tag starts inside the captured text.
   */
  lemma FirstSpanLeftmostLazy(s: string, open: string, close: string)
    requires |open| > 0 && |close| > 0 && FirstSpan(s, open, close).Some?
    ensures var sp := FirstSpan(s, open, close).value;
      && (forall k :: 0 <= k < sp.start ==> !OccursAt(s, open, k))
      && (forall k :: sp.bodyStart <= k < sp.bodyEnd ==> !OccursAt(s, close, k))
  {
    var sp := FirstSpan(s, open, close).value;
    var b := sp.bodyStart;
    var rest := s[b..];
    forall k | b <= k < sp.bodyEnd ensures !OccursAt(s, close, k) {
      assert !OccursAt(rest, close, k - b);
      OccursAtDrop(s, close, b, k - b);
    }
  }

  /** The match found from the first opening tag and the first closing tag after it. */
  lemma FirstSpanAt(s: string, open: string, close: string, i: nat, j: nat)
    requires |open| > 0 && |close| > 0
    requires IndexOf(s, open) == Some(i) && i + |open| <= |s| && IndexOf(s[i + |open|..], close) == Some(j)
    ensures FirstSpan(s, open, close).Some?
    ensures FirstSpan(s, open, close).value.start == i
    ensures FirstSpan(s, open, close).value.bodyEnd == i + |open| + j
  {
    assert FirstSpan(s, open, close) == SpanFrom(s, open, close, i);
    SpanFromAt(s, open, close, i, j);
  }

  /** The match from the opening tag at `i` closes at the first closing tag after it. */
  lemma SpanFromAt(s: string, open: string, close: string, i: nat, j: nat)
    requires |open| > 0 && |close| > 0 && OccursAt(s, open, i)
    requires IndexOf(s[i + |open|..], close) == Some(j)
    ensures SpanFrom(s, open, close, i).Some? && SpanFrom(s, open, close, i).value.bodyEnd == i + |open| + j
  {
  }

  /** Any opening tag followed by a closing tag makes a match: with no match, no such pair exists. */
  lemma FollowedOpenMatches(s: string, open: string, close: string, i: nat, j: nat)
    requires |open| > 0 && |close| > 0
    requires OccursAt(s, open, i) && OccursAt(s, close, j) && i + |open| <= j
    ensures FirstSpan(s, open, close).Some?
  {
    var i0 := IndexOf(s, open).value;
    var rest := s[i0 + |open|..];
    var k := j - i0 - |open|;
    assert rest[k..k + |close|] == s[j..j + |close|];
    assert OccursAt(rest, close, k);
  }

  /** The captured text of the first match, `match[1]`. */
  function TagBody(s: string, open: string, close: string): (r: Option<string>)
    requires |open| > 0 && |close| > 0
    ensures r.Some? <==> FirstSpan(s, open, close).Some?
  {
    match FirstSpan(s, open, close)
    case None => None
    case Some(sp) => Some(s[sp.bodyStart..sp.bodyEnd])
  }

  /** The captured text sits between the tags: `open + body + close` occurs where the match starts. */
  lemma TagBodyBetween(s: string, open: string, close: string)
    requires |open| > 0 && |close| > 0 && TagBody(s, open, close).Some?
    ensures OccursAt(s, open + TagBody(s, open, close).value + close, FirstSpan(s, open, close).value.start)
  {
    var sp := FirstSpan(s, open, close).value;
    var body := TagBody(s, open, close).value;
    assert body == s[sp.bodyStart..sp.bodyEnd];
    OccursThree(s, open, body, close, sp.start);
  }

  /** Three pieces that follow each other in `s` make their concatenation occur there. */
  lemma OccursThree(s: string, a: string, b: string, c: string, i: nat)
    requires OccursAt(s, a, i) && i + |a| + |b| <= |s| && s[i + |a|..i + |a| + |b|] == b && OccursAt(s, c, i + |a| + |b|)
    ensures OccursAt(s, a + b + c, i)
  {
    var j, k := i + |a|, i + |a| + |b|;
    SliceSplit(s, i, j, k + |c|);
    SliceSplit(s, j, k, k + |c|);
    assert s[i..k + |c|] == a + (b + c);
  }
}

=== FILE: tool_error_parser.dfy ===
/**
 * Reading the error text out of a `tool_result` (webview/src/utils/toolErrorParser.ts):
 * a failed call's content is either a string, possibly wrapping the message
 * in a `<tool_use_error>` tag, or some other value printed with `String`.
 */
module ToolErrorParser {
  import opened Wrappers
  import opened Strs
  import opened Json
  import opened Tags

  const ErrorOpen := "<tool_use_error>"
  const ErrorClose := "</tool_use_error>"

  /** `!!toolResult?.is_error`. */
  predicate HasToolError(toolResult: Option<Json>) {
    toolResult.Some? && Present(Field(toolResult.value, "is_error"))
  }

  /** `toolResult?.content` when it is truthy. */
  predicate HasContent(toolResult: Option<Json>) {
    toolResult.Some? && Present(Field(toolResult.value, "content"))
  }

  /** The string branch: the trimmed body of the first tag, or the whole content. */
  function ErrorText(content: string): string {
    match TagBody(content, ErrorOpen, ErrorClose)
    case Some(body) => Trim(body)
    case None => content
  }

  /** `parseToolError(toolResult)`: `None` is `null`. */
  function ParseToolError(toolResult: Option<Json>): (r: Option<string>)
    ensures r.Some? <==> HasToolError(toolResult) && HasContent(toolResult)
    ensures r.Some? && Field(toolResult.value, "content").value.JStr? ==>
      r.value == ErrorText(Field(toolResult.value, "content").value.s)
    ensures r.Some? && !Field(toolResult.value, "content").value.JStr? ==>
      r.value == ToJsString(Field(toolResult.value, "content").value)
  {
    if !HasToolError(toolResult) || !HasContent(toolResult) then None
    else
      var content := Field(toolResult.value, "content").value;
      if content.JStr? then Some(ErrorText(content.s)) else Some(ToJsString(content))
  }

  /**
   * With a tag present, the text is the trimmed text between the first
   * opening tag and the nearest closing tag after it; no closing tag lies
   * inside it, and the text may hold line breaks like any other character.
   */
  lemma ErrorTextTagged(content: string)
    requires TagBody(content, ErrorOpen, ErrorClose).Some?
    ensures var sp := FirstSpan(content, ErrorOpen, ErrorClose).value;
      && ErrorText(content) == Trim(content[sp.bodyStart..sp.bodyEnd])
      && OccursAt(content, ErrorOpen + content[sp.bodyStart..sp.bodyEnd] + ErrorClose, sp.start)
      && (forall k :: 0 <= k < sp.start ==> !OccursAt(content, ErrorOpen, k))
      && (forall k :: sp.bodyStart <= k < sp.bodyEnd ==> !OccursAt(content, ErrorClose, k))
  {
    TagBodyBetween(content, ErrorOpen, ErrorClose);
    FirstSpanLeftmostLazy(content, ErrorOpen, ErrorClose);
  }

  /** Without an opening tag that a closing tag follows, the content comes back unchanged. */
  lemma ErrorTextUntagged(content: string)
    requires forall i, j :: OccursAt(content, ErrorOpen, i) && OccursAt(content, ErrorClose, j) ==> j < i + |ErrorOpen|
    ensures ErrorText(content) == content
  {
    if TagBody(content, ErrorOpen, ErrorClose).Some? {
      assert false;
    }
  }

  /** A tag that opens but never closes does not count: the content comes back unchanged. */
  lemma UnclosedTagKeepsContent(content: string)
    requires !Contains(content, ErrorClose)
    ensures ErrorText(content) == content
  {
    if TagBody(content, ErrorOpen, ErrorClose).Some? {
      var sp := FirstSpan(content, ErrorOpen, ErrorClose).value;
      ContainsAt(content, ErrorClose, sp.bodyEnd);
    }
  }

  /** Only a failed call has error text: a parsed error implies `hasToolError`. */
  lemma ParsedErrorHasError(toolResult: Option<Json>)
    ensures ParseToolError(toolResult).Some? ==> HasToolError(toolResult)
    ensures !HasToolError(toolResult) ==> ParseToolError(toolResult).None?
  {
  }
}

=== FILE: tool_message_store.dfy ===
/**
 * The zustand tool-message store: its state is one `Map` from tool-use id
 * to record, and every action builds a new map (`new Map(old)`, then one
 * `set`) and replaces the state with it. Each action is a function from the
 * old table to the new one and the record it returns.
 */
module ToolMessageStore {
  import opened Wrappers
  import opened Json
  import opened OrderedMaps
  import opened ToolMessages

  type Table = OMap<string, ToolMessage>

  /** The new table and the record the action returns. */
  datatype Upserted = Upserted(table: Table, updated: ToolMessage)

  /** `getToolMessage(id)`. */
  function GetToolMessage(t: Table, id: string): Option<ToolMessage> {
    Get(t, id)
  }

  /**
   * `upsertToolMessage(id, data)`: the stored record, or the initial one
   * for an unknown id, spread with `data`, stored back under `id`.
   */
  function Upsert(t: Table, id: string, data: Patch): (r: Upserted)
    requires Valid(t)
    ensures Valid(r.table)
    ensures GetToolMessage(r.table, id) == Some(r.updated)
    ensures r.updated == Merge(GetToolMessage(t, id).GetOr(Initial(id)), data)
    ensures forall k :: k != id ==> GetToolMessage(r.table, k) == GetToolMessage(t, k)
    ensures r.table.keys == if id in t.vals then t.keys else t.keys + [id]
  {
    var existing := GetToolMessage(t, id).GetOr(Initial(id));
    var updated := Merge(existing, data);
    Upserted(Put(t, id, updated), updated)
  }

  /** An unknown id gets `toolUseId` and `'none'` unless `data` says otherwise, and nothing else but `data`. */
  lemma UpsertUnknown(t: Table, id: string, data: Patch)
    requires Valid(t) && id !in t.vals
    ensures var u := Upsert(t, id, data).updated;
      && u.toolUseId == data.toolUseId.GetOr(id)
      && u.permissionState == data.permissionState.GetOr(NoPermission)
      && u.toolUse == data.toolUse && u.toolResult == data.toolResult
      && u.toolUseResult == data.toolUseResult && u.correlationId == data.correlationId
      && Upsert(t, id, data).table.keys == t.keys + [id]
  {
  }

  /** `setToolUse(toolUse)`: keyed by `toolUse.id`. */
  function SetToolUse(t: Table, tu: ToolUse): (r: Upserted)
    requires Valid(t)
    ensures Valid(r.table)
    ensures GetToolMessage(r.table, tu.id) == Some(r.updated)
    ensures r.updated == GetToolMessage(t, tu.id).GetOr(Initial(tu.id)).(toolUse := Some(tu))
    ensures forall k :: k != tu.id ==> GetToolMessage(r.table, k) == GetToolMessage(t, k)
  {
    Upsert(t, tu.id, ToolUsePatch(tu))
  }

  /** `setToolResult(toolResult)`: keyed by `tool_use_id`. */
  function SetToolResult(t: Table, tr: ToolResult): (r: Upserted)
    requires Valid(t)
    ensures Valid(r.table)
    ensures GetToolMessage(r.table, tr.toolUseId) == Some(r.updated)
    ensures r.updated == GetToolMessage(t, tr.toolUseId).GetOr(Initial(tr.toolUseId)).(toolResult := Some(tr))
    ensures forall k :: k != tr.toolUseId ==> GetToolMessage(r.table, k) == GetToolMessage(t, k)
  {
    Upsert(t, tr.toolUseId, ToolResultPatch(tr))
  }

  /** `setPermissionRequest(id, correlationId)`: pending, with the correlation id. */
  function SetPermissionRequest(t: Table, id: string, correlationId: string): (r: Upserted)
    requires Valid(t)
    ensures Valid(r.table)
    ensures GetToolMessage(r.table, id) == Some(r.updated)
    ensures r.updated.permissionState == Pending && r.updated.correlationId == Some(correlationId)
    ensures var e := GetToolMessage(t, id).GetOr(Initial(id));
      r.updated.toolUse == e.toolUse && r.updated.toolResult == e.toolResult && r.updated.toolUseId == e.toolUseId
    ensures forall k :: k != id ==> GetToolMessage(r.table, k) == GetToolMessage(t, k)
  {
    Upsert(t, id, PermissionRequestPatch(correlationId))
  }

  /** `setPermissionResponse(id, allowed)`: allowed or denied; the correlation id stays. */
  function SetPermissionResponse(t: Table, id: string, allowed: bool): (r: Upserted)
    requires Valid(t)
    ensures Valid(r.table)
    ensures GetToolMessage(r.table, id) == Some(r.updated)
    ensures r.updated.permissionState == if allowed then Allowed else Denied
    ensures var e := GetToolMessage(t, id).GetOr(Initial(id));
      r.updated.correlationId == e.correlationId && r.updated.toolUse == e.toolUse && r.updated.toolResult == e.toolResult
    ensures forall k :: k != id ==> GetToolMessage(r.table, k) == GetToolMessage(t, k)
  {
    Upsert(t, id, PermissionResponsePatch(allowed))
  }

  /** A request followed by its response leaves the correlation id the request set. */
  lemma RequestThenResponse(t: Table, id: string, correlationId: string, allowed: bool)
    requires Valid(t)
    ensures var r := SetPermissionResponse(SetPermissionRequest(t, id, correlationId).table, id, allowed).updated;
      r.correlationId == Some(correlationId) && r.permissionState != Pending
  {
  }

  /** The record stored under `id` carries `correlationId`. */
  predicate Correlated(t: Table, id: string, correlationId: string) {
    id in t.vals && t.vals[id].correlationId == Some(correlationId)
  }

  /**
   * `findToolUseIdByCorrelationId(correlationId)`: the first id, in
   * insertion order, whose record carries the correlation id.
   */
  method FindToolUseIdByCorrelationId(t: Table, correlationId: string) returns (r: Option<string>)
    requires Valid(t)
    ensures r.Some? ==> exists i :: (0 <= i < |t.keys| && t.keys[i] == r.value && Correlated(t, r.value, correlationId)
      && forall j :: 0 <= j < i ==> !Correlated(t, t.keys[j], correlationId))
    ensures r.None? <==> forall k :: !Correlated(t, k, correlationId)
  {
    var i := 0;
    while i < |t.keys|
      invariant 0 <= i <= |t.keys|
      invariant forall j :: 0 <= j < i ==> !Correlated(t, t.keys[j], correlationId)
    {
      var id := t.keys[i];
      if t.vals[id].correlationId == Some(correlationId) {
        return Some(id);
      }
      i := i + 1;
    }
    return None;
  }

  /** `clearToolMessages()`. */
  function ClearToolMessages(): (t: Table)
    ensures Valid(t) && forall k :: GetToolMessage(t, k).None?
  {
    Empty()
  }

  /** Upserting two ids in either order gives the same records (the key order may differ). */
  lemma UpsertCommutes(t: Table, a: string, p: Patch, b: string, q: Patch)
    requires Valid(t) && a != b
    ensures Upsert(Upsert(t, a, p).table, b, q).table.vals == Upsert(Upsert(t, b, q).table, a, p).table.vals
  {
    var ua := Merge(GetToolMessage(t, a).GetOr(Initial(a)), p);
    var ub := Merge(GetToolMessage(t, b).GetOr(Initial(b)), q);
    var ta := Upsert(t, a, p).table;
    var tb := Upsert(t, b, q).table;
    UpsertVals(t, a, p);
    UpsertVals(t, b, q);
    UpsertVals(ta, b, q);
    UpsertVals(tb, a, p);
    MapUpdatesCommute(t.vals, a, ua, b, ub);
  }

  /** The records after an upsert: the merged record under `id`, the rest as they were. */
  lemma UpsertVals(t: Table, id: string, data: Patch)
    requires Valid(t)
    ensures Upsert(t, id, data).table.vals == t.vals[id := Merge(GetToolMessage(t, id).GetOr(Initial(id)), data)]
  {
  }

  lemma MapUpdatesCommute<K, V>(m: map<K, V>, a: K, x: V, b: K, y: V)
    requires a != b
    ensures m[a := x][b := y] == m[b := y][a := x]
  {
  }
}

=== FILE: tool_message_table.dfy ===
/**
 * The Vue-reactive tool-message store: one module-level `Map` that every
 * function updates in place with `set`. The message bus writes tool uses,
 * tool results and permission states through it. Each method is stated
 * against the functions of the zustand store, which compute the same
 * records from the same inputs.
 */
module ToolMessageTable {
  import opened Wrappers
  import opened Json
  import opened OrderedMaps
  import opened ToolMessages
  import Store = ToolMessageStore

  class ToolMessageTable {
    /** `toolMessages`: tool-use id to record, in insertion order. */
    var messages: OMap<string, ToolMessage>

    ghost predicate Valid()
      reads this
    {
      OrderedMaps.Valid(messages)
    }

    constructor()
      ensures Valid() && messages == Empty()
    {
      messages := Empty();
    }

    /** `getToolMessage(id)`. */
    function GetToolMessage(id: string): Option<ToolMessage>
      reads this
    {
      Get(messages, id)
    }

    /** `upsertToolMessage(id, data)`: the record for `id` is merged and stored; no other record changes. */
    method Upsert(id: string, data: Patch) returns (updated: ToolMessage)
      requires Valid()
      modifies this
      ensures Valid()
      ensures updated == Merge(old(GetToolMessage(id)).GetOr(Initial(id)), data)
      ensures GetToolMessage(id) == Some(updated)
      ensures forall k :: k != id ==> GetToolMessage(k) == old(GetToolMessage(k))
      ensures messages == Store.Upsert(old(messages), id, data).table
    {
      var existing := Get(messages, id).GetOr(Initial(id));
      updated := Merge(existing, data);
      messages := Put(messages, id, updated);
    }

    /** `setToolUse(toolUse)`. */
    method SetToolUse(tu: ToolUse) returns (updated: ToolMessage)
      requires Valid()
      modifies this
      ensures Valid()
      ensures updated == old(GetToolMessage(tu.id)).GetOr(Initial(tu.id)).(toolUse := Some(tu))
      ensures GetToolMessage(tu.id) == Some(updated)
      ensures forall k :: k != tu.id ==> GetToolMessage(k) == old(GetToolMessage(k))
      ensures messages == Store.SetToolUse(old(messages), tu).table
    {
      updated := Upsert(tu.id, ToolUsePatch(tu));
    }

    /** `setToolResult(toolResult)`. */
    method SetToolResult(tr: ToolResult) returns (updated: ToolMessage)
      requires Valid()
      modifies this
      ensures Valid()
      ensures updated == old(GetToolMessage(tr.toolUseId)).GetOr(Initial(tr.toolUseId)).(toolResult := Some(tr))
      ensures GetToolMessage(tr.toolUseId) == Some(updated)
      ensures forall k :: k != tr.toolUseId ==> GetToolMessage(k) == old(GetToolMessage(k))
      ensures messages == Store.SetToolResult(old(messages), tr).table
    {
      updated := Upsert(tr.toolUseId, ToolResultPatch(tr));
    }

    /** `setPermissionRequest(id, correlationId)`. */
    method SetPermissionRequest(id: string, correlationId: string) returns (updated: ToolMessage)
      requires Valid()
      modifies this
      ensures Valid()
      ensures updated == old(GetToolMessage(id)).GetOr(Initial(id)).(permissionState := Pending, correlationId := Some(correlationId))
      ensures GetToolMessage(id) == Some(updated)
      ensures forall k :: k != id ==> GetToolMessage(k) == old(GetToolMessage(k))
      ensures messages == Store.SetPermissionRequest(old(messages), id, correlationId).table
    {
      updated := Upsert(id, PermissionRequestPatch(correlationId));
    }

    /** `setPermissionResponse(id, allowed)`. */
    method SetPermissionResponse(id: string, allowed: bool) returns (updated: ToolMessage)
      requires Valid()
      modifies this
      ensures Valid()
      ensures updated == old(GetToolMessage(id)).GetOr(Initial(id)).(permissionState := if allowed then Allowed else Denied)
      ensures GetToolMessage(id) == Some(updated)
      ensures forall k :: k != id ==> GetToolMessage(k) == old(GetToolMessage(k))
      ensures messages == Store.SetPermissionResponse(old(messages), id, allowed).table
    {
      updated := Upsert(id, PermissionResponsePatch(allowed));
    }

    /**
     * `clearOldToolMessages(maxAge)`: walks the entries and, for finished
     * calls, does nothing; the map is left as it was.
     */
    method ClearOldToolMessages(maxAge: int, now: int)
      requires Valid()
      ensures Valid() && messages == old(messages)
    {
      var i := 0;
      while i < |messages.keys|
        invariant 0 <= i <= |messages.keys|
      {
        var state := messages.vals[messages.keys[i]];
        if state.toolResult.Some? {
        }
        i := i + 1;
      }
    }

    /** `findToolUseIdByCorrelationId(correlationId)`: the first id in iteration order, else none. */
    method FindToolUseIdByCorrelationId(correlationId: string) returns (r: Option<string>)
      requires Valid()
      ensures r.Some? ==> exists i :: (0 <= i < |messages.keys| && messages.keys[i] == r.value
        && Store.Correlated(messages, r.value, correlationId)
        && forall j :: 0 <= j < i ==> !Store.Correlated(messages, messages.keys[j], correlationId))
      ensures r.None? <==> forall k :: !Store.Correlated(messages, k, correlationId)
    {
      var i := 0;
      while i < |messages.keys|
        invariant 0 <= i <= |messages.keys|
        invariant forall j :: 0 <= j < i ==> !Store.Correlated(messages, messages.keys[j], correlationId)
      {
        var id := messages.keys[i];
        if messages.vals[id].correlationId == Some(correlationId) {
          return Some(id);
        }
        i := i + 1;
      }
      return None;
    }
  }
}

=== FILE: tool_message_wrapper.dfy ===
/**
 * The frame every tool view is drawn in
 * (webview/src/components/Messages/blocks/tools/common/ToolMessageWrapper/ToolMessageWrapper.tsx):
 * whether it can open, whether it is open, and which status dot it shows.
 * The view opens by itself on `defaultExpanded` or an error until the user
 * toggles it; from then on only the user's choice counts.
 */
module ToolMessageWrapper {
  import opened Wrappers
  import opened Json
  import ToolErrorParser

  /** The props the rules read; `expandable` is whether the expandable slot is given. */
  datatype Props = Props(toolResult: Option<Json>, permissionState: Option<string>, defaultExpanded: bool, expandable: bool)

  /** The component's own toggle state. */
  datatype ToggleState = ToggleState(userToggled: bool, userToggledState: bool)

  datatype Indicator = Success | Error | Pending

  /** The tool icon, or while hovered over an expandable frame, the fold or unfold chevron. */
  datatype IconShown = ToolIcon | FoldIcon | UnfoldIcon

  predicate IsError(p: Props) {
    ToolErrorParser.HasToolError(p.toolResult)
  }

  /** `hasExpandableContent`. */
  predicate HasExpandableContent(p: Props) {
    p.expandable || IsError(p)
  }

  /** `isExpanded`. */
  predicate Expanded(s: ToggleState, p: Props) {
    if s.userToggled then s.userToggledState else p.defaultExpanded || IsError(p)
  }

  /** The state `toggleExpand` leaves. */
  function Toggled(s: ToggleState, p: Props): ToggleState {
    if HasExpandableContent(p) then ToggleState(true, !Expanded(s, p)) else s
  }

  /** The `toolResult` prop is given and truthy. */
  predicate HasResult(p: Props) {
    p.toolResult.Some? && Truthy(p.toolResult.value)
  }

  /** `indicatorState`; `None` is `null`. */
  function IndicatorOf(p: Props): Option<Indicator> {
    if IsError(p) then Some(Error)
    else if p.permissionState == Some("pending") then Some(Pending)
    else if HasResult(p) then Some(Success)
    else None
  }

  /** The icon in the tool button. */
  function IconOf(s: ToggleState, p: Props, hovered: bool): IconShown {
    if !hovered || !HasExpandableContent(p) then ToolIcon
    else if Expanded(s, p) then FoldIcon
    else UnfoldIcon
  }

  /** Before any toggle the frame is open exactly when it should open by default or shows an error. */
  lemma UntoggledExpansion(p: Props)
    ensures Expanded(ToggleState(false, false), p) <==> p.defaultExpanded || IsError(p)
  {
  }

  /**
   * A toggle on an expandable frame flips what is shown and pins it: later
   * props, whatever their defaults or errors, no longer change it.
   */
  lemma ToggleFlipsAndPins(s: ToggleState, p: Props, later: Props)
    requires HasExpandableContent(p)
    ensures Expanded(Toggled(s, p), later) == !Expanded(s, p)
  {
  }

  /** A toggle on a frame with nothing to open changes nothing. */
  lemma ToggleWithoutContent(s: ToggleState, p: Props)
    requires !HasExpandableContent(p)
    ensures Toggled(s, p) == s
  {
  }

  /** Two toggles with the same props give back what was shown. */
  lemma ToggleTwice(s: ToggleState, p: Props)
    ensures Expanded(Toggled(Toggled(s, p), p), p) == Expanded(s, p)
  {
  }

  /** An error is always shown open until the user closes it, and it makes the frame expandable. */
  lemma ErrorOpens(s: ToggleState, p: Props)
    requires IsError(p) && !s.userToggled
    ensures HasExpandableContent(p) && Expanded(s, p)
  {
  }

  /**
   * The status dot ranks an error over a pending permission over any
   * result, and shows nothing only without a result and without a pending request.
   */
  lemma IndicatorRanks(p: Props)
    ensures IsError(p) ==> IndicatorOf(p) == Some(Error)
    ensures IndicatorOf(p) == Some(Pending) ==> !IsError(p) && p.permissionState == Some("pending")
    ensures IndicatorOf(p) == Some(Success) ==> HasResult(p) && !IsError(p) && p.permissionState != Some("pending")
    ensures IndicatorOf(p).None? <==> !HasResult(p) && p.permissionState != Some("pending")
  {
  }

  /** The chevron shows the action a click would take: fold when open, unfold when closed. */
  lemma IconMatchesToggle(s: ToggleState, p: Props)
    requires HasExpandableContent(p)
    ensures IconOf(s, p, true) == FoldIcon <==> Expanded(s, p)
    ensures IconOf(Toggled(s, p), p, true) == (if Expanded(s, p) then UnfoldIcon else FoldIcon)
  {
  }

  /** One mounted frame: its props and the state React keeps for it. */
  class ToolFrame {
    var props: Props
    var toggle: ToggleState
    var isHovered: bool

    constructor(p: Props)
      ensures props == p && toggle == ToggleState(false, false) && !isHovered
    {
      props := p;
      toggle := ToggleState(false, false);
      isHovered := false;
    }

    /** Whether the expandable part is drawn. */
    predicate ShowsExpandable()
      reads this
    {
      HasExpandableContent(props) && Expanded(toggle, props)
    }

    /** `toggleExpand`, the click on the main line. */
    method ToggleExpand()
      modifies this
      ensures toggle == Toggled(old(toggle), old(props))
      ensures props == old(props) && isHovered == old(isHovered)
      ensures HasExpandableContent(props) ==> ShowsExpandable() == !old(Expanded(toggle, props))
      ensures !HasExpandableContent(props) ==> toggle == old(toggle)
    {
      if HasExpandableContent(props) {
        toggle := ToggleState(true, !Expanded(toggle, props));
      }
    }

    /** A render with new props keeps the toggle state. */
    method Rerender(p: Props)
      modifies this
      ensures props == p && toggle == old(toggle) && isHovered == old(isHovered)
      ensures toggle.userToggled && HasExpandableContent(p) ==> ShowsExpandable() == toggle.userToggledState
    {
      props := p;
    }

    /** `onMouseEnter` and `onMouseLeave`. */
    method SetHovered(h: bool)
      modifies this
      ensures isHovered == h && props == old(props) && toggle == old(toggle)
    {
      isHovered := h;
    }
  }
}

=== FILE: tool_messages.dfy ===
/**
 * The per-tool-call record the webview keeps beside the chat list: the
 * `tool_use` block that started the call, the `tool_result` that ended it,
 * any extra result data, and the permission state of the call. Both copies
 * of the tool-message store (the zustand one and the Vue-reactive one) hold
 * these records under the tool-use id.
 */
module ToolMessages {
  import opened Wrappers
  import opened Json

  datatype PermissionState = NoPermission | Pending | Allowed | Denied

  datatype ToolUse = ToolUse(id: string, name: string, input: Option<Json>)

  datatype ToolResult = ToolResult(content: Option<Json>, isError: Option<bool>, toolUseId: string)

  datatype ToolMessage = ToolMessage(
    toolUseId: string,
    toolUse: Option<ToolUse>,
    toolResult: Option<ToolResult>,
    toolUseResult: Option<Json>,
    permissionState: PermissionState,
    correlationId: Option<string>)

  /**
   * A `Partial<ToolMessageState>` object literal: `None` is a key the
   * object does not have, so spreading it keeps the existing field.
   */
  datatype Patch = Patch(
    toolUseId: Option<string>,
    toolUse: Option<ToolUse>,
    toolResult: Option<ToolResult>,
    toolUseResult: Option<Json>,
    permissionState: Option<PermissionState>,
    correlationId: Option<string>)

  const NoChange: Patch := Patch(None, None, None, None, None, None)

  /** The record an unknown id starts from: `{ toolUseId, permissionState: 'none' }`. */
  function Initial(id: string): (r: ToolMessage)
    ensures r.toolUseId == id && r.permissionState == NoPermission
    ensures r.toolUse.None? && r.toolResult.None? && r.toolUseResult.None? && r.correlationId.None?
  {
    ToolMessage(id, None, None, None, NoPermission, None)
  }

  /** `{ ...e, ...p }`: every key present in `p` wins, every other field of `e` stays. */
  function Merge(e: ToolMessage, p: Patch): ToolMessage {
    ToolMessage(
      p.toolUseId.GetOr(e.toolUseId),
      p.toolUse.OrElse(e.toolUse),
      p.toolResult.OrElse(e.toolResult),
      p.toolUseResult.OrElse(e.toolUseResult),
      p.permissionState.GetOr(e.permissionState),
      p.correlationId.OrElse(e.correlationId))
  }

  /** `{ ...p, ...q }` as one patch. */
  function Then(p: Patch, q: Patch): Patch {
    Patch(
      q.toolUseId.OrElse(p.toolUseId),
      q.toolUse.OrElse(p.toolUse),
      q.toolResult.OrElse(p.toolResult),
      q.toolUseResult.OrElse(p.toolUseResult),
      q.permissionState.OrElse(p.permissionState),
      q.correlationId.OrElse(p.correlationId))
  }

  /** Spreading two patches in turn is spreading their combination once. */
  lemma MergeThen(e: ToolMessage, p: Patch, q: Patch)
    ensures Merge(Merge(e, p), q) == Merge(e, Then(p, q))
  {
  }

  /** Spreading the same patch twice changes nothing the second time. */
  lemma MergeIdempotent(e: ToolMessage, p: Patch)
    ensures Merge(Merge(e, p), p) == Merge(e, p)
  {
    MergeThen(e, p, p);
    assert Then(p, p) == p;
  }

  /** The empty patch `{}` leaves a record as it is. */
  lemma MergeNoChange(e: ToolMessage)
    ensures Merge(e, NoChange) == e
  {
  }

  /** The patch of `setToolUse`: `{ toolUse }`. */
  function ToolUsePatch(tu: ToolUse): (p: Patch)
    ensures forall e :: Merge(e, p) == e.(toolUse := Some(tu))
  {
    NoChange.(toolUse := Some(tu))
  }

  /** The patch of `setToolResult`: `{ toolResult }`. */
  function ToolResultPatch(tr: ToolResult): (p: Patch)
    ensures forall e :: Merge(e, p) == e.(toolResult := Some(tr))
  {
    NoChange.(toolResult := Some(tr))
  }

  /** The patch of `upsertToolMessage(id, { toolUseResult })`. */
  function ToolUseResultPatch(j: Json): (p: Patch)
    ensures forall e :: Merge(e, p) == e.(toolUseResult := Some(j))
  {
    NoChange.(toolUseResult := Some(j))
  }

  /** The patch of `setPermissionRequest`: `{ permissionState: 'pending', correlationId }`. */
  function PermissionRequestPatch(correlationId: string): (p: Patch)
    ensures forall e :: Merge(e, p) == e.(permissionState := Pending, correlationId := Some(correlationId))
  {
    NoChange.(permissionState := Some(Pending), correlationId := Some(correlationId))
  }

  /** The patch of `setPermissionResponse`: `'allowed'` or `'denied'` from the flag; the correlation id is kept. */
  function PermissionResponsePatch(allowed: bool): (p: Patch)
    ensures forall e :: Merge(e, p) == e.(permissionState := if allowed then Allowed else Denied)
  {
    NoChange.(permissionState := Some(if allowed then Allowed else Denied))
  }
}

=== FILE: uri.dfy ===
/**
 * The parts of a URI the extension compares and prints. Percent-encoding is
 * not modelled: components are printed as they are.
 */
module Uris {

  datatype Uri = Uri(scheme: string, authority: string, path: string, query: string, fragment: string)

  /** `uri.toString()`: `scheme:`, then `//authority` (always for `file`), path, `?query`, `#fragment`. */
  function UriToString(u: Uri): string {
    u.scheme + ":"
    + (if u.authority != "" || u.scheme == "file" then "//" + u.authority else "")
    + u.path
    + (if u.query != "" then "?" + u.query else "")
    + (if u.fragment != "" then "#" + u.fragment else "")
  }

  /** `URI.joinPath(u, segment)` for one plain segment (no "." or ".." to resolve). */
  function JoinPath(u: Uri, segment: string): (r: Uri)
    ensures r.scheme == u.scheme && r.authority == u.authority
    ensures r.query == u.query && r.fragment == u.fragment
    ensures r.path == u.path + "/" + segment
  {
    u.(path := u.path + "/" + segment)
  }
}

=== FILE: wrappers.dfy ===
/** The optional value used wherever the source returns `undefined` or `null`. */
module Wrappers {

  datatype Option<+T> = None | Some(value: T) {

    /** The value, or `other` when absent (the `??` operator). */
    function OrElse(other: Option<T>): Option<T> {
      if Some? then this else other
    }

    function GetOr(default: T): T {
      if Some? then value else default
    }
  }
}
